=== FILE: README.md ===
# algorithm-rs in Dafny

A Dafny model of the data structures and algorithms of the algorithm-rs repository, with
proofs of what each of them promises.

- **Ordered maps.** The AVL tree map and the left-leaning red-black tree map
  (`AvlNode`, `AvlMap`, `AvlIter`, `RbNode`, `RbMap`, over the shared search-tree module `Bst`).
  The AVL map has its preorder and inorder iterators.
- **Linked list.** The doubly linked list (`LinkedList`) and the cursor its three iterators share
  (`ListIter`).
- **Hash maps.** The linear-probing hash map (`LinearHashMap`) and the separate-chaining hash map
  (`ChainHashMap`).
- **Graphs.**
  - Weighted union-find (`UnionFind`).
  - The directed graph with breadth-first search and shortest paths (`Digraph`).
  - The weighted undirected graph (`WeiGraph`).
  - Its three minimum-spanning-tree routines: Kruskal (`Kruskal`), lazy Prim (`LazyPrim`), and eager
    Prim with its heap entry `End` (`Prim`).
  - `Spanning` and `Sets` hold the notions these share.
- **Sorts.** Bubble, insertion, selection, shell, heap, merge and 3-way quick sort (`Bubble`,
  `Insertion`, `Selection`, `Shell`, `HeapSort`, `MergeSort`, `QuickSort`), over the shared
  module `Sorting`.
- **Algorithms.** Binary search (`BinarySearch`), the next lexicographic permutation
  (`Permutation`), the monotonicity test (`Monotonic`) and the linear sieve of primes
  (`LinearSieve`).
- `Wrappers` holds `Option` and `Outcome`. An `Outcome` is `Done(value)` or `Panic`, for the
  places where the Rust code panics.

How the model represents the Rust code:

- **Pointer structures become values.** A tree is a `datatype`. A list is the sequence of its
  elements, with node positions standing for node pointers. A hash table is the sequence of its
  slots or buckets. A graph is a map from ids to nodes.
- **Operations that take `&mut self` become pure functions or methods** that return the new
  value.
- **Hashing.** The standard hasher is a parameter `H: K -> nat`, so every hash-map property holds
  for every hasher.
- **Edge sets.** A `HashSet` of weighted edges is a map from the key its `Hash`/`Eq` pair compares
  by to the edge. That key is a parameter. The repository's weight-only equality is `ByWeight`
  and whole-edge equality is `Whole`.
- **Heap order.** A `BinaryHeap` is a set or multiset from which some least element is popped.
- **Shuffle.** The random shuffle of `qsort` is a parameter: any permutation of the input.
- **Elements.** Sort and search elements are `int`, and tree keys are `int`.
- **Integer width.** Integers are unbounded. The places where `usize` or `u32` subtraction
  underflows are modelled as `Panic`: insertion sort, `is_monotonic` on an empty slice
  (`arr.len() - 1`), and `WeiEdge::other`. The `u32` addition in `WeiEdge::other` is not bounded
  (see Left out).
- **Out-of-range reads.** `binary_search` reads `seq[low]` after its loop, which panics when
  `low` has reached the length of the slice (search/src/binary_search.rs:15). That read is
  modelled as `Panic`.

- **Removal of an absent key.** The AVL `remove` of an absent key leaves the tree unchanged
  (AvlMap.Remove). The red-black `remove` recolours the path on the way down even when the key is
  absent (tree/red-black-tree/src/node/mod.rs:290-293), so its model promises less (see Findings).

## Model

| member | source | states |
|---|---|---|
| Bst.GetNode | tree/avl-tree/src/node/mod.rs:229-245 | on an ordered tree the descent finds a node exactly when the key is stored, and it carries the value the tree's map holds for the key |
| AvlNode.Leaf | tree/avl-tree/src/node/mod.rs:149-157 | a new node is a valid AVL tree of height 0 holding exactly the one pair |
| AvlNode.UpdateHeight | tree/avl-tree/src/node/mod.rs:55-61 | keeps key, value and children; when the children's stored heights are right, so is the node's |
| AvlNode.BalFct | tree/avl-tree/src/node/mod.rs:64-69 | with correct child heights, the result is the left subtree's height minus the right's (an absent subtree counts as -1) |
| AvlNode.RotRight | tree/avl-tree/src/node/mod.rs:89-95 | keeps the in-order sequence of pairs, and refreshes the heights so they are correct again |
| AvlNode.RotLeft | tree/avl-tree/src/node/mod.rs:97-103 | the mirror: keeps the in-order sequence and correct heights |
| AvlNode.RotLeftRight | tree/avl-tree/src/node/mod.rs:105-114 | keeps the in-order sequence and correct heights |
| AvlNode.RotRightLeft | tree/avl-tree/src/node/mod.rs:116-125 | keeps the in-order sequence and correct heights |
| AvlNode.RotRightAvl | tree/avl-tree/src/node/mod.rs:71-95 | a left-left imbalance of two is repaired by one right rotation, and the height grows by at most one over the left child's |
| AvlNode.RotLeftRightAvl | tree/avl-tree/src/node/mod.rs:71-114 | a left-right imbalance of two is repaired by the double rotation, which has the left child's height |
| AvlNode.Rebalance | tree/avl-tree/src/node/mod.rs:71-87 | keeps the in-order sequence; the heights come out correct |
| AvlNode.RebalanceAvl | tree/avl-tree/src/node/mod.rs:71-87 | for AVL children whose heights differ by at most two, the result is AVL. Its height is at least the taller child's height and at most one more. A node already in balance is not rotated |
| AvlNode.RebalanceIdle | tree/avl-tree/src/node/mod.rs:71-87 | rebalancing an AVL node changes nothing |
| AvlNode.Insert | tree/avl-tree/src/node/mod.rs:163-173 | the key set gains `k`. The tree's map becomes the old map with `k` set to `v`, and ordering is kept. The replaced value is returned exactly when `k` was stored. AVL balance is kept, and the height grows by at most one |
| AvlNode.SideInsert | tree/avl-tree/src/node/mod.rs:42-53 | an empty slot gets a new leaf and a present child gets the insertion, with the same map, order and balance guarantees |
| AvlNode.PopMin | tree/avl-tree/src/node/mod.rs:175-192 | the popped pair followed by the rest's in-order sequence is the original sequence. AVL balance is kept, and the height drops by at most one |
| AvlNode.SwapSuccessor | tree/avl-tree/src/node/mod.rs:127-142 | the shape, heights and balance stay as they were. The node's pair becomes the first pair of its right subtree |
| AvlNode.RemoveNode | tree/avl-tree/src/node/mod.rs:194-227 | the tree's map loses exactly `k`, and ordering is kept. The removed pair comes back exactly when `k` was stored. AVL balance is kept, and the height drops by at most one. An absent key leaves the tree unchanged |
| AvlMap.NewEmpty | tree/avl-tree/src/lib.rs:41-43 | what `new` builds is a valid map with no entries and length 0 |
| AvlMap.Len | tree/avl-tree/src/lib.rs:50-52 | the number of entries of a valid map |
| AvlMap.IsEmpty | tree/avl-tree/src/lib.rs:54-56 | true exactly when a valid map has no entries |
| AvlMap.Insert | tree/avl-tree/src/lib.rs:58-76 | keeps the map valid and sets `k` to `v`. The old value is returned when `k` was present. The length is unchanged for a present key and one more for a new one |
| AvlMap.InsertSize | tree/avl-tree/src/lib.rs:58-76 | the node count follows the length bookkeeping of `insert` |
| AvlMap.Remove | tree/avl-tree/src/lib.rs:78-89 | keeps the map valid and drops `k`. Its value is returned when `k` was present, and the length then drops by one. An absent key leaves the map unchanged |
| AvlMap.Get | tree/avl-tree/src/lib.rs:91-98 | the value stored under `k`, or None when `k` is absent |
| AvlMap.Sample | tree/avl-tree/src/tests.rs:3-12 | the four test insertions build a valid map holding 0 Mary, 2 John, 4 Peter, 6 Randal |
| AvlMap.InsertScenario | tree/avl-tree/src/tests.rs:15-20 | inserting 3 gives None; inserting 0 again gives back "Mary" |
| AvlMap.RemoveScenario | tree/avl-tree/src/tests.rs:23-31 | removing 2, 0, 4, 6 returns John, Mary, Peter, Randal. Then 7 is absent and the map is empty |
| AvlMap.GetScenario | tree/avl-tree/src/tests.rs:34-39 | get(2) is John and get(8) is None |
| AvlIter.Start | tree/avl-tree/src/node/iter.rs:15-27 | the stack is valid and nothing is marked. It is empty exactly for an empty tree |
| AvlIter.Children | tree/avl-tree/src/node/mod.rs:254-270 | the handles of exactly the present children, the left one first |
| AvlIter.FirstUnmarked | tree/avl-tree/src/node/iter.rs:33-52 | the first child that is not marked, or None exactly when every child is marked |
| AvlIter.PreNext | tree/avl-tree/src/node/iter.rs:33-52 | keeps the stack valid and strictly decreases the remaining work. None comes only with an empty stack |
| AvlIter.InNext | tree/avl-tree/src/node/iter.rs:80-110 | keeps the stack valid and strictly decreases the remaining work. None comes only with an empty stack |
| AvlIter.PreorderYields | tree/avl-tree/src/node/iter.rs:33-52 | draining a fresh preorder iterator yields exactly the recursive preorder sequence: each node once, parents before children, left before right |
| AvlIter.InorderYields | tree/avl-tree/src/node/iter.rs:80-110 | draining a fresh inorder iterator yields exactly the in-order sequence of the tree |
| AvlIter.InorderAscending | tree/avl-tree/src/lib.rs:109-114 | on a search tree the inorder iterator yields strictly ascending keys |
| AvlIter.EmptyYieldsNothing | tree/avl-tree/src/node/iter.rs:15-21 | both iterators over an empty map yield nothing |
| RbNode.Rev | tree/red-black-tree/src/node/mod.rs:31-36 | the colour changes |
| RbNode.RotLeft | tree/red-black-tree/src/node/mod.rs:87-102 | keeps the in-order sequence; the right child rises and takes the node's colour, and the node becomes its red left child |
| RbNode.RotRight | tree/red-black-tree/src/node/mod.rs:104-119 | keeps the in-order sequence; the left child rises and takes the node's colour, and the node becomes its red right child |
| RbNode.FlipColor | tree/red-black-tree/src/node/mod.rs:121-131 | keeps the key, the shape and the in-order sequence; reverses the colour of the node and of each child present |
| RbNode.FlipColorTwice | tree/red-black-tree/src/node/mod.rs:121-131 | flipping twice gives back the same node |
| RbNode.RestructLeft | tree/red-black-tree/src/node/mod.rs:133-148 | keeps the in-order sequence and a present left child; the root key does not move left |
| RbNode.RestructRight | tree/red-black-tree/src/node/mod.rs:150-159 | keeps the in-order sequence and a present right child; the root key does not move right |
| RbNode.SwapSuccessor | tree/red-black-tree/src/node/mod.rs:162-178 | the node takes its successor's pair, and the right subtree then starts with the node's old pair |
| RbNode.Rebalance | tree/red-black-tree/src/node/mod.rs:180-198 | keeps the in-order sequence |
| RbNode.RebalanceIdle | tree/red-black-tree/src/node/mod.rs:180-198 | a node without a red right link or a double red left link is left as it is |
| RbNode.Blacken | tree/red-black-tree/src/node/mod.rs:215-217 | the root becomes black and the in-order sequence is kept |
| RbNode.Insert | tree/red-black-tree/src/node/mod.rs:219-229 | the map gains `k` with value `v`, ordering is kept, and the old value is returned when present. Black height and black balance are kept. The result leans left, or nearly so under a red parent |
| RbNode.PopMin | tree/red-black-tree/src/node/mod.rs:250-280 | the popped pair followed by the rest's in-order sequence is the original sequence |
| RbNode.RemoveNode | tree/red-black-tree/src/node/mod.rs:282-321 | ordering is kept. The result holds only entries of the tree other than `k`. It is at least one node smaller when a pair comes back, possibly more (Bst.ShrunkSize). The pair under `k` comes back exactly when `k` was stored |
| RbNode.LlrbDepth | tree/red-black-tree/src/node/mod.rs:180-198 | a left-leaning tree is at most twice as deep as its black height, plus one for a red root |
| RbNode.BlackHeightSize | tree/red-black-tree/src/node/mod.rs:180-198 | a black-balanced tree of black height h holds at least 2^h - 1 nodes |
| RbMap.NewEmpty | tree/red-black-tree/src/lib.rs:33-35 | what `new` builds is a valid map with no entries and length 0 |
| RbMap.Len | tree/red-black-tree/src/lib.rs:48-50 | the number of entries of a valid map, and an upper bound on it for a map whose counter has drifted |
| RbMap.IsEmpty | tree/red-black-tree/src/lib.rs:52-54 | true exactly when a valid map has no entries |
| RbMap.Insert | tree/red-black-tree/src/lib.rs:56-78 | a valid map stays valid: ordered, black-balanced, left-leaning, with the right count. `k` is set to `v` and the old value is returned. The length grows only for a new key, and the root is black |
| RbMap.Remove | tree/red-black-tree/src/lib.rs:80-99 | as written: the map stays ordered with a counter no lower than its size. What remains is part of the map without `k`. The value of a present `k` comes back and the counter drops by one |
| RbMap.Get | tree/red-black-tree/src/lib.rs:101-108 | the value stored under `k`, or None when `k` is absent |
| RbMap.ValidDepth | tree/red-black-tree/src/lib.rs:56-99 | the depth of a valid map is at most twice the binary logarithm of its length plus one, so every descent is logarithmic |
| RbMap.Sample | tree/red-black-tree/src/tests.rs:3-12 | the four test insertions build a valid map holding 0 Mary, 2 John, 4 Peter, 6 Randal |
| RbMap.InsertScenario | tree/red-black-tree/src/tests.rs:15-20 | inserting 3 gives None; inserting 0 again gives back "Mary" |
| RbMap.RemoveScenario | tree/red-black-tree/src/tests.rs:23-31 | removing 2, 0, 4, 6 from the sample returns John, Mary, Peter, Randal. Then 7 is absent and the map is empty |
| RbMap.GetScenario | tree/red-black-tree/src/tests.rs:34-39 | get(2) is John and get(8) is None |
| RbMap.AbsentKeyBreaksCount | tree/red-black-tree/src/node/mod.rs:290-304 | inserting 1 and 2 gives a valid map. Removing 0 leaves it with broken black balance. Removing 2 then loses key 1 as well, so the length says 1 while the map is empty |
| RbMap.RemoveChecked | tree/red-black-tree/src/lib.rs:80-99 | the corrected removal: the same guarantees, and an absent key leaves the map untouched |
| RbMap.CheckedKeepsCount | tree/red-black-tree/src/lib.rs:80-99 | the same calls through the corrected removal keep key 1 and a count of 1 in a valid map |
| ListIter.Start | list/linked-list/src/lib.rs:232-246 | a fresh cursor has every position of the list, in order, still to yield |
| ListIter.Next | list/linked-list/src/iter.rs:26-35 | yields the first remaining position and drops it from the front. None when nothing remains |
| ListIter.NextBack | list/linked-list/src/iter.rs:39-48 | yields the last remaining position and drops it from the back. None when nothing remains |
| ListIter.Interleaving | list/linked-list/src/iter.rs:23-105 | under any mix of `next` and `next_back` calls, the front calls get a prefix of the remaining positions in order. The back calls get the rest in reverse. Once there are as many calls as positions, nothing remains |
| ListIter.Nth | list/linked-list/src/lib.rs:53-63 | `nth(k)` yields the k-th remaining position, or None past the end |
| ListIter.NthBack | list/linked-list/src/lib.rs:53-63 | `rev().nth(k)` yields the k-th remaining position from the back, or None |
| LinkedList.NewEmpty | list/linked-list/src/lib.rs:29-35 | what `new` builds has no element at any index |
| LinkedList.Len | list/linked-list/src/lib.rs:37-39 | the number of elements in the chain |
| LinkedList.LenBoundsGet | list/linked-list/src/lib.rs:37-39 | `get` finds an element at an index exactly when the index is below `len` |
| LinkedList.IsEmpty | list/linked-list/src/lib.rs:41-43 | true exactly when no index holds an element |
| LinkedList.Clear | list/linked-list/src/lib.rs:45-51 | the result is the empty list |
| LinkedList.Get | list/linked-list/src/lib.rs:53-63 | both the front-half and back-half walks reach the element at `index`. Past the end the result is None |
| LinkedList.GetMut | list/linked-list/src/lib.rs:65-77 | the node at `index`, or None past the end |
| LinkedList.PushBack | list/linked-list/src/lib.rs:79-97 | the length grows by one and the new element is at the old length. Every other index is unchanged |
| LinkedList.PushFront | list/linked-list/src/lib.rs:99-117 | the new element is at index 0 and every old element moves up one |
| LinkedList.PopBack | list/linked-list/src/lib.rs:119-135 | the last element, or None exactly on an empty list. Pushing the element back restores the list |
| LinkedList.PopFront | list/linked-list/src/lib.rs:137-153 | the first element. Pushing it back at the front restores the list |
| LinkedList.FromIter | list/linked-list/src/lib.rs:283-290 | the list holds the given elements in order |
| LinkedList.Walk | list/linked-list/src/lib.rs:314-343 | walking `steps` links from a node lands `steps` positions further on, in the chosen direction, or leaves the chain |
| LinkedList.InsertAt | list/linked-list/src/lib.rs:155-192 | the corrected insertion: panics exactly past the end. Otherwise the element sits at `index` and the others keep their order around it |
| LinkedList.Insert | list/linked-list/src/lib.rs:155-192 | as written: panics past the end. Inserting at the front, at the end or in the first half lands at `index`. Inserting in the second half lands at `index + 1` |
| LinkedList.RemoveAt | list/linked-list/src/lib.rs:194-230 | the corrected removal returns what `get(index)` returns, and leaves the list unchanged past the end. Reinserting the element at `index` restores the list |
| LinkedList.Remove | list/linked-list/src/lib.rs:194-230 | as written: within range it is the corrected removal. Past the end it pops the tail |
| LinkedList.InsertBackHalfShifts | list/linked-list/src/lib.rs:164-189 | `insert(1, 13)` into [11, 45, 14] gives [11, 45, 13, 14], while the corrected insertion gives [11, 13, 45, 14] |
| LinkedList.RemovePastEndTakesTail | list/linked-list/src/lib.rs:195-201 | `remove(3)` on [1, 2, 3] returns 3 and leaves [1, 2], while the corrected removal returns None and keeps the list |
| LinkedList.InsertRemoveAt | list/linked-list/src/lib.rs:155-230 | inserting at `index` and then removing at `index` gives back the list and the element |
| LinkedList.Unlink | list/linked-list/src/lib.rs:204-220 | unlinking the node at `p` is removal at `p`; at the tail it is `pop_back` |
| LinkedList.Eq | list/linked-list/src/lib.rs:258-266 | as written: true exactly when the lists agree on every index both of them have |
| LinkedList.ListEq | list/linked-list/src/lib.rs:258-266 | the corrected comparison holds exactly for equal lists |
| LinkedList.EqIgnoresLength | list/linked-list/src/lib.rs:258-266 | `eq` calls [1] and [1, 2] equal, though they differ and the corrected comparison says so |
| LinkedList.IterCovers | list/linked-list/src/iter.rs:23-105 | any mix of front and back calls on `iter`, `iter_mut` or `into_iter` reads the list's elements from both ends. Every element is read exactly once |
| LinkedList.InsertPlacementVaries | list/linked-list/src/lib.rs:164-189 | as written, index 1 lands at position 1 in a four-element list but at position 2 in a three-element list, and `insert(len - 1, x)` appends like `insert(len, x)` |
| LinkedList.InsertScenario | list/linked-list/src/tests.rs:4-10 | the three insertions of the test give [0, 11, 45, 13, 14, 42] |
| LinkedList.RemoveScenario | list/linked-list/src/tests.rs:13-24 | the three removals of the test leave [19, 19, 0], then [19, 0], then [19] |
| LinkedList.SingleScenario | list/linked-list/src/tests.rs:27-40 | insertions at either end of [114514], pops, and the final removal leave the list empty |
| LinearHashMap.Home | hash-map/linear-hash-map/src/lib.rs:31-38 | the home slot is a slot of the table |
| LinearHashMap.FindNone | hash-map/linear-hash-map/src/lib.rs:40-46 | the first empty slot at or after the start, with every slot passed occupied. It is the whole table when there is no empty slot |
| LinearHashMap.Probe | hash-map/linear-hash-map/src/lib.rs:113-121 | the first slot from the home that is empty or holds the key. Every slot passed is occupied by another key |
| LinearHashMap.ProbeEnds | hash-map/linear-hash-map/src/lib.rs:113-121 | with an empty slot somewhere, probing stops before going all the way round |
| LinearHashMap.Resize | hash-map/linear-hash-map/src/lib.rs:48-72 | re-placing every node in a table of the new capacity gives a valid map with the same length |
| LinearHashMap.ResizeHolds | hash-map/linear-hash-map/src/lib.rs:48-72 | resizing keeps exactly the same key-value entries |
| LinearHashMap.ResizeKeeps | hash-map/linear-hash-map/src/lib.rs:48-72 | resizing keeps every lookup |
| LinearHashMap.Grow | hash-map/linear-hash-map/src/lib.rs:109-111 | when half the slots are used the capacity doubles, which leaves room for one more node. The map stays valid and keeps every lookup |
| LinearHashMap.Get | hash-map/linear-hash-map/src/lib.rs:170-186 | finds a stored key's value, and finds nothing for a key stored nowhere |
| LinearHashMap.GetHolds | hash-map/linear-hash-map/src/lib.rs:170-186 | `get` returns `v` exactly when the table holds the entry (k, v) |
| LinearHashMap.GetMut | hash-map/linear-hash-map/src/lib.rs:188-204 | a handle exactly when `get` finds the key. Its slot holds the key's node |
| LinearHashMap.GetMutWrite | hash-map/linear-hash-map/src/lib.rs:188-204 | a write through the handle is what a later `get` sees, and every other key keeps its lookup |
| LinearHashMap.Insert | hash-map/linear-hash-map/src/lib.rs:105-127 | the map stays valid and the old value comes back. Afterwards `k` maps to `v`. The length and capacity change exactly as the doubling rule and a new key say |
| LinearHashMap.InsertOthers | hash-map/linear-hash-map/src/lib.rs:105-127 | insertion leaves every other key's lookup alone |
| LinearHashMap.RepairNeverExits | hash-map/linear-hash-map/src/lib.rs:150-158 | once the repair loop of `remove` starts at an occupied slot, it is still running after any number of passes |
| LinearHashMap.Remove | hash-map/linear-hash-map/src/lib.rs:129-168 | as written: an absent key leaves the map alone. Removal hangs exactly when the slot after the key's slot is occupied. Otherwise the key goes, its value comes back, the length drops by one. The capacity halves exactly when the new length is positive and equals an eighth of the old capacity |
| LinearHashMap.RemoveOthers | hash-map/linear-hash-map/src/lib.rs:129-168 | when `remove` finishes, every other key keeps its lookup |
| LinearHashMap.Shrink | hash-map/linear-hash-map/src/lib.rs:162-164 | the capacity halves exactly when the count has dropped to a nonzero eighth of it. The map stays valid with the same lookups |
| LinearHashMap.RemoveRehash | hash-map/linear-hash-map/src/lib.rs:129-168 | the corrected removal: always finishes with a valid map. The old value comes back and the length drops exactly for a present key. The capacity halves exactly when the new length is positive and equals an eighth of the old capacity |
| LinearHashMap.RemoveRehashGet | hash-map/linear-hash-map/src/lib.rs:129-168 | after the corrected removal `k` is gone, and every other key keeps its lookup |
| LinearHashMap.NewEmpty | hash-map/linear-hash-map/src/lib.rs:76-89 | what `new` builds has sixteen slots, all empty, and length 0 |
| LinearHashMap.WithCapacityEmpty | hash-map/linear-hash-map/src/lib.rs:91-103 | what `with_capacity` builds has `capacity` slots, all empty, and length 0 |
| LinearHashMap.EmptyValid | hash-map/linear-hash-map/src/lib.rs:76-103 | a table of empty slots is a valid map in which every lookup misses, when it has at least one slot |
| LinearHashMap.CollideRemoveHangs | hash-map/linear-hash-map/src/lib.rs:145-158 | with every key hashing to slot 0, inserting 1 and 2 and then removing 1 never finishes |
| LinearHashMap.CollideRemoveRehash | hash-map/linear-hash-map/src/lib.rs:129-168 | the corrected removal on the same map finishes; 1 is gone and 2 is still found |
| ChainHashMap.Slot | hash-map/chain-hash-map/src/lib.rs:32-39 | the bucket is below the modulus |
| ChainHashMap.IndexOf | hash-map/chain-hash-map/src/lib.rs:107-117 | the position of the first node with key `k`, or None when no node has it |
| ChainHashMap.Without | hash-map/chain-hash-map/src/lib.rs:98-100 | what `drain_filter` leaves: exactly the nodes whose key is not `k` |
| ChainHashMap.WithoutLength | hash-map/chain-hash-map/src/lib.rs:98-100 | in a bucket of distinct keys, draining a present key removes one node and draining an absent key changes nothing |
| ChainHashMap.Get | hash-map/chain-hash-map/src/lib.rs:107-117 | finds a stored key's value, and finds nothing for a key stored nowhere |
| ChainHashMap.GetMut | hash-map/chain-hash-map/src/lib.rs:119-129 | the position of `k`'s node, present exactly when `get` finds `k` |
| ChainHashMap.WriteAt | hash-map/chain-hash-map/src/lib.rs:119-129 | a write through the handle keeps the map valid, and afterwards `k` maps to the new value |
| ChainHashMap.Insert | hash-map/chain-hash-map/src/lib.rs:72-89 | the map stays valid and the old value comes back. Afterwards `k` maps to `v`. The length grows exactly for a new key |
| ChainHashMap.InsertOthers | hash-map/chain-hash-map/src/lib.rs:72-89 | insertion leaves every other key's lookup alone |
| ChainHashMap.Remove | hash-map/chain-hash-map/src/lib.rs:91-105 | the map stays valid and the old value comes back. Afterwards `k` is not found. The length drops exactly for a present key, and an absent key leaves the map unchanged |
| ChainHashMap.RemoveOthers | hash-map/chain-hash-map/src/lib.rs:91-105 | removal leaves every other key's lookup alone |
| ChainHashMap.NewEmpty | hash-map/chain-hash-map/src/lib.rs:43-56 | what `new` builds has 97 empty buckets, modulus 97 and length 0 |
| ChainHashMap.WithCapacityEmpty | hash-map/chain-hash-map/src/lib.rs:58-70 | what `with_capacity` builds has `cap` empty buckets, modulus `cap` and length 0 |
| ChainHashMap.EmptyValid | hash-map/chain-hash-map/src/lib.rs:43-70 | empty buckets form a valid map in which every lookup misses, when there is at least one bucket |
| ChainHashMap.Sample | hash-map/chain-hash-map/src/tests.rs:4-12 | the three test insertions give a valid map |
| ChainHashMap.SampleGets | hash-map/chain-hash-map/src/tests.rs:31-37 | the sample holds C 50, Rust 12 and Javascript 27, and nothing for Java or C++ |
| ChainHashMap.SampleInsert | hash-map/chain-hash-map/src/tests.rs:15-20 | inserting Java gives None, and inserting Javascript again gives back 27 |
| ChainHashMap.SampleRemove | hash-map/chain-hash-map/src/tests.rs:23-28 | removing C gives 50, then removing C++ gives None |
| ChainHashMap.SampleUpdate | hash-map/chain-hash-map/src/tests.rs:40-46 | the handle for Rust holds 12, and a write through it is what `get` then sees |
| UnionFind.FromIter | graph/union-find/src/lib.rs:8-21 | every given id is registered with weight 1 and is its own root; nothing else is registered |
| UnionFind.FromIterRoots | graph/union-find/src/lib.rs:8-21 | at first the roots are exactly the given ids |
| UnionFind.Find | graph/union-find/src/lib.rs:30-36 | the result has no parent, and an id without a parent is its own root |
| UnionFind.FindParent | graph/union-find/src/lib.rs:30-36 | an id and its parent have the same root |
| UnionFind.Connected | graph/union-find/src/lib.rs:38-40 | true exactly when the two roots agree |
| UnionFind.Union | graph/union-find/src/lib.rs:42-60 | the structure stays valid. It panics exactly when a root that must be weighed is unregistered. Ids that are already connected change nothing. Otherwise the lighter root goes under the heavier one, and on a tie root 2 goes under root 1 |
| UnionFind.UnionClasses | graph/union-find/src/lib.rs:42-60 | afterwards two ids are connected exactly when they were, or one was connected to `a` and the other to `b`. In particular `a` and `b` are connected |
| UnionFind.FindAfterHang | graph/union-find/src/lib.rs:53-59 | after hanging a root under another, the ids of the hung tree get the new root and every other id keeps its own |
| UnionFind.UnionRoots | graph/union-find/src/lib.rs:42-60 | a union of two classes removes exactly one root |
| UnionFind.SingleRoot | graph/union-find/src/lib.rs:38-40 | with one root, every two registered ids are connected |
| Digraph.InsertSorted | graph/digraph/src/lib.rs:87-89 | the neighbour set gains exactly `x` and stays ordered, and grows by one exactly for a new `x` |
| Digraph.AddNode | graph/digraph/src/lib.rs:25-31 | the id becomes a node with the new element. An existing node keeps its neighbours and every other node is unchanged |
| Digraph.AddEdge | graph/digraph/src/lib.rs:83-90 | both ends become nodes, with the end's element winning when they coincide. The start gains the end as a neighbour and every other node is unchanged |
| Digraph.AddEdgeEdges | graph/digraph/src/lib.rs:83-90 | the edges afterwards are exactly the old ones plus (a, b) |
| Digraph.NodeCount | graph/digraph/src/lib.rs:72-74 | the number of nodes |
| Digraph.EdgeCount | graph/digraph/src/lib.rs:76-81 | the sum of the neighbour-set sizes |
| Digraph.AddNodeDegrees | graph/digraph/src/lib.rs:25-31 | adding a node never changes the edge count |
| Digraph.AddEdgeCounts | graph/digraph/src/lib.rs:76-90 | adding an edge adds one to the edge count for a new edge and nothing for a repeated one. It adds one node for each end not yet present |
| Digraph.Bfs | graph/digraph/src/lib.rs:40-62 | the recorded edges form a breadth-first tree from `start`. Each reached node has a level, one more than the node that reached it, along an edge of the graph. The levels are closed: no edge leaves a reached node for an unreached one or skips a level |
| Digraph.Backtrack | graph/digraph/src/lib.rs:101-107 | following recorded edges back from `end` panics exactly when `end` was not reached. Otherwise it gives a path from `start` to `end` whose length is `end`'s level |
| Digraph.ShortestPath | graph/digraph/src/lib.rs:92-112 | an unknown start or end comes back as Err. The search panics exactly when `end` is unreachable from `start`. Otherwise the result is a path from `start` to `end` that no other path is shorter than |
| Digraph.DirectPath | graph/digraph/src/lib.rs:92-112 | an edge between two distinct nodes is the shortest path between them |
| Digraph.SampleShortestPath | graph/digraph/src/tests.rs:19-24 | in the test graph, the path from 0 to 5 is [0, 5] |
| WeiGraph.Cmp | graph/weighted-graph/src/lib.rs:50-54 | edges compare by weight alone |
| WeiGraph.PartialCmp | graph/weighted-graph/src/lib.rs:44-48 | always defined |
| WeiGraph.OrdConsistent | graph/weighted-graph/src/lib.rs:38-54 | equality holds exactly when `cmp` says Equal, `cmp` is antisymmetric, and `partial_cmp` agrees with it |
| WeiGraph.EqIgnoresEnds | graph/weighted-graph/src/lib.rs:38-42 | two different edges of the same weight compare equal |
| WeiGraph.Other | graph/weighted-graph/src/lib.rs:65-69 | the opposite end of an incident edge. It panics exactly when the id exceeds the sum of the ends |
| WeiGraph.Insert | graph/weighted-graph/src/lib.rs:112-116 | `HashSet::insert`: the edge is added unless an equal one is present. An equal edge already present stays |
| WeiGraph.NewEmpty | graph/weighted-graph/src/lib.rs:95-99 | what `new` builds is a well-formed graph without nodes |
| WeiGraph.NodeCount | graph/weighted-graph/src/lib.rs:101-103 | the number of nodes |
| WeiGraph.AddNode | graph/weighted-graph/src/lib.rs:78-84 | the id becomes a node with the new element and keeps its edges. Every other node is unchanged |
| WeiGraph.AddEdge | graph/weighted-graph/src/lib.rs:105-118 | both ends become nodes, and the edge goes into the set of each end. Every other node is unchanged |
| WeiGraph.AddEdgeStored | graph/weighted-graph/src/lib.rs:105-118 | a node afterwards holds an edge exactly when it held it before, or it is an end of the new edge and held no edge equal to it |
| WeiGraph.AddEdgeKeeps | graph/weighted-graph/src/lib.rs:105-118 | when only identical edges compare equal, both ends hold every added edge |
| WeiGraph.EqualWeightDropped | graph/weighted-graph/src/lib.rs:32-42 | with weight-only equality, a second edge of the same weight at node 1 is not stored there |
| WeiGraph.TwoEqualKept | graph/weighted-graph/src/lib.rs:105-118 | with whole-edge equality both edges of the same weight are kept |
| WeiGraph.Ids | graph/weighted-graph/src/lib.rs:120-122 | the node ids, each once, in increasing order |
| WeiGraph.EdgesKeys | graph/weighted-graph/src/lib.rs:124-134 | the set `edges` builds has an entry under a key exactly when some node holds an edge under it |
| WeiGraph.EdgesFirst | graph/weighted-graph/src/lib.rs:124-134 | under each key, `edges` keeps the edge of the least node holding one |
| WeiGraph.EdgeSetStored | graph/weighted-graph/src/lib.rs:124-134 | every yielded edge is held by one of its ends, and both ends are nodes |
| WeiGraph.EdgeSetComplete | graph/weighted-graph/src/lib.rs:124-134 | when only identical edges compare equal, every held edge is yielded |
| Kruskal.PopLightest | graph/weighted-graph/src/mst/kruskal.rs:16 | the popped edge is in the heap and no heavier than any other |
| Kruskal.UnionLinks | graph/weighted-graph/src/mst/kruskal.rs:20-22 | after the union, the union-find's classes are the components of the taken edges |
| Kruskal.Span | graph/weighted-graph/src/mst/kruskal.rs:5-27 | the taken edges are given edges, in nondecreasing weight, and form a forest of at most one edge fewer than the ids. The ends of every given edge are linked through taken edges no heavier than it (the cycle property) |
| Kruskal.KruskalMst | graph/weighted-graph/src/lib.rs:152-154 | None exactly for a graph without nodes. Otherwise the span over the yielded edges; when only identical edges compare equal, the ends of every edge of the graph are linked in it |
| Kruskal.KruskalSplitsEqualWeights | graph/weighted-graph/src/lib.rs:32-42 | as written, on the graph with edges (0, 1) and (1, 2) of equal weight, node 2 holds (1, 2) but is not linked to 1 |
| Kruskal.KruskalJoinsEqualWeights | graph/weighted-graph/src/lib.rs:32-42 | with whole-edge equality the same graph comes out connected |
| LazyPrim.VisitAdds | graph/weighted-graph/src/mst/lazy_prim.rs:23-30 | after `visit`, the heap holds what it held plus exactly the edges the node holds toward unmarked nodes |
| LazyPrim.PopLightest | graph/weighted-graph/src/mst/lazy_prim.rs:40 | the popped edge is in the heap and no heavier than any other |
| LazyPrim.Grow | graph/weighted-graph/src/mst/lazy_prim.rs:40-55 | one pass keeps the loop state. Either the heap shrinks, or the marked set grows within the nodes |
| LazyPrim.Span | graph/weighted-graph/src/mst/lazy_prim.rs:33-58 | the result is a forest of edges held by marked nodes, with one edge fewer than the marked nodes. It links every two marked nodes and no unmarked one. No edge held by a marked node leaves the marked set |
| LazyPrim.LazyPrimMst | graph/weighted-graph/src/lib.rs:138-143 | Err with the root exactly when the root is not a node. Otherwise a forest of fewer edges than nodes that spans the nodes the root reaches |
| Prim.EndCmp | graph/weighted-graph/src/mst/prim/end.rs:22-26 | ends compare by reversed weight, so the max-heap pops a lightest end |
| Prim.EndPartialCmp | graph/weighted-graph/src/mst/prim/end.rs:16-20 | always defined |
| Prim.EndOrdConsistent | graph/weighted-graph/src/mst/prim/end.rs:10-26 | equality agrees with `cmp`, `cmp` is antisymmetric, and `partial_cmp` agrees with it. Ends of the same weight are equal whatever their nodes |
| Prim.PopGreatest | graph/weighted-graph/src/mst/prim/mod.rs:61 | the popped end is a greatest one, so its weight is least |
| Prim.Relax | graph/weighted-graph/src/mst/prim/mod.rs:26-50 | an edge to a marked node changes nothing. Otherwise the far node's stretch becomes the edge, and its end is pushed, when the node had no stretch or a strictly heavier one |
| Prim.Visit | graph/weighted-graph/src/mst/prim/mod.rs:25-52 | after `visit` every edge of the node is accounted for; when all were already, nothing changes |
| Prim.Step | graph/weighted-graph/src/mst/prim/mod.rs:61-66 | one pass keeps the loop state. Either the heap shrinks, or one more node is marked |
| Prim.Finished | graph/weighted-graph/src/mst/prim/mod.rs:61-66 | once the heap is empty, the nodes with a stretch are the marked ones other than the root, and no edge leaves the marked set |
| Prim.Values | graph/weighted-graph/src/mst/prim/mod.rs:68 | `into_values`: one value per key, every value of the map and nothing else |
| Prim.Span | graph/weighted-graph/src/mst/prim/mod.rs:55-69 | the stretches form a tree rooted at the root, each hung from a node marked earlier. Each stretch is no heavier than any edge crossing from the nodes marked before it (the cut property). No edge leaves the marked set. The result has one edge per marked node other than the root |
| Prim.PrimMst | graph/weighted-graph/src/lib.rs:145-150 | Err with the root exactly when the root is not a node. Otherwise the stretches of a finished span, fewer than the nodes |
| Prim.PrimStopsShort | graph/weighted-graph/src/lib.rs:32-42 | as written, from node 0 of the graph with edges (0, 1) and (1, 2) of equal weight the span has one edge, though node 2 holds (1, 2) |
| Prim.PrimReachesAll | graph/weighted-graph/src/lib.rs:32-42 | with whole-edge equality the span from node 0 has two edges and reaches all three nodes |
| Sorting.Swap | sort/src/selection.rs:4 | `slice::swap` exchanges the two elements, leaves every other position alone and keeps the contents |
| Sorting.SortedUnique | sort/src/lib.rs:11-17 | two sorted sequences with the same contents are equal, so every sort below computes the same function |
| Bubble.Pass | sort/src/bubble.rs:5-12 | one pass carries the largest of the unsettled elements to the end of that range and keeps the contents. Without a swap the range was already in order |
| Bubble.BubbleSort | sort/src/bubble.rs:1-19 | the result is sorted and has the input's contents |
| Insertion.Sink | sort/src/insertion.rs:3-8 | on a sorted prefix, the prefix up to `out` comes out sorted and the rest untouched. The loop reaches 0 exactly when the element is below everything before it |
| Insertion.InsertionAsWritten | sort/src/insertion.rs:1-10 | panics exactly when some element after the first is below every element before it. Otherwise the result is sorted with the input's contents |
| Insertion.TwoOnePanics | sort/src/insertion.rs:4 | the input [2, 1] makes the loop guard compute `n - 1` at `n == 0` |
| Insertion.InsertionSort | sort/src/insertion.rs:1-10 | with the guard on `n`, the result is sorted and has the input's contents |
| Selection.MinFrom | sort/src/selection.rs:3 | the position of the first least element from `left` on |
| Selection.SelectionSort | sort/src/selection.rs:1-6 | the result is sorted and has the input's contents |
| Shell.FirstGap | sort/src/shell.rs:3-6 | the starting gap is in the sequence 1, 4, 13, ... It is the first one not below `len / 3`, or 1 |
| Shell.Insert | sort/src/shell.rs:16-24 | afterwards every pair `h` apart up to `right` is in order, with the contents kept |
| Shell.Pass | sort/src/shell.rs:14-25 | after a pass with gap `h` every `h`-strided subsequence is sorted |
| Shell.ShellSort | sort/src/shell.rs:1-30 | the gaps end with 1, so the result is sorted and has the input's contents |
| HeapSort.Parent | sort/src/heap.rs:5-11 | position `i` is a child of its parent |
| HeapSort.Sink | sort/src/heap.rs:1-29 | with every element below `p` in heap order, afterwards the element at `p` is too. Only positions from `p` up to `n` move and the contents are kept |
| HeapSort.HeapTop | sort/src/heap.rs:44-47 | the root of a heap is its largest element |
| HeapSort.Build | sort/src/heap.rs:40-42 | sinking every parent from the last one down leaves a heap with the input's contents |
| HeapSort.Extract | sort/src/heap.rs:44-50 | swapping the root to `end` grows the sorted tail by one, and re-sinking restores the heap below it |
| HeapSort.HeapSort | sort/src/heap.rs:31-51 | the result is sorted and has the input's contents; inputs shorter than 2 come back unchanged |
| MergeSort.Filter | sort/src/merge.rs:28 | the elements with key `k`, in order, and nothing else |
| MergeSort.FilterConcat | sort/src/merge.rs:27-35 | filtering distributes over concatenation |
| MergeSort.MergeHalves | sort/src/merge.rs:24-37 | from two sorted halves, the merge is sorted and has both halves' contents. For each key it lists the left half's elements before the right half's |
| MergeSort.Merge | sort/src/merge.rs:9-38 | the result is sorted and has the input's contents. It is stable: for every key, the elements with that key keep their order. Inputs shorter than 2 come back unchanged |
| MergeSort.MSort | sort/src/merge.rs:3-7 | the result is sorted and has the input's contents |
| QuickSort.Partition | sort/src/quick.rs:18-41 | the loop splits the slice into elements below, equal to and above the sample, keeping the contents |
| QuickSort.SortedParts | sort/src/quick.rs:43-45 | sorted parts below, at and above a value make a sorted whole |
| QuickSort.Quick | sort/src/quick.rs:13-46 | the result is sorted and has the input's contents; inputs of at most one element come back unchanged |
| QuickSort.QSort | sort/src/quick.rs:5-11 | whatever permutation the shuffle picks, the result is the input sorted |
| BinarySearch.LowerBound | search/src/binary_search.rs:2-13 | on sorted input the loop stops at the first position whose element is not below `x`, or at the end |
| BinarySearch.BinarySearchAsWritten | search/src/binary_search.rs:1-16 | panics exactly when every element is below `x`, the empty slice included. Otherwise it returns the first position of `x` when `x` occurs, and None exactly when it does not |
| BinarySearch.EmptySearchPanics | search/src/binary_search.rs:15 | searching an empty slice reads past its end |
| BinarySearch.BinarySearch | search/src/binary_search.rs:1-16 | with the bound checked, the first position of `x` when `x` occurs, and None exactly when it does not |
| BinarySearch.SampleSearch | search/src/binary_search.rs:22-28 | 24 is found at position 0 of [24, 45, 56, 63, 85] |
| Monotonic.Adjacent | number-theory/src/monotonic.rs:10-31 | adjacent pairs in order make the whole prefix non-decreasing (or non-increasing) |
| Monotonic.IsMonotonic | number-theory/src/monotonic.rs:3-35 | panics exactly on an empty slice. Otherwise true exactly when the slice is non-decreasing or non-increasing |
| Monotonic.SampleNotMonotonic | number-theory/src/monotonic.rs:59-63 | [1, 1, 4, 5, 1, 4] is not monotonic |
| Permutation.RightmostAscent | combinatorics/src/permutation.rs:16-19 | finds an ascent exactly when there is one. The one found is the rightmost, and the slice does not increase after it |
| Permutation.Supremum | combinatorics/src/permutation.rs:23-25 | after the ascent at `k`, the rightmost later position whose element is above `a[k]`; it always exists |
| Permutation.ReverseFrom | combinatorics/src/permutation.rs:32-35 | the paired `next`/`next_back` swaps reverse the positions from `lo` on and leave the rest alone |
| Permutation.SuccessorGreater | combinatorics/src/permutation.rs:6-38 | the successor is lexicographically greater |
| Permutation.SwapReverse | combinatorics/src/permutation.rs:29-35 | the swap and the reversal keep the contents. They produce the successor: the same prefix before `k`, a larger element at `k`, and the rest in ascending order |
| Permutation.NextPermutation | combinatorics/src/permutation.rs:6-38 | false, with the slice unchanged, exactly when there is no ascent (short slices included). Otherwise the result has the same elements and is the successor at the rightmost ascent, so it is lexicographically greater |
| Permutation.FirstStep | combinatorics/src/permutation.rs:45-49 | [1, 2, 3] becomes [1, 3, 2] |
| LinearSieve.PrimesBelowExact | number-theory/src/linear_sieve.rs:4-23 | the reference list holds exactly the primes below `n`, strictly ascending |
| LinearSieve.Spf | number-theory/src/linear_sieve.rs:16-18 | the smallest prime factor: a prime divisor with no divisor above 1 below it |
| LinearSieve.Cofactor | number-theory/src/linear_sieve.rs:13-19 | a composite is its smallest prime factor times a cofactor of at least 2, whose own smallest prime factor is no smaller |
| LinearSieve.UnmarkedPrime | number-theory/src/linear_sieve.rs:9-11 | with sound marks complete below `i`, `i` is unmarked exactly when it is prime |
| LinearSieve.MarkMultiples | number-theory/src/linear_sieve.rs:13-19 | the inner loop marks exactly `i * p` for the primes taken, none above the smallest prime factor of `i` |
| LinearSieve.MarksComplete | number-theory/src/linear_sieve.rs:13-19 | where the inner loop stops, every `i * q <= to` with a prime `q` no greater than the smallest prime factor of `i` has been marked |
| LinearSieve.SieveStep | number-theory/src/linear_sieve.rs:8-20 | one outer pass keeps `i` exactly when it is prime. The marks stay sound and become complete below `i + 1` |
| LinearSieve.Sieve | number-theory/src/linear_sieve.rs:4-23 | the result is exactly the primes up to `to`, strictly ascending |
| LinearSieve.SmallSieves | number-theory/src/linear_sieve.rs:40-49 | up to 2 the result is [2]; up to 1 and up to 0 it is empty |

## Left out

- Memory: `Drop`, raw node pointers, `Box::leak`, `Rc`, and the post-order teardown of both tree
  maps. Values have no ownership to model.
- The standard hasher, `DefaultHasher`: the hash is a parameter `H`, so every hash-map result holds
  for every hasher.
- The random shuffle of `qsort` (`rand::thread_rng`): a parameter, any permutation of the input.
- Integer widths. `u32` and `usize` are unbounded integers, so the model leaves out:
  - the overflow of `low + high` in `binary_search`;
  - the overflow of `i * p` in `linear_sieve` near `u32::MAX`;
  - `3 * itrval + 1` in `shell`;
  - the weight sums of `union`;
  - the `u32` addition `edge.0 + edge.1` in `WeiEdge::other`, which WeiGraph.Other does not bound
    (only the subtraction's underflow is modelled).

  Underflows that panic are modelled.
- Iteration order of the hash sets. `HashSet` and `BinaryHeap` iteration order, and the order in
  which equal-weight heap entries pop, are left unspecified: any order the standard library may
  choose is allowed.
- Kruskal.Span: proves the forest, the weight order and the cycle property, but not that the total
  weight is minimal.
- LazyPrim.LazyPrimMst: proves a forest spanning what the root reaches, but not minimal total
  weight.
- Prim.PrimMst: proves the tree shape through the marking order, the cut property and closure, but
  neither that the result, listed in key order, is a forest nor that its weight is minimal.
- Kruskal.PopLightest: the binary heap of `Reverse` edges is modelled as a set, which is
  enough because a set of distinct edges is what `edges` yields.
- LazyPrim.PopLightest: the heap is modelled as a multiset.
- RbNode.RemoveNode: proves ordering, a sub-map of the entries without `k`, and the removed pair.
  It does not prove that balance is kept, because as written it is not for an absent key (see
  Findings).
- RbMap.Remove: for the same reason keeps only a counter no lower than the size, rather than full
  validity.
- RbMap.RemoveChecked: for a present key it keeps the map sound, not fully valid, because it
  calls the same descent as `RbMap.Remove`.
- RbNode.PopMin: proves the in-order split, but not the colour invariants of the removal.
- AVL depth: no logarithmic bound is stated for the AVL map beyond its height invariant; the
  red-black map has one (`RbMap.ValidDepth`).
- LinearHashMap.WithCapacityEmpty: `with_capacity(0)` builds a table on which every later operation
  panics (`hash % 0`). The model builds it, but the map invariant needs at least one slot.
- Element types: tree keys and sort and search elements are integers. The code is generic over
  `Ord`, and only comparisons are used.
- MergeSort.Merge: the `mem::swap` through the buffer is modelled by reading the halves. The buffer's
  contents after the merge are not modelled.
- Stability is proved only for merge sort, the only stable routine.
- Permutation.NextPermutation: proves that the result is the successor (same prefix, the
  next-larger element at the rightmost ascent, ascending rest). It does not prove the theorem
  that this is the least permutation greater than the input.
- The sieve test up to 100 (`front_100`) is not restated, because unfolding a hundred steps is
  beyond what the solver checks quickly. The sieve is proved equal to the list of primes for every
  bound.
- The linear sieve's property that each composite is marked exactly once is not proved. Only
  which numbers are marked is.
- `Debug`, `Index`, `IndexMut`, `Default` and the `From<[u32; N]>` glue, and the printing in the
  graph tests.
- `End::new`, `End::forge` and `End::id` are plain constructors and a field read.
- The AVL preorder and inorder test scenarios are not restated. `AvlIter.PreorderYields` and
  `AvlIter.InorderYields` state the yielded sequence for every tree.

## Findings

| source | as written | input that shows it | evidently intended | confidence | as-written member | corrected member |
|---|---|---|---|---|---|---|
| tree/red-black-tree/src/node/mod.rs:290-304 | `remove` of an absent key still restructures the path on the way down and nothing undoes it. Black balance breaks, and a later removal splices out a node together with its left child | insert 1, insert 2, remove 0, remove 2: `len` is 1 but the tree is empty and `get(1)` is None | removing an absent key leaves the map unchanged | not executed | RbMap.AbsentKeyBreaksCount | RbMap.RemoveChecked, RbMap.CheckedKeepsCount |
| list/linked-list/src/lib.rs:164-189 | the back-half walk of `insert` stops at the node at `index` and links after it, so the position an index lands at depends on the list's length. The repository's test (list/linked-list/src/tests.rs:4-10) asserts this placement: `insert(1, 13)` into [11, 45, 14] gives [11, 45, 13, 14] | `insert(1, 9)` lands at position 1 in [1, 2, 3, 4] but at position 2 in [1, 2, 3]; `insert(2, 9)` into [1, 2, 3] appends, like `insert(3, 9)` | `insert(index, x)` puts `x` at position `index` for every length, as the front-half walk does; the test's list would then read [0, 11, 13, 45, 14, 42] | not executed; medium, because the repository's test expects the as-written result | LinkedList.Insert, LinkedList.InsertBackHalfShifts, LinkedList.InsertPlacementVaries | LinkedList.InsertAt, LinkedList.InsertRemoveAt |
| list/linked-list/src/lib.rs:195-201 | `remove` past the end saturates the back-half index to 0 and removes the tail | `remove(3)` on [1, 2, 3] returns Some(3) and leaves [1, 2] | None, with the list unchanged | not executed | LinkedList.Remove, LinkedList.RemovePastEndTakesTail | LinkedList.RemoveAt, LinkedList.InsertRemoveAt |
| list/linked-list/src/lib.rs:258-266 | `eq` compares only as many elements as the shorter list has | [1] == [1, 2] is true | equal lengths are required too | not executed | LinkedList.Eq, LinkedList.EqIgnoresLength | LinkedList.ListEq |
| hash-map/linear-hash-map/src/lib.rs:150-158 | the repair loop after a removal swaps each slot with the next empty one. That leaves the next slot occupied, so the loop never ends | every key hashing to slot 0; insert 1, insert 2, remove 1 | the cluster after the removed slot is re-placed and the removal returns | not executed | LinearHashMap.RepairNeverExits, LinearHashMap.CollideRemoveHangs | LinearHashMap.RemoveRehash, LinearHashMap.RemoveRehashGet, LinearHashMap.CollideRemoveRehash |
| graph/weighted-graph/src/lib.rs:32-42 | weighted edges hash and compare equal by weight alone, so a node's edge set keeps one edge per weight. Kruskal's `edges` then misses edges | edges (0, 1) and (1, 2), both of weight 1: Kruskal leaves node 2 unlinked | edges equal only when weight and ends agree | not executed | Kruskal.KruskalSplitsEqualWeights | Kruskal.KruskalJoinsEqualWeights |
| graph/weighted-graph/src/lib.rs:32-42 | the same equality makes node 1 drop the second edge, so Prim cannot leave node 1 | the same graph: Prim from node 0 returns one edge for three nodes | a spanning tree of two edges | not executed | Prim.PrimStopsShort | Prim.PrimReachesAll |
| sort/src/insertion.rs:4 | the guard tests `out > 0` instead of `n > 0`, so `n - 1` underflows once an element reaches the front | [2, 1] | sorting to [1, 2] | not executed | Insertion.InsertionAsWritten, Insertion.TwoOnePanics | Insertion.InsertionSort |
| search/src/binary_search.rs:15 | `seq[low]` is read even when `low == len` | an empty slice, or any `x` above every element | None | not executed | BinarySearch.BinarySearchAsWritten, BinarySearch.EmptySearchPanics | BinarySearch.BinarySearch |

=== FILE: avl_iter.dfy ===
/**
  The `Preorder` and `Inorder` iterators of tree/avl-tree/src/node/iter.rs. Both keep a
  stack of node handles and a set of marked handles. A node is named here by its path
  from the root (`false` = left, `true` = right), so the stack is a sequence of paths and
  the marked set a set of paths. `next` is modelled as written: one step of
  stack work, then either an emitted pair or a recursive `next`.
*/
module AvlIter {
  import opened Wrappers
  import opened Bst
  import opened AvlNode

  type Path = seq<bool>

  /** The subtree at the end of path `p`; `Nil` when the path leaves the tree. */
  function At<V>(t: AvlTree<V>, p: Path): AvlTree<V>
    decreases p
  {
    if |p| == 0 then t
    else if t.Nil? then Nil
    else At(if p[0] then t.right else t.left, p[1..])
  }

  lemma {:induction false} AtSnoc<V>(t: AvlTree<V>, p: Path, b: bool)
    ensures At(t, p + [b]) == if At(t, p).Nil? then Nil else if b then At(t, p).right else At(t, p).left
    decreases p
  {
    if |p| == 0 {
      assert p + [b] == [b];
      assert [b][1..] == [];
    } else if t.Nil? {
    } else {
      assert (p + [b])[1..] == p[1..] + [b];
      AtSnoc(if p[0] then t.right else t.left, p[1..], b);
    }
  }

  /** Following `p`, then `r`, is following `r` from the subtree at `p`. */
  lemma {:induction false} AtAppend<V>(t: AvlTree<V>, p: Path, r: Path)
    ensures At(t, p + r) == At(At(t, p), r)
    decreases p
  {
    if |p| == 0 {
      assert p + r == r;
    } else if t.Nil? {
      AtNil(t, r);
    } else {
      assert (p + r)[1..] == p[1..] + r;
      AtAppend(if p[0] then t.right else t.left, p[1..], r);
    }
  }

  lemma {:induction false} AtNil<V>(t: AvlTree<V>, r: Path)
    requires t.Nil?
    ensures At(t, r) == Nil
  {
  }

  /** The paths of the nodes of the subtree at `p`: `p` itself and the paths below its
      two children. */
  ghost function Sub<V>(t: AvlTree<V>, p: Path): set<Path>
    decreases Size(At(t, p))
  {
    AtSnoc(t, p, false);
    AtSnoc(t, p, true);
    if At(t, p).Nil? then {} else {p} + Sub(t, p + [false]) + Sub(t, p + [true])
  }

  /** The paths of all nodes of `t`. */
  ghost function Paths<V>(t: AvlTree<V>): set<Path> {
    Sub(t, [])
  }

  lemma SubNode<V>(t: AvlTree<V>, p: Path)
    ensures At(t, p).Nil? ==> Sub(t, p) == {}
    ensures At(t, p).Node? ==> Sub(t, p) == {p} + Sub(t, p + [false]) + Sub(t, p + [true])
  {
  }

  /** A path lies in the subtree at `p` exactly when it extends `p` and names a node. */
  lemma {:induction false} SubMember<V>(t: AvlTree<V>, p: Path, q: Path)
    ensures q in Sub(t, p) <==> |p| <= |q| && q[..|p|] == p && At(t, q).Node?
    decreases Size(At(t, p))
  {
    AtSnoc(t, p, false);
    AtSnoc(t, p, true);
    if At(t, p).Node? && |p| < |q| && q[..|p|] == p {
      var b := q[|p|];
      assert q[..|p| + 1] == p + [b];
      SubMember(t, p + [b], q);
      SubMember(t, p + [!b], q);
      assert q[..|p| + 1] != p + [!b] by {
        assert q[..|p| + 1][|p|] == b;
      }
    } else if At(t, p).Nil? && |p| <= |q| && q[..|p|] == p {
      assert q == p + q[|p|..];
      AtAppend(t, p, q[|p|..]);
      AtNil(At(t, p), q[|p|..]);
    } else if |p| == |q| && q[..|p|] == p {
      assert q == p;
    } else if At(t, p).Node? {
      SubMember(t, p + [false], q);
      SubMember(t, p + [true], q);
      if |q| > |p| {
        assert q[..|p|] == q[..|p| + 1][..|p|];
        assert (p + [false])[..|p|] == p && (p + [true])[..|p|] == p;
      }
    }
  }

  lemma PathsAt<V>(t: AvlTree<V>, q: Path)
    ensures q in Paths(t) <==> At(t, q).Node?
  {
    SubMember(t, [], q);
  }

  /** Every path of the subtree at `p` starts with `p`. */
  lemma SubPrefix<V>(t: AvlTree<V>, p: Path, q: Path)
    requires q in Sub(t, p)
    ensures |p| <= |q| && q[..|p|] == p
  {
    SubMember(t, p, q);
  }

  /** A path below child `b` of `p` takes step `b` right after `p`. */
  lemma SubStep<V>(t: AvlTree<V>, p: Path, b: bool, q: Path)
    requires q in Sub(t, p + [b])
    ensures |q| > |p| && q[|p|] == b
  {
    SubPrefix(t, p + [b], q);
    assert q[..|p| + 1][|p|] == q[|p|];
  }

  /** The subtrees of the two children of a node share no path, and neither holds the node. */
  lemma SubDisjoint<V>(t: AvlTree<V>, p: Path)
    ensures p !in Sub(t, p + [false]) && p !in Sub(t, p + [true])
    ensures Sub(t, p + [false]) !! Sub(t, p + [true])
  {
    if p in Sub(t, p + [false]) {
      SubStep(t, p, false, p);
    }
    if p in Sub(t, p + [true]) {
      SubStep(t, p, true, p);
    }
    forall q | q in Sub(t, p + [false]) ensures q !in Sub(t, p + [true]) {
      SubStep(t, p, false, q);
      if q in Sub(t, p + [true]) {
        SubStep(t, p, true, q);
      }
    }
  }

  /** The iterator state: a stack of node handles and the set of marked handles. */
  datatype Walk = Walk(stack: seq<Path>, marked: set<Path>)

  /** Every stacked handle names a node of the tree, and the stack is a root-down chain:
      the handle at depth i lies i levels below the root (so no handle is stacked twice). */
  ghost predicate StackValid<V>(t: AvlTree<V>, w: Walk) {
    forall i | 0 <= i < |w.stack| :: At(t, w.stack[i]).Node? && |w.stack[i]| == i
  }

  /** `new` for an empty map, `with_root` otherwise: the root alone on the stack. */
  function Start<V>(t: AvlTree<V>): (w: Walk)
    ensures StackValid(t, w) && w.marked == {}
    ensures |w.stack| == 0 <==> t.Nil?
  {
    if t.Nil? then Walk([], {}) else Walk([[]], {})
  }

  ghost function Elems(s: seq<Path>): set<Path> {
    set i | 0 <= i < |s| :: s[i]
  }

  /** How much work is left, in weights that make every step pay: four for an unmarked
      node not yet stacked, two for an unmarked stacked node, one per stacked handle. */
  ghost function Measure<V>(t: AvlTree<V>, w: Walk): nat {
    var f := Paths(t) - w.marked;
    4 * |f - Elems(w.stack)| + 2 * |f * Elems(w.stack)| + |w.stack|
  }

  /** Pushing an unmarked child of the top node. */
  lemma MeasurePush<V>(t: AvlTree<V>, w: Walk, b: bool)
    requires StackValid(t, w) && |w.stack| > 0
    requires At(t, w.stack[|w.stack| - 1] + [b]).Node?
    requires w.stack[|w.stack| - 1] + [b] !in w.marked
    ensures StackValid(t, Walk(w.stack + [w.stack[|w.stack| - 1] + [b]], w.marked))
    ensures Measure(t, Walk(w.stack + [w.stack[|w.stack| - 1] + [b]], w.marked)) == Measure(t, w) - 1
  {
    var c := w.stack[|w.stack| - 1] + [b];
    var s := w.stack + [c];
    assert StackValid(t, Walk(s, w.marked)) by {
      assert forall i | 0 <= i < |w.stack| :: s[i] == w.stack[i];
      assert s[|w.stack|] == c;
    }
    ElemsSnoc(w.stack, c);
    assert c !in Elems(w.stack) by {
      assert |c| == |w.stack|;
    }
    PathsAt(t, c);
    MeasureAdd(Paths(t) - w.marked, Elems(w.stack), c);
  }

  lemma ElemsSnoc(s: seq<Path>, c: Path)
    ensures Elems(s + [c]) == Elems(s) + {c}
  {
    assert forall i | 0 <= i < |s| :: (s + [c])[i] == s[i];
    assert (s + [c])[|s|] == c;
  }

  /** Stacking an unmarked node moves it from the unstacked to the stacked part. */
  lemma MeasureAdd(f: set<Path>, e: set<Path>, c: Path)
    requires c in f && c !in e
    ensures |f - (e + {c})| == |f - e| - 1
    ensures |f * (e + {c})| == |f * e| + 1
  {
    assert f - (e + {c}) == (f - e) - {c};
    assert f * (e + {c}) == (f * e) + {c};
  }

  /** Pushing a marked child of the top node. */
  lemma MeasurePushMarked<V>(t: AvlTree<V>, w: Walk, b: bool)
    requires StackValid(t, w) && |w.stack| > 0
    requires At(t, w.stack[|w.stack| - 1] + [b]).Node?
    requires w.stack[|w.stack| - 1] + [b] in w.marked
    ensures StackValid(t, Walk(w.stack + [w.stack[|w.stack| - 1] + [b]], w.marked))
    ensures Measure(t, Walk(w.stack + [w.stack[|w.stack| - 1] + [b]], w.marked)) == Measure(t, w) + 1
  {
    var c := w.stack[|w.stack| - 1] + [b];
    var s := w.stack + [c];
    assert Elems(s) == Elems(w.stack) + {c} by {
      assert forall i | 0 <= i < |w.stack| :: s[i] == w.stack[i];
      assert s[|w.stack|] == c;
    }
    var f := Paths(t) - w.marked;
    var e := Elems(w.stack);
    assert c !in f;
    assert f - (e + {c}) == f - e;
    assert f * (e + {c}) == f * e;
  }

  /** Marking the top node. */
  lemma MeasureMark<V>(t: AvlTree<V>, w: Walk)
    requires StackValid(t, w) && |w.stack| > 0
    ensures var p := w.stack[|w.stack| - 1];
      Measure(t, Walk(w.stack, w.marked + {p})) == Measure(t, w) - (if p in w.marked then 0 else 2)
  {
    var p := w.stack[|w.stack| - 1];
    PathsAt(t, p);
    var f := Paths(t) - w.marked;
    var e := Elems(w.stack);
    assert p in e;
    var f' := Paths(t) - (w.marked + {p});
    assert f' == f - {p};
    assert f' - e == f - e;
    if p !in w.marked {
      assert f * e == (f' * e) + {p};
    } else {
      assert f' == f;
    }
  }

  /** Popping a marked top node. */
  lemma MeasurePop<V>(t: AvlTree<V>, w: Walk)
    requires StackValid(t, w) && |w.stack| > 0
    requires w.stack[|w.stack| - 1] in w.marked
    ensures StackValid(t, Walk(w.stack[..|w.stack| - 1], w.marked))
    ensures Measure(t, Walk(w.stack[..|w.stack| - 1], w.marked)) == Measure(t, w) - 1
  {
    var p := w.stack[|w.stack| - 1];
    var s := w.stack[..|w.stack| - 1];
    assert Elems(w.stack) == Elems(s) + {p} by {
      assert w.stack == s + [p];
    }
    var f := Paths(t) - w.marked;
    assert p !in f;
    assert f - Elems(s) == f - Elems(w.stack);
    assert f * Elems(s) == f * Elems(w.stack);
    StackPrefix(t, w, |s|);
  }

  /** A prefix of a valid stack is a valid stack. */
  lemma StackPrefix<V>(t: AvlTree<V>, w: Walk, n: nat)
    requires StackValid(t, w) && n <= |w.stack|
    ensures StackValid(t, Walk(w.stack[..n], w.marked))
  {
  }

  /** `children`: the handles of the present children, left first. */
  function Children<V>(t: AvlTree<V>, p: Path): (cs: seq<Path>)
    requires At(t, p).Node?
    ensures forall c | c in cs :: At(t, c).Node?
    ensures forall c :: c in cs <==>
      (c == p + [false] && At(t, p).left.Node?) || (c == p + [true] && At(t, p).right.Node?)
    ensures |cs| == 2 ==> cs[0] == p + [false]
  {
    AtSnoc(t, p, false);
    AtSnoc(t, p, true);
    assert p + [false] != p + [true] by {
      assert (p + [false])[|p|] != (p + [true])[|p|];
    }
    (if At(t, p).left.Node? then [p + [false]] else []) +
    (if At(t, p).right.Node? then [p + [true]] else [])
  }

  /** `find(|child| !marked.contains(child))`. */
  function FirstUnmarked(cs: seq<Path>, marked: set<Path>): (r: Option<Path>)
    ensures r.Some? ==> r.value in cs && r.value !in marked
    ensures r.Some? ==> exists i | 0 <= i < |cs| :: cs[i] == r.value && forall j | 0 <= j < i :: cs[j] in marked
    ensures r.None? <==> forall c | c in cs :: c in marked
  {
    if |cs| == 0 then None
    else if cs[0] !in marked then Some(cs[0])
    else
      var r := FirstUnmarked(cs[1..], marked);
      assert forall c | c in cs[1..] :: c in cs;
      if r.Some? then
        var i :| 0 <= i < |cs[1..]| && cs[1..][i] == r.value && forall j | 0 <= j < i :: cs[1..][j] in marked;
        assert cs[i + 1] == r.value && forall j | 0 <= j < i + 1 :: cs[j] in marked;
        r
      else
        r
  }

  function Emit<V>(o: Option<(int, V)>): seq<(int, V)> {
    if o.Some? then [o.value] else []
  }

  // ---------------------------------------------------------------- preorder

  /** One pass of `Preorder::next` before its tail: push the first unmarked child of the
      top node, or pop the top when there is none; then mark the old top, emitting it when
      the mark is new. */
  function PreStep<V>(t: AvlTree<V>, w: Walk): (res: (Walk, Option<(int, V)>))
    requires StackValid(t, w) && |w.stack| > 0
    ensures StackValid(t, res.0)
    ensures Measure(t, res.0) < Measure(t, w)
    ensures var top := w.stack[|w.stack| - 1];
      res.0.marked == w.marked + {top} &&
      (res.1.Some? <==> top !in w.marked) &&
      (res.1.Some? ==> res.1.value == (At(t, top).key, At(t, top).value))
  {
    var p := w.stack[|w.stack| - 1];
    var n := At(t, p);
    var next := FirstUnmarked(Children(t, p), w.marked);
    var marked := w.marked + {p};
    MeasureMark(t, w);
    var stack := (
      if next.Some? then
        var b := next.value == p + [true];
        assert next.value == p + [b] && next.value !in marked;
        MeasurePush(t, Walk(w.stack, marked), b);
        w.stack + [next.value]
      else
        MeasurePop(t, Walk(w.stack, marked));
        w.stack[..|w.stack| - 1]);
    (Walk(stack, marked), if p in w.marked then None else Some((n.key, n.value)))
  }

  /** `Preorder::next`: None on an empty stack, otherwise a step, repeated while it only
      revisits a marked node. */
  function PreNext<V>(t: AvlTree<V>, w: Walk): (res: (Walk, Option<(int, V)>))
    requires StackValid(t, w)
    ensures StackValid(t, res.0)
    ensures res.1.None? ==> |res.0.stack| == 0
    ensures |w.stack| > 0 ==> Measure(t, res.0) < Measure(t, w)
    ensures |w.stack| == 0 ==> res == (w, None)
    decreases Measure(t, w)
  {
    if |w.stack| == 0 then (w, None)
    else
      var (w', o) := PreStep(t, w);
      if o.Some? then (w', o) else PreNext(t, w')
  }

  /** Everything a `Preorder` iterator in state `w` yields, as `collect` gathers it. */
  function PreCollect<V>(t: AvlTree<V>, w: Walk): seq<(int, V)>
    requires StackValid(t, w)
    decreases Measure(t, w)
  {
    var (w', o) := PreNext(t, w);
    if o.None? then [] else [o.value] + PreCollect(t, w')
  }

  /** The same output, one step at a time. */
  ghost function PreSteps<V>(t: AvlTree<V>, w: Walk): seq<(int, V)>
    requires StackValid(t, w)
    decreases Measure(t, w)
  {
    if |w.stack| == 0 then []
    else
      var (w', o) := PreStep(t, w);
      Emit(o) + PreSteps(t, w')
  }

  /** The recursive preorder sequence: node, left subtree, right subtree. */
  function Preorder<V>(t: AvlTree<V>): seq<(int, V)> {
    match t
    case Nil => []
    case Node(k, v, _, l, r) => [(k, v)] + Preorder(l) + Preorder(r)
  }

  lemma {:induction false} PreNextSteps<V>(t: AvlTree<V>, w: Walk)
    requires StackValid(t, w)
    ensures PreSteps(t, w) == Emit(PreNext(t, w).1) + PreSteps(t, PreNext(t, w).0)
    decreases Measure(t, w)
  {
    if |w.stack| > 0 {
      var (w', o) := PreStep(t, w);
      if o.None? {
        PreNextSteps(t, w');
      }
    }
  }

  lemma {:induction false} PreCollectSteps<V>(t: AvlTree<V>, w: Walk)
    requires StackValid(t, w)
    ensures PreCollect(t, w) == PreSteps(t, w)
    decreases Measure(t, w)
  {
    var (w', o) := PreNext(t, w);
    PreNextSteps(t, w);
    if o.Some? {
      PreCollectSteps(t, w');
    } else {
      assert PreSteps(t, w') == [];
    }
  }

  /** A first visit to `p`, none of whose children is marked: push the left child, else
      the right child, else pop; mark `p` and emit it. */
  lemma {:induction false} PreStepFresh<V>(t: AvlTree<V>, s: seq<Path>, p: Path, m: set<Path>)
    requires StackValid(t, Walk(s + [p], m)) && p !in m
    requires At(t, p).Node?
    requires At(t, p).left.Node? ==> p + [false] !in m
    requires At(t, p).right.Node? ==> p + [true] !in m
    ensures var n := At(t, p);
      PreStep(t, Walk(s + [p], m)) ==
        (Walk(if n.left.Node? then s + [p] + [p + [false]]
              else if n.right.Node? then s + [p] + [p + [true]]
              else s, m + {p}),
         Some((n.key, n.value)))
  {
    var w := Walk(s + [p], m);
    assert w.stack[|w.stack| - 1] == p;
    assert w.stack[..|w.stack| - 1] == s;
    var n := At(t, p);
    var cs := Children(t, p);
    if n.left.Node? {
      assert FirstUnmarked(cs, m) == Some(p + [false]);
    } else if n.right.Node? {
      assert FirstUnmarked(cs, m) == Some(p + [true]);
    } else {
      assert FirstUnmarked(cs, m) == None;
    }
  }

  lemma PreStepsUnfold<V>(t: AvlTree<V>, w: Walk)
    requires StackValid(t, w) && |w.stack| > 0
    ensures PreSteps(t, w) == Emit(PreStep(t, w).1) + PreSteps(t, PreStep(t, w).0)
  {
  }

  /** A revisit of `p` whose left child (if any) is marked: push the right child if it is
      present and unmarked, else pop; emit nothing. */
  lemma {:induction false} PreStepRevisit<V>(t: AvlTree<V>, s: seq<Path>, p: Path, m: set<Path>)
    requires StackValid(t, Walk(s + [p], m)) && p in m
    requires At(t, p).Node?
    requires At(t, p).left.Node? ==> p + [false] in m
    ensures var n := At(t, p);
      PreStep(t, Walk(s + [p], m)) ==
        (Walk(if n.right.Node? && p + [true] !in m then s + [p] + [p + [true]] else s, m), None)
  {
    var w := Walk(s + [p], m);
    assert w.stack[|w.stack| - 1] == p;
    assert w.stack[..|w.stack| - 1] == s;
    var n := At(t, p);
    var cs := Children(t, p);
    assert m + {p} == m;
    if n.right.Node? && p + [true] !in m {
      assert FirstUnmarked(cs, m) == Some(p + [true]);
    } else {
      assert FirstUnmarked(cs, m) == None;
    }
  }

  /** Dropping the top handle keeps the stack valid, whatever is marked. */
  lemma StackPop<V>(t: AvlTree<V>, s: seq<Path>, p: Path, m: set<Path>, m': set<Path>)
    requires StackValid(t, Walk(s + [p], m))
    ensures StackValid(t, Walk(s, m'))
    ensures At(t, p).Node? && |p| == |s|
  {
    assert forall i | 0 <= i < |s| :: s[i] == (s + [p])[i];
    assert (s + [p])[|s|] == p;
  }

  /** The first visit of an unmarked `p`: it is emitted, and the walk goes on from `p`'s
      left child if it has one, else from `p` revisited. */
  lemma PreVisit<V>(t: AvlTree<V>, s: seq<Path>, p: Path, m: set<Path>)
    requires StackValid(t, Walk(s + [p], m)) && p !in m
    requires At(t, p).Node? && |p| == |s|
    requires At(t, p + [false]).Node? ==> p + [false] !in m
    requires At(t, p + [true]).Node? ==> p + [true] !in m
    ensures At(t, p + [false]).Node? ==>
      PreSteps(t, Walk(s + [p], m)) == [(At(t, p).key, At(t, p).value)] + PreSteps(t, Walk(s + [p] + [p + [false]], m + {p}))
    ensures At(t, p + [false]).Nil? ==>
      PreSteps(t, Walk(s + [p], m)) == [(At(t, p).key, At(t, p).value)] + PreSteps(t, Walk(s + [p], m + {p}))
  {
    AtSnoc(t, p, false);
    AtSnoc(t, p, true);
    var n := At(t, p);
    var sp := s + [p];
    var m1 := m + {p};
    PreStepFresh(t, s, p, m);
    PreStepsUnfold(t, Walk(sp, m));
    if n.left.Nil? {
      var w1 := Walk(if n.right.Node? then sp + [p + [true]] else s, m1);
      assert PreSteps(t, Walk(sp, m1)) == PreSteps(t, w1) by {
        assert n.right.Node? ==> p + [true] !in m1 by {
          assert |p + [true]| != |p|;
        }
        PreStepRevisit(t, s, p, m1);
        PreStepsUnfold(t, Walk(sp, m1));
      }
    }
  }

  /** Run from a stack whose top `p` heads a wholly unmarked subtree, the iterator first
      yields that subtree in preorder and then carries on as if `p` had never been pushed
      and the subtree were marked. */
  lemma {:induction false} PreSubtree<V>(t: AvlTree<V>, s: seq<Path>, p: Path, m: set<Path>)
    requires StackValid(t, Walk(s + [p], m))
    requires Sub(t, p) !! m
    ensures StackValid(t, Walk(s, m + Sub(t, p)))
    ensures PreSteps(t, Walk(s + [p], m)) == Preorder(At(t, p)) + PreSteps(t, Walk(s, m + Sub(t, p)))
    decreases Size(At(t, p)), 3
  {
    StackPop(t, s, p, m, m + Sub(t, p));
    if At(t, p).left.Node? {
      PreSubtreeLeft(t, s, p, m);
    } else {
      PreSubtreeNoLeft(t, s, p, m);
    }
  }

  /** The facts about the marks that a first visit of `p` relies on. */
  lemma SubSplit<V>(t: AvlTree<V>, p: Path, m: set<Path>)
    requires At(t, p).Node? && Sub(t, p) !! m
    ensures var left, right := Sub(t, p + [false]), Sub(t, p + [true]);
      p !in m && m + {p} + left + right == m + Sub(t, p) &&
      left !! m + {p} && right !! m + {p} + left && right !! m + {p} && p !in left &&
      (At(t, p).left.Node? ==> p + [false] !in m) &&
      (At(t, p).right.Node? ==> p + [true] !in m) &&
      (At(t, p).left.Nil? ==> left == {})
  {
    SubNode(t, p);
    SubDisjoint(t, p);
    AtSnoc(t, p, false);
    AtSnoc(t, p, true);
    SubNode(t, p + [false]);
    SubNode(t, p + [true]);
  }

  lemma {:induction false} PreSubtreeLeft<V>(t: AvlTree<V>, s: seq<Path>, p: Path, m: set<Path>)
    requires StackValid(t, Walk(s + [p], m))
    requires StackValid(t, Walk(s, m)) && Sub(t, p) !! m
    requires At(t, p).Node? && At(t, p).left.Node? && |p| == |s|
    ensures PreSteps(t, Walk(s + [p], m)) == Preorder(At(t, p)) + PreSteps(t, Walk(s, m + Sub(t, p)))
    decreases Size(At(t, p)), 2
  {
    var n := At(t, p);
    var kv := (n.key, n.value);
    var sp := s + [p];
    var pl := p + [false];
    var m1 := m + {p};
    var left := Sub(t, pl);
    var mf := m + Sub(t, p);
    SubSplit(t, p, m);
    assert mf == m1 + left + Sub(t, p + [true]);
    AtSnoc(t, p, false);
    StackPop(t, s, p, m, mf);
    var rest := PreSteps(t, Walk(s, mf));
    calc {
      PreSteps(t, Walk(sp, m));
    == { PreVisit(t, s, p, m); }
      [kv] + PreSteps(t, Walk(sp + [pl], m1));
    == { PreSubtree(t, sp, pl, m1); }
      [kv] + (Preorder(n.left) + PreSteps(t, Walk(sp, m1 + left)));
    == { SubNode(t, pl); PreAfterLeft(t, s, p, m1 + left, mf); }
      [kv] + (Preorder(n.left) + (Preorder(n.right) + rest));
    == { Assoc(kv, Preorder(n.left), Preorder(n.right), rest); }
      Preorder(n) + rest;
    }
  }

  lemma {:induction false} PreSubtreeNoLeft<V>(t: AvlTree<V>, s: seq<Path>, p: Path, m: set<Path>)
    requires StackValid(t, Walk(s + [p], m))
    requires StackValid(t, Walk(s, m)) && Sub(t, p) !! m
    requires At(t, p).Node? && At(t, p).left.Nil? && |p| == |s|
    ensures PreSteps(t, Walk(s + [p], m)) == Preorder(At(t, p)) + PreSteps(t, Walk(s, m + Sub(t, p)))
    decreases Size(At(t, p)), 2
  {
    var n := At(t, p);
    var kv := (n.key, n.value);
    var sp := s + [p];
    var m1 := m + {p};
    var mf := m + Sub(t, p);
    SubSplit(t, p, m);
    assert mf == m1 + Sub(t, p + [true]);
    AtSnoc(t, p, false);
    StackPop(t, s, p, m, mf);
    var rest := PreSteps(t, Walk(s, mf));
    calc {
      PreSteps(t, Walk(sp, m));
    == { PreVisit(t, s, p, m); }
      [kv] + PreSteps(t, Walk(sp, m1));
    == { PreAfterLeft(t, s, p, m1, mf); }
      [kv] + (Preorder(n.right) + rest);
    == { PreorderNoLeft(n); Assoc2(kv, Preorder(n.right), rest); }
      Preorder(n) + rest;
    }
  }

  lemma PreorderNoLeft<V>(n: AvlTree<V>)
    requires n.Node? && n.left.Nil?
    ensures Preorder(n) == [(n.key, n.value)] + Preorder(n.right)
  {
    assert Preorder(n.left) == [];
  }

  lemma Assoc2<X>(x: X, a: seq<X>, b: seq<X>)
    ensures [x] + (a + b) == [x] + a + b
  {
  }

  lemma Assoc<X>(x: X, a: seq<X>, b: seq<X>, c: seq<X>)
    ensures [x] + (a + (b + c)) == [x] + a + b + c
  {
  }

  /** Back at `p` with its left subtree done: the right subtree, then the pop, after which
      the marks are `mf`. */
  lemma {:induction false} PreAfterLeft<V>(t: AvlTree<V>, s: seq<Path>, p: Path, m: set<Path>, mf: set<Path>)
    requires StackValid(t, Walk(s + [p], m)) && p in m
    requires At(t, p).Node?
    requires At(t, p).left.Node? ==> p + [false] in m
    requires Sub(t, p + [true]) !! m
    requires mf == m + Sub(t, p + [true])
    ensures StackValid(t, Walk(s, mf))
    ensures PreSteps(t, Walk(s + [p], m)) == Preorder(At(t, p).right) + PreSteps(t, Walk(s, mf))
    decreases Size(At(t, p)), 1
  {
    StackPop(t, s, p, m, mf);
    AtSnoc(t, p, true);
    if At(t, p).right.Node? {
      PreAfterLeftRight(t, s, p, m, mf);
    } else {
      PreAfterLeftLeaf(t, s, p, m, mf);
    }
  }

  lemma {:induction false} PreAfterLeftRight<V>(t: AvlTree<V>, s: seq<Path>, p: Path, m: set<Path>, mf: set<Path>)
    requires StackValid(t, Walk(s + [p], m)) && StackValid(t, Walk(s, mf)) && p in m
    requires At(t, p).Node? && At(t, p + [true]).Node?
    requires At(t, p).left.Node? ==> p + [false] in m
    requires Sub(t, p + [true]) !! m
    requires mf == m + Sub(t, p + [true])
    ensures PreSteps(t, Walk(s + [p], m)) == Preorder(At(t, p + [true])) + PreSteps(t, Walk(s, mf))
    decreases Size(At(t, p)), 0
  {
    var sp := s + [p];
    var pr := p + [true];
    AtSnoc(t, p, true);
    SubNode(t, pr);
    assert pr in Sub(t, pr);
    PreRevisitRight(t, s, p, m);
    PreSubtree(t, sp, pr, m);
    PreRevisitDone(t, s, p, mf);
  }

  /** A revisit of `p` with its left child done and its right child unmarked pushes the
      right child. */
  lemma PreRevisitRight<V>(t: AvlTree<V>, s: seq<Path>, p: Path, m: set<Path>)
    requires StackValid(t, Walk(s + [p], m)) && p in m
    requires At(t, p).Node? && At(t, p).right.Node? && p + [true] !in m
    requires At(t, p).left.Node? ==> p + [false] in m
    ensures StackValid(t, Walk(s + [p] + [p + [true]], m))
    ensures PreSteps(t, Walk(s + [p], m)) == PreSteps(t, Walk(s + [p] + [p + [true]], m))
  {
    PreStepRevisit(t, s, p, m);
    PreStepsUnfold(t, Walk(s + [p], m));
  }

  /** A revisit of `p` with both children done pops it. */
  lemma PreRevisitDone<V>(t: AvlTree<V>, s: seq<Path>, p: Path, m: set<Path>)
    requires StackValid(t, Walk(s + [p], m)) && p in m && At(t, p).Node?
    requires At(t, p).left.Node? ==> p + [false] in m
    requires At(t, p).right.Node? ==> p + [true] in m
    ensures StackValid(t, Walk(s, m))
    ensures PreSteps(t, Walk(s + [p], m)) == PreSteps(t, Walk(s, m))
  {
    PreStepRevisit(t, s, p, m);
    PreStepsUnfold(t, Walk(s + [p], m));
  }

  lemma PreAfterLeftLeaf<V>(t: AvlTree<V>, s: seq<Path>, p: Path, m: set<Path>, mf: set<Path>)
    requires StackValid(t, Walk(s + [p], m)) && StackValid(t, Walk(s, mf)) && p in m
    requires At(t, p).Node? && At(t, p + [true]).Nil?
    requires At(t, p).left.Node? ==> p + [false] in m
    requires mf == m + Sub(t, p + [true])
    ensures PreSteps(t, Walk(s + [p], m)) == Preorder(At(t, p + [true])) + PreSteps(t, Walk(s, mf))
  {
    var sp := s + [p];
    AtSnoc(t, p, true);
    assert mf == m by {
      SubNode(t, p + [true]);
    }
    calc {
      PreSteps(t, Walk(sp, m));
    == { PreStepRevisit(t, s, p, m); PreStepsUnfold(t, Walk(sp, m)); }
      PreSteps(t, Walk(s, mf));
    == { AppendNil(Preorder(At(t, p + [true])), PreSteps(t, Walk(s, mf))); }
      Preorder(At(t, p + [true])) + PreSteps(t, Walk(s, mf));
    }
  }

  /** A preorder iterator yields every node exactly once, parent before children, left
      subtree before right: exactly the recursive preorder sequence. */
  lemma PreorderYields<V>(t: AvlTree<V>)
    ensures PreCollect(t, Start(t)) == Preorder(t)
    ensures |PreCollect(t, Start(t))| == Size(t)
  {
    PreCollectSteps(t, Start(t));
    PreStepsAll(t);
    PreorderSize(t);
  }

  lemma {:induction false} PreStepsAll<V>(t: AvlTree<V>)
    ensures PreSteps(t, Start(t)) == Preorder(t)
  {
    if t.Node? {
      var none: seq<Path> := [];
      var all := {} + Sub(t, []);
      assert Start(t) == Walk(none + [[]], {});
      calc {
        PreSteps(t, Walk(none + [[]], {}));
      == { PreSubtree(t, none, [], {}); }
        Preorder(At(t, [])) + PreSteps(t, Walk(none, all));
      == { assert PreSteps(t, Walk(none, all)) == []; }
        Preorder(At(t, [])) + [];
      == { assert At(t, []) == t; }
        Preorder(t);
      }
    }
  }

  lemma {:induction false} PreorderSize<V>(t: AvlTree<V>)
    ensures |Preorder(t)| == Size(t)
  {
    match t
    case Nil =>
    case Node(_, _, _, l, r) =>
      PreorderSize(l);
      PreorderSize(r);
  }

  // ----------------------------------------------------------------- inorder

  /** One pass of `Inorder::next` before its tail: descend into an unmarked left child;
      otherwise mark the top, and on a new mark push its right child (or pop it) and emit
      it; on an old mark pop it. */
  function InStep<V>(t: AvlTree<V>, w: Walk): (res: (Walk, Option<(int, V)>))
    requires StackValid(t, w) && |w.stack| > 0
    ensures StackValid(t, res.0)
    ensures Measure(t, res.0) < Measure(t, w)
    ensures res.1.Some? ==> res.0.marked == w.marked + {w.stack[|w.stack| - 1]}
    ensures res.1.Some? ==> w.stack[|w.stack| - 1] !in w.marked
  {
    var p := w.stack[|w.stack| - 1];
    var n := At(t, p);
    AtSnoc(t, p, false);
    AtSnoc(t, p, true);
    if n.left.Node? && p + [false] !in w.marked then
      MeasurePush(t, w, false);
      (Walk(w.stack + [p + [false]], w.marked), None)
    else if p !in w.marked then
      var marked := w.marked + {p};
      MeasureMark(t, w);
      var stack := (
        if n.right.Node? then
          if p + [true] in marked then
            MeasurePushMarked(t, Walk(w.stack, marked), true);
            w.stack + [p + [true]]
          else
            MeasurePush(t, Walk(w.stack, marked), true);
            w.stack + [p + [true]]
        else
          MeasurePop(t, Walk(w.stack, marked));
          w.stack[..|w.stack| - 1]);
      (Walk(stack, marked), Some((n.key, n.value)))
    else
      MeasurePop(t, w);
      (Walk(w.stack[..|w.stack| - 1], w.marked), None)
  }

  /** `Inorder::next`. */
  function InNext<V>(t: AvlTree<V>, w: Walk): (res: (Walk, Option<(int, V)>))
    requires StackValid(t, w)
    ensures StackValid(t, res.0)
    ensures res.1.None? ==> |res.0.stack| == 0
    ensures |w.stack| > 0 ==> Measure(t, res.0) < Measure(t, w)
    ensures |w.stack| == 0 ==> res == (w, None)
    decreases Measure(t, w)
  {
    if |w.stack| == 0 then (w, None)
    else
      var (w', o) := InStep(t, w);
      if o.Some? then (w', o) else InNext(t, w')
  }

  /** Everything an `Inorder` iterator in state `w` yields. */
  function InCollect<V>(t: AvlTree<V>, w: Walk): seq<(int, V)>
    requires StackValid(t, w)
    decreases Measure(t, w)
  {
    var (w', o) := InNext(t, w);
    if o.None? then [] else [o.value] + InCollect(t, w')
  }

  ghost function InSteps<V>(t: AvlTree<V>, w: Walk): seq<(int, V)>
    requires StackValid(t, w)
    decreases Measure(t, w)
  {
    if |w.stack| == 0 then []
    else
      var (w', o) := InStep(t, w);
      Emit(o) + InSteps(t, w')
  }

  lemma {:induction false} InNextSteps<V>(t: AvlTree<V>, w: Walk)
    requires StackValid(t, w)
    ensures InSteps(t, w) == Emit(InNext(t, w).1) + InSteps(t, InNext(t, w).0)
    decreases Measure(t, w)
  {
    if |w.stack| > 0 {
      var (w', o) := InStep(t, w);
      if o.None? {
        InNextSteps(t, w');
      }
    }
  }

  lemma {:induction false} InCollectSteps<V>(t: AvlTree<V>, w: Walk)
    requires StackValid(t, w)
    ensures InCollect(t, w) == InSteps(t, w)
    decreases Measure(t, w)
  {
    var (w', o) := InNext(t, w);
    InNextSteps(t, w);
    if o.Some? {
      InCollectSteps(t, w');
    } else {
      assert InSteps(t, w') == [];
    }
  }

  lemma InStepsUnfold<V>(t: AvlTree<V>, w: Walk)
    requires StackValid(t, w) && |w.stack| > 0
    ensures InSteps(t, w) == Emit(InStep(t, w).1) + InSteps(t, InStep(t, w).0)
  {
  }

  /** At `p` with an unmarked left child: descend into it, emitting nothing. */
  lemma InDescend<V>(t: AvlTree<V>, s: seq<Path>, p: Path, m: set<Path>)
    requires StackValid(t, Walk(s + [p], m))
    requires At(t, p).Node? && |p| == |s|
    requires At(t, p + [false]).Node? && p + [false] !in m
    ensures InSteps(t, Walk(s + [p], m)) == InSteps(t, Walk(s + [p] + [p + [false]], m))
  {
    var w := Walk(s + [p], m);
    assert w.stack[|w.stack| - 1] == p;
    AtSnoc(t, p, false);
    InStepsUnfold(t, w);
  }

  /** At an unmarked `p` whose left subtree is done: mark and emit `p`, then go on to its
      right child, or pop `p` when it has none. */
  lemma InEmit<V>(t: AvlTree<V>, s: seq<Path>, p: Path, m: set<Path>)
    requires StackValid(t, Walk(s + [p], m)) && StackValid(t, Walk(s, m))
    requires At(t, p).Node? && |p| == |s| && p !in m
    requires At(t, p + [false]).Node? ==> p + [false] in m
    ensures At(t, p + [true]).Node? ==>
      InSteps(t, Walk(s + [p], m)) == [(At(t, p).key, At(t, p).value)] + InSteps(t, Walk(s + [p] + [p + [true]], m + {p}))
    ensures At(t, p + [true]).Nil? ==>
      InSteps(t, Walk(s + [p], m)) == [(At(t, p).key, At(t, p).value)] + InSteps(t, Walk(s, m + {p}))
  {
    var w := Walk(s + [p], m);
    assert w.stack[|w.stack| - 1] == p;
    assert w.stack[..|w.stack| - 1] == s;
    AtSnoc(t, p, false);
    AtSnoc(t, p, true);
    InStepsUnfold(t, w);
  }

  /** At a marked `p` whose left subtree is done: pop it, emitting nothing. */
  lemma InLeave<V>(t: AvlTree<V>, s: seq<Path>, p: Path, m: set<Path>)
    requires StackValid(t, Walk(s + [p], m)) && StackValid(t, Walk(s, m))
    requires At(t, p).Node? && p in m
    requires At(t, p + [false]).Node? ==> p + [false] in m
    ensures InSteps(t, Walk(s + [p], m)) == InSteps(t, Walk(s, m))
  {
    var w := Walk(s + [p], m);
    assert w.stack[|w.stack| - 1] == p;
    assert w.stack[..|w.stack| - 1] == s;
    AtSnoc(t, p, false);
    InStepsUnfold(t, w);
  }

  /** The inorder counterpart of `PreSubtree`. */
  lemma {:induction false} InSubtree<V>(t: AvlTree<V>, s: seq<Path>, p: Path, m: set<Path>)
    requires StackValid(t, Walk(s + [p], m))
    requires Sub(t, p) !! m
    ensures StackValid(t, Walk(s, m + Sub(t, p)))
    ensures InSteps(t, Walk(s + [p], m)) == Inorder(At(t, p)) + InSteps(t, Walk(s, m + Sub(t, p)))
    decreases Size(At(t, p)), 3
  {
    StackPop(t, s, p, m, m + Sub(t, p));
    AtSnoc(t, p, false);
    if At(t, p).left.Node? {
      InSubtreeLeft(t, s, p, m);
    } else {
      InSubtreeNoLeft(t, s, p, m);
    }
  }

  lemma {:induction false} InSubtreeLeft<V>(t: AvlTree<V>, s: seq<Path>, p: Path, m: set<Path>)
    requires StackValid(t, Walk(s + [p], m))
    requires StackValid(t, Walk(s, m)) && Sub(t, p) !! m
    requires At(t, p).Node? && At(t, p + [false]).Node? && |p| == |s|
    ensures InSteps(t, Walk(s + [p], m)) == Inorder(At(t, p)) + InSteps(t, Walk(s, m + Sub(t, p)))
    decreases Size(At(t, p)), 2
  {
    var n := At(t, p);
    var kv := (n.key, n.value);
    var left, right := Sub(t, p + [false]), Sub(t, p + [true]);
    var ml, mf := m + left, m + Sub(t, p);
    SubSplit(t, p, m);
    assert mf == ml + {p} + right;
    AtSnoc(t, p, false);
    StackPop(t, s, p, m, mf);
    var rest := InSteps(t, Walk(s, mf));
    calc {
      InSteps(t, Walk(s + [p], m));
    == { InLeftSubtree(t, s, p, m); }
      Inorder(n.left) + InSteps(t, Walk(s + [p], ml));
    == { InAfterLeft(t, s, p, ml, mf); }
      Inorder(n.left) + ([kv] + (Inorder(n.right) + rest));
    == { Assoc3(Inorder(n.left), kv, Inorder(n.right), rest); }
      Inorder(n) + rest;
    }
  }

  /** At `p` with an unmarked left subtree: that subtree in order, then back at `p`. */
  lemma {:induction false} InLeftSubtree<V>(t: AvlTree<V>, s: seq<Path>, p: Path, m: set<Path>)
    requires StackValid(t, Walk(s + [p], m))
    requires At(t, p).Node? && At(t, p + [false]).Node? && |p| == |s|
    requires Sub(t, p + [false]) !! m
    ensures InSteps(t, Walk(s + [p], m)) == Inorder(At(t, p + [false])) + InSteps(t, Walk(s + [p], m + Sub(t, p + [false])))
    decreases Size(At(t, p)), 1
  {
    AtSnoc(t, p, false);
    SubNode(t, p + [false]);
    InDescend(t, s, p, m);
    InSubtree(t, s + [p], p + [false], m);
  }

  lemma {:induction false} InSubtreeNoLeft<V>(t: AvlTree<V>, s: seq<Path>, p: Path, m: set<Path>)
    requires StackValid(t, Walk(s + [p], m))
    requires StackValid(t, Walk(s, m)) && Sub(t, p) !! m
    requires At(t, p).Node? && At(t, p + [false]).Nil? && |p| == |s|
    ensures InSteps(t, Walk(s + [p], m)) == Inorder(At(t, p)) + InSteps(t, Walk(s, m + Sub(t, p)))
    decreases Size(At(t, p)), 2
  {
    var n := At(t, p);
    var mf := m + Sub(t, p);
    SubSplit(t, p, m);
    assert mf == m + {p} + Sub(t, p + [true]);
    AtSnoc(t, p, false);
    InAfterLeft(t, s, p, m, mf);
    InorderNoLeft(n);
    Assoc2((n.key, n.value), Inorder(n.right), InSteps(t, Walk(s, mf)));
  }

  lemma InorderNoLeft<V>(n: AvlTree<V>)
    requires n.Node? && n.left.Nil?
    ensures Inorder(n) == [(n.key, n.value)] + Inorder(n.right)
  {
    assert Inorder(n.left) == [];
  }

  /** From `p` with its left subtree done: `p`, its right subtree, then the pop, after
      which the marks are `mf`. */
  lemma {:induction false} InAfterLeft<V>(t: AvlTree<V>, s: seq<Path>, p: Path, m: set<Path>, mf: set<Path>)
    requires StackValid(t, Walk(s + [p], m))
    requires At(t, p).Node? && |p| == |s| && p !in m
    requires At(t, p + [false]).Node? ==> p + [false] in m
    requires Sub(t, p + [true]) !! m + {p}
    requires mf == m + {p} + Sub(t, p + [true])
    ensures StackValid(t, Walk(s, mf))
    ensures InSteps(t, Walk(s + [p], m)) ==
      [(At(t, p).key, At(t, p).value)] + (Inorder(At(t, p).right) + InSteps(t, Walk(s, mf)))
    decreases Size(At(t, p)), 1
  {
    StackPop(t, s, p, m, mf);
    StackPop(t, s, p, m, m);
    AtSnoc(t, p, true);
    if At(t, p).right.Node? {
      InAfterLeftRight(t, s, p, m, mf);
    } else {
      InAfterLeftLeaf(t, s, p, m, mf);
    }
  }

  lemma {:induction false} InAfterLeftRight<V>(t: AvlTree<V>, s: seq<Path>, p: Path, m: set<Path>, mf: set<Path>)
    requires StackValid(t, Walk(s + [p], m)) && StackValid(t, Walk(s, m)) && StackValid(t, Walk(s, mf))
    requires At(t, p).Node? && |p| == |s| && p !in m
    requires At(t, p + [false]).Node? ==> p + [false] in m
    requires At(t, p + [true]).Node? && Sub(t, p + [true]) !! m + {p}
    requires mf == m + {p} + Sub(t, p + [true])
    ensures InSteps(t, Walk(s + [p], m)) ==
      [(At(t, p).key, At(t, p).value)] + (Inorder(At(t, p + [true])) + InSteps(t, Walk(s, mf)))
    decreases Size(At(t, p)), 0
  {
    var n := At(t, p);
    var kv := (n.key, n.value);
    var sp := s + [p];
    var pr := p + [true];
    var m1 := m + {p};
    AtSnoc(t, p, true);
    calc {
      InSteps(t, Walk(sp, m));
    == { InEmit(t, s, p, m); }
      [kv] + InSteps(t, Walk(sp + [pr], m1));
    == { SubNode(t, pr); assert pr in Sub(t, pr); InSubtree(t, sp, pr, m1); }
      [kv] + (Inorder(n.right) + InSteps(t, Walk(sp, mf)));
    == { SubNode(t, pr); InLeave(t, s, p, mf); }
      [kv] + (Inorder(n.right) + InSteps(t, Walk(s, mf)));
    }
  }

  lemma InAfterLeftLeaf<V>(t: AvlTree<V>, s: seq<Path>, p: Path, m: set<Path>, mf: set<Path>)
    requires StackValid(t, Walk(s + [p], m)) && StackValid(t, Walk(s, m)) && StackValid(t, Walk(s, mf))
    requires At(t, p).Node? && |p| == |s| && p !in m
    requires At(t, p + [false]).Node? ==> p + [false] in m
    requires At(t, p + [true]).Nil?
    requires mf == m + {p} + Sub(t, p + [true])
    ensures InSteps(t, Walk(s + [p], m)) ==
      [(At(t, p).key, At(t, p).value)] + (Inorder(At(t, p + [true])) + InSteps(t, Walk(s, mf)))
  {
    var n := At(t, p);
    assert mf == m + {p} by {
      SubNode(t, p + [true]);
    }
    calc {
      InSteps(t, Walk(s + [p], m));
    == { InEmit(t, s, p, m); }
      [(n.key, n.value)] + InSteps(t, Walk(s, mf));
    == { AppendNil(Inorder(At(t, p + [true])), InSteps(t, Walk(s, mf))); }
      [(n.key, n.value)] + (Inorder(At(t, p + [true])) + InSteps(t, Walk(s, mf)));
    }
  }

  lemma AppendNil<X>(a: seq<X>, b: seq<X>)
    requires a == []
    ensures a + b == b
  {
  }

  lemma Assoc3<X>(a: seq<X>, x: X, b: seq<X>, c: seq<X>)
    ensures a + ([x] + (b + c)) == a + [x] + b + c
  {
  }

  /** An inorder iterator yields exactly the in-order sequence of the tree. */
  lemma InorderYields<V>(t: AvlTree<V>)
    ensures InCollect(t, Start(t)) == Inorder(t)
    ensures |InCollect(t, Start(t))| == Size(t)
  {
    InCollectSteps(t, Start(t));
    InStepsAll(t);
    KeysInorder(t);
  }

  lemma {:induction false} InStepsAll<V>(t: AvlTree<V>)
    ensures InSteps(t, Start(t)) == Inorder(t)
  {
    if t.Node? {
      var none: seq<Path> := [];
      var all := {} + Sub(t, []);
      assert Start(t) == Walk(none + [[]], {});
      calc {
        InSteps(t, Walk(none + [[]], {}));
      == { InSubtree(t, none, [], {}); }
        Inorder(At(t, [])) + InSteps(t, Walk(none, all));
      == { assert InSteps(t, Walk(none, all)) == []; }
        Inorder(At(t, [])) + [];
      == { assert At(t, []) == t; }
        Inorder(t);
      }
    }
  }

  /** On a search tree the inorder iterator yields strictly ascending keys. */
  lemma InorderAscending<V>(t: AvlTree<V>)
    requires Ordered(t)
    ensures var s := InCollect(t, Start(t));
      forall i, j | 0 <= i < j < |s| :: s[i].0 < s[j].0
  {
    InorderYields(t);
    OrderedInorder(t);
  }

  /** An iterator over an empty map yields nothing. */
  lemma EmptyYieldsNothing<V>(t: AvlTree<V>)
    requires t.Nil?
    ensures PreNext(t, Start(t)).1 == None && InNext(t, Start(t)).1 == None
  {
  }
}

=== FILE: avl_map.dfy ===
/**
  The `AVLTreeMap` façade of tree/avl-tree/src/lib.rs: an optional root node and a length
  counter. The counter is bumped before the insertion and taken back when the insertion
  only replaced a value.
*/
module AvlMap {
  import opened Wrappers
  import opened Bst
  import opened AvlNode

  datatype AvlTreeMap<V> = AvlTreeMap(root: AvlTree<V>, len: nat)

  /** The map's invariant: an ordered AVL tree whose node count is the counter. */
  ghost predicate Valid<V>(m: AvlTreeMap<V>) {
    AvlNode.Valid(m.root) && m.len == Size(m.root)
  }

  /** The finite map the structure stands for. */
  ghost function Contents<V>(m: AvlTreeMap<V>): map<int, V> {
    Entries(m.root)
  }

  function New<V>(): AvlTreeMap<V> {
    AvlTreeMap(Nil, 0)
  }

  /** What `new` builds is a valid map with no entries and length 0. */
  lemma NewEmpty<V>(m: AvlTreeMap<V>)
    requires m == New()
    ensures Valid(m) && Contents(m) == map[] && m.len == 0
  {
  }

  function Len<V>(m: AvlTreeMap<V>): (n: nat)
    ensures Valid(m) ==> n == |Contents(m)|
  {
    OrderedSizeWhen(m.root);
    m.len
  }

  function IsEmpty<V>(m: AvlTreeMap<V>): (b: bool)
    ensures b <==> m.len == 0
    ensures Valid(m) ==> (b <==> Contents(m) == map[])
  {
    OrderedSizeWhen(m.root);
    m.len == 0
  }

  /** `insert`: a new key adds an entry and one to the length; an existing key has its
      value replaced and returned, the length unchanged. */
  function Insert<V>(m: AvlTreeMap<V>, k: int, v: V): (res: (AvlTreeMap<V>, Option<V>))
    requires Valid(m)
    ensures Valid(res.0)
    ensures Contents(res.0) == Contents(m)[k := v]
    ensures res.1 == (if k in Contents(m) then Some(Contents(m)[k]) else None)
    ensures res.0.len == if k in Contents(m) then m.len else m.len + 1
  {
    var len := m.len + 1;
    if m.root.Nil? then
      (AvlTreeMap(Leaf(k, v), len), None)
    else
      var (root, replaced) := AvlNode.Insert(m.root, k, v);
      InsertSize(m.root, root, k, v, replaced);
      (AvlTreeMap(root, if replaced.Some? then len - 1 else len), replaced)
  }

  lemma InsertSize<V>(t: AvlTree<V>, u: AvlTree<V>, k: int, v: V, replaced: Option<V>)
    requires AvlNode.Valid(t) && AvlNode.Valid(u) && Entries(u) == Entries(t)[k := v]
    requires replaced == (if k in Entries(t) then Some(Entries(t)[k]) else None)
    ensures Size(u) == if replaced.Some? then Size(t) else Size(t) + 1
  {
    OrderedSize(t);
    OrderedSize(u);
  }

  /** `remove`: None on an empty map or an absent key; otherwise the entry goes, its value
      is returned and the length drops by one. */
  function Remove<V>(m: AvlTreeMap<V>, k: int): (res: (AvlTreeMap<V>, Option<V>))
    requires Valid(m)
    ensures Valid(res.0)
    ensures Contents(res.0) == Contents(m) - {k}
    ensures res.1 == (if k in Contents(m) then Some(Contents(m)[k]) else None)
    ensures res.0.len == if k in Contents(m) then m.len - 1 else m.len
    ensures k !in Contents(m) ==> res.0 == m
  {
    if m.root.Nil? then
      (m, None)
    else
      var (root, removed) := RemoveNode(m.root, k);
      EntriesKeys(m.root);
      RemoveSize(m.root, root, k);
      if removed.Some? then
        (AvlTreeMap(root, m.len - 1), Some(removed.value.1))
      else
        (AvlTreeMap(root, m.len), None)
  }

  lemma RemoveSize<V>(t: AvlTree<V>, u: AvlTree<V>, k: int)
    requires Ordered(t) && Ordered(u) && Entries(u) == Entries(t) - {k}
    ensures Size(u) == if k in Entries(t) then Size(t) - 1 else Size(t)
  {
    OrderedSize(t);
    OrderedSize(u);
  }

  /** `get`: the value stored under `k`, if any. */
  function Get<V>(m: AvlTreeMap<V>, k: int): (r: Option<V>)
    requires Valid(m)
    ensures r == if k in Contents(m) then Some(Contents(m)[k]) else None
  {
    EntriesKeys(m.root);
    match GetNode(m.root, k)
    case None => None
    case Some(n) => Some(n.value)
  }

  /** The map built by the tests' `sample`: 0 Mary, 2 John, 4 Peter, 6 Randal. */
  function Sample(): (m: AvlTreeMap<string>)
    ensures Valid(m) && Contents(m) == SampleContents()
  {
    var m0 := New();
    NewEmpty(m0);
    var m1 := Insert(m0, 0, "Mary").0;
    var m2 := Insert(m1, 2, "John").0;
    var m3 := Insert(m2, 4, "Peter").0;
    Insert(m3, 6, "Randal").0
  }

  function SampleContents(): map<int, string> {
    map[0 := "Mary", 2 := "John", 4 := "Peter", 6 := "Randal"]
  }

  /** The `insert_elt` test: a new key gives None, an existing one its old value. */
  lemma InsertScenario(m: AvlTreeMap<string>)
    requires Valid(m) && Contents(m) == SampleContents()
    ensures Insert(m, 3, "Fox").1 == None
    ensures Insert(m, 0, "Milly").1 == Some("Mary")
  {
    assert 3 !in Contents(m);
    assert 0 in Contents(m) && Contents(m)[0] == "Mary";
  }

  /** The `remove` test: the four keys come back in the order removed, then 7 is absent
      and the map is empty. */
  lemma RemoveScenario(m: AvlTreeMap<string>)
    requires Valid(m) && Contents(m) == SampleContents()
    ensures var (m1, a) := Remove(m, 2);
            var (m2, b) := Remove(m1, 0);
            var (m3, c) := Remove(m2, 4);
            var (m4, d) := Remove(m3, 6);
            var (_, e) := Remove(m4, 7);
            a == Some("John") && b == Some("Mary") && c == Some("Peter") && d == Some("Randal")
            && e == None && IsEmpty(m4)
  {
    var (m1, a) := Remove(m, 2);
    var (m2, b) := Remove(m1, 0);
    assert Contents(m2) == SampleContents() - {2} - {0};
    RemoveLastTwo(m2);
  }

  lemma RemoveLastTwo(m2: AvlTreeMap<string>)
    requires Valid(m2) && Contents(m2) == SampleContents() - {2} - {0}
    ensures var (m3, c) := Remove(m2, 4);
            var (m4, d) := Remove(m3, 6);
            var (_, e) := Remove(m4, 7);
            c == Some("Peter") && d == Some("Randal") && e == None && IsEmpty(m4)
  {
    var (m3, c) := Remove(m2, 4);
    var (m4, d) := Remove(m3, 6);
    assert Contents(m4).Keys == {} by {
      assert Contents(m4).Keys == SampleContents().Keys - {2, 0, 4, 6};
    }
  }

  /** The `get` test. */
  lemma GetScenario(m: AvlTreeMap<string>)
    requires Valid(m) && Contents(m) == SampleContents()
    ensures Get(m, 2) == Some("John") && Get(m, 8) == None
  {
  }
}

=== FILE: avl_node.dfy ===
/**
  The AVL node operations of tree/avl-tree/src/node/mod.rs. The metadata of a node is
  its stored height. Rotations that swap node storage in place are
  functions returning the new subtree root.
*/
module AvlNode {
  import opened Wrappers
  import opened Bst

  type AvlTree<V> = Tree<int, V>

  function Max(a: int, b: int): int {
    if a < b then b else a
  }

  /** The height stored in a child slot; an absent child counts as -1. */
  function StoredHeight<V>(t: AvlTree<V>): int {
    if t.Nil? then -1 else t.meta
  }

  /** The height by its formula: -1 for an empty subtree, 1 + the larger child height. */
  ghost function Height<V>(t: AvlTree<V>): (h: int)
    ensures h >= -1
    ensures t.Node? ==> h >= 0
  {
    match t
    case Nil => -1
    case Node(_, _, _, l, r) => 1 + Max(Height(l), Height(r))
  }

  /** Every stored height equals the formula. */
  ghost predicate HeightsCorrect<V>(t: AvlTree<V>) {
    match t
    case Nil => true
    case Node(_, _, h, l, r) => h == Height(t) && HeightsCorrect(l) && HeightsCorrect(r)
  }

  /** Every node's child heights differ by at most one. */
  ghost predicate Balanced<V>(t: AvlTree<V>) {
    match t
    case Nil => true
    case Node(_, _, _, l, r) => -1 <= Height(l) - Height(r) <= 1 && Balanced(l) && Balanced(r)
  }

  /** The AVL shape invariant. */
  ghost predicate Avl<V>(t: AvlTree<V>) {
    HeightsCorrect(t) && Balanced(t)
  }

  /** The full node invariant: BST order plus the AVL shape. */
  ghost predicate Valid<V>(t: AvlTree<V>) {
    Ordered(t) && Avl(t)
  }

  function Leaf<V>(k: int, v: V): (r: AvlTree<V>)
    ensures Valid(r) && Height(r) == 0 && Inorder(r) == [(k, v)]
  {
    Node(k, v, 0, Nil, Nil)
  }

  /** `update_height`: the largest present child height (starting from -1), plus one. */
  function UpdateHeight<V>(t: AvlTree<V>): (r: AvlTree<V>)
    requires t.Node?
    ensures r.Node? && r.key == t.key && r.value == t.value && r.left == t.left && r.right == t.right
    ensures HeightsCorrect(t.left) && HeightsCorrect(t.right) ==> HeightsCorrect(r)
  {
    t.(meta := 1 + Max(-1, Max(StoredHeight(t.left), StoredHeight(t.right))))
  }

  /** `bal_fct`: left height minus right height, absent children at -1. */
  function BalFct<V>(t: AvlTree<V>): (b: int)
    requires t.Node?
    ensures HeightsCorrect(t.left) && HeightsCorrect(t.right) ==> b == Height(t.left) - Height(t.right)
  {
    StoredHeight(t.left) - StoredHeight(t.right)
  }

  /** `rot_right`: the left child becomes the subtree root, the old root its right child. */
  function RotRight<V>(t: AvlTree<V>): (r: AvlTree<V>)
    requires t.Node? && t.left.Node?
    ensures r.Node? && Inorder(r) == Inorder(t)
    ensures HeightsCorrect(t.left.left) && HeightsCorrect(t.left.right) && HeightsCorrect(t.right)
      ==> HeightsCorrect(r) && HeightsCorrect(r.left) && HeightsCorrect(r.right)
  {
    var lowered := UpdateHeight(t.(left := t.left.right));
    UpdateHeight(t.left.(right := lowered))
  }

  /** `rot_left`: the mirror image of `rot_right`. */
  function RotLeft<V>(t: AvlTree<V>): (r: AvlTree<V>)
    requires t.Node? && t.right.Node?
    ensures r.Node? && Inorder(r) == Inorder(t)
    ensures HeightsCorrect(t.right.left) && HeightsCorrect(t.right.right) && HeightsCorrect(t.left)
      ==> HeightsCorrect(r) && HeightsCorrect(r.left) && HeightsCorrect(r.right)
  {
    var lowered := UpdateHeight(t.(right := t.right.left));
    UpdateHeight(t.right.(left := lowered))
  }

  /** `rot_left_right`: rotate the left child left, then the node right. */
  function RotLeftRight<V>(t: AvlTree<V>): (r: AvlTree<V>)
    requires t.Node? && t.left.Node? && t.left.right.Node?
    ensures r.Node? && Inorder(r) == Inorder(t)
    ensures HeightsCorrect(t.left) && HeightsCorrect(t.right) ==> HeightsCorrect(r)
  {
    assert HeightsCorrect(t.left) ==> HeightsCorrect(t.left.left) && HeightsCorrect(t.left.right);
    assert HeightsCorrect(t.left.right) ==>
      HeightsCorrect(t.left.right.left) && HeightsCorrect(t.left.right.right);
    RotRight(t.(left := RotLeft(t.left)))
  }

  /** `rot_right_left`: rotate the right child right, then the node left. */
  function RotRightLeft<V>(t: AvlTree<V>): (r: AvlTree<V>)
    requires t.Node? && t.right.Node? && t.right.left.Node?
    ensures r.Node? && Inorder(r) == Inorder(t)
    ensures HeightsCorrect(t.left) && HeightsCorrect(t.right) ==> HeightsCorrect(r)
  {
    assert HeightsCorrect(t.right) ==> HeightsCorrect(t.right.left) && HeightsCorrect(t.right.right);
    assert HeightsCorrect(t.right.left) ==>
      HeightsCorrect(t.right.left.left) && HeightsCorrect(t.right.left.right);
    RotLeft(t.(right := RotRight(t.right)))
  }

  /** `rebalance`: rotate when the balance factor leaves [-1, 1], then refresh the height. */
  function Rebalance<V>(t: AvlTree<V>): (r: AvlTree<V>)
    requires t.Node? && HeightsCorrect(t.left) && HeightsCorrect(t.right)
    ensures r.Node? && Inorder(r) == Inorder(t) && HeightsCorrect(r)
  {
    var s :=
      if BalFct(t) > 1 then
        if BalFct(t.left) >= 0 then RotRight(t) else RotLeftRight(t)
      else if BalFct(t) < -1 then
        if BalFct(t.right) <= 0 then RotLeft(t) else RotRightLeft(t)
      else
        t;
    UpdateHeight(s)
  }

  /** The invariant of a node holds of its children. */
  lemma AvlChildren<V>(t: AvlTree<V>)
    requires Avl(t) && t.Node?
    ensures Avl(t.left) && Avl(t.right) && t.meta == Height(t)
    ensures -1 <= Height(t.left) - Height(t.right) <= 1
  {
  }

  /** A correct stored height is the formula height. */
  lemma StoredHeightCorrect<V>(t: AvlTree<V>)
    requires HeightsCorrect(t)
    ensures StoredHeight(t) == Height(t)
  {
  }

  /** The single right rotation repairs a left-left imbalance of two. */
  lemma RotRightAvl<V>(t: AvlTree<V>)
    requires t.Node? && t.left.Node? && Avl(t.left) && Avl(t.right)
    requires Height(t.left) == Height(t.right) + 2
    requires Height(t.left.left) >= Height(t.left.right)
    ensures Avl(RotRight(t))
    ensures Height(t.left) <= Height(RotRight(t)) <= Height(t.left) + 1
  {
    var a, b, c := t.left.left, t.left.right, t.right;
    AvlChildren(t.left);
    StoredHeightCorrect(a);
    StoredHeightCorrect(b);
    StoredHeightCorrect(c);
    var inner := UpdateHeight(t.(left := b));
    StoredHeightCorrect(inner);
    assert Height(inner) == 1 + Max(Height(b), Height(c));
    assert Balanced(inner);
    var r := RotRight(t);
    assert r.left == a && r.right == inner;
  }

  /** The single left rotation repairs a right-right imbalance of two. */
  lemma RotLeftAvl<V>(t: AvlTree<V>)
    requires t.Node? && t.right.Node? && Avl(t.left) && Avl(t.right)
    requires Height(t.right) == Height(t.left) + 2
    requires Height(t.right.right) >= Height(t.right.left)
    ensures Avl(RotLeft(t))
    ensures Height(t.right) <= Height(RotLeft(t)) <= Height(t.right) + 1
  {
    var a, b, c := t.left, t.right.left, t.right.right;
    AvlChildren(t.right);
    StoredHeightCorrect(a);
    StoredHeightCorrect(b);
    StoredHeightCorrect(c);
    var inner := UpdateHeight(t.(right := b));
    StoredHeightCorrect(inner);
    assert Height(inner) == 1 + Max(Height(a), Height(b));
    assert Balanced(inner);
    var r := RotLeft(t);
    assert r.left == inner && r.right == c;
  }

  /** The left-right double rotation repairs a left-right imbalance of two. */
  lemma RotLeftRightAvl<V>(t: AvlTree<V>)
    requires t.Node? && t.left.Node? && Avl(t.left) && Avl(t.right)
    requires Height(t.left) == Height(t.right) + 2
    requires Height(t.left.left) < Height(t.left.right)
    ensures t.left.right.Node? && Avl(RotLeftRight(t))
    ensures Height(RotLeftRight(t)) == Height(t.left)
  {
    var l := t.left;
    var a, m, d := l.left, l.right, t.right;
    AvlChildren(l);
    AvlChildren(m);
    var b, c := m.left, m.right;
    StoredHeightCorrect(a);
    StoredHeightCorrect(b);
    StoredHeightCorrect(c);
    StoredHeightCorrect(d);
    var x := UpdateHeight(l.(right := b));
    var y := UpdateHeight(t.(left := c));
    StoredHeightCorrect(x);
    StoredHeightCorrect(y);
    assert Height(x) == 1 + Max(Height(a), Height(b));
    assert Height(y) == 1 + Max(Height(c), Height(d));
    assert Balanced(x) && Balanced(y);
    var r := RotLeftRight(t);
    assert RotLeft(l) == UpdateHeight(m.(left := x));
    assert r.left == x && r.right == y && r.key == m.key;
  }

  /** The right-left double rotation repairs a right-left imbalance of two. */
  lemma RotRightLeftAvl<V>(t: AvlTree<V>)
    requires t.Node? && t.right.Node? && Avl(t.left) && Avl(t.right)
    requires Height(t.right) == Height(t.left) + 2
    requires Height(t.right.right) < Height(t.right.left)
    ensures t.right.left.Node? && Avl(RotRightLeft(t))
    ensures Height(RotRightLeft(t)) == Height(t.right)
  {
    var r0 := t.right;
    var a, m, d := t.left, r0.left, r0.right;
    AvlChildren(r0);
    AvlChildren(m);
    var b, c := m.left, m.right;
    StoredHeightCorrect(a);
    StoredHeightCorrect(b);
    StoredHeightCorrect(c);
    StoredHeightCorrect(d);
    var x := UpdateHeight(t.(right := b));
    var y := UpdateHeight(r0.(left := c));
    StoredHeightCorrect(x);
    StoredHeightCorrect(y);
    assert Height(x) == 1 + Max(Height(a), Height(b));
    assert Height(y) == 1 + Max(Height(c), Height(d));
    assert Balanced(x) && Balanced(y);
    var r := RotRightLeft(t);
    assert RotRight(r0) == UpdateHeight(m.(right := y));
    assert r.left == x && r.right == y && r.key == m.key;
  }

  /** Rebalancing a node whose subtrees are AVL and whose balance factor is within [-2, 2]
      yields an AVL subtree whose height is the larger child height or one more; with a
      balance factor already within [-1, 1] nothing moves. */
  lemma RebalanceAvl<V>(t: AvlTree<V>)
    requires t.Node? && Avl(t.left) && Avl(t.right)
    requires -2 <= Height(t.left) - Height(t.right) <= 2
    ensures Avl(Rebalance(t))
    ensures Max(Height(t.left), Height(t.right)) <= Height(Rebalance(t))
                                                 <= Max(Height(t.left), Height(t.right)) + 1
    ensures -1 <= Height(t.left) - Height(t.right) <= 1 ==>
      Rebalance(t) == t.(meta := Max(Height(t.left), Height(t.right)) + 1)
  {
    StoredHeightCorrect(t.left);
    StoredHeightCorrect(t.right);
    var hl, hr := Height(t.left), Height(t.right);
    assert HeightsCorrect(t.left) && HeightsCorrect(t.right);
    if hl - hr == 2 {
      AvlChildren(t.left);
      StoredHeightCorrect(t.left.left);
      StoredHeightCorrect(t.left.right);
      if Height(t.left.left) >= Height(t.left.right) {
        RotRightAvl(t);
        StoredHeightCorrect(RotRight(t));
      } else {
        RotLeftRightAvl(t);
        StoredHeightCorrect(RotLeftRight(t));
      }
    } else if hr - hl == 2 {
      AvlChildren(t.right);
      StoredHeightCorrect(t.right.left);
      StoredHeightCorrect(t.right.right);
      if Height(t.right.right) >= Height(t.right.left) {
        RotLeftAvl(t);
        StoredHeightCorrect(RotLeft(t));
      } else {
        RotRightLeftAvl(t);
        StoredHeightCorrect(RotRightLeft(t));
      }
    }
  }

  /** `RebalanceAvl` stated as implications, for use inside function bodies. */
  lemma RebalanceAvlWhen<V>(t: AvlTree<V>)
    requires t.Node? && HeightsCorrect(t.left) && HeightsCorrect(t.right)
    ensures Avl(t.left) && Avl(t.right) && -2 <= Height(t.left) - Height(t.right) <= 2 ==>
      Avl(Rebalance(t)) &&
      Max(Height(t.left), Height(t.right)) <= Height(Rebalance(t)) <= Max(Height(t.left), Height(t.right)) + 1 &&
      (-1 <= Height(t.left) - Height(t.right) <= 1 ==> Height(Rebalance(t)) == Max(Height(t.left), Height(t.right)) + 1)
  {
    if Avl(t.left) && Avl(t.right) && -2 <= Height(t.left) - Height(t.right) <= 2 {
      RebalanceAvl(t);
    }
  }

  /** Rebalancing an AVL node changes nothing. */
  lemma RebalanceIdle<V>(t: AvlTree<V>)
    requires t.Node? && Avl(t)
    ensures Rebalance(t) == t
  {
    AvlChildren(t);
    RebalanceAvl(t);
  }

  /** What inserting (k, v) into `t` must produce: `r` and the replaced value. */
  ghost predicate InsertedInto<V>(t: AvlTree<V>, k: int, v: V, r: AvlTree<V>, replaced: Option<V>) {
    && r.Node? && HeightsCorrect(r)
    && MapInserted(t, k, v, r, replaced)
    && (Avl(t) ==> Avl(r) && Height(t) <= Height(r) <= Height(t) + 1)
  }

  /** `insert` on a present node: replace the value on a key match, otherwise descend to
      the side the key belongs to (hanging a new leaf where the slot is empty), then
      rebalance on the way back. Returns the new subtree and the replaced value. */
  function Insert<V>(t: AvlTree<V>, k: int, v: V): (res: (AvlTree<V>, Option<V>))
    requires t.Node? && HeightsCorrect(t)
    decreases t, 0
    ensures res.0.Node? && HeightsCorrect(res.0)
    ensures Keys(res.0) == Keys(t) + {k}
    ensures Avl(t) ==> Avl(res.0) && Height(t) <= Height(res.0) <= Height(t) + 1
    ensures Ordered(t) ==> Ordered(res.0) && Entries(res.0) == Entries(t)[k := v]
    ensures Ordered(t) ==> res.1 == (if k in Entries(t) then Some(Entries(t)[k]) else None)
  {
    if t.key == k then
      var r := Rebalance(t.(value := v));
      InsertHere(t, v);
      (r, Some(t.value))
    else if t.key < k then
      var (child, replaced) := SideInsert(t.right, k, v);
      InsertRightStep(t, k, v, child, replaced);
      (Rebalance(t.(right := child)), replaced)
    else
      var (child, replaced) := SideInsert(t.left, k, v);
      InsertLeftStep(t, k, v, child, replaced);
      (Rebalance(t.(left := child)), replaced)
  }

  /** `side_insert!`: an empty child slot receives a new leaf, a present child the insert. */
  function SideInsert<V>(c: AvlTree<V>, k: int, v: V): (res: (AvlTree<V>, Option<V>))
    requires HeightsCorrect(c)
    ensures InsertedInto(c, k, v, res.0, res.1)
    decreases c, 1
  {
    if c.Nil? then (Leaf(k, v), None) else Insert(c, k, v)
  }

  lemma InsertHere<V>(t: AvlTree<V>, v: V)
    requires t.Node? && HeightsCorrect(t)
    ensures InsertedInto(t, t.key, v, Rebalance(t.(value := v)), Some(t.value))
  {
    var s := t.(value := v);
    var r := Rebalance(s);
    InsertHereMap(t, v);
    MapInsertedInorder(t, t.key, v, s, r, Some(t.value));
    if Avl(t) {
      assert Avl(s);
      RebalanceIdle(s);
    }
  }

  /** Replacing one child by a subtree at most one taller keeps the rebalanced node AVL
      and its height within one of the original's. */
  lemma GrowStep<V>(t: AvlTree<V>, s: AvlTree<V>)
    requires t.Node? && s.Node? && HeightsCorrect(s.left) && HeightsCorrect(s.right)
    requires s.key == t.key && (s.left == t.left || s.right == t.right)
    requires Avl(t) ==> Avl(s.left) && Avl(s.right)
    requires Avl(t) ==> Height(t.left) <= Height(s.left) <= Height(t.left) + 1
    requires Avl(t) ==> Height(t.right) <= Height(s.right) <= Height(t.right) + 1
    ensures Avl(t) ==> Avl(Rebalance(s)) && Height(t) <= Height(Rebalance(s)) <= Height(t) + 1
  {
    if Avl(t) {
      AvlChildren(t);
      RebalanceAvl(s);
    }
  }

  lemma InsertRightStep<V>(t: AvlTree<V>, k: int, v: V, c: AvlTree<V>, replaced: Option<V>)
    requires t.Node? && HeightsCorrect(t) && t.key < k
    requires InsertedInto(t.right, k, v, c, replaced)
    ensures InsertedInto(t, k, v, Rebalance(t.(right := c)), replaced)
  {
    var s := t.(right := c);
    var r := Rebalance(s);
    SameInorder(s, r);
    GrowStep(t, s);
    InsertRightMap(t, k, v, c, replaced);
    MapInsertedInorder(t, k, v, s, r, replaced);
  }

  lemma InsertLeftStep<V>(t: AvlTree<V>, k: int, v: V, c: AvlTree<V>, replaced: Option<V>)
    requires t.Node? && HeightsCorrect(t) && k < t.key
    requires InsertedInto(t.left, k, v, c, replaced)
    ensures InsertedInto(t, k, v, Rebalance(t.(left := c)), replaced)
  {
    var s := t.(left := c);
    var r := Rebalance(s);
    SameInorder(s, r);
    GrowStep(t, s);
    InsertLeftMap(t, k, v, c, replaced);
    MapInsertedInorder(t, k, v, s, r, replaced);
  }

  /** Replacing one child by a subtree at most one shorter keeps the rebalanced node AVL
      and its height within one of the original's. */
  lemma ShrinkStep<V>(t: AvlTree<V>, s: AvlTree<V>)
    requires t.Node? && s.Node? && HeightsCorrect(s.left) && HeightsCorrect(s.right)
    requires s.key == t.key && (s.left == t.left || s.right == t.right)
    requires Avl(t) ==> Avl(s.left) && Avl(s.right)
    requires Avl(t) ==> Height(t.left) - 1 <= Height(s.left) <= Height(t.left)
    requires Avl(t) ==> Height(t.right) - 1 <= Height(s.right) <= Height(t.right)
    ensures Avl(t) ==> Avl(Rebalance(s)) && Height(t) - 1 <= Height(Rebalance(s)) <= Height(t)
  {
    if Avl(t) {
      AvlChildren(t);
      RebalanceAvl(s);
    }
  }

  /** `pop_min_node`: unhook the leftmost node, putting its right child in its place and
      rebalancing every node on the way back up. Returns the rest and the popped pair. */
  function PopMin<V>(t: AvlTree<V>): (res: (AvlTree<V>, (int, V)))
    requires t.Node? && HeightsCorrect(t)
    ensures HeightsCorrect(res.0)
    ensures Inorder(t) == [res.1] + Inorder(res.0)
    ensures Avl(t) ==> Avl(res.0) && Height(t) - 1 <= Height(res.0) <= Height(t)
  {
    if t.left.Nil? then
      (t.right, (t.key, t.value))
    else
      var (rest, m) := PopMin(t.left);
      var s := t.(left := rest);
      ShrinkStep(t, s);
      assert Inorder(t) == [m] + Inorder(s);
      (Rebalance(s), m)
  }

  /** The leftmost pair of `t` replaced by (k, v); the shape, hence every height, is kept.
      Returns the new subtree and the replaced pair. */
  function ReplaceMin<V>(t: AvlTree<V>, k: int, v: V): (res: (AvlTree<V>, (int, V)))
    requires t.Node?
    ensures res.0.Node? && Height(res.0) == Height(t)
    ensures HeightsCorrect(res.0) == HeightsCorrect(t) && Balanced(res.0) == Balanced(t)
    ensures |Inorder(t)| > 0 && Inorder(t)[0] == res.1
    ensures Inorder(res.0) == [(k, v)] + Inorder(t)[1..]
  {
    if t.left.Nil? then
      (t.(key := k, value := v), (t.key, t.value))
    else
      var (l, m) := ReplaceMin(t.left, k, v);
      assert Inorder(t) == Inorder(t.left) + [(t.key, t.value)] + Inorder(t.right);
      assert Inorder(t)[1..] == Inorder(t.left)[1..] + [(t.key, t.value)] + Inorder(t.right);
      (t.(left := l), m)
  }

  /** `swap_successor`: exchange the node's pair with that of the leftmost node of its right
      subtree, which then holds the pair to delete at its leftmost position. */
  function SwapSuccessor<V>(t: AvlTree<V>): (r: AvlTree<V>)
    requires t.Node? && t.right.Node?
    ensures r.Node? && r.right.Node? && r.left == t.left && Height(r) == Height(t)
    ensures HeightsCorrect(r) == HeightsCorrect(t) && Avl(r) == Avl(t)
    ensures Inorder(r.right) == [(t.key, t.value)] + Inorder(t.right)[1..]
    ensures Inorder(r.left) + [(r.key, r.value)] + Inorder(r.right)[1..] == Inorder(t.left) + Inorder(t.right)
  {
    var (right, m) := ReplaceMin(t.right, t.key, t.value);
    assert Inorder(t.right) == [m] + Inorder(t.right)[1..];
    t.(key := m.0, value := m.1, right := right)
  }

  /** What removing `k` from `t` must produce: `r` and the removed pair. */
  ghost predicate RemovedFrom<V>(t: AvlTree<V>, k: int, r: AvlTree<V>, removed: Option<(int, V)>) {
    && HeightsCorrect(r)
    && (Avl(t) ==> Avl(r) && Height(t) - 1 <= Height(r) <= Height(t))
    && MapRemoved(t, k, r, removed)
    && (Avl(t) && k !in Keys(t) ==> r == t)
  }

  /** `remove_node`: descend by comparison; on a match with a right child swap in the
      successor and pop it from the right subtree, on a match without one splice in the
      left child (no rebalance there); rebalance every node left on the path. */
  function RemoveNode<V>(t: AvlTree<V>, k: int): (res: (AvlTree<V>, Option<(int, V)>))
    requires HeightsCorrect(t)
    ensures HeightsCorrect(res.0)
    ensures Avl(t) ==> Avl(res.0) && Height(t) - 1 <= Height(res.0) <= Height(t)
    ensures Ordered(t) ==> Ordered(res.0) && Entries(res.0) == Entries(t) - {k}
    ensures Ordered(t) ==> res.1 == (if k in Entries(t) then Some((k, Entries(t)[k])) else None)
    ensures Avl(t) && k !in Keys(t) ==> res.0 == t
  {
    match t
    case Nil => (Nil, None)
    case Node(key, _, _, l, r) =>
      if key < k then
        var (c, removed) := RemoveNode(r, k);
        RemoveRightStep(t, k, c, removed);
        (Rebalance(t.(right := c)), removed)
      else if k < key then
        var (c, removed) := RemoveNode(l, k);
        RemoveLeftStep(t, k, c, removed);
        (Rebalance(t.(left := c)), removed)
      else if r.Node? then
        var s := SwapSuccessor(t);
        var (c, m) := PopMin(s.right);
        RemoveHereStep(t, s, c, m);
        (Rebalance(s.(right := c)), Some(m))
      else
        RemoveLeafStep(t);
        (l, Some((key, t.value)))
  }

  lemma RemoveLeafStep<V>(t: AvlTree<V>)
    requires t.Node? && t.right.Nil? && HeightsCorrect(t)
    ensures RemovedFrom(t, t.key, t.left, Some((t.key, t.value)))
  {
    if Ordered(t) {
      assert Inorder(t.left) == Inorder(t.left) + Inorder(t.right);
      UnlinkRoot(t, t.left);
      EntriesKeys(t);
    }
  }

  lemma RemoveHereStep<V>(t: AvlTree<V>, s: AvlTree<V>, c: AvlTree<V>, m: (int, V))
    requires t.Node? && t.right.Node? && HeightsCorrect(t)
    requires s == SwapSuccessor(t)
    requires HeightsCorrect(s.right) && HeightsCorrect(c)
    requires (c, m) == PopMin(s.right)
    ensures RemovedFrom(t, t.key, Rebalance(s.(right := c)), Some(m))
  {
    RemoveHereShape(t, s, c, m);
    RemoveHereMap(t, s, c, m);
    EntriesKeys(t);
  }

  lemma RemoveHereShape<V>(t: AvlTree<V>, s: AvlTree<V>, c: AvlTree<V>, m: (int, V))
    requires t.Node? && t.right.Node? && HeightsCorrect(t)
    requires s == SwapSuccessor(t)
    requires HeightsCorrect(s.right) && HeightsCorrect(c)
    requires (c, m) == PopMin(s.right)
    ensures HeightsCorrect(Rebalance(s.(right := c)))
    ensures Avl(t) ==> (Avl(Rebalance(s.(right := c))) &&
      Height(t) - 1 <= Height(Rebalance(s.(right := c))) <= Height(t))
  {
    assert HeightsCorrect(s.left);
    if Avl(t) {
      AvlChildren(s);
      ShrinkStep(s, s.(right := c));
    }
  }

  lemma RemoveHereMap<V>(t: AvlTree<V>, s: AvlTree<V>, c: AvlTree<V>, m: (int, V))
    requires t.Node? && t.right.Node? && HeightsCorrect(t)
    requires s == SwapSuccessor(t)
    requires HeightsCorrect(s.right) && HeightsCorrect(c)
    requires (c, m) == PopMin(s.right)
    ensures m == (t.key, t.value)
    ensures Ordered(t) ==> (Ordered(Rebalance(s.(right := c))) &&
      Entries(Rebalance(s.(right := c))) == Entries(t) - {t.key})
  {
    var u := s.(right := c);
    assert Inorder(s.right) == [m] + Inorder(c);
    assert Inorder(s.right)[0] == m;
    assert Inorder(c) == Inorder(s.right)[1..];
    assert HeightsCorrect(s.left);
    SameInorder(u, Rebalance(u));
    if Ordered(t) {
      assert Inorder(u) == Inorder(s.left) + [(s.key, s.value)] + Inorder(s.right)[1..];
      UnlinkRoot(t, u);
    }
  }

  lemma RemoveRightStep<V>(t: AvlTree<V>, k: int, c: AvlTree<V>, removed: Option<(int, V)>)
    requires t.Node? && HeightsCorrect(t) && t.key < k
    requires RemovedFrom(t.right, k, c, removed)
    ensures RemovedFrom(t, k, Rebalance(t.(right := c)), removed)
  {
    var s := t.(right := c);
    SameInorder(s, Rebalance(s));
    ShrinkStep(t, s);
    if Avl(t) && k !in Keys(t) {
      RebalanceIdle(t);
    }
    RemoveRightMap(t, k, c, removed);
    MapRemovedInorder(t, k, s, Rebalance(s), removed);
  }

  lemma RemoveLeftStep<V>(t: AvlTree<V>, k: int, c: AvlTree<V>, removed: Option<(int, V)>)
    requires t.Node? && HeightsCorrect(t) && k < t.key
    requires RemovedFrom(t.left, k, c, removed)
    ensures RemovedFrom(t, k, Rebalance(t.(left := c)), removed)
  {
    var s := t.(left := c);
    SameInorder(s, Rebalance(s));
    ShrinkStep(t, s);
    if Avl(t) && k !in Keys(t) {
      RebalanceIdle(t);
    }
    RemoveLeftMap(t, k, c, removed);
    MapRemovedInorder(t, k, s, Rebalance(s), removed);
  }
}

=== FILE: binary_search.dfy ===
/**
  Lower-bound binary search, search/src/binary_search.rs. The loop narrows `[low, high)`
  to the first position whose element is not below `x`; the answer is that position when
  the element there is `x`.

  The final comparison reads `seq[low]` even when `low` has reached the end, which panics on
  an empty slice or when every element is below `x`. `BinarySearchAsWritten` is the routine
  as it stands; `BinarySearch` checks `low` first, as evidently intended.
*/
module BinarySearch {
  import opened Wrappers
  import opened Sorting

  /** The loop: on sorted input it stops at the first position whose element is not below
      `x`, or at the end. */
  method LowerBound(s: seq<int>, x: int) returns (low: nat)
    requires Sorted(s)
    ensures low <= |s|
    ensures forall i :: 0 <= i < low ==> s[i] < x
    ensures forall i :: low <= i < |s| ==> x <= s[i]
  {
    low := 0;
    var high := |s|;
    while low < high
      invariant low <= high <= |s|
      invariant forall i :: 0 <= i < low ==> s[i] < x
      invariant forall i :: high <= i < |s| ==> x <= s[i]
    {
      var mid := (low + high) / 2;
      if x > s[mid] {
        low := mid + 1;
      } else {
        high := mid;
      }
    }
  }

  /** `binary_search` as written: it panics exactly when every element is below `x`
      (including on an empty slice); otherwise it finds the first occurrence of `x`, if
      any. */
  method BinarySearchAsWritten(s: seq<int>, x: int) returns (r: Outcome<Option<nat>>)
    requires Sorted(s)
    ensures r.Panic? <==> forall i :: 0 <= i < |s| ==> s[i] < x
    ensures r.Done? ==> (r.value.Some? <==> x in s)
    ensures r.Done? && r.value.Some? ==>
      r.value.value < |s| && s[r.value.value] == x && forall i :: 0 <= i < r.value.value ==> s[i] != x
  {
    var low := LowerBound(s, x);
    if low == |s| {
      // `seq[low]` is out of bounds.
      return Panic;
    }
    return Done(if x == s[low] then Some(low) else None);
  }

  /** `binary_search` with `low` checked before `seq[low]` is read: the first position of
      `x` when `x` occurs, and `None` exactly when it does not. */
  method BinarySearch(s: seq<int>, x: int) returns (r: Option<nat>)
    requires Sorted(s)
    ensures r.Some? <==> x in s
    ensures r.Some? ==> r.value < |s| && s[r.value] == x && forall i :: 0 <= i < r.value ==> s[i] != x
  {
    var low := LowerBound(s, x);
    if low < |s| && x == s[low] {
      return Some(low);
    }
    return None;
  }

  /** Searching an empty slice panics. */
  method EmptySearchPanics() returns (r: Outcome<Option<nat>>)
    ensures r == Panic
  {
    r := BinarySearchAsWritten([], 24);
  }

  /** The sample: 24 is found at position 0 of [24, 45, 56, 63, 85]. */
  method SampleSearch() returns (r: Option<nat>)
    ensures r == Some(0)
  {
    r := BinarySearch([24, 45, 56, 63, 85], 24);
  }
}

=== FILE: bst.dfy ===
/**
  The binary search tree shared by the AVL map and the red-black map. A node holds an
  integer key, a value, balance metadata `M` (a height or a colour) and two owned child
  slots; `Nil` is an absent child. The abstraction of a tree is its in-order sequence of
  (key, value) pairs, from which the key set, the entry map and the search order follow.
*/
module Bst {
  import opened Wrappers

  datatype Tree<M, V> = Nil | Node(key: int, value: V, meta: M, left: Tree<M, V>, right: Tree<M, V>)

  function Size<M, V>(t: Tree<M, V>): nat {
    match t
    case Nil => 0
    case Node(_, _, _, l, r) => Size(l) + 1 + Size(r)
  }

  function Keys<M, V>(t: Tree<M, V>): set<int> {
    match t
    case Nil => {}
    case Node(k, _, _, l, r) => Keys(l) + {k} + Keys(r)
  }

  /** In-order (key, value) sequence: left subtree, node, right subtree. */
  function Inorder<M, V>(t: Tree<M, V>): seq<(int, V)> {
    match t
    case Nil => []
    case Node(k, v, _, l, r) => Inorder(l) + [(k, v)] + Inorder(r)
  }

  /** The map a tree stands for. */
  ghost function Entries<M, V>(t: Tree<M, V>): map<int, V> {
    match t
    case Nil => map[]
    case Node(k, v, _, l, r) => Entries(l) + map[k := v] + Entries(r)
  }

  /** BST order: every key of the left subtree is smaller than the node's key, every key of
      the right subtree larger, recursively (so keys are distinct). */
  ghost predicate Ordered<M, V>(t: Tree<M, V>) {
    match t
    case Nil => true
    case Node(k, _, _, l, r) =>
      && (forall x :: x in Keys(l) ==> x < k)
      && (forall x :: x in Keys(r) ==> k < x)
      && Ordered(l) && Ordered(r)
  }

  ghost predicate Increasing<V>(s: seq<(int, V)>) {
    forall i, j :: 0 <= i < j < |s| ==> s[i].0 < s[j].0
  }

  ghost function SeqKeys<V>(s: seq<(int, V)>): set<int> {
    set p | p in s :: p.0
  }

  /** The map of a pair sequence, later pairs overriding earlier ones. */
  ghost function SeqMap<V>(s: seq<(int, V)>): map<int, V> {
    if |s| == 0 then map[] else SeqMap(s[..|s| - 1])[s[|s| - 1].0 := s[|s| - 1].1]
  }

  /** The node whose key equals `k`, found by descending by key comparison. */
  function GetNode<M, V>(t: Tree<M, V>, k: int): (r: Option<Tree<M, V>>)
    ensures r.Some? ==> r.value.Node? && r.value.key == k && k in Keys(t)
    ensures Ordered(t) ==> (r.None? <==> k !in Keys(t))
    ensures Ordered(t) && r.Some? ==> k in Entries(t) && Entries(t)[k] == r.value.value
  {
    match t
    case Nil => None
    case Node(key, _, _, l, r) =>
      if key == k then
        EntriesKeys(t);
        Some(t)
      else if key < k then
        var res := GetNode(r, k);
        EntriesKeys(t);
        res
      else
        var res := GetNode(l, k);
        EntriesKeys(t);
        res
  }

  lemma {:induction false} EntriesKeys<M, V>(t: Tree<M, V>)
    ensures Entries(t).Keys == Keys(t)
    ensures Ordered(t) && t.Node? ==> Entries(t)[t.key] == t.value
    ensures Ordered(t) && t.Node? ==>
      (forall x :: x in Entries(t.left) ==> x in Entries(t) && Entries(t)[x] == Entries(t.left)[x]) &&
      (forall x :: x in Entries(t.right) ==> x in Entries(t) && Entries(t)[x] == Entries(t.right)[x])
  {
    match t
    case Nil =>
    case Node(_, _, _, l, r) =>
      EntriesKeys(l);
      EntriesKeys(r);
  }

  lemma {:induction false} SeqMapAppend<V>(a: seq<(int, V)>, b: seq<(int, V)>)
    ensures SeqMap(a + b) == SeqMap(a) + SeqMap(b)
    decreases |b|
  {
    if |b| == 0 {
      assert a + b == a;
    } else {
      var b' := b[..|b| - 1];
      assert (a + b)[..|a + b| - 1] == a + b';
      SeqMapAppend(a, b');
    }
  }

  lemma IncreasingAppend<V>(a: seq<(int, V)>, b: seq<(int, V)>)
    ensures Increasing(a + b) <==>
      Increasing(a) && Increasing(b) && forall i, j :: 0 <= i < |a| && 0 <= j < |b| ==> a[i].0 < b[j].0
  {
    if Increasing(a) && Increasing(b) && forall i, j :: 0 <= i < |a| && 0 <= j < |b| ==> a[i].0 < b[j].0 {
      forall i, j | 0 <= i < j < |a + b| ensures (a + b)[i].0 < (a + b)[j].0 {
        if j < |a| {
          assert (a + b)[i] == a[i] && (a + b)[j] == a[j];
        } else if i >= |a| {
          assert (a + b)[i] == b[i - |a|] && (a + b)[j] == b[j - |a|];
        } else {
          assert (a + b)[i] == a[i] && (a + b)[j] == b[j - |a|];
        }
      }
    }
    if Increasing(a + b) {
      forall i, j | 0 <= i < j < |a| ensures a[i].0 < a[j].0 {
        assert (a + b)[i] == a[i] && (a + b)[j] == a[j];
      }
      forall i, j | 0 <= i < j < |b| ensures b[i].0 < b[j].0 {
        assert (a + b)[|a| + i] == b[i] && (a + b)[|a| + j] == b[j];
      }
      forall i, j | 0 <= i < |a| && 0 <= j < |b| ensures a[i].0 < b[j].0 {
        assert (a + b)[i] == a[i] && (a + b)[|a| + j] == b[j];
      }
    }
  }

  lemma {:induction false} KeysInorder<M, V>(t: Tree<M, V>)
    ensures Keys(t) == SeqKeys(Inorder(t))
    ensures Size(t) == |Inorder(t)|
  {
    match t
    case Nil =>
    case Node(k, v, _, l, r) =>
      KeysInorder(l);
      KeysInorder(r);
      var il, ir := Inorder(l), Inorder(r);
      forall x | x in SeqKeys(il) + {k} + SeqKeys(ir) ensures x in SeqKeys(il + [(k, v)] + ir) {
        if x in SeqKeys(il) {
          var p :| p in il && p.0 == x;
          assert p in il + [(k, v)] + ir;
        } else if x in SeqKeys(ir) {
          var p :| p in ir && p.0 == x;
          assert p in il + [(k, v)] + ir;
        } else {
          assert (k, v) in il + [(k, v)] + ir;
        }
      }
  }

  lemma {:induction false} EntriesInorder<M, V>(t: Tree<M, V>)
    ensures Entries(t) == SeqMap(Inorder(t))
  {
    match t
    case Nil =>
    case Node(k, v, _, l, r) =>
      EntriesInorder(l);
      EntriesInorder(r);
      var il, ir := Inorder(l), Inorder(r);
      SeqMapAppend(il + [(k, v)], ir);
      SeqMapAppend(il, [(k, v)]);
      assert SeqMap([(k, v)]) == map[k := v] by {
        assert [(k, v)][..0] == [];
      }
  }

  lemma {:induction false} OrderedInorder<M, V>(t: Tree<M, V>)
    ensures Ordered(t) <==> Increasing(Inorder(t))
  {
    match t
    case Nil =>
    case Node(k, v, _, l, r) =>
      OrderedInorder(l);
      OrderedInorder(r);
      KeysInorder(l);
      KeysInorder(r);
      var il, ir := Inorder(l), Inorder(r);
      IncreasingAppend(il + [(k, v)], ir);
      IncreasingAppend(il, [(k, v)]);
      if Ordered(t) {
        OrderedToIncreasing(k, v, il, ir);
      }
      if Increasing(Inorder(t)) {
        IncreasingToOrdered(k, v, il, ir);
      }
  }

  lemma OrderedToIncreasing<V>(k: int, v: V, il: seq<(int, V)>, ir: seq<(int, V)>)
    requires forall x :: x in SeqKeys(il) ==> x < k
    requires forall x :: x in SeqKeys(ir) ==> k < x
    ensures forall i, j :: 0 <= i < |il + [(k, v)]| && 0 <= j < |ir| ==> (il + [(k, v)])[i].0 < ir[j].0
    ensures forall i, j :: 0 <= i < |il| && 0 <= j < 1 ==> il[i].0 < [(k, v)][j].0
  {
    forall i, j | 0 <= i < |il + [(k, v)]| && 0 <= j < |ir|
      ensures (il + [(k, v)])[i].0 < ir[j].0
    {
      assert ir[j] in ir;
      assert ir[j].0 in SeqKeys(ir);
      if i < |il| {
        assert il[i] in il;
        assert il[i].0 in SeqKeys(il);
      }
    }
    forall i, j | 0 <= i < |il| && 0 <= j < 1 ensures il[i].0 < [(k, v)][j].0 {
      assert il[i] in il;
      assert il[i].0 in SeqKeys(il);
    }
  }

  lemma IncreasingToOrdered<V>(k: int, v: V, il: seq<(int, V)>, ir: seq<(int, V)>)
    requires Increasing(il + [(k, v)] + ir)
    ensures forall x :: x in SeqKeys(il) ==> x < k
    ensures forall x :: x in SeqKeys(ir) ==> k < x
  {
    var s := il + [(k, v)] + ir;
    forall x | x in SeqKeys(il) ensures x < k {
      var p :| p in il && p.0 == x;
      var i :| 0 <= i < |il| && il[i] == p;
      assert s[i] == p && s[|il|] == (k, v);
    }
    forall x | x in SeqKeys(ir) ensures k < x {
      var p :| p in ir && p.0 == x;
      var j :| 0 <= j < |ir| && ir[j] == p;
      assert s[|il| + 1 + j] == p && s[|il|] == (k, v);
    }
  }

  lemma SameInorder<M, V>(a: Tree<M, V>, b: Tree<M, V>)
    requires Inorder(a) == Inorder(b)
    ensures Keys(a) == Keys(b) && Entries(a) == Entries(b) && Size(a) == Size(b)
    ensures Ordered(a) <==> Ordered(b)
  {
    KeysInorder(a);
    KeysInorder(b);
    EntriesInorder(a);
    EntriesInorder(b);
    OrderedInorder(a);
    OrderedInorder(b);
  }

  /** Every key of an ordered tree is exactly where a descent by comparison looks for it. */
  lemma OrderedNodeKeys<M, V>(t: Tree<M, V>, k: int)
    requires Ordered(t) && t.Node?
    ensures k in Keys(t) && k < t.key ==> k in Keys(t.left)
    ensures k in Keys(t) && t.key < k ==> k in Keys(t.right)
  {
    assert Keys(t) == Keys(t.left) + {t.key} + Keys(t.right);
  }

  /** Dropping one element keeps a sequence increasing. */
  lemma IncreasingDrop<V>(a: seq<(int, V)>, x: (int, V), b: seq<(int, V)>)
    requires Increasing(a + [x] + b)
    ensures Increasing(a + b)
  {
    IncreasingAppend(a + [x], b);
    IncreasingAppend(a, [x]);
    IncreasingAppend(a, b);
    forall i, j | 0 <= i < |a| && 0 <= j < |b| ensures a[i].0 < b[j].0 {
      assert (a + [x])[i] == a[i];
    }
  }

  lemma SeqKeysAppend<V>(a: seq<(int, V)>, b: seq<(int, V)>)
    ensures SeqKeys(a + b) == SeqKeys(a) + SeqKeys(b)
  {
    forall x | x in SeqKeys(a + b) ensures x in SeqKeys(a) + SeqKeys(b) {
      var p: (int, V) :| p in a + b && p.0 == x;
    }
    forall x | x in SeqKeys(a) + SeqKeys(b) ensures x in SeqKeys(a + b) {
      if x in SeqKeys(a) {
        var p :| p in a && p.0 == x;
        assert p in a + b;
      } else {
        var p :| p in b && p.0 == x;
        assert p in a + b;
      }
    }
  }

  /** A tree whose in-order sequence is that of an ordered node with the node's own pair
      taken out is ordered and stands for the node's map without its key: the step that
      removes a matched node in both balanced trees. */
  lemma UnlinkRoot<M, V>(t: Tree<M, V>, u: Tree<M, V>)
    requires Ordered(t) && t.Node?
    requires Inorder(u) == Inorder(t.left) + Inorder(t.right)
    ensures Ordered(u)
    ensures Entries(u) == Entries(t) - {t.key}
    ensures Keys(u) == Keys(t) - {t.key}
  {
    var il, ir := Inorder(t.left), Inorder(t.right);
    OrderedInorder(t);
    IncreasingDrop(il, (t.key, t.value), ir);
    OrderedInorder(u);
    UnlinkEntries(t, u);
    KeysInorder(u);
    KeysInorder(t.left);
    KeysInorder(t.right);
    SeqKeysAppend(il, ir);
  }

  lemma UnlinkEntries<M, V>(t: Tree<M, V>, u: Tree<M, V>)
    requires Ordered(t) && t.Node?
    requires Inorder(u) == Inorder(t.left) + Inorder(t.right)
    ensures Entries(u) == Entries(t) - {t.key}
  {
    var el, er := Entries(t.left), Entries(t.right);
    EntriesInorder(u);
    EntriesInorder(t.left);
    EntriesInorder(t.right);
    SeqMapAppend(Inorder(t.left), Inorder(t.right));
    assert Entries(u) == el + er;
    EntriesKeys(t.left);
    EntriesKeys(t.right);
    MapRemoveMiddle(el, t.key, t.value, er);
  }

  /** Removing a key that only the middle operand of a union holds. */
  lemma MapRemoveMiddle<V>(a: map<int, V>, k: int, v: V, b: map<int, V>)
    requires k !in a && k !in b
    ensures (a + map[k := v] + b) - {k} == a + b
  {
  }

  /** In an ordered tree the node count is the number of distinct keys. */
  lemma OrderedSize<M, V>(t: Tree<M, V>)
    requires Ordered(t)
    ensures Size(t) == |Keys(t)| == |Entries(t)|
  {
    OrderedKeysSize(t);
    EntriesKeys(t);
    assert |Entries(t)| == |Entries(t).Keys|;
  }

  /** `OrderedSize` for callers that do not know the tree is ordered. */
  lemma OrderedSizeWhen<M, V>(t: Tree<M, V>)
    ensures Ordered(t) ==> Size(t) == |Keys(t)| == |Entries(t)|
  {
    if Ordered(t) {
      OrderedSize(t);
    }
  }

  lemma {:induction false} OrderedKeysSize<M, V>(t: Tree<M, V>)
    requires Ordered(t)
    ensures Size(t) == |Keys(t)|
  {
    match t
    case Nil =>
    case Node(k, _, _, l, r) =>
      OrderedKeysSize(l);
      OrderedKeysSize(r);
      var a := Keys(l) + {k};
      assert k !in Keys(l);
      assert |a| == |Keys(l)| + 1;
      forall x | x in a ensures x !in Keys(r) {
        if x in Keys(l) {
          assert x < k;
        }
      }
      assert a * Keys(r) == {};
      assert |a + Keys(r)| == |a| + |Keys(r)|;
  }

  /** What inserting (k, v) into `t` must do to its keys and its map, `r` being the new tree
      and `replaced` the value the key had. */
  ghost predicate MapInserted<M, V>(t: Tree<M, V>, k: int, v: V, r: Tree<M, V>, replaced: Option<V>) {
    && Keys(r) == Keys(t) + {k}
    && (Ordered(t) ==> Ordered(r) && Entries(r) == Entries(t)[k := v])
    && (Ordered(t) ==> replaced == (if k in Entries(t) then Some(Entries(t)[k]) else None))
  }

  /** What removing `k` from `t` must do to its map, `r` being the new tree and `removed`
      the pair taken out. */
  ghost predicate MapRemoved<M, V>(t: Tree<M, V>, k: int, r: Tree<M, V>, removed: Option<(int, V)>) {
    && (Ordered(t) ==> Ordered(r) && Entries(r) == Entries(t) - {k})
    && (Ordered(t) ==> removed == (if k in Entries(t) then Some((k, Entries(t)[k])) else None))
  }

  /** Both notions depend on the result only through its in-order sequence. */
  lemma MapInsertedInorder<M, V>(t: Tree<M, V>, k: int, v: V, s: Tree<M, V>, r: Tree<M, V>, replaced: Option<V>)
    requires MapInserted(t, k, v, s, replaced) && Inorder(s) == Inorder(r)
    ensures MapInserted(t, k, v, r, replaced)
  {
    SameInorder(s, r);
  }

  lemma MapRemovedInorder<M, V>(t: Tree<M, V>, k: int, s: Tree<M, V>, r: Tree<M, V>, removed: Option<(int, V)>)
    requires MapRemoved(t, k, s, removed) && Inorder(s) == Inorder(r)
    ensures MapRemoved(t, k, r, removed)
  {
    SameInorder(s, r);
  }

  /** A new leaf holds exactly the inserted pair. */
  lemma MapInsertedLeaf<M, V>(k: int, v: V, m: M)
    ensures MapInserted(Nil, k, v, Node(k, v, m, Nil, Nil), None)
  {
  }

  /** Replacing the value of a matched node. */
  lemma InsertHereMap<M, V>(t: Tree<M, V>, v: V)
    requires t.Node?
    ensures MapInserted(t, t.key, v, t.(value := v), Some(t.value))
  {
    if Ordered(t) {
      var el, er := Entries(t.left), Entries(t.right);
      EntriesKeys(t.left);
      EntriesKeys(t.right);
      assert t.key !in er;
      MapUpdateMiddle(el, t.key, t.value, v, er);
    }
  }

  /** Updating a key that only the middle operand of a union holds. */
  lemma MapUpdateMiddle<V>(a: map<int, V>, k: int, u: V, v: V, b: map<int, V>)
    requires k !in b
    ensures (a + map[k := u] + b)[k := v] == a + map[k := v] + b
    ensures (a + map[k := u] + b)[k] == u
  {
  }

  /** Inserting into the right child of a node whose key is smaller. */
  lemma InsertRightMap<M, V>(t: Tree<M, V>, k: int, v: V, c: Tree<M, V>, replaced: Option<V>)
    requires t.Node? && t.key < k
    requires MapInserted(t.right, k, v, c, replaced)
    ensures MapInserted(t, k, v, t.(right := c), replaced)
  {
    var u := t.(right := c);
    assert Keys(u) == Keys(t.left) + {t.key} + Keys(c);
    if Ordered(t) {
      assert forall x | x in Keys(c) :: t.key < x;
      assert Ordered(u);
      var el, er := Entries(t.left), Entries(t.right);
      var front := el + map[t.key := t.value];
      EntriesKeys(t.left);
      assert k !in front;
      assert Entries(t) == front + er;
      assert Entries(u) == front + Entries(c);
      MapUpdateRight(front, er, k, v);
      assert k in Entries(t) <==> k in er;
      assert k in er ==> Entries(t)[k] == er[k];
    }
  }

  /** Inserting into the left child of a node whose key is larger. */
  lemma InsertLeftMap<M, V>(t: Tree<M, V>, k: int, v: V, c: Tree<M, V>, replaced: Option<V>)
    requires t.Node? && k < t.key
    requires MapInserted(t.left, k, v, c, replaced)
    ensures MapInserted(t, k, v, t.(left := c), replaced)
  {
    var u := t.(left := c);
    assert Keys(u) == Keys(c) + {t.key} + Keys(t.right);
    if Ordered(t) {
      assert forall x | x in Keys(c) :: x < t.key;
      assert Ordered(u);
      var el, er := Entries(t.left), Entries(t.right);
      var m := map[t.key := t.value];
      EntriesKeys(t.right);
      assert k !in m && k !in er;
      assert Entries(t) == el + m + er && Entries(u) == el[k := v] + m + er;
      MapUpdateLeft(el, m, er, k, v);
    }
  }

  /** Updating a key of the right operand of a union. */
  lemma MapUpdateRight<V>(a: map<int, V>, b: map<int, V>, k: int, v: V)
    ensures (a + b)[k := v] == a + b[k := v]
  {
  }

  /** Updating a key of the left operand of a union that the other operands lack. */
  lemma MapUpdateLeft<V>(a: map<int, V>, m: map<int, V>, b: map<int, V>, k: int, v: V)
    requires k !in m && k !in b
    ensures (a + m + b)[k := v] == a[k := v] + m + b
    ensures k in a ==> k in a + m + b && (a + m + b)[k] == a[k]
    ensures k !in a ==> k !in a + m + b
  {
  }

  /** Removing from the right child of a node whose key is smaller. */
  lemma RemoveRightMap<M, V>(t: Tree<M, V>, k: int, c: Tree<M, V>, removed: Option<(int, V)>)
    requires t.Node? && t.key < k
    requires MapRemoved(t.right, k, c, removed)
    ensures MapRemoved(t, k, t.(right := c), removed)
  {
    if Ordered(t) {
      var el, er := Entries(t.left), Entries(t.right);
      var m := map[t.key := t.value];
      EntriesKeys(t.left);
      assert k !in el && k !in m;
      MapRemoveRight(el, m, er, k);
      EntriesKeys(c);
      EntriesKeys(t.right);
    }
  }

  /** Removing from the left child of a node whose key is larger. */
  lemma RemoveLeftMap<M, V>(t: Tree<M, V>, k: int, c: Tree<M, V>, removed: Option<(int, V)>)
    requires t.Node? && k < t.key
    requires MapRemoved(t.left, k, c, removed)
    ensures MapRemoved(t, k, t.(left := c), removed)
  {
    if Ordered(t) {
      var el, er := Entries(t.left), Entries(t.right);
      var m := map[t.key := t.value];
      EntriesKeys(t.right);
      assert k !in er && k !in m;
      MapRemoveLeft(el, m, er, k);
      EntriesKeys(c);
      EntriesKeys(t.left);
    }
  }

  /** Removing a key of the right operand of a union that the other operands lack. */
  lemma MapRemoveRight<V>(a: map<int, V>, m: map<int, V>, b: map<int, V>, k: int)
    requires k !in a && k !in m
    ensures (a + m + b) - {k} == a + m + (b - {k})
    ensures k in b <==> k in a + m + b
    ensures k in b ==> (a + m + b)[k] == b[k]
  {
  }

  /** Removing a key of the left operand of a union that the other operands lack. */
  lemma MapRemoveLeft<V>(a: map<int, V>, m: map<int, V>, b: map<int, V>, k: int)
    requires k !in m && k !in b
    ensures (a + m + b) - {k} == (a - {k}) + m + b
    ensures k in a <==> k in a + m + b
    ensures k in a ==> (a + m + b)[k] == a[k]
  {
  }

  /** Every entry of `a` is an entry of `b`. */
  ghost predicate SubMap<V>(a: map<int, V>, b: map<int, V>) {
    forall x :: x in a ==> x in b && a[x] == b[x]
  }

  /** A weaker notion of removal: `r` keeps order and holds only entries of `t` other than
      `k`, possibly fewer, while `removed` is still exactly the pair stored under `k`. */
  ghost predicate MapShrunk<M, V>(t: Tree<M, V>, k: int, r: Tree<M, V>, removed: Option<(int, V)>) {
    && (Ordered(t) ==> Ordered(r) && SubMap(Entries(r), Entries(t) - {k}))
    && (Ordered(t) ==> removed == (if k in Entries(t) then Some((k, Entries(t)[k])) else None))
  }

  lemma MapRemovedShrunk<M, V>(t: Tree<M, V>, k: int, r: Tree<M, V>, removed: Option<(int, V)>)
    requires MapRemoved(t, k, r, removed)
    ensures MapShrunk(t, k, r, removed)
  {
  }

  lemma MapShrunkInorder<M, V>(t: Tree<M, V>, k: int, s: Tree<M, V>, r: Tree<M, V>, removed: Option<(int, V)>)
    requires MapShrunk(t, k, s, removed) && Inorder(s) == Inorder(r)
    ensures MapShrunk(t, k, r, removed)
  {
    SameInorder(s, r);
  }

  /** Cutting a matched node off together with its whole left subtree. */
  lemma ShrinkSplice<M, V>(t: Tree<M, V>)
    requires t.Node?
    ensures MapShrunk(t, t.key, Nil, Some((t.key, t.value)))
  {
    if Ordered(t) {
      EntriesKeys(t);
    }
  }

  /** Shrinking the right child of a node whose key is smaller. */
  lemma ShrinkRightMap<M, V>(t: Tree<M, V>, k: int, c: Tree<M, V>, removed: Option<(int, V)>)
    requires t.Node? && t.key < k
    requires MapShrunk(t.right, k, c, removed)
    ensures MapShrunk(t, k, t.(right := c), removed)
  {
    if Ordered(t) {
      var el, er, ec := Entries(t.left), Entries(t.right), Entries(c);
      var m := map[t.key := t.value];
      EntriesKeys(t.left);
      EntriesKeys(t.right);
      EntriesKeys(c);
      forall x | x in Keys(c) ensures t.key < x {
        assert x in ec && x in er;
      }
      assert Ordered(t.(right := c));
      assert k !in el && k !in m;
      assert Entries(t) == el + m + er;
      MapRemoveRight(el, m, er, k);
      assert forall x :: x in el + m ==> x <= t.key;
      SubMapRight(el + m, ec, er - {k});
      assert Entries(t.(right := c)) == el + m + ec;
    }
  }

  /** Shrinking the left child of a node whose key is larger. */
  lemma ShrinkLeftMap<M, V>(t: Tree<M, V>, k: int, c: Tree<M, V>, removed: Option<(int, V)>)
    requires t.Node? && k < t.key
    requires MapShrunk(t.left, k, c, removed)
    ensures MapShrunk(t, k, t.(left := c), removed)
  {
    if Ordered(t) {
      var el, er := Entries(t.left), Entries(t.right);
      var m := map[t.key := t.value];
      EntriesKeys(t.left);
      EntriesKeys(t.right);
      EntriesKeys(c);
      assert k !in er && k !in m;
      MapRemoveLeft(el, m, er, k);
      SubMapLeft(Entries(c), el - {k}, m);
      SubMapLeft(Entries(c) + m, el - {k} + m, er);
    }
  }

  /** A union keeps a sub-map relation on its right operand when its left operand shares no
      key with the larger map. */
  lemma SubMapRight<V>(a: map<int, V>, b: map<int, V>, c: map<int, V>)
    requires SubMap(b, c) && forall x :: x in a ==> x !in c
    ensures SubMap(a + b, a + c)
  {
  }

  /** A union keeps a sub-map relation on its left operand. */
  lemma SubMapLeft<V>(b: map<int, V>, c: map<int, V>, a: map<int, V>)
    requires SubMap(b, c)
    ensures SubMap(b + a, c + a)
  {
  }

  /** A sub-map has no more entries than the map it is part of. */
  lemma SubMapSize<V>(a: map<int, V>, b: map<int, V>)
    requires SubMap(a, b)
    ensures |a| <= |b|
  {
    forall x | x in a.Keys ensures x in b.Keys {
      assert x in a;
    }
    assert |b.Keys| == |a.Keys| + |b.Keys - a.Keys|;
  }

  /** A weakly removed tree is at most the original less the removed pair. */
  lemma ShrunkSize<M, V>(t: Tree<M, V>, k: int, r: Tree<M, V>, removed: Option<(int, V)>)
    requires Ordered(t) && MapShrunk(t, k, r, removed)
    ensures Size(r) <= if removed.Some? then Size(t) - 1 else Size(t)
  {
    OrderedSize(t);
    OrderedSize(r);
    var e := Entries(t);
    SubMapSize(Entries(r), e - {k});
    assert (e - {k}).Keys == e.Keys - {k};
  }
}

=== FILE: bubble.dfy ===
/**
  Bubble sort, sort/src/bubble.rs: pass `out` walks the first `len - out + 1` elements
  swapping every adjacent pair out of order, which carries the largest of them to the end
  of that range; a pass without a swap ends the sort early.
*/
module Bubble {
  import opened Sorting

  /** One pass over the first `last + 1` elements: afterwards the last of them is their
      largest, the settled tail is untouched, and when nothing was swapped those elements
      were already in order. */
  method Pass(a: seq<int>, last: nat) returns (r: seq<int>, swapped: bool)
    requires last < |a| && Settled(a, last + 1)
    ensures |r| == |a| && multiset(r) == multiset(a) && Settled(r, last)
    ensures !swapped ==> r == a && Strided(a, 1, last + 1)
  {
    r := a;
    swapped := false;
    var i := 0;
    while i < last
      invariant 0 <= i <= last && |r| == |a| && multiset(r) == multiset(a)
      invariant Settled(r, last + 1)
      invariant forall k :: 0 <= k <= i ==> r[k] <= r[i]
      invariant !swapped ==> r == a && Strided(a, 1, i + 1)
    {
      if r[i] > r[i + 1] {
        r := Swap(r, i, i + 1);
        swapped := true;
      }
      i := i + 1;
    }
  }

  /** `bubble`: the result is the input sorted. */
  method BubbleSort(a: seq<int>) returns (r: seq<int>)
    ensures Sorted(r) && multiset(r) == multiset(a)
  {
    r := a;
    var out := 1;
    while out < |r|
      invariant 1 <= out && |r| == |a| && multiset(r) == multiset(a)
      invariant out <= |r| || |r| == 0
      invariant Settled(r, |r| - out + 1)
    {
      var swapped;
      r, swapped := Pass(r, |r| - out);
      if !swapped {
        StridedSorted(r, |r| - out + 1);
        return;
      }
      out := out + 1;
    }
  }
}

=== FILE: chain_hash_map.dfy ===
/**
  The separate-chaining map of hash-map/chain-hash-map/src/lib.rs: `modulus` buckets, each
  a list of key/value nodes, and the key's bucket is its hash modulo `modulus`. The hasher
  is the parameter `H`; a bucket's list is a sequence, its `push_back` an append.
*/
module ChainHashMap {
  import opened Wrappers

  datatype Node<K, V> = Node(key: K, value: V)

  type Bucket<K, V> = seq<Node<K, V>>

  datatype ChainHashMap<K, V> = ChainHashMap(base: seq<Bucket<K, V>>, modulus: nat, len: nat)

  /** `hash`: the bucket of `k`. */
  function Slot<K, V>(H: K -> nat, m: ChainHashMap<K, V>, k: K): (b: nat)
    requires m.modulus > 0
    ensures b < m.modulus
  {
    H(k) % m.modulus
  }

  // ---------------------------------------------------------------------------------
  // One bucket.

  /** The position of the first node with key `k`: the search of `find_map`. */
  function IndexOf<K(==), V>(b: Bucket<K, V>, k: K): (r: Option<nat>)
    ensures r.Some? ==> r.value < |b| && b[r.value].key == k
    ensures r.Some? ==> forall j :: 0 <= j < r.value ==> b[j].key != k
    ensures r.None? ==> forall j :: 0 <= j < |b| ==> b[j].key != k
  {
    if b == [] then None
    else if b[0].key == k then Some(0)
    else
      var r := IndexOf(b[1..], k);
      if r.None? then None else Some(r.value + 1)
  }

  /** The first node with key `k` is the one `IndexOf` finds. */
  lemma {:induction false} IndexOfFirst<K, V>(b: Bucket<K, V>, k: K, i: nat)
    requires i < |b| && b[i].key == k
    requires forall j :: 0 <= j < i ==> b[j].key != k
    ensures IndexOf(b, k) == Some(i)
  {
    if i > 0 {
      IndexOfFirst(b[1..], k, i - 1);
    }
  }

  /** Replacing a node's value keeps the keys distinct. */
  lemma ReplaceDistinct<K, V>(b: Bucket<K, V>, i: nat, v: V)
    requires i < |b| && Distinct(b)
    ensures Distinct(b[i := Node(b[i].key, v)])
  {
    var b2 := b[i := Node(b[i].key, v)];
    forall j1, j2 | 0 <= j1 < |b2| && 0 <= j2 < |b2| && b2[j1].key == b2[j2].key ensures j1 == j2 {
      assert b[j1].key == b2[j1].key && b[j2].key == b2[j2].key;
    }
  }

  /** Appending a node whose key is absent keeps the keys distinct. */
  lemma AppendDistinct<K, V>(b: Bucket<K, V>, k: K, v: V)
    requires Distinct(b) && forall j :: 0 <= j < |b| ==> b[j].key != k
    ensures Distinct(b + [Node(k, v)])
  {
  }

  /** The nodes of `b` whose key is not `k`, in order: what `drain_filter` leaves. */
  function Without<K(==), V>(b: Bucket<K, V>, k: K): (r: Bucket<K, V>)
    ensures |r| <= |b|
    ensures forall j :: 0 <= j < |r| ==> r[j].key != k && r[j] in b
    ensures forall j :: 0 <= j < |b| && b[j].key != k ==> b[j] in r
  {
    if b == [] then []
    else if b[0].key == k then Without(b[1..], k)
    else [b[0]] + Without(b[1..], k)
  }

  /** No key occurs twice in `b`. */
  ghost predicate Distinct<K, V>(b: Bucket<K, V>) {
    forall i, j :: 0 <= i < |b| && 0 <= j < |b| && b[i].key == b[j].key ==> i == j
  }

  lemma DistinctTail<K, V>(b: Bucket<K, V>)
    requires b != [] && Distinct(b)
    ensures Distinct(b[1..])
    ensures forall j :: 0 <= j < |b[1..]| ==> b[1..][j].key != b[0].key
  {
    forall i, j | 0 <= i < |b[1..]| && 0 <= j < |b[1..]| && b[1..][i].key == b[1..][j].key
      ensures i == j
    {
      assert b[i + 1].key == b[j + 1].key;
    }
    forall j | 0 <= j < |b[1..]| ensures b[1..][j].key != b[0].key {
      assert b[j + 1] == b[1..][j];
    }
  }

  /** Dropping the one node with key `k` from a bucket of distinct keys shortens it by one;
      dropping a key that is not there changes nothing. */
  lemma {:induction false} WithoutLength<K, V>(b: Bucket<K, V>, k: K)
    requires Distinct(b)
    ensures |Without(b, k)| == if IndexOf(b, k).Some? then |b| - 1 else |b|
    ensures IndexOf(b, k).None? ==> Without(b, k) == b
  {
    if b != [] {
      DistinctTail(b);
      WithoutLength(b[1..], k);
    }
  }

  /** Dropping nodes keeps the keys distinct. */
  lemma {:induction false} WithoutDistinct<K, V>(b: Bucket<K, V>, k: K)
    requires Distinct(b)
    ensures Distinct(Without(b, k))
  {
    if b != [] {
      DistinctTail(b);
      WithoutDistinct(b[1..], k);
      if b[0].key != k {
        var r := Without(b, k);
        var t := Without(b[1..], k);
        assert r == [b[0]] + t;
        forall i, j | 0 <= i < |r| && 0 <= j < |r| && r[i].key == r[j].key ensures i == j {
          if i > 0 && j > 0 {
            assert t[i - 1].key == t[j - 1].key;
          }
        }
      }
    }
  }

  // ---------------------------------------------------------------------------------
  // The number of nodes.

  function Total<K, V>(base: seq<Bucket<K, V>>): nat {
    if base == [] then 0 else |base[0]| + Total(base[1..])
  }

  /** Replacing one bucket changes the total by the difference in its length. */
  lemma {:induction false} TotalUpdate<K, V>(base: seq<Bucket<K, V>>, s: nat, x: Bucket<K, V>)
    requires s < |base|
    ensures Total(base[s := x]) + |base[s]| == Total(base) + |x|
  {
    if s > 0 {
      assert base[s := x][1..] == base[1..][s - 1 := x];
      TotalUpdate(base[1..], s - 1, x);
    }
  }

  lemma {:induction false} TotalEmpty<K, V>(base: seq<Bucket<K, V>>)
    requires forall s :: 0 <= s < |base| ==> base[s] == []
    ensures Total(base) == 0
  {
    if base != [] {
      TotalEmpty(base[1..]);
    }
  }

  // ---------------------------------------------------------------------------------
  // The map invariant.

  /** The buckets match `modulus`, every node is in its key's bucket, no bucket holds a key
      twice (so, by the first, no key is stored twice anywhere) and `len` counts the
      nodes. */
  ghost predicate Valid<K, V>(H: K -> nat, m: ChainHashMap<K, V>) {
    && |m.base| == m.modulus > 0
    && (forall s, i :: 0 <= s < |m.base| && 0 <= i < |m.base[s]| ==>
          H(m.base[s][i].key) % m.modulus == s)
    && (forall s :: 0 <= s < |m.base| ==> Distinct(m.base[s]))
    && m.len == Total(m.base)
  }

  /** Some bucket holds the entry `k -> v`. */
  ghost predicate Holds<K, V>(m: ChainHashMap<K, V>, k: K, v: V) {
    exists s, i :: 0 <= s < |m.base| && 0 <= i < |m.base[s]| && m.base[s][i] == Node(k, v)
  }

  // ---------------------------------------------------------------------------------
  // Lookup.

  /** `get`: search `k`'s bucket. It finds exactly the stored entries: a stored key's value,
      and nothing for a key stored nowhere. */
  function Get<K(==), V>(H: K -> nat, m: ChainHashMap<K, V>, k: K): (r: Option<V>)
    requires Valid(H, m)
    ensures forall s, i :: 0 <= s < |m.base| && 0 <= i < |m.base[s]| && m.base[s][i].key == k ==>
      r == Some(m.base[s][i].value)
    ensures r.Some? ==> Holds(m, k, r.value)
  {
    var s := Slot(H, m, k);
    var i := IndexOf(m.base[s], k);
    if i.None? then None else Some(m.base[s][i.value].value)
  }

  /** `get_mut`: the position (bucket, index) of `k`'s node, if any. */
  function GetMut<K(==), V>(H: K -> nat, m: ChainHashMap<K, V>, k: K): (r: Option<(nat, nat)>)
    requires Valid(H, m)
    ensures r.Some? <==> Get(H, m, k).Some?
    ensures r.Some? ==>
      && r.value.0 < |m.base| && r.value.1 < |m.base[r.value.0]|
      && m.base[r.value.0][r.value.1] == Node(k, Get(H, m, k).value)
  {
    var s := Slot(H, m, k);
    var i := IndexOf(m.base[s], k);
    if i.None? then None else Some((s, i.value))
  }

  /** Two maps that hold the same entries for `k` give the same lookup for `k`. */
  lemma SameGet<K, V>(H: K -> nat, m: ChainHashMap<K, V>, m2: ChainHashMap<K, V>, k: K)
    requires Valid(H, m) && Valid(H, m2)
    requires forall v :: Holds(m, k, v) <==> Holds(m2, k, v)
    ensures Get(H, m2, k) == Get(H, m, k)
  {
    var g := Get(H, m, k);
    var g2 := Get(H, m2, k);
    if g.Some? {
      var s, i :| 0 <= s < |m2.base| && 0 <= i < |m2.base[s]| && m2.base[s][i] == Node(k, g.value);
    }
    if g2.Some? {
      var s, i :| 0 <= s < |m.base| && 0 <= i < |m.base[s]| && m.base[s][i] == Node(k, g2.value);
    }
  }

  /** Replacing bucket `s` by one with the same nodes apart from key `k` keeps the entries of
      every other key. */
  lemma BucketSame<K, V>(m: ChainHashMap<K, V>, m2: ChainHashMap<K, V>, s: nat, x: Bucket<K, V>,
                          k: K, k2: K, v: V)
    requires s < |m.base| && m2.base == m.base[s := x] && k2 != k
    requires forall j :: 0 <= j < |x| && x[j].key != k ==> x[j] in m.base[s]
    requires forall j :: 0 <= j < |m.base[s]| && m.base[s][j].key != k ==> m.base[s][j] in x
    ensures Holds(m, k2, v) <==> Holds(m2, k2, v)
  {
    if Holds(m, k2, v) {
      var s1, i :| 0 <= s1 < |m.base| && 0 <= i < |m.base[s1]| && m.base[s1][i] == Node(k2, v);
      if s1 == s {
        var i2 :| 0 <= i2 < |m2.base[s]| && m2.base[s][i2] == Node(k2, v);
      } else {
        assert m2.base[s1][i] == Node(k2, v);
      }
    }
    if Holds(m2, k2, v) {
      var s1, i :| 0 <= s1 < |m2.base| && 0 <= i < |m2.base[s1]| && m2.base[s1][i] == Node(k2, v);
      if s1 == s {
        var i2 :| 0 <= i2 < |m.base[s]| && m.base[s][i2] == Node(k2, v);
      } else {
        assert m.base[s1][i] == Node(k2, v);
      }
    }
  }

  /** A write through `get_mut`'s handle: the result is valid, `k` now maps to `v` and every
      other key keeps its lookup. */
  function WriteAt<K(==), V>(H: K -> nat, m: ChainHashMap<K, V>, k: K, v: V): (r: ChainHashMap<K, V>)
    requires Valid(H, m) && GetMut(H, m, k).Some?
    ensures Valid(H, r) && r.len == m.len && r.modulus == m.modulus
    ensures Get(H, r, k) == Some(v)
  {
    var (s, i) := GetMut(H, m, k).value;
    var b := m.base[s];
    var b2 := b[i := Node(k, v)];
    TotalUpdate(m.base, s, b2);
    IndexOfFirst(b2, k, i);
    ReplaceDistinct(b, i, v);
    m.(base := m.base[s := b2])
  }

  lemma WriteAtOthers<K, V>(H: K -> nat, m: ChainHashMap<K, V>, k: K, v: V, k2: K)
    requires Valid(H, m) && GetMut(H, m, k).Some? && k2 != k
    ensures Get(H, WriteAt(H, m, k, v), k2) == Get(H, m, k2)
  {
    var (s, i) := GetMut(H, m, k).value;
    var r := WriteAt(H, m, k, v);
    var x := m.base[s][i := Node(k, v)];
    forall w ensures Holds(m, k2, w) <==> Holds(r, k2, w) {
      forall j | 0 <= j < |m.base[s]| && m.base[s][j].key != k ensures m.base[s][j] in x {
        assert x[j] == m.base[s][j];
      }
      BucketSame(m, r, s, x, k, k2, w);
    }
    SameGet(H, m, r, k2);
  }

  // ---------------------------------------------------------------------------------
  // Insertion and removal.

  /** `insert`: at `k`'s node, replace the value and hand back the old one; otherwise append
      a node to `k`'s bucket and count it. */
  function Insert<K(==), V>(H: K -> nat, m: ChainHashMap<K, V>, k: K, v: V)
    : (r: (ChainHashMap<K, V>, Option<V>))
    requires Valid(H, m)
    ensures Valid(H, r.0) && r.0.modulus == m.modulus
    ensures r.1 == Get(H, m, k) && Get(H, r.0, k) == Some(v)
    ensures r.0.len == if r.1.Some? then m.len else m.len + 1
    ensures var s := Slot(H, m, k);
      && (r.1.None? ==> r.0.base[s] == m.base[s] + [Node(k, v)])
      && (forall s2 :: 0 <= s2 < |m.base| && s2 != s ==> r.0.base[s2] == m.base[s2])
  {
    if GetMut(H, m, k).Some? then
      (WriteAt(H, m, k, v), Get(H, m, k))
    else
      var s := Slot(H, m, k);
      var b := m.base[s];
      var b2 := b + [Node(k, v)];
      TotalUpdate(m.base, s, b2);
      IndexOfFirst(b2, k, |b|);
      AppendDistinct(b, k, v);
      (ChainHashMap(m.base[s := b2], m.modulus, m.len + 1), None)
  }

  /** `insert` leaves every other key's lookup alone. */
  lemma InsertOthers<K, V>(H: K -> nat, m: ChainHashMap<K, V>, k: K, v: V, k2: K)
    requires Valid(H, m) && k2 != k
    ensures Get(H, Insert(H, m, k, v).0, k2) == Get(H, m, k2)
  {
    if GetMut(H, m, k).Some? {
      WriteAtOthers(H, m, k, v, k2);
    } else {
      var r := Insert(H, m, k, v).0;
      var s := Slot(H, m, k);
      var x := m.base[s] + [Node(k, v)];
      forall w ensures Holds(m, k2, w) <==> Holds(r, k2, w) {
        forall j | 0 <= j < |m.base[s]| && m.base[s][j].key != k ensures m.base[s][j] in x {
          assert x[j] == m.base[s][j];
        }
        BucketSame(m, r, s, x, k, k2, w);
      }
      SameGet(H, m, r, k2);
    }
  }

  /** `remove`: drain every node with key `k` from its bucket and hand back the first one's
      value, counting one node fewer if there was one. */
  function Remove<K(==), V>(H: K -> nat, m: ChainHashMap<K, V>, k: K)
    : (r: (ChainHashMap<K, V>, Option<V>))
    requires Valid(H, m)
    ensures Valid(H, r.0) && r.0.modulus == m.modulus
    ensures r.1 == Get(H, m, k) && Get(H, r.0, k) == None
    ensures r.0.len == if r.1.Some? then m.len - 1 else m.len
    ensures r.1.None? ==> r.0 == m
  {
    var s := Slot(H, m, k);
    var b := m.base[s];
    var i := IndexOf(b, k);
    var b2 := Without(b, k);
    WithoutLength(b, k);
    WithoutDistinct(b, k);
    TotalUpdate(m.base, s, b2);
    if i.None? then
      assert m.base[s := b2] == m.base;
      (m, None)
    else
      (ChainHashMap(m.base[s := b2], m.modulus, m.len - 1), Some(b[i.value].value))
  }

  /** `remove` leaves every other key's lookup alone. */
  lemma RemoveOthers<K, V>(H: K -> nat, m: ChainHashMap<K, V>, k: K, k2: K)
    requires Valid(H, m) && k2 != k
    ensures Get(H, Remove(H, m, k).0, k2) == Get(H, m, k2)
  {
    var r := Remove(H, m, k).0;
    var s := Slot(H, m, k);
    if Remove(H, m, k).1.Some? {
      var x := Without(m.base[s], k);
      forall w ensures Holds(m, k2, w) <==> Holds(r, k2, w) {
        BucketSame(m, r, s, x, k, k2, w);
      }
      SameGet(H, m, r, k2);
    }
  }

  // ---------------------------------------------------------------------------------
  // Construction.

  /** `with_capacity`: `cap` empty buckets, and `cap` as the modulus. */
  function WithCapacity<K, V>(cap: nat): ChainHashMap<K, V> {
    ChainHashMap(seq(cap, _ => []), cap, 0)
  }

  /** What `with_capacity` builds has `cap` buckets, all empty, `cap` as modulus and length 0. */
  lemma WithCapacityEmpty<K, V>(m: ChainHashMap<K, V>, cap: nat)
    requires m == WithCapacity(cap)
    ensures m.modulus == cap && m.len == 0 && |m.base| == cap
    ensures forall s :: 0 <= s < |m.base| ==> m.base[s] == []
  {
  }

  /** `new`: 97 empty buckets. */
  function New<K, V>(): ChainHashMap<K, V> {
    WithCapacity(97)
  }

  /** What `new` builds has 97 buckets, all empty, 97 as modulus and length 0. */
  lemma NewEmpty<K, V>(m: ChainHashMap<K, V>)
    requires m == New()
    ensures m.modulus == 97 && m.len == 0 && |m.base| == 97
    ensures forall s :: 0 <= s < |m.base| ==> m.base[s] == []
  {
  }

  /** Empty buckets make a valid map in which every lookup misses, for any hasher, as long as
      there is at least one bucket. */
  lemma EmptyValid<K, V>(H: K -> nat, m: ChainHashMap<K, V>, k: K)
    requires |m.base| == m.modulus > 0 && m.len == 0
    requires forall s :: 0 <= s < |m.base| ==> m.base[s] == []
    ensures Valid(H, m) && Get(H, m, k) == None
  {
    TotalEmpty(m.base);
  }

  // ---------------------------------------------------------------------------------
  // The sample map of the tests, for any hasher.

  /** A new map after `insert("C", 50)`, `insert("Rust", 12)`, `insert("Javascript", 27)`. */
  function Sample(H: string -> nat): (m: ChainHashMap<string, int>)
    ensures Valid(H, m)
  {
    var m0 := New<string, int>();
    EmptyValid(H, m0, "");
    var m1 := Insert(H, m0, "C", 50).0;
    var m2 := Insert(H, m1, "Rust", 12).0;
    Insert(H, m2, "Javascript", 27).0
  }

  /** What the sample map holds: its three entries and nothing for "Java" or "C++". */
  lemma SampleGets(H: string -> nat)
    ensures Get(H, Sample(H), "C") == Some(50)
    ensures Get(H, Sample(H), "Rust") == Some(12)
    ensures Get(H, Sample(H), "Javascript") == Some(27)
    ensures Get(H, Sample(H), "Java") == None && Get(H, Sample(H), "C++") == None
  {
    var m0 := New<string, int>();
    EmptyValid(H, m0, "Java");
    EmptyValid(H, m0, "C++");
    var m1 := Insert(H, m0, "C", 50).0;
    var m2 := Insert(H, m1, "Rust", 12).0;
    InsertOthers(H, m0, "C", 50, "Java");
    InsertOthers(H, m0, "C", 50, "C++");
    InsertOthers(H, m1, "Rust", 12, "C");
    InsertOthers(H, m1, "Rust", 12, "Java");
    InsertOthers(H, m1, "Rust", 12, "C++");
    InsertOthers(H, m2, "Javascript", 27, "C");
    InsertOthers(H, m2, "Javascript", 27, "Rust");
    InsertOthers(H, m2, "Javascript", 27, "Java");
    InsertOthers(H, m2, "Javascript", 27, "C++");
  }

  /** tests.rs `insert`: a new key gives None, an existing one its old value. */
  lemma SampleInsert(H: string -> nat)
    ensures Insert(H, Sample(H), "Java", 27).1 == None
    ensures Insert(H, Sample(H), "Javascript", 114514).1 == Some(27)
  {
    SampleGets(H);
  }

  /** tests.rs `remove`: removing "C" gives 50; then removing "C++" gives None. */
  lemma SampleRemove(H: string -> nat)
    ensures Remove(H, Sample(H), "C").1 == Some(50)
    ensures Remove(H, Remove(H, Sample(H), "C").0, "C++").1 == None
  {
    SampleGets(H);
    RemoveOthers(H, Sample(H), "C", "C++");
  }

  /** tests.rs `update`: the handle for "Rust" holds 12, and after writing 1919810 through it
      `get` sees the new value. */
  lemma SampleUpdate(H: string -> nat)
    ensures GetMut(H, Sample(H), "Rust").Some?
    ensures var (s, i) := GetMut(H, Sample(H), "Rust").value; Sample(H).base[s][i].value == 12
    ensures Get(H, WriteAt(H, Sample(H), "Rust", 1919810), "Rust") == Some(1919810)
  {
    SampleGets(H);
  }
}

=== FILE: digraph.dfy ===
/**
  The directed graph of graph/digraph/src/lib.rs: an ordered map from id to a node holding an
  element and the ordered set of ids its edges lead to. The ordered set is a strictly
  increasing sequence, which is also its iteration order.
*/
module Digraph {
  import opened Wrappers
  import opened Sets

  datatype Node<V> = Node(element: V, neighbours: seq<nat>)

  datatype DiGraph<V> = DiGraph(adj: map<nat, Node<V>>)

  predicate Increasing(xs: seq<nat>) {
    forall i, j :: 0 <= i < j < |xs| ==> xs[i] < xs[j]
  }

  /** Neighbour sets are ordered and every edge ends at a node of the graph. */
  ghost predicate WellFormed<V>(g: DiGraph<V>) {
    forall a :: a in g.adj ==>
      Increasing(g.adj[a].neighbours) &&
      forall i :: 0 <= i < |g.adj[a].neighbours| ==> g.adj[a].neighbours[i] in g.adj
  }

  /** There is an edge from `a` to `b`. */
  ghost predicate Edge<V>(g: DiGraph<V>, a: nat, b: nat) {
    a in g.adj && b in g.adj[a].neighbours
  }

  // ---------------------------------------------------------------------------------
  // Building.

  /** `BTreeSet::insert`: add `x` to an ordered set. */
  function InsertSorted(xs: seq<nat>, x: nat): (r: seq<nat>)
    requires Increasing(xs)
    ensures Increasing(r)
    ensures forall y :: y in r <==> y in xs || y == x
    ensures |r| == if x in xs then |xs| else |xs| + 1
  {
    if xs == [] then [x]
    else if x < xs[0] then
      assert x !in xs by {
        HeadLeast(xs);
      }
      [x] + xs
    else if x == xs[0] then xs
    else
      var rest := InsertSorted(xs[1..], x);
      HeadLeast(xs);
      ConsIncreasing(xs[0], rest);
      assert x in xs <==> x in xs[1..] by {
        assert xs == [xs[0]] + xs[1..];
      }
      [xs[0]] + rest
  }

  /** The head of an increasing sequence is below everything after it. */
  lemma HeadLeast(xs: seq<nat>)
    requires xs != [] && Increasing(xs)
    ensures Increasing(xs[1..])
    ensures forall y :: y in xs[1..] ==> xs[0] < y
  {
    forall y | y in xs[1..] ensures xs[0] < y {
      var i :| 0 <= i < |xs[1..]| && xs[1..][i] == y;
      assert xs[i + 1] == y;
    }
  }

  lemma ConsIncreasing(x: nat, xs: seq<nat>)
    requires Increasing(xs) && forall y :: y in xs ==> x < y
    ensures Increasing([x] + xs)
  {
    var r := [x] + xs;
    forall i, j | 0 <= i < j < |r| ensures r[i] < r[j] {
      assert r[j] == xs[j - 1] && xs[j - 1] in xs;
      if i > 0 {
        assert r[i] == xs[i - 1];
      }
    }
  }

  function New<V>(): DiGraph<V> {
    DiGraph(map[])
  }

  /** What `new` builds is a well-formed graph without nodes. */
  lemma NewEmpty<V>(g: DiGraph<V>)
    requires g == New()
    ensures WellFormed(g) && NodeCount(g) == 0
  {
  }

  /** Storing a node whose neighbours are ordered and registered keeps the graph well
      formed. */
  lemma SetNode<V>(g: DiGraph<V>, a: nat, n: Node<V>)
    requires WellFormed(g) && Increasing(n.neighbours)
    requires forall i :: 0 <= i < |n.neighbours| ==> n.neighbours[i] in g.adj || n.neighbours[i] == a
    ensures WellFormed(DiGraph(g.adj[a := n]))
  {
    var r := DiGraph(g.adj[a := n]);
    forall x | x in r.adj
      ensures Increasing(r.adj[x].neighbours)
      ensures forall i :: 0 <= i < |r.adj[x].neighbours| ==> r.adj[x].neighbours[i] in r.adj
    {
      if x != a {
        assert r.adj[x] == g.adj[x];
      }
    }
  }

  /** `add_node`: replace the element of an existing node, or add a node without edges. */
  function AddNode<V>(g: DiGraph<V>, id: nat, elt: V): (r: DiGraph<V>)
    requires WellFormed(g)
    ensures WellFormed(r)
    ensures r.adj.Keys == g.adj.Keys + {id}
    ensures r.adj[id].element == elt
    ensures r.adj[id].neighbours == if id in g.adj then g.adj[id].neighbours else []
    ensures forall x :: x in g.adj && x != id ==> r.adj[x] == g.adj[x]
  {
    var n := if id in g.adj then g.adj[id].(element := elt) else Node(elt, []);
    SetNode(g, id, n);
    DiGraph(g.adj[id := n])
  }

  /** `add_edge`: register both ends (the end's element last), then add the end to the
      start's neighbours. */
  function AddEdge<V>(g: DiGraph<V>, a: nat, b: nat, start: V, end: V): (r: DiGraph<V>)
    requires WellFormed(g)
    ensures WellFormed(r)
    ensures r.adj.Keys == g.adj.Keys + {a, b}
    ensures r.adj[b].element == end && (a != b ==> r.adj[a].element == start)
    ensures forall x :: x in g.adj && x != a && x != b ==> r.adj[x] == g.adj[x]
    ensures r.adj[a].neighbours ==
      InsertSorted(if a in g.adj then g.adj[a].neighbours else [], b)
  {
    var g1 := AddNode(g, a, start);
    var g2 := AddNode(g1, b, end);
    Link(g2, a, b)
  }

  /** Add `b` to the neighbours of `a`, both already nodes; nothing else changes. */
  function Link<V>(g: DiGraph<V>, a: nat, b: nat): (r: DiGraph<V>)
    requires WellFormed(g) && a in g.adj && b in g.adj
    ensures WellFormed(r) && r.adj.Keys == g.adj.Keys
    ensures r.adj[a].element == g.adj[a].element
    ensures r.adj[a].neighbours == InsertSorted(g.adj[a].neighbours, b)
    ensures forall x :: x in g.adj && x != a ==> r.adj[x] == g.adj[x]
  {
    var n := g.adj[a];
    LinkWellFormed(g, a, b);
    DiGraph(g.adj[a := n.(neighbours := InsertSorted(n.neighbours, b))])
  }

  /** Adding an edge between two registered nodes keeps the graph well formed. */
  lemma LinkWellFormed<V>(g: DiGraph<V>, a: nat, b: nat)
    requires WellFormed(g) && a in g.adj && b in g.adj
    ensures var n := g.adj[a];
      WellFormed(DiGraph(g.adj[a := n.(neighbours := InsertSorted(n.neighbours, b))]))
  {
    var n := g.adj[a];
    var ns := InsertSorted(n.neighbours, b);
    forall i | 0 <= i < |ns| ensures ns[i] in g.adj {
      assert ns[i] in ns;
      if ns[i] != b {
        var j :| 0 <= j < |n.neighbours| && n.neighbours[j] == ns[i];
      }
    }
    SetNode(g, a, n.(neighbours := ns));
  }

  /** `add_edge` adds exactly the edge from `a` to `b`, which may have been there already. */
  lemma AddEdgeEdges<V>(g: DiGraph<V>, a: nat, b: nat, start: V, end: V, x: nat, y: nat)
    requires WellFormed(g)
    ensures Edge(AddEdge(g, a, b, start, end), x, y) <==> Edge(g, x, y) || (x, y) == (a, b)
  {
    var r := AddEdge(g, a, b, start, end);
    if x != a && x in g.adj && x == b {
      assert r.adj[x].neighbours == g.adj[x].neighbours;
    }
  }

  /** `node_count`. */
  function NodeCount<V>(g: DiGraph<V>): (n: nat)
    ensures n == |g.adj.Keys|
  {
    |g.adj|
  }

  /** The sum of the neighbour-set sizes over the nodes of `adj`. */
  ghost function Degrees<V>(adj: map<nat, Node<V>>): nat
    decreases |adj|
  {
    if adj == map[] then 0
    else
      var k :| k in adj;
      |adj[k].neighbours| + Degrees(adj - {k})
  }

  /** The sum does not depend on the order in which nodes are taken. */
  lemma {:induction false} DegreesRemove<V>(adj: map<nat, Node<V>>, k: nat)
    requires k in adj
    ensures Degrees(adj) == |adj[k].neighbours| + Degrees(adj - {k})
    decreases |adj|
  {
    var j :| j in adj && Degrees(adj) == |adj[j].neighbours| + Degrees(adj - {j});
    if j != k {
      DegreesRemove(adj - {j}, k);
      DegreesRemove(adj - {k}, j);
      assert adj - {j} - {k} == adj - {k} - {j};
    }
  }

  /** `edge_count`: add up the neighbour-set sizes. */
  method EdgeCount<V>(g: DiGraph<V>) returns (n: nat)
    ensures n == Degrees(g.adj)
  {
    n := 0;
    var rest := g.adj;
    while rest != map[]
      invariant n + Degrees(rest) == Degrees(g.adj)
      decreases |rest|
    {
      var k :| k in rest;
      DegreesRemove(rest, k);
      n := n + |rest[k].neighbours|;
      rest := rest - {k};
    }
  }

  /** Replacing the node at `k` changes the sum by the change in its neighbour count. */
  lemma DegreesUpdate<V>(adj: map<nat, Node<V>>, k: nat, n: Node<V>)
    ensures Degrees(adj[k := n]) == Degrees(adj) + |n.neighbours| -
      (if k in adj then |adj[k].neighbours| else 0)
  {
    var adj2 := adj[k := n];
    DegreesRemove(adj2, k);
    assert adj2 - {k} == adj - {k};
    if k in adj {
      DegreesRemove(adj, k);
    } else {
      assert adj - {k} == adj;
    }
  }

  /** `add_node` never changes the edge count. */
  lemma AddNodeDegrees<V>(g: DiGraph<V>, id: nat, elt: V)
    requires WellFormed(g)
    ensures Degrees(AddNode(g, id, elt).adj) == Degrees(g.adj)
  {
    var n := if id in g.adj then g.adj[id].(element := elt) else Node(elt, []);
    DegreesUpdate(g.adj, id, n);
  }

  /** `add_edge` adds one to the edge count for a new edge and nothing for a repeated one,
      and one node for each end not already registered. */
  lemma AddEdgeCounts<V>(g: DiGraph<V>, a: nat, b: nat, start: V, end: V)
    requires WellFormed(g)
    ensures var r := AddEdge(g, a, b, start, end);
      && Degrees(r.adj) == Degrees(g.adj) + (if Edge(g, a, b) then 0 else 1)
      && NodeCount(r) == NodeCount(g) + |{a, b} - g.adj.Keys|
  {
    var r := AddEdge(g, a, b, start, end);
    AddEdgeDegrees(g, a, b, start, end);
    assert r.adj.Keys == g.adj.Keys + ({a, b} - g.adj.Keys);
  }

  /** The edge count grows by one exactly when the edge is new. */
  lemma AddEdgeDegrees<V>(g: DiGraph<V>, a: nat, b: nat, start: V, end: V)
    requires WellFormed(g)
    ensures Degrees(AddEdge(g, a, b, start, end).adj) == Degrees(g.adj) + (if Edge(g, a, b) then 0 else 1)
  {
    var g1 := AddNode(g, a, start);
    var g2 := AddNode(g1, b, end);
    var n := g2.adj[a];
    var ns := InsertSorted(n.neighbours, b);
    var r := Link(g2, a, b);
    assert Degrees(g2.adj) == Degrees(g.adj) by {
      AddNodeDegrees(g, a, start);
      AddNodeDegrees(g1, b, end);
    }
    assert Degrees(r.adj) == Degrees(g2.adj) + |ns| - |n.neighbours| by {
      assert r.adj == g2.adj[a := n.(neighbours := ns)];
      DegreesUpdate(g2.adj, a, n.(neighbours := ns));
    }
    assert Edge(g, a, b) <==> b in n.neighbours;
  }

  // ---------------------------------------------------------------------------------
  // Breadth-first search and shortest paths.

  /** A walk of one or more nodes along edges of `g`. */
  ghost predicate IsPath<V>(g: DiGraph<V>, p: seq<nat>) {
    && |p| >= 1 && p[0] in g.adj
    && forall i :: 0 <= i < |p| - 1 ==> Edge(g, p[i], p[i + 1])
  }

  /** Some walk leads from `a` to `b`. */
  ghost predicate Reachable<V>(g: DiGraph<V>, a: nat, b: nat) {
    exists p :: IsPath(g, p) && p[0] == a && p[|p| - 1] == b
  }

  /** Every edge out of a node of `level` ends in `level`, at most one level further. */
  ghost predicate Closed<V>(g: DiGraph<V>, level: map<nat, nat>) {
    forall u, w :: u in level && Edge(g, u, w) ==> w in level && level[w] <= level[u] + 1
  }

  /** `stretchs` links every reached node but `start` back along an edge to a node one level
      nearer `start`. */
  ghost predicate Tree<V>(g: DiGraph<V>, start: nat, stretchs: map<nat, nat>, level: map<nat, nat>) {
    && start in level && level[start] == 0 && start !in stretchs
    && level.Keys == stretchs.Keys + {start}
    && forall v {:trigger stretchs[v]} :: v in stretchs ==>
         Edge(g, stretchs[v], v) && stretchs[v] in level && level[v] == level[stretchs[v]] + 1
  }

  /** The queue holds, newest first, the marked nodes from position `done` of the marking
      order on. */
  ghost predicate Queued(queue: seq<nat>, order: seq<nat>, done: nat) {
    && done <= |order| && |queue| == |order| - done
    && forall j :: 0 <= j < |queue| ==> queue[j] == order[|order| - 1 - j]
  }

  /** Nodes are marked in order of level. */
  ghost predicate Layered(order: seq<nat>, level: map<nat, nat>) {
    && (forall i :: 0 <= i < |order| ==> order[i] in level)
    && forall i, j :: 0 <= i <= j < |order| ==> level[order[i]] <= level[order[j]]
  }

  /** The neighbours of the first `done` marked nodes are marked, at most one level further. */
  ghost predicate Explored<V>(g: DiGraph<V>, order: seq<nat>, done: nat, level: map<nat, nat>) {
    forall i, w :: 0 <= i < done && i < |order| && Edge(g, order[i], w) ==>
      w in level && order[i] in level && level[w] <= level[order[i]] + 1
  }

  /** What holds of the search at every point: the marked nodes are those of `order`, each
      with a level and (but `start`) a recorded edge. */
  ghost predicate Searching<V>(g: DiGraph<V>, start: nat, marked: set<nat>, stretchs: map<nat, nat>,
                               order: seq<nat>, done: nat, level: map<nat, nat>) {
    && marked == level.Keys && marked <= g.adj.Keys
    && Tree(g, start, stretchs, level)
    && (forall v :: v in marked <==> v in order)
    && Layered(order, level)
    && Explored(g, order, done, level)
  }

  /** Between two pops: the queue holds the unexplored marked nodes, and the newest is at
      most one level beyond the oldest. */
  ghost predicate Waiting<V>(g: DiGraph<V>, start: nat, marked: set<nat>, queue: seq<nat>,
                             stretchs: map<nat, nat>, order: seq<nat>, done: nat, level: map<nat, nat>) {
    && Searching(g, start, marked, stretchs, order, done, level)
    && Queued(queue, order, done)
    && (done < |order| ==> level[order[|order| - 1]] <= level[order[done]] + 1)
  }

  /** While the neighbours of `id`, the node at position `done`, are scanned. */
  ghost predicate Scanning<V>(g: DiGraph<V>, start: nat, marked: set<nat>, queue: seq<nat>,
                              stretchs: map<nat, nat>, order: seq<nat>, done: nat, level: map<nat, nat>, id: nat) {
    && Searching(g, start, marked, stretchs, order, done, level)
    && done < |order| && id == order[done]
    && Queued(queue, order, done + 1)
    && level[order[|order| - 1]] <= level[id] + 1
  }

  lemma StartWaiting<V>(g: DiGraph<V>, start: nat)
    requires WellFormed(g) && start in g.adj
    ensures Waiting(g, start, {start}, [start], map[], [start], 0, map[start := 0])
  {
  }

  /** Taking the oldest node off the queue starts the scan of its neighbours. */
  lemma PopScanning<V>(g: DiGraph<V>, start: nat, marked: set<nat>, queue: seq<nat>,
                       stretchs: map<nat, nat>, order: seq<nat>, done: nat, level: map<nat, nat>)
    requires Waiting(g, start, marked, queue, stretchs, order, done, level) && queue != []
    ensures Scanning(g, start, marked, queue[..|queue| - 1], stretchs, order, done, level, queue[|queue| - 1])
  {
  }

  /** Marking an unmarked neighbour one level beyond `id` keeps the scan going. */
  lemma VisitScanning<V>(g: DiGraph<V>, start: nat, marked: set<nat>, queue: seq<nat>,
                         stretchs: map<nat, nat>, order: seq<nat>, done: nat, level: map<nat, nat>, id: nat, nb: nat)
    requires Scanning(g, start, marked, queue, stretchs, order, done, level, id)
    requires nb !in marked && Edge(g, id, nb) && nb in g.adj
    ensures Scanning(g, start, marked + {nb}, [nb] + queue, stretchs[nb := id], order + [nb], done,
                     level[nb := level[id] + 1], id)
  {
    var (order2, level2) := (order + [nb], level[nb := level[id] + 1]);
    VisitSearching(g, start, marked, stretchs, order, done, level, id, nb);
    VisitQueued(queue, order, done + 1, nb);
    assert order2[done] == id && order2[|order2| - 1] == nb;
    assert id != nb && level2[id] == level[id] && level2[nb] == level[id] + 1;
  }

  /** Marking an unmarked neighbour of a marked node, one level beyond it, keeps the search
      sound. */
  lemma VisitSearching<V>(g: DiGraph<V>, start: nat, marked: set<nat>, stretchs: map<nat, nat>,
                          order: seq<nat>, done: nat, level: map<nat, nat>, id: nat, nb: nat)
    requires Searching(g, start, marked, stretchs, order, done, level)
    requires done < |order| && id == order[done] && level[order[|order| - 1]] <= level[id] + 1
    requires nb !in marked && Edge(g, id, nb) && nb in g.adj
    ensures Searching(g, start, marked + {nb}, stretchs[nb := id], order + [nb], done,
                      level[nb := level[id] + 1])
  {
    var (marked2, stretchs2, order2, level2) := (marked + {nb}, stretchs[nb := id], order + [nb], level[nb := level[id] + 1]);
    VisitTreePart(g, start, marked, stretchs, level, id, nb);
    VisitOrderPart(g, marked, order, done, level, id, nb);
    SearchingIntro(g, start, marked2, stretchs2, order2, done, level2);
  }

  /** The marks and the tree after marking `nb` from `id`. */
  lemma VisitTreePart<V>(g: DiGraph<V>, start: nat, marked: set<nat>, stretchs: map<nat, nat>,
                         level: map<nat, nat>, id: nat, nb: nat)
    requires marked == level.Keys && marked <= g.adj.Keys
    requires Tree(g, start, stretchs, level) && id in level
    requires nb !in marked && Edge(g, id, nb) && nb in g.adj
    ensures marked + {nb} == level[nb := level[id] + 1].Keys && marked + {nb} <= g.adj.Keys
    ensures Tree(g, start, stretchs[nb := id], level[nb := level[id] + 1])
  {
    VisitTree(g, start, stretchs, level, id, nb);
  }

  /** The marking order after appending `nb` one level beyond the node at `done`. */
  lemma VisitOrderPart<V>(g: DiGraph<V>, marked: set<nat>, order: seq<nat>, done: nat,
                          level: map<nat, nat>, id: nat, nb: nat)
    requires marked == level.Keys && (forall v :: v in marked <==> v in order)
    requires Layered(order, level) && Explored(g, order, done, level)
    requires done < |order| && id == order[done] && level[order[|order| - 1]] <= level[id] + 1
    requires nb !in marked
    ensures forall v :: v in marked + {nb} <==> v in order + [nb]
    ensures Layered(order + [nb], level[nb := level[id] + 1])
    ensures Explored(g, order + [nb], done, level[nb := level[id] + 1])
  {
    VisitLayered(order, level, nb, level[id] + 1);
    VisitExplored(g, order, done, level, nb, level[id] + 1);
    VisitOrder(marked, order, nb);
  }

  lemma SearchingIntro<V>(g: DiGraph<V>, start: nat, marked: set<nat>, stretchs: map<nat, nat>,
                          order: seq<nat>, done: nat, level: map<nat, nat>)
    requires marked == level.Keys && marked <= g.adj.Keys
    requires Tree(g, start, stretchs, level)
    requires forall v :: v in marked <==> v in order
    requires Layered(order, level) && Explored(g, order, done, level)
    ensures Searching(g, start, marked, stretchs, order, done, level)
  {
  }

  lemma VisitOrder(marked: set<nat>, order: seq<nat>, nb: nat)
    requires forall v :: v in marked <==> v in order
    ensures forall v :: v in marked + {nb} <==> v in order + [nb]
  {
  }

  lemma VisitTree<V>(g: DiGraph<V>, start: nat, stretchs: map<nat, nat>, level: map<nat, nat>, id: nat, nb: nat)
    requires Tree(g, start, stretchs, level) && id in level && nb !in level && Edge(g, id, nb)
    ensures Tree(g, start, stretchs[nb := id], level[nb := level[id] + 1])
  {
  }

  lemma VisitLayered(order: seq<nat>, level: map<nat, nat>, nb: nat, lv: nat)
    requires Layered(order, level) && nb !in level
    requires |order| > 0 && level[order[|order| - 1]] <= lv
    ensures Layered(order + [nb], level[nb := lv])
  {
    var level2 := level[nb := lv];
    var order2 := order + [nb];
    forall i, j | 0 <= i <= j < |order2| ensures level2[order2[i]] <= level2[order2[j]] {
      if j < |order| {
        assert order2[i] == order[i] && order2[j] == order[j];
      } else if i < |order| {
        assert order2[i] == order[i];
        assert level[order[i]] <= level[order[|order| - 1]];
      }
    }
  }

  lemma VisitExplored<V>(g: DiGraph<V>, order: seq<nat>, done: nat, level: map<nat, nat>, nb: nat, lv: nat)
    requires Explored(g, order, done, level) && nb !in level && done <= |order|
    ensures Explored(g, order + [nb], done, level[nb := lv])
  {
    var order2 := order + [nb];
    forall i, w | 0 <= i < done && i < |order2| && Edge(g, order2[i], w)
      ensures w in level && order2[i] in level && level[w] <= level[order2[i]] + 1
    {
      assert order2[i] == order[i];
    }
  }

  lemma VisitQueued(queue: seq<nat>, order: seq<nat>, done: nat, nb: nat)
    requires Queued(queue, order, done)
    ensures Queued([nb] + queue, order + [nb], done)
  {
  }

  /** A neighbour that is already marked lies at most one level beyond `id`. */
  lemma SeenNear<V>(g: DiGraph<V>, start: nat, marked: set<nat>, queue: seq<nat>,
                    stretchs: map<nat, nat>, order: seq<nat>, done: nat, level: map<nat, nat>, id: nat, nb: nat)
    requires Scanning(g, start, marked, queue, stretchs, order, done, level, id)
    requires nb in marked
    ensures level[nb] <= level[id] + 1
  {
    var i :| 0 <= i < |order| && order[i] == nb;
    assert level[order[i]] <= level[order[|order| - 1]];
  }

  /** Once all of `id`'s neighbours lie within one level of it, `id` is explored. */
  lemma ScanWaiting<V>(g: DiGraph<V>, start: nat, marked: set<nat>, queue: seq<nat>,
                       stretchs: map<nat, nat>, order: seq<nat>, done: nat, level: map<nat, nat>, id: nat)
    requires Scanning(g, start, marked, queue, stretchs, order, done, level, id)
    requires forall w :: Edge(g, id, w) ==> w in level && level[w] <= level[id] + 1
    ensures Waiting(g, start, marked, queue, stretchs, order, done + 1, level)
  {
    if done + 1 < |order| {
      assert level[order[done]] <= level[order[done + 1]];
    }
  }

  /** With the queue empty every marked node has been explored. */
  lemma EmptyClosed<V>(g: DiGraph<V>, start: nat, marked: set<nat>, queue: seq<nat>,
                       stretchs: map<nat, nat>, order: seq<nat>, done: nat, level: map<nat, nat>)
    requires Waiting(g, start, marked, queue, stretchs, order, done, level) && queue == []
    ensures Closed(g, level)
  {
    forall u, w | u in level && Edge(g, u, w) ensures w in level && level[w] <= level[u] + 1 {
      var i :| 0 <= i < |order| && order[i] == u;
    }
  }

  /** The body of `bfs`'s loop: take the oldest id off the queue and visit its neighbours in
      order. */
  method Scan<V>(g: DiGraph<V>, ghost start: nat, marked: set<nat>, queue: seq<nat>, stretchs: map<nat, nat>,
                 ghost order: seq<nat>, ghost done: nat, ghost level: map<nat, nat>)
    returns (marked2: set<nat>, queue2: seq<nat>, stretchs2: map<nat, nat>,
             ghost order2: seq<nat>, ghost level2: map<nat, nat>)
    requires WellFormed(g)
    requires Waiting(g, start, marked, queue, stretchs, order, done, level) && queue != []
    ensures Waiting(g, start, marked2, queue2, stretchs2, order2, done + 1, level2)
    ensures |marked| <= |marked2| && (|marked2| == |marked| ==> |queue2| < |queue|)
  {
    var id := queue[|queue| - 1];
    PopScanning(g, start, marked, queue, stretchs, order, done, level);
    marked2, queue2, stretchs2, order2, level2 :=
      Visit(g, start, marked, queue[..|queue| - 1], stretchs, order, done, level, id);
    ScanWaiting(g, start, marked2, queue2, stretchs2, order2, done, level2, id);
  }

  /** The `for` loop of `bfs`: mark every unmarked neighbour of `id`, record the edge from `id`
      and queue it. */
  method Visit<V>(g: DiGraph<V>, ghost start: nat, marked: set<nat>, queue: seq<nat>, stretchs: map<nat, nat>,
                  ghost order: seq<nat>, ghost done: nat, ghost level: map<nat, nat>, id: nat)
    returns (marked2: set<nat>, queue2: seq<nat>, stretchs2: map<nat, nat>,
             ghost order2: seq<nat>, ghost level2: map<nat, nat>)
    requires WellFormed(g)
    requires Scanning(g, start, marked, queue, stretchs, order, done, level, id)
    ensures Scanning(g, start, marked2, queue2, stretchs2, order2, done, level2, id)
    ensures |marked| <= |marked2| && (|marked2| == |marked| ==> queue2 == queue)
    ensures forall w :: Edge(g, id, w) ==> w in level2 && level2[w] <= level2[id] + 1
  {
    marked2, queue2, stretchs2, order2, level2 := marked, queue, stretchs, order, level;
    var nbs := g.adj[id].neighbours;
    var k := 0;
    while k < |nbs|
      invariant k <= |nbs|
      invariant Scanning(g, start, marked2, queue2, stretchs2, order2, done, level2, id)
      invariant |marked| <= |marked2| && (|marked2| == |marked| ==> queue2 == queue)
      invariant Near(level2, id, nbs, k)
    {
      marked2, queue2, stretchs2, order2, level2 :=
        Mark(g, start, marked2, queue2, stretchs2, order2, done, level2, id, nbs, k);
      k := k + 1;
    }
    forall w | Edge(g, id, w) ensures w in level2 && level2[w] <= level2[id] + 1 {
      var j :| 0 <= j < |nbs| && nbs[j] == w;
    }
  }

  /** The first `k` nodes of `ws` lie at most one level beyond `id`. */
  ghost predicate Near(level: map<nat, nat>, id: nat, ws: seq<nat>, k: nat) {
    id in level && forall j :: 0 <= j < k && j < |ws| ==> ws[j] in level && level[ws[j]] <= level[id] + 1
  }

  /** Marking `ws[k]` one level beyond `id` extends `Near` by one. */
  lemma NearGrow(level: map<nat, nat>, id: nat, ws: seq<nat>, k: nat)
    requires Near(level, id, ws, k) && k < |ws| && ws[k] !in level
    ensures Near(level[ws[k] := level[id] + 1], id, ws, k + 1)
  {
  }

  /** One step of the `for` loop of `bfs`: `marked.insert(nb)` reports whether `nb` is new; if
      so, the edge from `id` is recorded and `nb` is queued. */
  method Mark<V>(g: DiGraph<V>, ghost start: nat, marked: set<nat>, queue: seq<nat>, stretchs: map<nat, nat>,
                 ghost order: seq<nat>, ghost done: nat, ghost level: map<nat, nat>, id: nat,
                 nbs: seq<nat>, k: nat)
    returns (marked2: set<nat>, queue2: seq<nat>, stretchs2: map<nat, nat>,
             ghost order2: seq<nat>, ghost level2: map<nat, nat>)
    requires WellFormed(g) && id in g.adj && k < |nbs| && nbs == g.adj[id].neighbours
    requires Scanning(g, start, marked, queue, stretchs, order, done, level, id)
    requires Near(level, id, nbs, k)
    ensures Scanning(g, start, marked2, queue2, stretchs2, order2, done, level2, id)
    ensures |marked2| == |marked| ==> queue2 == queue
    ensures |marked2| == |marked| || |marked2| == |marked| + 1
    ensures Near(level2, id, nbs, k + 1)
  {
    var nb := nbs[k];
    if nb !in marked {
      assert nb in g.adj;
      VisitScanning(g, start, marked, queue, stretchs, order, done, level, id, nb);
      NearGrow(level, id, nbs, k);
      marked2 := marked + {nb};
      stretchs2 := stretchs[nb := id];
      queue2 := [nb] + queue;
      order2 := order + [nb];
      level2 := level[nb := level[id] + 1];
    } else {
      SeenNear(g, start, marked, queue, stretchs, order, done, level, id, nb);
      marked2, queue2, stretchs2, order2, level2 := marked, queue, stretchs, order, level;
    }
  }

  /** `bfs`: mark `start`, then take ids from the back of the queue, and for each neighbour not
      yet marked, mark it, record the edge it was reached by, and push it at the front. The
      ghost `level` is the number of edges each node is away from `start`. */
  method Bfs<V>(g: DiGraph<V>, start: nat) returns (stretchs: map<nat, nat>, ghost level: map<nat, nat>)
    requires WellFormed(g) && start in g.adj
    ensures Tree(g, start, stretchs, level)
    ensures Closed(g, level)
    ensures exists lv :: Tree(g, start, stretchs, lv) && Closed(g, lv)
  {
    stretchs := map[];
    var marked := {start};
    var queue := [start];
    ghost var order := [start];
    ghost var done := 0;
    level := map[start := 0];
    StartWaiting(g, start);
    while queue != []
      invariant Waiting(g, start, marked, queue, stretchs, order, done, level)
      invariant |marked| <= |g.adj|
      decreases |g.adj| - |marked|, |queue|
    {
      marked, queue, stretchs, order, level := Scan(g, start, marked, queue, stretchs, order, done, level);
      done := done + 1;
      SubsetCard(marked, g.adj.Keys);
    }
    EmptyClosed(g, start, marked, queue, stretchs, order, done, level);
  }

  /** Along a walk out of a closed `level`, the level grows by at most one per edge. */
  lemma {:induction false} LevelBound<V>(g: DiGraph<V>, level: map<nat, nat>, p: seq<nat>)
    requires Closed(g, level) && IsPath(g, p) && p[0] in level
    ensures p[|p| - 1] in level && level[p[|p| - 1]] <= level[p[0]] + |p| - 1
    decreases |p|
  {
    if |p| > 1 {
      var q := p[..|p| - 1];
      assert IsPath(g, q) by {
        forall i | 0 <= i < |q| - 1 ensures Edge(g, q[i], q[i + 1]) {
          assert q[i] == p[i] && q[i + 1] == p[i + 1];
        }
      }
      LevelBound(g, level, q);
      assert Edge(g, p[|p| - 2], p[|p| - 1]);
    }
  }

  /** Every node reachable from `start` has a level. */
  lemma ReachedLevel<V>(g: DiGraph<V>, level: map<nat, nat>, start: nat, end: nat)
    requires Closed(g, level) && start in level && Reachable(g, start, end)
    ensures end in level
  {
    var p :| IsPath(g, p) && p[0] == start && p[|p| - 1] == end;
    LevelBound(g, level, p);
  }

  /** A walk extended backwards along an edge is a walk. */
  lemma PathCons<V>(g: DiGraph<V>, x: nat, p: seq<nat>)
    requires IsPath(g, p) && Edge(g, x, p[0])
    ensures IsPath(g, [x] + p)
  {
    var q := [x] + p;
    forall i | 0 <= i < |q| - 1 ensures Edge(g, q[i], q[i + 1]) {
      if i > 0 {
        assert q[i] == p[i - 1] && q[i + 1] == p[i];
      }
    }
  }

  /** `p` is a walk from `a` to `b` with no more nodes than any other. */
  ghost predicate Shortest<V>(g: DiGraph<V>, a: nat, b: nat, p: seq<nat>) {
    && IsPath(g, p) && p[0] == a && p[|p| - 1] == b
    && forall q :: IsPath(g, q) && q[0] == a && q[|q| - 1] == b ==> |p| <= |q|
  }

  /** What `shortest_path` returns when it does not panic: `Ok` with the path, or `Err` with
      the id that is not in the graph. */
  datatype Found = Ok(path: seq<nat>) | Err(id: nat)

  /** The backtracking loop of `shortest_path`: from `end`, follow the recorded edges back to
      `start`, collecting the ids in front. The `unwrap` panics on an id with no recorded
      edge, which happens exactly when `end` was not reached. */
  method Backtrack<V>(g: DiGraph<V>, start: nat, end: nat, stretchs: map<nat, nat>, ghost level: map<nat, nat>)
    returns (r: Outcome<seq<nat>>)
    requires Tree(g, start, stretchs, level) && end in g.adj
    ensures r.Panic? <==> end !in level
    ensures r.Done? ==>
      && IsPath(g, r.value) && r.value[0] == start && r.value[|r.value| - 1] == end
      && end in level && |r.value| == level[end] + 1
  {
    var path: seq<nat> := [];
    var id := end;
    while id != start
      invariant end !in level ==> id == end && path == []
      invariant end in level ==>
        && id in level && IsPath(g, [id] + path) && ([id] + path)[|path|] == end
        && level[id] + |path| == level[end]
      decreases if id in level then level[id] else 0
    {
      path := [id] + path;
      if id !in stretchs {
        return Panic;
      }
      PathCons(g, stretchs[id], path);
      id := stretchs[id];
    }
    r := Done([start] + path);
  }

  /** `shortest_path`: `Err` with an id that is not in the graph; otherwise search from
      `start` and backtrack from `end`. */
  method ShortestPath<V>(g: DiGraph<V>, start: nat, end: nat) returns (r: Outcome<Found>)
    requires WellFormed(g)
    ensures start !in g.adj ==> r == Done(Err(start))
    ensures start in g.adj && end !in g.adj ==> r == Done(Err(end))
    ensures start in g.adj && end in g.adj && r.Done? ==> r.value.Ok?
    ensures start in g.adj && end in g.adj ==> (r.Panic? <==> !Reachable(g, start, end))
    ensures r.Done? && r.value.Ok? ==> Shortest(g, start, end, r.value.path)
  {
    if start !in g.adj {
      return Done(Err(start));
    } else if end !in g.adj {
      return Done(Err(end));
    }
    var stretchs, level := Bfs(g, start);
    var back := Backtrack(g, start, end, stretchs, level);
    if back.Panic? {
      assert !Reachable(g, start, end) by {
        if Reachable(g, start, end) {
          ReachedLevel(g, level, start, end);
        }
      }
      return Panic;
    }
    var p := back.value;
    forall q | IsPath(g, q) && q[0] == start && q[|q| - 1] == end ensures |p| <= |q| {
      LevelBound(g, level, q);
    }
    assert Shortest(g, start, end, p);
    r := Done(Ok(p));
  }

  /** The graph `add_edge` builds from an empty one, one edge after another; every element is
      `()`. */
  function Build(edges: seq<(nat, nat)>): (g: DiGraph<()>)
    ensures WellFormed(g)
  {
    if edges == [] then New()
    else
      var e := edges[|edges| - 1];
      AddEdge(Build(edges[..|edges| - 1]), e.0, e.1, (), ())
  }

  /** The built graph has exactly the listed edges. */
  lemma {:induction false} BuildEdges(edges: seq<(nat, nat)>, x: nat, y: nat)
    ensures Edge(Build(edges), x, y) <==> (x, y) in edges
  {
    if edges != [] {
      var e := edges[|edges| - 1];
      var init := edges[..|edges| - 1];
      assert (x, y) in edges <==> (x, y) in init || (x, y) == e by {
        assert edges == init + [e];
      }
      assert Build(edges) == AddEdge(Build(init), e.0, e.1, (), ());
      BuildEdges(init, x, y);
      AddEdgeEdges(Build(init), e.0, e.1, (), (), x, y);
    }
  }

  /** The edges of the graph built by the repository's test module. */
  const SampleEdges: seq<(nat, nat)> := [(0, 2), (0, 1), (0, 5), (3, 5), (3, 4), (2, 4), (2, 1), (2, 3)]

  /** An edge is a shortest path between its two distinct ends. */
  method DirectPath<V>(g: DiGraph<V>, a: nat, b: nat) returns (r: Outcome<Found>)
    requires WellFormed(g) && Edge(g, a, b) && a != b
    ensures r == Done(Ok([a, b]))
  {
    assert IsPath(g, [a, b]);
    r := ShortestPath(g, a, b);
    var p := r.value.path;
    assert |p| <= 2;
    assert p == [p[0], p[1]];
  }

  /** The repository's `shortest_path` test: from 0 to 5 in the sample graph the path is the
      direct edge. */
  method SampleShortestPath() returns (r: Outcome<Found>)
    ensures r == Done(Ok([0, 5]))
  {
    SampleEdge();
    r := DirectPath(Build(SampleEdges), 0, 5);
  }

  lemma SampleEdge()
    ensures Edge(Build(SampleEdges), 0, 5)
  {
    var es := SampleEdges;
    assert es[2] == (0, 5);
    BuildListed(es, 2);
  }

  /** Every listed edge is an edge of the built graph. */
  lemma BuildListed(edges: seq<(nat, nat)>, i: nat)
    requires i < |edges|
    ensures Edge(Build(edges), edges[i].0, edges[i].1)
  {
    BuildEdges(edges, edges[i].0, edges[i].1);
  }
}

=== FILE: heap_sort.dfy ===
/**
  Heap sort, sort/src/heap.rs: the array is made a max-heap, with the children of
  position `p` at `2p + 1` and `2p + 2`, by sinking every parent from the last one up;
  then the root is repeatedly swapped to the end of the shrinking heap and the new root
  sunk.
*/
module HeapSort {
  import opened Sorting

  /** The parent of position `i > 0`. */
  function Parent(i: nat): (p: nat)
    requires i > 0
    ensures 2 * p + 1 == i || 2 * p + 2 == i
  {
    (i - 1) / 2
  }

  /** Among the first `n` elements, every one whose parent is at or after `p` is at most its
      parent. */
  ghost predicate HeapFrom(a: seq<int>, n: nat, p: nat) {
    forall i :: 0 < i < n && i < |a| && p <= Parent(i) ==> a[i] <= a[Parent(i)]
  }

  /** The first `n` elements form a max-heap. */
  ghost predicate Heap(a: seq<int>, n: nat) {
    HeapFrom(a, n, 0)
  }

  /** While `sink` moves the element from `p` down it sits at `q`: below `p` the heap order
      holds everywhere except between `q` and its children, and those children are at most
      the parent of `q`. */
  ghost predicate Sinking(a: seq<int>, n: nat, p: nat, q: nat) {
    && p <= q < n <= |a|
    && (q > p ==> p <= Parent(q))
    && (forall i :: 0 < i < n && p <= Parent(i) && Parent(i) != q ==> a[i] <= a[Parent(i)])
    && (q > p ==> forall i :: 0 < i < n && Parent(i) == q ==> a[i] <= a[Parent(q)])
  }

  /** One step of `sink` at `q` with larger child `m`: after the swap, if any, the element
      sits at `m`. */
  lemma SinkStep(a: seq<int>, n: nat, p: nat, q: nat, m: nat)
    requires Sinking(a, n, p, q) && m < n && m > 0 && Parent(m) == q
    requires forall i :: 0 < i < n && Parent(i) == q ==> a[i] <= a[m]
    ensures a[q] < a[m] ==> Sinking(Swap(a, q, m), n, p, m)
    ensures a[q] >= a[m] ==> Sinking(a, n, p, m)
  {
    if a[q] < a[m] {
      var b := Swap(a, q, m);
      forall i | 0 < i < n && p <= Parent(i) && Parent(i) != m ensures b[i] <= b[Parent(i)] {
        if i == q {
          assert b[i] == a[m] && b[Parent(i)] == a[Parent(q)];
        } else if Parent(i) == q {
          assert b[Parent(i)] == a[m];
          if i != m {
            assert b[i] == a[i];
          }
        } else {
          assert b[i] == a[i] && b[Parent(i)] == a[Parent(i)];
        }
      }
      forall i | 0 < i < n && Parent(i) == m ensures b[i] <= b[q] {
        assert b[i] == a[i];
      }
    } else {
      forall i | 0 < i < n && Parent(i) == m ensures a[i] <= a[q] {
        assert a[i] <= a[m];
      }
    }
  }

  /** `sink` on the first `n` elements from `p`, when every element below `p` is already in
      heap order: afterwards the element at `p` is in heap order too. Only positions from `p`
      up to `n` move. */
  method Sink(a: seq<int>, n: nat, p: nat) returns (r: seq<int>)
    requires p < n <= |a| && HeapFrom(a, n, p + 1)
    ensures |r| == |a| && multiset(r) == multiset(a) && HeapFrom(r, n, p)
    ensures forall i :: 0 <= i < |a| && (i < p || n <= i) ==> r[i] == a[i]
  {
    r := a;
    var q := p;
    var last := n - 1;
    while true
      invariant |r| == |a| && multiset(r) == multiset(a) && Sinking(r, n, p, q)
      invariant forall i :: 0 <= i < |a| && (i < p || n <= i) ==> r[i] == a[i]
      decreases n - q
    {
      var left := 2 * q + 1;
      if left > last {
        SinkDone(r, n, p, q);
        break;
      }
      var right := left + 1;
      var m := if left != last && r[right] > r[left] then right else left;
      LargerChild(r, n, q, m);
      SinkStep(r, n, p, q, m);
      if r[q] < r[m] {
        r := Swap(r, q, m);
      }
      q := m;
    }
  }

  /** A position without children ends the sinking: the heap order holds from `p`. */
  lemma SinkDone(a: seq<int>, n: nat, p: nat, q: nat)
    requires Sinking(a, n, p, q) && 2 * q + 1 >= n
    ensures HeapFrom(a, n, p)
  {
  }

  /** The child `sink` picks is the larger one among the first `n` elements. */
  lemma LargerChild(a: seq<int>, n: nat, q: nat, m: nat)
    requires n <= |a| && 2 * q + 1 < n && m < n && (m == 2 * q + 1 || m == 2 * q + 2)
    requires a[2 * q + 1] <= a[m] && (2 * q + 2 < n ==> a[2 * q + 2] <= a[m])
    ensures m > 0 && Parent(m) == q
    ensures forall i :: 0 < i < n && Parent(i) == q ==> a[i] <= a[m]
  {
  }

  /** The root of a heap is its largest element. */
  lemma {:induction false} HeapTop(a: seq<int>, n: nat, i: nat)
    requires Heap(a, n) && i < n <= |a|
    ensures a[i] <= a[0]
    decreases i
  {
    if i > 0 {
      HeapTop(a, n, Parent(i));
    }
  }

  /** The build phase: every parent from `len / 2 - 1` down to 0 is sunk, which leaves a
      heap. */
  method Build(a: seq<int>) returns (r: seq<int>)
    requires |a| >= 2
    ensures |r| == |a| && multiset(r) == multiset(a) && Heap(r, |r|)
  {
    r := a;
    var p: nat := |a| / 2;
    while p > 0
      invariant |r| == |a| && multiset(r) == multiset(a) && HeapFrom(r, |r|, p)
    {
      r := Sink(r, |r|, p - 1);
      p := p - 1;
    }
  }

  /** One extraction: the root, the largest element of the heap, is swapped to `end`,
      which extends the settled tail, and the new root is sunk. */
  method Extract(a: seq<int>, end: nat) returns (r: seq<int>)
    requires 0 < end < |a| && Heap(a, end + 1) && Settled(a, end + 1)
    ensures |r| == |a| && multiset(r) == multiset(a) && Heap(r, end) && Settled(r, end)
  {
    forall i | 0 <= i <= end ensures a[i] <= a[0] {
      HeapTop(a, end + 1, i);
    }
    var b := Swap(a, 0, end);
    assert AtMost(b[..end], b[end]);
    r := Sink(b, end, 0);
    assert r[end..] == b[end..];
    SamePrefix(r, b, end);
    SameBounds(r[..end], b[..end], b[end]);
    forall i, j | 0 <= i < end <= j < |r| ensures r[i] <= r[j] {
      assert r[..end][i] == r[i];
    }
  }

  /** `heap`: the result is the input sorted; inputs shorter than 2 come back unchanged. */
  method HeapSort(a: seq<int>) returns (r: seq<int>)
    ensures Sorted(r) && multiset(r) == multiset(a)
    ensures |a| < 2 ==> r == a
  {
    if |a| < 2 {
      return a;
    }
    r := Build(a);
    var end: nat := |r| - 1;
    while end > 0
      invariant end < |r| == |a| && multiset(r) == multiset(a)
      invariant Heap(r, end + 1) && Settled(r, end + 1)
    {
      r := Extract(r, end);
      end := end - 1;
    }
  }
}

=== FILE: insertion.dfy ===
/**
  Insertion sort, sort/src/insertion.rs: for each `out` from 1, the element at `out` is
  swapped down past every larger element before it.

  The loop guard is written `out > 0 && arr[n] < arr[n - 1]`; `out` is never 0 there, so
  the guard does not stop at `n == 0` and then computes `n - 1` on a `usize`, which
  panics. That happens exactly when some element is smaller than every element before it.
  `InsertionSort` is the sort with the guard `n > 0` evidently intended; `InsertionAsWritten`
  is the routine as it stands.
*/
module Insertion {
  import opened Wrappers
  import opened Sorting

  /** The first `n` elements are in order. */
  ghost predicate SortedBelow(a: seq<int>, n: int) {
    forall i, j :: 0 <= i < j < n && j < |a| ==> a[i] <= a[j]
  }

  /** `a[j]` is smaller than every element before it. */
  ghost predicate NewLeast(a: seq<int>, j: int)
    requires 0 <= j < |a|
  {
    forall i :: 0 <= i < j ==> a[j] < a[i]
  }

  /** Some element after the first is smaller than every element before it. */
  ghost predicate HasNewLeast(a: seq<int>) {
    exists j :: 0 < j < |a| && NewLeast(a, j)
  }

  /** Where the inner loop stops: `a[out]` sits at `n` between the untouched elements before
      it and the shifted ones after it, all of which are larger. */
  ghost predicate Shifted(a: seq<int>, r: seq<int>, out: nat, n: nat) {
    && n <= out < |a| && |r| == |a|
    && (forall i :: 0 <= i < n ==> r[i] == a[i])
    && r[n] == a[out]
    && (forall j :: n < j <= out ==> r[j] == a[j - 1] && a[out] < r[j])
    && (forall j :: out < j < |a| ==> r[j] == a[j])
  }

  /** Once the element is no longer below its left neighbour, the prefix up to `out` is
      sorted, and the element went all the way to the front exactly when it is below every
      element before it. */
  lemma Settles(a: seq<int>, r: seq<int>, out: nat, n: nat)
    requires SortedBelow(a, out) && Shifted(a, r, out, n)
    requires n > 0 ==> r[n - 1] <= r[n]
    ensures SortedBelow(r, out + 1) && r[out + 1..] == a[out + 1..]
    ensures n == 0 <==> NewLeast(a, out)
  {
    assert r[out + 1..] == a[out + 1..];
    if n > 0 {
      assert a[n - 1] <= a[out] && !NewLeast(a, out);
    } else {
      forall i | 0 <= i < out ensures a[out] < a[i] {
        assert r[i + 1] == a[i];
      }
    }
  }

  /** The inner loop for the element at `out`, over a sorted prefix: swap it down while it
      is below its left neighbour and `n > 0`. It stops at `n`, where the prefix up to `out`
      is sorted and the rest untouched; it reaches 0 exactly when the element is below every
      element before it. */
  method Sink(a: seq<int>, out: nat) returns (r: seq<int>, n: nat)
    requires out < |a| && SortedBelow(a, out)
    ensures |r| == |a| && multiset(r) == multiset(a) && r[out + 1..] == a[out + 1..]
    ensures SortedBelow(r, out + 1)
    ensures n == 0 <==> NewLeast(a, out)
  {
    r, n := a, out;
    while n > 0 && r[n] < r[n - 1]
      invariant multiset(r) == multiset(a) && Shifted(a, r, out, n)
    {
      r := Swap(r, n, n - 1);
      n := n - 1;
    }
    Settles(a, r, out, n);
  }

  /** `insertion` with the guard `n > 0`: the result is the input sorted. */
  method InsertionSort(a: seq<int>) returns (r: seq<int>)
    ensures Sorted(r) && multiset(r) == multiset(a)
  {
    r := a;
    var out := 1;
    while out < |r|
      invariant 1 <= out && |r| == |a| && multiset(r) == multiset(a)
      invariant SortedBelow(r, out)
    {
      var n;
      r, n := Sink(r, out);
      out := out + 1;
    }
  }

  /** `insertion` as written: it panics when some element is smaller than every element
      before it, and otherwise sorts. */
  method InsertionAsWritten(a: seq<int>) returns (r: Outcome<seq<int>>)
    ensures r.Panic? <==> HasNewLeast(a)
    ensures r.Done? ==> Sorted(r.value) && multiset(r.value) == multiset(a)
  {
    var b := a;
    var out := 1;
    while out < |b|
      invariant 1 <= out && |b| == |a| && multiset(b) == multiset(a)
      invariant SortedBelow(b, out) && forall k :: out <= k < |b| ==> b[k] == a[k]
      invariant forall j :: 0 < j < out && j < |a| ==> !NewLeast(a, j)
    {
      var b2, n := Sink(b, out);
      assert b[out..] == a[out..];
      SamePrefix(b, a, out);
      SameBounds(b[..out], a[..out], a[out] + 1);
      assert NewLeast(b, out) <==> NewLeast(a, out) by {
        assert forall i :: 0 <= i < out ==> b[..out][i] == b[i] && a[..out][i] == a[i];
      }
      if n == 0 {
        // `n - 1` underflows once the element has reached the front.
        return Panic;
      }
      b := b2;
      out := out + 1;
    }
    return Done(b);
  }

  /** The input [2, 1] makes `insertion` panic. */
  lemma TwoOnePanics()
    ensures HasNewLeast([2, 1])
  {
    assert NewLeast([2, 1], 1);
  }
}

=== FILE: kruskal.dfy ===
/**
  Kruskal's minimum spanning tree, graph/weighted-graph/src/mst/kruskal.rs with the entry
  point `kruskal_mst` of graph/weighted-graph/src/lib.rs: every edge the graph yields goes
  into a min-heap; edges are taken lightest first, and one whose ends are not yet connected
  in a union-find over the node ids joins the tree, until the heap is empty or the tree has
  one edge fewer than there are nodes. The heap holds a set of distinct edges, so it is a
  set here, and a pop may return any lightest edge.
*/
module Kruskal {
  import opened Wrappers
  import opened WeiGraph
  import opened UnionFind
  import opened Spanning
  import opened Sets

  /** `BinaryHeap::pop` on a heap of `Reverse`d edges: some lightest edge. */
  method PopLightest(pq: set<WeiEdge>) returns (e: WeiEdge)
    requires pq != {}
    ensures e in pq && forall f :: f in pq ==> e.weight <= f.weight
  {
    LightestExists(pq, (f: WeiEdge) => f.weight);
    e :| e in pq && forall f :: f in pq ==> e.weight <= f.weight;
  }

  /** The state of the main loop: `uf` registers the ids and connects exactly what the
      taken edges link, one root per class; every edge already popped has its ends linked by
      taken edges no heavier than itself; the taken edges form a forest of popped edges in
      nondecreasing weight order, none heavier than an edge still queued. */
  ghost predicate Kept(ids: seq<nat>, edges: set<WeiEdge>, uf: UnionFind, pq: set<WeiEdge>,
                       mst: seq<WeiEdge>)
  {
    && Valid(uf)
    && (forall x :: x in uf.weight <==> x in ids)
    && |Roots(uf)| + |mst| == |ids|
    && (forall x, y :: Connected(uf, x, y) <==> Linked(mst, x, y))
    && Forest(mst)
    && Ordered(edges, pq, mst)
    && (forall f :: f in edges && f !in pq ==> LinkedBelow(mst, f))
  }

  /** The taken edges were popped, in nondecreasing weight order, and none is heavier than an
      edge still queued. */
  ghost predicate Ordered(edges: set<WeiEdge>, pq: set<WeiEdge>, mst: seq<WeiEdge>) {
    && pq <= edges
    && (forall i :: 0 <= i < |mst| ==> mst[i] in edges && mst[i] !in pq)
    && (forall i, j :: 0 <= i < j < |mst| ==> mst[i].weight <= mst[j].weight)
    && (forall i, f :: 0 <= i < |mst| && f in pq ==> mst[i].weight <= f.weight)
  }

  /** Popping a lightest edge keeps the order, whether it is taken or not. */
  lemma OrderedPop(edges: set<WeiEdge>, pq: set<WeiEdge>, mst: seq<WeiEdge>, e: WeiEdge)
    requires Ordered(edges, pq, mst) && e in pq && forall f :: f in pq ==> e.weight <= f.weight
    ensures Ordered(edges, pq - {e}, mst) && Ordered(edges, pq - {e}, mst + [e])
  {
  }

  /** A union that merges the classes of `e`'s ends keeps the union-find in step with the
      taken edges once `e` is appended. */
  lemma UnionLinks(uf: UnionFind, mst: seq<WeiEdge>, e: WeiEdge)
    requires Valid(uf) && Union(uf, e.edge.0, e.edge.1).Done?
    requires forall x, y :: Connected(uf, x, y) <==> Linked(mst, x, y)
    ensures forall x, y :: Connected(Union(uf, e.edge.0, e.edge.1).value, x, y) <==> Linked(mst + [e], x, y)
  {
    assert (mst + [e])[..|mst|] == mst;
    forall x, y ensures Connected(Union(uf, e.edge.0, e.edge.1).value, x, y) <==> Linked(mst + [e], x, y) {
      UnionClasses(uf, e.edge.0, e.edge.1, x, y);
    }
  }

  /** Taking a popped edge whose ends were not connected keeps the loop state. */
  lemma TakeJoin(ids: seq<nat>, edges: set<WeiEdge>, uf: UnionFind, pq: set<WeiEdge>,
                 mst: seq<WeiEdge>, e: WeiEdge)
    requires Kept(ids, edges, uf, pq, mst) && e in pq && forall f :: f in pq ==> e.weight <= f.weight
    requires e.edge.0 in ids && e.edge.1 in ids && !Connected(uf, e.edge.0, e.edge.1)
    ensures Union(uf, e.edge.0, e.edge.1).Done?
    ensures Kept(ids, edges, Union(uf, e.edge.0, e.edge.1).value, pq - {e}, mst + [e])
  {
    var (a, b) := e.edge;
    var uf2 := Union(uf, a, b).value;
    var mst2 := mst + [e];
    UnionRoots(uf, a, b);
    UnionLinks(uf, mst, e);
    ForestGrow(mst, e);
    OrderedPop(edges, pq, mst, e);
    assert forall x :: x in uf2.weight <==> x in uf.weight;
    LightLinks(edges, pq, mst, e);
  }

  /** Appending `e`, no lighter than any edge taken before, keeps the light link of every
      popped edge and gives `e` its own. */
  lemma LightLinks(edges: set<WeiEdge>, pq: set<WeiEdge>, mst: seq<WeiEdge>, e: WeiEdge)
    requires forall f :: f in edges && f !in pq ==> LinkedBelow(mst, f)
    requires forall i :: 0 <= i < |mst| ==> mst[i].weight <= e.weight
    ensures forall f :: f in edges && f !in pq - {e} ==> LinkedBelow(mst + [e], f)
  {
    LightLast(mst, e);
    forall f | f in edges && f !in pq - {e} && f != e ensures LinkedBelow(mst + [e], f) {
      LightGrow(mst, e, f.weight, f.edge.0, f.edge.1);
    }
  }

  /** An edge no lighter than those before it is linked through the light edges. */
  lemma LightLast(mst: seq<WeiEdge>, e: WeiEdge)
    requires forall i :: 0 <= i < |mst| ==> mst[i].weight <= e.weight
    ensures LinkedBelow(mst + [e], e)
  {
    assert forall i :: 0 <= i < |mst + [e]| ==> (mst + [e])[i].weight <= e.weight;
    LightAll(mst + [e], e.weight);
    LinkLast(mst, e);
  }

  /** Skipping a popped edge whose ends were connected keeps the loop state. */
  lemma TakeSkip(ids: seq<nat>, edges: set<WeiEdge>, uf: UnionFind, pq: set<WeiEdge>,
                 mst: seq<WeiEdge>, e: WeiEdge)
    requires Kept(ids, edges, uf, pq, mst) && e in pq && forall f :: f in pq ==> e.weight <= f.weight
    requires Connected(uf, e.edge.0, e.edge.1)
    ensures Kept(ids, edges, uf, pq - {e}, mst)
  {
    OrderedPop(edges, pq, mst, e);
    LightAll(mst, e.weight);
  }

  /** One pass of the loop: pop a lightest edge and take it when its ends are not yet
      connected. */
  method Take(ghost ids: seq<nat>, ghost edges: set<WeiEdge>, uf: UnionFind, pq: set<WeiEdge>,
              mst: seq<WeiEdge>)
    returns (uf2: UnionFind, pq2: set<WeiEdge>, mst2: seq<WeiEdge>)
    requires Kept(ids, edges, uf, pq, mst) && pq != {}
    requires forall e :: e in edges ==> e.edge.0 in ids && e.edge.1 in ids
    ensures Kept(ids, edges, uf2, pq2, mst2)
    ensures |pq2| < |pq| && |mst| <= |mst2| <= |mst| + 1
  {
    var e := PopLightest(pq);
    pq2 := pq - {e};
    var (a, b) := e.edge;
    if !Connected(uf, a, b) {
      TakeJoin(ids, edges, uf, pq, mst, e);
      var u := Union(uf, a, b);
      uf2 := u.value;
      mst2 := mst + [e];
    } else {
      TakeSkip(ids, edges, uf, pq, mst, e);
      uf2, mst2 := uf, mst;
    }
  }

  /** `span`: the taken edges form a forest of the given edges in nondecreasing weight
      order, at most one fewer than the ids, and the ends of every given edge are linked by
      taken edges no heavier than it, so each given edge that was not taken is the heaviest on
      a cycle: the cycle property of a minimum spanning forest. */
  method Span(ids: seq<nat>, edges: set<WeiEdge>) returns (mst: seq<WeiEdge>)
    requires ids != [] && |set x | x in ids| == |ids|
    requires forall e :: e in edges ==> e.edge.0 in ids && e.edge.1 in ids
    ensures |mst| <= |ids| - 1 && Forest(mst)
    ensures forall i :: 0 <= i < |mst| ==> mst[i] in edges
    ensures forall i, j :: 0 <= i < j < |mst| ==> mst[i].weight <= mst[j].weight
    ensures forall e :: e in edges ==> LinkedBelow(mst, e)
  {
    var uf := FromIter(ids);
    var pq := edges;
    var branches := |ids| - 1;
    mst := [];
    FromIterRoots(ids);
    while pq != {} && |mst| < branches
      invariant Kept(ids, edges, uf, pq, mst) && |mst| <= branches
      decreases |pq|
    {
      uf, pq, mst := Take(ids, edges, uf, pq, mst);
    }
    if pq != {} {
      forall e | e in edges ensures LinkedBelow(mst, e) {
        if e in pq {
          SingleRoot(uf, e.edge.0, e.edge.1);
          LightAll(mst, e.weight);
        }
      }
    }
  }

  /** `kruskal_mst`: nothing for a graph without nodes, otherwise the span of the edges the
      graph yields. When different edges never compare equal, every edge of the graph has its
      ends linked by the result. */
  method KruskalMst<V, K(!new)>(key: WeiEdge -> K, g: WeiGraph<V, K>) returns (r: Option<seq<WeiEdge>>)
    requires WellFormed(key, g)
    ensures r.None? <==> g.adj == map[]
    ensures r.Some? ==>
      && |r.value| < NodeCount(g) && Forest(r.value)
      && (forall i :: 0 <= i < |r.value| ==> r.value[i] in EdgeSet(g))
      && (forall i, j :: 0 <= i < j < |r.value| ==> r.value[i].weight <= r.value[j].weight)
      && (forall e :: e in EdgeSet(g) ==> LinkedBelow(r.value, e))
    ensures r.Some? && Injective(key) ==> forall id, e :: Stored(key, g, id, e) ==> LinkedBelow(r.value, e)
  {
    if g.adj == map[] {
      return None;
    }
    var ids := Ids(g);
    assert ids != [] by {
      var x :| x in g.adj;
    }
    assert (set x | x in ids) == g.adj.Keys;
    forall e | e in EdgeSet(g) ensures e.edge.0 in ids && e.edge.1 in ids {
      EdgeSetStored(key, g, e);
    }
    var mst := Span(ids, EdgeSet(g));
    r := Some(mst);
    if Injective(key) {
      forall id, e | Stored(key, g, id, e) ensures LinkedBelow(mst, e) {
        EdgeSetComplete(key, g, id, e);
      }
    }
  }

  /** In a graph where node 0 holds (0, 1) and every edge is held under key 1, `edges` yields
      only (0, 1). */
  lemma TwoEqualEdgeSet(g: WeiGraph<(), int>, e: WeiEdge)
    requires WellFormed(ByWeight, g) && Stored(ByWeight, g, 0, WeiEdge(1, (0, 1)))
    requires forall id :: id in g.adj ==> g.adj[id].adjEdges.Keys <= {1}
    requires e in EdgeSet(g)
    ensures e == WeiEdge(1, (0, 1))
  {
    EdgeSetKey(ByWeight, g, e);
    EdgesKeys(ByWeight, g, e.weight);
    EdgesFirst(ByWeight, g, 1, 0);
  }

  /** As written: Kruskal on the graph with edges (0, 1) and (1, 2) of equal weight leaves
      node 2 unconnected, though node 2 holds edge (1, 2). */
  method KruskalSplitsEqualWeights() returns (mst: seq<WeiEdge>)
    ensures Stored(ByWeight, TwoEqual(ByWeight), 2, WeiEdge(1, (1, 2)))
    ensures !Linked(mst, 1, 2)
  {
    var g := TwoEqual(ByWeight);
    var r := KruskalMst(ByWeight, g);
    mst := r.value;
    TwoEqualHeld();
    forall i | 0 <= i < |mst| ensures !Incident(mst[i], 2) {
      TwoEqualEdgeSet(g, mst[i]);
    }
    LinkedUntouched(mst, 1, 2);
  }

  /** Corrected: with edges equal only when weight and ends agree, the same graph comes out
      connected. */
  method KruskalJoinsEqualWeights() returns (mst: seq<WeiEdge>)
    ensures Linked(mst, 0, 1) && Linked(mst, 1, 2)
  {
    var g := TwoEqual(Whole);
    var r := KruskalMst(Whole, g);
    mst := r.value;
    TwoEqualKept();
    LinkedLight(mst, 1, 0, 1);
    LinkedLight(mst, 1, 1, 2);
  }
}

=== FILE: lazy_prim.dfy ===
/**
  The lazy variant of Prim's algorithm, graph/weighted-graph/src/mst/lazy_prim.rs with the
  entry point `lazy_prim_mst` of graph/weighted-graph/src/lib.rs. From the root, marked
  nodes push the edges they hold whose far end is unmarked into a min-heap; a popped edge
  with an unmarked end marks that end (its `edge.0` first), visits it and joins the tree,
  and a popped edge with both ends marked is dropped.
*/
module LazyPrim {
  import opened Wrappers
  import opened WeiGraph
  import opened Spanning
  import opened Sets

  /** The far end of `e` from `id` is not marked; `other` never underflows for an edge
      incident to `id`, the only edges asked about. */
  predicate Unmarked(marked: set<nat>, e: WeiEdge, id: nat) {
    Other(e, id).Done? && Other(e, id).value !in marked
  }

  /** `visit`: push every edge `start` holds whose far end is unmarked. */
  function Visit<V, K(!new)>(g: WeiGraph<V, K>, marked: set<nat>, pq: multiset<WeiEdge>, start: nat)
    : multiset<WeiEdge>
  {
    var held := Held(g, start);
    pq + multiset(set k | k in held && Unmarked(marked, held[k], start) :: held[k])
  }

  /** After `visit`, the heap holds what it held and the edges `start` holds towards
      unmarked nodes. */
  lemma VisitAdds<V, K(!new)>(key: WeiEdge -> K, g: WeiGraph<V, K>, marked: set<nat>,
                              pq: multiset<WeiEdge>, start: nat, e: WeiEdge)
    requires WellFormed(key, g)
    ensures e in Visit(g, marked, pq, start) <==> e in pq || (Stored(key, g, start, e) && Unmarked(marked, e, start))
  {
    var held := Held(g, start);
    if Stored(key, g, start, e) && Unmarked(marked, e, start) {
      assert held[key(e)] == e;
    }
  }

  /** `BinaryHeap::pop` on a heap of `Reverse`d edges: some lightest edge. */
  method PopLightest(pq: multiset<WeiEdge>) returns (e: WeiEdge)
    requires pq != multiset{}
    ensures e in pq && forall f :: f in pq ==> e.weight <= f.weight
  {
    var elems := set f | f in pq;
    var x :| x in pq;
    assert x in elems;
    LightestExists(elems, (f: WeiEdge) => f.weight);
    e :| e in elems && forall f :: f in elems ==> e.weight <= f.weight;
  }

  /** `e` is held by one of its ends that is marked. */
  ghost predicate Pushed<V, K>(key: WeiEdge -> K, g: WeiGraph<V, K>, marked: set<nat>, e: WeiEdge) {
    || (e.edge.0 in marked && Stored(key, g, e.edge.0, e))
    || (e.edge.1 in marked && Stored(key, g, e.edge.1, e))
  }

  /** The tree links every two marked nodes, and an unmarked node only to itself. */
  ghost predicate Spans(marked: set<nat>, res: seq<WeiEdge>) {
    && (forall x, y :: x in marked && y in marked ==> Linked(res, x, y))
    && (forall x, y :: (x !in marked || y !in marked) && Linked(res, x, y) ==> x == y)
  }

  /** The loop state: the marked nodes are nodes, one more than the tree edges, which form a
      forest spanning them and were each held by a marked end; the heap holds edges held by a
      marked end; and every edge a marked node holds either has both ends marked or is still
      in the heap. */
  ghost predicate Growing<V, K(!new)>(key: WeiEdge -> K, g: WeiGraph<V, K>, root: nat, marked: set<nat>,
                                     pq: multiset<WeiEdge>, res: seq<WeiEdge>)
  {
    && WellFormed(key, g)
    && root in marked && marked <= g.adj.Keys
    && |res| + 1 == |marked|
    && Spans(marked, res) && Forest(res)
    && (forall i :: 0 <= i < |res| ==> Pushed(key, g, marked, res[i]))
    && (forall e :: e in pq ==> Pushed(key, g, marked, e))
    && (forall x, e :: x in marked && Stored(key, g, x, e) ==>
          (e.edge.0 in marked && e.edge.1 in marked) || e in pq)
  }

  /** Marking the unmarked end `v` of an edge whose other end is marked keeps the tree
      spanning, and the edge closes no cycle. */
  lemma SpansJoin(marked: set<nat>, res: seq<WeiEdge>, e: WeiEdge, v: nat)
    requires Spans(marked, res) && v !in marked
    requires (e.edge.0 == v && e.edge.1 in marked) || (e.edge.1 == v && e.edge.0 in marked)
    ensures Spans(marked + {v}, res + [e]) && !Linked(res, e.edge.0, e.edge.1)
  {
    var (a, b) := e.edge;
    var u := if a == v then b else a;
    var res2 := res + [e];
    assert res2[..|res|] == res;
    forall x, y | x in marked + {v} && y in marked + {v} ensures Linked(res2, x, y) {
      if x in marked && y in marked {
        LinkedGrow(res, e, x, y);
      } else {
        LinkedSelf(res, v);
      }
    }
    forall x, y | (x !in marked + {v} || y !in marked + {v}) && Linked(res2, x, y) ensures x == y {
      assert Linked(res, x, y) || (Linked(res, x, a) && Linked(res, y, b)) || (Linked(res, x, b) && Linked(res, y, a));
    }
  }

  /** Popping an edge whose ends are both marked keeps the state. */
  lemma GrowSkip<V, K(!new)>(key: WeiEdge -> K, g: WeiGraph<V, K>, root: nat, marked: set<nat>,
                             pq: multiset<WeiEdge>, res: seq<WeiEdge>, e: WeiEdge)
    requires Growing(key, g, root, marked, pq, res) && e in pq
    requires e.edge.0 in marked && e.edge.1 in marked
    ensures Growing(key, g, root, marked, pq - multiset{e}, res)
  {
    var pq2 := pq - multiset{e};
    forall x, f | x in marked && Stored(key, g, x, f) ensures (f.edge.0 in marked && f.edge.1 in marked) || f in pq2 {
      if f != e && f in pq {
        assert f in pq2;
      }
    }
  }

  /** Popping an edge with unmarked end `v`, marking `v` and visiting it keeps the state
      with the edge appended to the tree. */
  lemma GrowJoin<V, K(!new)>(key: WeiEdge -> K, g: WeiGraph<V, K>, root: nat, marked: set<nat>,
                             pq: multiset<WeiEdge>, res: seq<WeiEdge>, e: WeiEdge, v: nat)
    requires Growing(key, g, root, marked, pq, res) && e in pq && v !in marked
    requires (e.edge.0 == v && e.edge.1 in marked) || (e.edge.1 == v && e.edge.0 in marked)
    ensures v in g.adj
    ensures Growing(key, g, root, marked + {v}, Visit(g, marked + {v}, pq - multiset{e}, v), res + [e])
  {
    var marked2 := marked + {v};
    var pq2 := Visit(g, marked2, pq - multiset{e}, v);
    var res2 := res + [e];
    SpansJoin(marked, res, e, v);
    ForestGrow(res, e);
    assert Pushed(key, g, marked, e);
    assert forall i :: 0 <= i < |res| ==> res2[i] == res[i];
    assert |marked2| == |marked| + 1;
    forall f | f in pq2 ensures Pushed(key, g, marked2, f) {
      VisitAdds(key, g, marked2, pq - multiset{e}, v, f);
    }
    forall x, f | x in marked2 && Stored(key, g, x, f) ensures (f.edge.0 in marked2 && f.edge.1 in marked2) || f in pq2 {
      VisitAdds(key, g, marked2, pq - multiset{e}, v, f);
      if f != e && f in pq {
        assert f in pq - multiset{e};
      }
    }
  }

  /** One pass of the loop: pop a lightest edge; mark and visit its first unmarked end and
      take the edge, or drop it. */
  method Grow<V, K(!new)>(ghost key: WeiEdge -> K, g: WeiGraph<V, K>, ghost root: nat, marked: set<nat>,
                          pq: multiset<WeiEdge>, res: seq<WeiEdge>)
    returns (marked2: set<nat>, pq2: multiset<WeiEdge>, res2: seq<WeiEdge>)
    requires Growing(key, g, root, marked, pq, res) && pq != multiset{}
    ensures Growing(key, g, root, marked2, pq2, res2)
    ensures (marked2 == marked && |pq2| < |pq|) || marked < marked2 <= g.adj.Keys
  {
    var e := PopLightest(pq);
    var rest := pq - multiset{e};
    var (a, b) := e.edge;
    if a !in marked {
      GrowJoin(key, g, root, marked, pq, res, e, a);
      marked2 := marked + {a};
      pq2 := Visit(g, marked2, rest, a);
      res2 := res + [e];
    } else if b !in marked {
      GrowJoin(key, g, root, marked, pq, res, e, b);
      marked2 := marked + {b};
      pq2 := Visit(g, marked2, rest, b);
      res2 := res + [e];
    } else {
      GrowSkip(key, g, root, marked, pq, res, e);
      marked2, pq2, res2 := marked, rest, res;
    }
  }

  /** `span`: the tree edges form a forest, each held by the graph, that links every two
      marked nodes and no unmarked node; there is one fewer edge than marked nodes; and no
      edge held by a marked node leads out of the marked set, which is therefore all the root
      reaches through held edges. */
  method Span<V, K(!new)>(ghost key: WeiEdge -> K, g: WeiGraph<V, K>, root: nat)
    returns (res: seq<WeiEdge>, ghost marked: set<nat>)
    requires WellFormed(key, g) && root in g.adj
    ensures root in marked && marked <= g.adj.Keys && |res| == |marked| - 1
    ensures Forest(res)
    ensures forall i :: 0 <= i < |res| ==> Pushed(key, g, marked, res[i])
    ensures Spans(marked, res)
    ensures forall x, e :: x in marked && Stored(key, g, x, e) ==> e.edge.0 in marked && e.edge.1 in marked
  {
    var m: set<nat> := {root};
    var pq := Visit(g, m, multiset{}, root);
    res := [];
    forall f | f in pq ensures Pushed(key, g, m, f) {
      VisitAdds(key, g, m, multiset{}, root, f);
    }
    forall x, f | x in m && Stored(key, g, x, f) ensures (f.edge.0 in m && f.edge.1 in m) || f in pq {
      VisitAdds(key, g, m, multiset{}, root, f);
    }
    assert Spans(m, res);
    while pq != multiset{}
      invariant Growing(key, g, root, m, pq, res)
      decreases g.adj.Keys - m, |pq|
    {
      m, pq, res := Grow(key, g, root, m, pq, res);
    }
    marked := m;
  }

  /** `lazy_prim_mst`: the error carries a root that is not a node; otherwise the span from
      it. */
  method LazyPrimMst<V, K(!new)>(ghost key: WeiEdge -> K, g: WeiGraph<V, K>, root: nat) returns (r: Spanned)
    requires WellFormed(key, g)
    ensures r.Err? <==> root !in g.adj
    ensures r.Err? ==> r.id == root
    ensures r.Ok? ==> Forest(r.edges) && |r.edges| < NodeCount(g)
    ensures r.Ok? ==> exists marked ::
      && root in marked && marked <= g.adj.Keys && |r.edges| == |marked| - 1
      && Spans(marked, r.edges)
      && (forall x, e :: x in marked && Stored(key, g, x, e) ==> e.edge.0 in marked && e.edge.1 in marked)
  {
    if root !in g.adj {
      return Err(root);
    }
    var res, marked := Span(key, g, root);
    SubsetCard(marked, g.adj.Keys);
    r := Ok(res);
  }
}

=== FILE: linear_hash_map.dfy ===
/**
  The open-addressing hash map of hash-map/linear-hash-map/src/lib.rs: a vector of
  `capacity` slots, each empty or holding one key/value node, searched by linear probing
  from the key's home slot `hash(k) % capacity`. The standard library hasher is a
  parameter `H` (what `DefaultHasher::finish` returns for a key); every operation of one
  map uses the same `H`.

  A valid map has a free slot for every probe to stop at (at most half the slots are
  used), no key twice, and every node reachable from its home slot through occupied
  slots. Lookups are specified against the slots: `Get` finds exactly what is stored.
*/
module LinearHashMap {
  import opened Wrappers

  datatype Node<K, V> = Node(key: K, value: V)

  type Slots<K, V> = seq<Option<Node<K, V>>>

  datatype LinearHashMap<K, V> = LinearHashMap(base: Slots<K, V>, capacity: nat, len: nat)

  /** What a call that may spin for ever does: never return, or return a value. */
  datatype Exit<T> = Loops | Exits(value: T)

  // ---------------------------------------------------------------------------------
  // Cyclic slot arithmetic: `i = (i + 1) % capacity` stepping.

  /** The home slot of `k`: the hash modulo the capacity. */
  function Home<K>(H: K -> nat, n: nat, k: K): (r: nat)
    requires n > 0
    ensures r < n
  {
    H(k) % n
  }

  /** The slot `d` steps after slot `s`. */
  function Idx(n: nat, s: nat, d: nat): (r: nat)
    requires s < n && d < n
    ensures r < n
  {
    if s + d < n then s + d else s + d - n
  }

  /** The slot after `i`, wrapping to 0. */
  function Next(n: nat, i: nat): (r: nat)
    requires i < n
    ensures r < n
  {
    if i + 1 < n then i + 1 else 0
  }

  /** How many steps from slot `s` reach slot `j`. */
  function Dist(n: nat, s: nat, j: nat): (r: nat)
    requires s < n && j < n
    ensures r < n && Idx(n, s, r) == j
  {
    if s <= j then j - s else j + n - s
  }

  lemma DistIdx(n: nat, s: nat, e: nat)
    requires s < n && e < n
    ensures Dist(n, s, Idx(n, s, e)) == e
  {
  }

  lemma IdxInjective(n: nat, s: nat, e1: nat, e2: nat)
    requires s < n && e1 < n && e2 < n
    requires Idx(n, s, e1) == Idx(n, s, e2)
    ensures e1 == e2
  {
  }

  lemma IdxStep(n: nat, s: nat, e: nat)
    requires s < n && e + 1 < n
    ensures Idx(n, s, e + 1) == Next(n, Idx(n, s, e))
  {
  }

  // ---------------------------------------------------------------------------------
  // Probing.

  /** A probe for `k` stops at an empty slot or at `k`'s node. */
  predicate Stop<K(==), V>(base: Slots<K, V>, k: K, i: nat)
    requires i < |base|
  {
    base[i].None? || base[i].value.key == k
  }

  /** The probe loop of `insert`, `get`, `get_mut` and `remove`: the number of steps from
      `s` to the first stop, counting from step `d`; `|base|` if it goes all the way round
      (on a full table the probe loop spins for ever). */
  function Probe<K(==), V>(base: Slots<K, V>, k: K, s: nat, d: nat): (r: nat)
    requires s < |base| && d <= |base|
    ensures d <= r <= |base|
    ensures r < |base| ==> Stop(base, k, Idx(|base|, s, r))
    ensures forall e :: d <= e < r ==> !Stop(base, k, Idx(|base|, s, e))
    decreases |base| - d
  {
    if d == |base| then d
    else if Stop(base, k, Idx(|base|, s, d)) then d
    else Probe(base, k, s, d + 1)
  }

  /** `find_none`: the number of steps from `s` to the first empty slot, counting from step
      `d`; `|base|` if there is none. */
  function FindNone<K, V>(base: Slots<K, V>, s: nat, d: nat): (r: nat)
    requires s < |base| && d <= |base|
    ensures d <= r <= |base|
    ensures r < |base| ==> base[Idx(|base|, s, r)].None?
    ensures forall e :: d <= e < r ==> base[Idx(|base|, s, e)].Some?
    decreases |base| - d
  {
    if d == |base| then d
    else if base[Idx(|base|, s, d)].None? then d
    else FindNone(base, s, d + 1)
  }

  ghost predicate HasEmpty<K, V>(base: Slots<K, V>) {
    exists z :: 0 <= z < |base| && base[z].None?
  }

  /** With an empty slot somewhere, a probe stops before going round. */
  lemma ProbeEnds<K, V>(base: Slots<K, V>, k: K, s: nat)
    requires s < |base| && HasEmpty(base)
    ensures Probe(base, k, s, 0) < |base|
    ensures FindNone(base, s, 0) < |base|
  {
    var z :| 0 <= z < |base| && base[z].None?;
    var e := Dist(|base|, s, z);
    assert Stop(base, k, Idx(|base|, s, e));
  }

  lemma FindNoneEnds<K, V>(base: Slots<K, V>, s: nat)
    requires s < |base| && HasEmpty(base)
    ensures FindNone(base, s, 0) < |base|
  {
    var z :| 0 <= z < |base| && base[z].None?;
    var e := Dist(|base|, s, z);
    assert base[Idx(|base|, s, e)].None?;
  }

  // ---------------------------------------------------------------------------------
  // The nodes of a table and their number.

  /** The nodes in slot order: what `extract_if` collects in `resize`. */
  function Nodes<K, V>(base: Slots<K, V>): (r: seq<Node<K, V>>)
    ensures |r| <= |base|
  {
    if base == [] then []
    else (if base[0].Some? then [base[0].value] else []) + Nodes(base[1..])
  }

  function Count<K, V>(base: Slots<K, V>): nat {
    |Nodes(base)|
  }

  /** Fewer nodes than slots leaves an empty slot. */
  lemma {:induction false} CountEmpty<K, V>(base: Slots<K, V>)
    requires Count(base) < |base|
    ensures HasEmpty(base)
  {
    if base[0].Some? {
      CountEmpty(base[1..]);
      var z :| 0 <= z < |base[1..]| && base[1..][z].None?;
      assert base[z + 1].None?;
    }
  }

  /** Overwriting one slot changes the count by what left and what arrived. */
  lemma {:induction false} CountUpdate<K, V>(base: Slots<K, V>, j: nat, x: Option<Node<K, V>>)
    requires j < |base|
    ensures Count(base[j := x]) + (if base[j].Some? then 1 else 0)
         == Count(base) + (if x.Some? then 1 else 0)
  {
    if j > 0 {
      CountUpdate(base[1..], j - 1, x);
      assert base[j := x][1..] == base[1..][j - 1 := x];
    } else {
      assert base[j := x][1..] == base[1..];
    }
  }

  /** Every node of `Nodes(base)` sits in some slot, and every occupied slot's node is
      listed. */
  lemma {:induction false} NodesSlots<K, V>(base: Slots<K, V>)
    ensures forall a :: 0 <= a < |Nodes(base)| ==>
      exists j :: 0 <= j < |base| && base[j] == Some(Nodes(base)[a])
    ensures forall j :: 0 <= j < |base| && base[j].Some? ==> base[j].value in Nodes(base)
  {
    if base != [] {
      NodesSlots(base[1..]);
      var head := if base[0].Some? then [base[0].value] else [];
      var ns := Nodes(base);
      assert ns == head + Nodes(base[1..]);
      forall a | 0 <= a < |Nodes(base)|
        ensures exists j :: 0 <= j < |base| && base[j] == Some(Nodes(base)[a])
      {
        if a >= |head| {
          var j :| 0 <= j < |base[1..]| && base[1..][j] == Some(Nodes(base[1..])[a - |head|]);
          assert base[j + 1] == Some(Nodes(base)[a]);
        } else {
          assert base[0] == Some(Nodes(base)[a]);
        }
      }
      forall j | 0 <= j < |base| && base[j].Some? ensures base[j].value in ns {
        if j > 0 {
          assert base[1..][j - 1] == base[j];
        }
      }
    } else {
      assert |Nodes(base)| == 0;
    }
  }

  /** No key in two slots. */
  ghost predicate Unique<K, V>(base: Slots<K, V>) {
    forall i, j ::
      (0 <= i < |base| && 0 <= j < |base| && base[i].Some? && base[j].Some? &&
       base[i].value.key == base[j].value.key) ==> i == j
  }

  /** No key at two positions of a node list. */
  ghost predicate DistinctKeys<K, V>(ns: seq<Node<K, V>>) {
    forall a, b :: 0 <= a < |ns| && 0 <= b < |ns| && ns[a].key == ns[b].key ==> a == b
  }

  lemma {:induction false} NodesDistinct<K, V>(base: Slots<K, V>)
    requires Unique(base)
    ensures DistinctKeys(Nodes(base))
  {
    if base != [] {
      var rest := base[1..];
      assert Unique(rest) by {
        forall i, j | 0 <= i < |rest| && 0 <= j < |rest| && rest[i].Some? && rest[j].Some? &&
          rest[i].value.key == rest[j].value.key
          ensures i == j
        {
          assert base[i + 1] == rest[i] && base[j + 1] == rest[j];
        }
      }
      NodesDistinct(rest);
      NodesSlots(rest);
      if base[0].Some? {
        var ns := Nodes(base);
        assert ns == [base[0].value] + Nodes(rest);
        forall b | 1 <= b < |ns| ensures ns[b].key != ns[0].key {
          var j :| 0 <= j < |rest| && rest[j] == Some(Nodes(rest)[b - 1]);
          assert base[j + 1] == rest[j];
        }
      }
    }
  }

  // ---------------------------------------------------------------------------------
  // The map invariant.

  /** The node in slot `j` is reachable from its home slot through occupied slots. */
  ghost predicate Placed<K, V>(H: K -> nat, base: Slots<K, V>, j: nat)
    requires j < |base|
  {
    base[j].Some? ==>
      var s := Home(H, |base|, base[j].value.key);
      forall e :: 0 <= e < Dist(|base|, s, j) ==> base[Idx(|base|, s, e)].Some?
  }

  ghost predicate Reachable<K, V>(H: K -> nat, base: Slots<K, V>) {
    forall j :: 0 <= j < |base| ==> Placed(H, base, j)
  }

  /** The slots match `capacity`, `len` counts the nodes, at most half the slots are
      used, no key is stored twice and every node is reachable. */
  ghost predicate Valid<K, V>(H: K -> nat, m: LinearHashMap<K, V>) {
    && |m.base| == m.capacity > 0
    && m.len == Count(m.base)
    && 2 * m.len <= m.capacity
    && Unique(m.base)
    && Reachable(H, m.base)
  }

  /** Filling an empty slot with a node reachable there keeps every node reachable. */
  lemma FillReachable<K, V>(H: K -> nat, base: Slots<K, V>, i: nat, nd: Node<K, V>)
    requires i < |base| && base[i].None? && Reachable(H, base)
    requires Placed(H, base[i := Some(nd)], i)
    ensures Reachable(H, base[i := Some(nd)])
  {
    var b := base[i := Some(nd)];
    forall j | 0 <= j < |b| ensures Placed(H, b, j) {
      if j != i && b[j].Some? {
        assert Placed(H, base, j);
        var s := Home(H, |b|, b[j].value.key);
        forall e | 0 <= e < Dist(|b|, s, j) ensures b[Idx(|b|, s, e)].Some? {
          assert base[Idx(|b|, s, e)].Some?;
        }
      }
    }
  }

  /** Replacing a node's value keeps every node reachable. */
  lemma ValueReachable<K, V>(H: K -> nat, base: Slots<K, V>, i: nat, v: V)
    requires i < |base| && base[i].Some? && Reachable(H, base)
    ensures Reachable(H, base[i := Some(Node(base[i].value.key, v))])
  {
    var b := base[i := Some(Node(base[i].value.key, v))];
    forall j | 0 <= j < |b| ensures Placed(H, b, j) {
      if b[j].Some? {
        assert Placed(H, base, j);
        var s := Home(H, |b|, b[j].value.key);
        forall e | 0 <= e < Dist(|b|, s, j) ensures b[Idx(|b|, s, e)].Some? {
          assert base[Idx(|b|, s, e)].Some?;
        }
      }
    }
  }

  /** Emptying a slot whose successor is empty keeps every other node reachable: no
      probe path can run through it. */
  lemma ClearReachable<K, V>(H: K -> nat, base: Slots<K, V>, i: nat)
    requires i < |base| && Reachable(H, base)
    requires base[i := None][Next(|base|, i)].None?
    ensures Reachable(H, base[i := None])
  {
    var n := |base|;
    var b := base[i := None];
    forall j | 0 <= j < n ensures Placed(H, b, j) {
      if b[j].Some? {
        assert Placed(H, base, j);
        var s := Home(H, n, b[j].value.key);
        forall e | 0 <= e < Dist(n, s, j) ensures b[Idx(n, s, e)].Some? {
          if Idx(n, s, e) == i {
            // Slot `i` lies on `j`'s probe path before `j`, so the slot after it is occupied
            // in `b`, against the requirement that it is empty.
            IdxStep(n, s, e);
            assert false;
          }
        }
      }
    }
  }

  // ---------------------------------------------------------------------------------
  // Lookup.

  /** On a valid map, the probe for a stored key ends at its slot. */
  lemma ProbeFinds<K, V>(H: K -> nat, m: LinearHashMap<K, V>, k: K, j: nat)
    requires Valid(H, m) && j < |m.base| && m.base[j].Some? && m.base[j].value.key == k
    ensures Probe(m.base, k, Home(H, |m.base|, k), 0) == Dist(|m.base|, Home(H, |m.base|, k), j)
  {
    var n := |m.base|;
    var s := Home(H, n, k);
    var dj := Dist(n, s, j);
    assert Placed(H, m.base, j);
    forall e | 0 <= e < dj ensures !Stop(m.base, k, Idx(n, s, e)) {
      if Idx(n, s, e) == j {
        IdxInjective(n, s, e, dj);
      }
    }
    assert Stop(m.base, k, Idx(n, s, dj));
  }

  /** The slot the probe for `k` stops at, on a valid map. */
  function ProbeSlot<K(==), V>(H: K -> nat, m: LinearHashMap<K, V>, k: K): (i: nat)
    requires Valid(H, m)
    ensures i < |m.base|
    ensures Stop(m.base, k, i)
    ensures forall j :: 0 <= j < |m.base| && m.base[j].Some? && m.base[j].value.key == k ==> i == j
    ensures var s := Home(H, |m.base|, k);
      forall e :: 0 <= e < Dist(|m.base|, s, i) ==> m.base[Idx(|m.base|, s, e)].Some?
  {
    var n := |m.base|;
    var s := Home(H, n, k);
    CountEmpty(m.base);
    ProbeEnds(m.base, k, s);
    var d := Probe(m.base, k, s, 0);
    DistIdx(n, s, d);
    var i := Idx(n, s, d);
    forall j | 0 <= j < n && m.base[j].Some? && m.base[j].value.key == k ensures i == j {
      ProbeFinds(H, m, k, j);
    }
    i
  }

  /** `get`: the value of the node the probe reaches, or None at an empty slot. It finds
      exactly what is stored: a stored key's value, and nothing for a key stored nowhere. */
  function Get<K(==), V>(H: K -> nat, m: LinearHashMap<K, V>, k: K): (r: Option<V>)
    requires Valid(H, m)
    ensures forall j :: 0 <= j < |m.base| && m.base[j].Some? && m.base[j].value.key == k ==>
      r == Some(m.base[j].value.value)
    ensures r.Some? ==> exists j :: 0 <= j < |m.base| && m.base[j] == Some(Node(k, r.value))
  {
    var i := ProbeSlot(H, m, k);
    if m.base[i].Some? then Some(m.base[i].value.value) else None
  }

  /** `get_mut`: the slot of `k`'s node, through which the value can be replaced. */
  function GetMut<K(==), V>(H: K -> nat, m: LinearHashMap<K, V>, k: K): (r: Option<nat>)
    requires Valid(H, m)
    ensures r.Some? <==> Get(H, m, k).Some?
    ensures r.Some? ==> r.value < |m.base| && m.base[r.value] == Some(Node(k, Get(H, m, k).value))
  {
    var i := ProbeSlot(H, m, k);
    if m.base[i].Some? then Some(i) else None
  }

  /** A write through the `get_mut` handle is what a later `get` sees, and nothing else
      changes. */
  lemma GetMutWrite<K, V>(H: K -> nat, m: LinearHashMap<K, V>, k: K, v: V)
    requires Valid(H, m) && GetMut(H, m, k).Some?
    ensures var m2 := m.(base := m.base[GetMut(H, m, k).value := Some(Node(k, v))]);
      && Valid(H, m2)
      && Get(H, m2, k) == Some(v)
      && forall k2 :: k2 != k ==> Get(H, m2, k2) == Get(H, m, k2)
  {
    var i := GetMut(H, m, k).value;
    var m2 := m.(base := m.base[i := Some(Node(k, v))]);
    ValueReachable(H, m.base, i, v);
    CountUpdate(m.base, i, Some(Node(k, v)));
    SetSlotGet(H, m, m2, i, k, v);
  }

  /** Storing `k`'s node in a slot that was empty or held `k`: `k` now maps to `v` and
      every other key keeps its lookup. */
  lemma SetSlotGet<K, V>(H: K -> nat, m: LinearHashMap<K, V>, m2: LinearHashMap<K, V>,
                         i: nat, k: K, v: V)
    requires Valid(H, m) && i < |m.base| && Stop(m.base, k, i)
    requires m2.base == m.base[i := Some(Node(k, v))] && Valid(H, m2)
    ensures Get(H, m2, k) == Some(v)
    ensures forall k2 :: k2 != k ==> Get(H, m2, k2) == Get(H, m, k2)
  {
    assert m2.base[i] == Some(Node(k, v));
    forall k2 | k2 != k ensures Get(H, m2, k2) == Get(H, m, k2) {
      SameOutside(H, m, m2, i, k2);
    }
  }

  /** Two valid tables that differ only in slot `i`, which holds no node for `k2` in
      either, look `k2` up alike. */
  lemma SameOutside<K, V>(H: K -> nat, m: LinearHashMap<K, V>, m2: LinearHashMap<K, V>,
                          i: nat, k2: K)
    requires Valid(H, m) && Valid(H, m2) && |m.base| == |m2.base| && i < |m.base|
    requires forall j :: 0 <= j < |m.base| && j != i ==> m.base[j] == m2.base[j]
    requires m.base[i].None? || m.base[i].value.key != k2
    requires m2.base[i].None? || m2.base[i].value.key != k2
    ensures Get(H, m2, k2) == Get(H, m, k2)
  {
    var r := Get(H, m, k2);
    var r2 := Get(H, m2, k2);
    if r2.Some? {
      var j :| 0 <= j < |m2.base| && m2.base[j] == Some(Node(k2, r2.value));
      assert m.base[j] == m2.base[j];
    }
    if r.Some? {
      var j :| 0 <= j < |m.base| && m.base[j] == Some(Node(k2, r.value));
      assert m.base[j] == m2.base[j];
    }
  }

  /** Emptying `k`'s slot: `k` is no longer found and every other key keeps its lookup. */
  lemma ClearSlotGet<K, V>(H: K -> nat, m: LinearHashMap<K, V>, m2: LinearHashMap<K, V>,
                           i: nat, k: K)
    requires Valid(H, m) && i < |m.base| && m.base[i].Some? && m.base[i].value.key == k
    requires m2.base == m.base[i := None] && Valid(H, m2)
    ensures Get(H, m2, k) == None
    ensures forall k2 :: k2 != k ==> Get(H, m2, k2) == Get(H, m, k2)
  {
    forall k2 | k2 != k ensures Get(H, m2, k2) == Get(H, m, k2) {
      SameOutside(H, m, m2, i, k2);
    }
  }

  // ---------------------------------------------------------------------------------
  // Rehashing.

  /** `cap` empty slots. */
  function Empty<K, V>(cap: nat): Slots<K, V> {
    seq(cap, _ => None)
  }

  /** `cap` empty slots hold no node. */
  lemma EmptySlots<K, V>(t: Slots<K, V>, cap: nat)
    requires t == Empty(cap)
    ensures |t| == cap && Count(t) == 0
    ensures forall j :: 0 <= j < cap ==> t[j].None?
  {
    NoNodes(t);
  }

  lemma {:induction false} NoNodes<K, V>(t: Slots<K, V>)
    requires forall j :: 0 <= j < |t| ==> t[j].None?
    ensures Nodes(t) == []
  {
    if t != [] {
      NoNodes(t[1..]);
    }
  }

  /** The slot `resize` puts a node with key `k` in: the first empty slot from its home. */
  function PlaceSlot<K, V>(H: K -> nat, t: Slots<K, V>, k: K): (i: nat)
    requires 0 < |t| && Count(t) < |t|
    ensures i < |t| && t[i].None?
    ensures var s := Home(H, |t|, k);
      forall e :: 0 <= e < Dist(|t|, s, i) ==> t[Idx(|t|, s, e)].Some?
  {
    var s := Home(H, |t|, k);
    CountEmpty(t);
    ProbeEnds(t, k, s);
    var d := FindNone(t, s, 0);
    DistIdx(|t|, s, d);
    Idx(|t|, s, d)
  }

  /** One step of the `resize` loop: store `nd` at its slot. */
  function Place<K, V>(H: K -> nat, t: Slots<K, V>, nd: Node<K, V>): (r: Slots<K, V>)
    requires 0 < |t| && Count(t) < |t|
    ensures |r| == |t| && Count(r) == Count(t) + 1
    ensures r == t[PlaceSlot(H, t, nd.key) := Some(nd)]
  {
    var i := PlaceSlot(H, t, nd.key);
    CountUpdate(t, i, Some(nd));
    t[i := Some(nd)]
  }

  /** A node stored in an empty slot that its probe path reaches through occupied slots
      is reachable, and so is every other node. */
  lemma FillPath<K, V>(H: K -> nat, t: Slots<K, V>, i: nat, nd: Node<K, V>)
    requires i < |t| && t[i].None? && Reachable(H, t)
    requires var s := Home(H, |t|, nd.key);
      forall e :: 0 <= e < Dist(|t|, s, i) ==> t[Idx(|t|, s, e)].Some?
    ensures Reachable(H, t[i := Some(nd)])
  {
    var b := t[i := Some(nd)];
    var s := Home(H, |t|, nd.key);
    forall e | 0 <= e < Dist(|t|, s, i) ensures b[Idx(|t|, s, e)].Some? {
      assert t[Idx(|t|, s, e)].Some?;
    }
    assert Placed(H, b, i);
    FillReachable(H, t, i, nd);
  }

  lemma PlaceReachable<K, V>(H: K -> nat, t: Slots<K, V>, nd: Node<K, V>)
    requires 0 < |t| && Count(t) < |t| && Reachable(H, t)
    ensures Reachable(H, Place(H, t, nd))
  {
    FillPath(H, t, PlaceSlot(H, t, nd.key), nd);
  }

  /** `key` is stored in no slot of `t`. */
  ghost predicate Fresh<K, V>(t: Slots<K, V>, key: K) {
    forall j :: 0 <= j < |t| && t[j].Some? ==> t[j].value.key != key
  }

  /** The `resize` loop: store every node of `ns`, in order. */
  function PlaceAll<K, V>(H: K -> nat, t: Slots<K, V>, ns: seq<Node<K, V>>): (r: Slots<K, V>)
    requires 0 < |t| && Count(t) + |ns| <= |t|
    ensures |r| == |t| && Count(r) == Count(t) + |ns|
    decreases |ns|
  {
    if ns == [] then t else PlaceAll(H, Place(H, t, ns[0]), ns[1..])
  }

  /** Storing distinct fresh keys keeps keys unique, keeps what was stored, and stores
      every node of `ns` and nothing else. */
  lemma {:induction false} PlaceAllSlots<K, V>(H: K -> nat, t: Slots<K, V>, ns: seq<Node<K, V>>)
    requires 0 < |t| && Count(t) + |ns| <= |t|
    requires Unique(t) && DistinctKeys(ns) && Reachable(H, t)
    requires forall a :: 0 <= a < |ns| ==> Fresh(t, ns[a].key)
    ensures var r := PlaceAll(H, t, ns);
      && Unique(r) && Reachable(H, r)
      && (forall j :: 0 <= j < |t| && t[j].Some? ==> r[j] == t[j])
      && (forall j :: 0 <= j < |t| && r[j].Some? && t[j].None? ==> r[j].value in ns)
      && (forall a :: 0 <= a < |ns| ==> exists j :: 0 <= j < |r| && r[j] == Some(ns[a]))
    decreases |ns|
  {
    if ns != [] {
      var t1 := Place(H, t, ns[0]);
      var i := PlaceSlot(H, t, ns[0].key);
      assert Fresh(t, ns[0].key);
      assert Unique(t1);
      PlaceReachable(H, t, ns[0]);
      forall a | 0 <= a < |ns[1..]| ensures Fresh(t1, ns[1..][a].key) {
        assert Fresh(t, ns[a + 1].key);
        assert ns[a + 1].key != ns[0].key;
      }
      assert DistinctKeys(ns[1..]) by {
        forall a, b | 0 <= a < |ns[1..]| && 0 <= b < |ns[1..]| && ns[1..][a].key == ns[1..][b].key
          ensures a == b
        {
          assert ns[a + 1].key == ns[b + 1].key;
        }
      }
      PlaceAllSlots(H, t1, ns[1..]);
      var r := PlaceAll(H, t, ns);
      assert r == PlaceAll(H, t1, ns[1..]);
      assert exists j :: 0 <= j < |r| && r[j] == Some(ns[0]) by {
        assert r[i] == t1[i];
      }
      forall a | 1 <= a < |ns| ensures exists j :: 0 <= j < |r| && r[j] == Some(ns[a]) {
        assert ns[a] == ns[1..][a - 1];
      }
    }
  }

  /** Slot `j` of `base` holds the entry `k -> v`. */
  ghost predicate Holds<K, V>(base: Slots<K, V>, k: K, v: V) {
    exists j :: 0 <= j < |base| && base[j] == Some(Node(k, v))
  }

  /** What `resize` needs of a table: its slots match `capacity`, `len` counts the nodes and
      no key is stored twice. Reachability is not needed: `resize` rebuilds it. */
  ghost predicate Sound<K, V>(m: LinearHashMap<K, V>) {
    |m.base| == m.capacity > 0 && m.len == Count(m.base) && Unique(m.base)
  }

  /** On a valid map, `get` finds exactly the entries the slots hold. */
  lemma GetHolds<K, V>(H: K -> nat, m: LinearHashMap<K, V>, k: K, v: V)
    requires Valid(H, m)
    ensures Get(H, m, k) == Some(v) <==> Holds(m.base, k, v)
  {
    if Holds(m.base, k, v) {
      var j :| 0 <= j < |m.base| && m.base[j] == Some(Node(k, v));
      assert m.base[j].value.key == k;
    }
  }

  /** `resize`: collect the nodes in slot order, then store each in a table of `cap` empty
      slots, each reachable from its new home slot. */
  function Resize<K(==), V>(H: K -> nat, m: LinearHashMap<K, V>, cap: nat): (r: LinearHashMap<K, V>)
    requires Sound(m) && cap > 0 && 2 * m.len <= cap
    ensures Valid(H, r) && r.capacity == cap && r.len == m.len
  {
    var t: Slots<K, V> := Empty(cap);
    EmptySlots(t, cap);
    NodesDistinct(m.base);
    ResizeSlots(H, m, t);
    LinearHashMap(PlaceAll(H, t, Nodes(m.base)), cap, m.len)
  }

  lemma ResizeSlots<K, V>(H: K -> nat, m: LinearHashMap<K, V>, t: Slots<K, V>)
    requires Sound(m) && 0 < |t| && 2 * m.len <= |t| && Count(t) == 0
    requires forall j :: 0 <= j < |t| ==> t[j].None?
    ensures var ns := Nodes(m.base); var r := PlaceAll(H, t, ns);
      && Unique(r) && Reachable(H, r)
      && (forall j :: 0 <= j < |r| && r[j].Some? ==> r[j].value in ns)
      && (forall a :: 0 <= a < |ns| ==> exists j :: 0 <= j < |r| && r[j] == Some(ns[a]))
  {
    assert Reachable(H, t) by {
      forall j | 0 <= j < |t| ensures Placed(H, t, j) {
      }
    }
    NodesDistinct(m.base);
    PlaceAllSlots(H, t, Nodes(m.base));
  }

  /** Resizing moves entries between slots but keeps exactly the same entries. */
  lemma ResizeHolds<K, V>(H: K -> nat, m: LinearHashMap<K, V>, cap: nat, k: K, v: V)
    requires Sound(m) && cap > 0 && 2 * m.len <= cap
    ensures Holds(Resize(H, m, cap).base, k, v) <==> Holds(m.base, k, v)
  {
    var r := Resize(H, m, cap).base;
    var ns := Nodes(m.base);
    var t: Slots<K, V> := Empty(cap);
    EmptySlots(t, cap);
    ResizeSlots(H, m, t);
    NodesSlots(m.base);
    if Holds(m.base, k, v) {
      var j :| 0 <= j < |m.base| && m.base[j] == Some(Node(k, v));
      var a :| 0 <= a < |ns| && ns[a] == Node(k, v);
      var j2 :| 0 <= j2 < |r| && r[j2] == Some(ns[a]);
    }
    if Holds(r, k, v) {
      var j2 :| 0 <= j2 < |r| && r[j2] == Some(Node(k, v));
      var a :| 0 <= a < |ns| && ns[a] == Node(k, v);
      var j :| 0 <= j < |m.base| && m.base[j] == Some(ns[a]);
    }
  }

  /** Resizing a valid map keeps every lookup. */
  lemma ResizeKeeps<K, V>(H: K -> nat, m: LinearHashMap<K, V>, cap: nat, k: K)
    requires Valid(H, m) && cap > 0 && 2 * m.len <= cap
    ensures Get(H, Resize(H, m, cap), k) == Get(H, m, k)
  {
    var r := Resize(H, m, cap);
    var g := Get(H, m, k);
    var g2 := Get(H, r, k);
    if g.Some? {
      GetHolds(H, m, k, g.value);
      ResizeHolds(H, m, cap, k, g.value);
      GetHolds(H, r, k, g.value);
    }
    if g2.Some? {
      GetHolds(H, r, k, g2.value);
      ResizeHolds(H, m, cap, k, g2.value);
      GetHolds(H, m, k, g2.value);
    }
  }

  // ---------------------------------------------------------------------------------
  // Insertion.

  /** The doubling at the head of `insert`: when at least half the slots are in use,
      resize to twice the capacity. Afterwards there is room for one more node. */
  function Grow<K(==), V>(H: K -> nat, m: LinearHashMap<K, V>): (r: LinearHashMap<K, V>)
    requires Valid(H, m)
    ensures Valid(H, r) && r.len == m.len && 2 * (r.len + 1) <= r.capacity
    ensures r.capacity == if m.len >= m.capacity / 2 then 2 * m.capacity else m.capacity
  {
    if m.len >= m.capacity / 2 then Resize(H, m, 2 * m.capacity) else m
  }

  lemma GrowKeeps<K, V>(H: K -> nat, m: LinearHashMap<K, V>, k: K)
    requires Valid(H, m)
    ensures Get(H, Grow(H, m), k) == Get(H, m, k)
  {
    if m.len >= m.capacity / 2 {
      ResizeKeeps(H, m, 2 * m.capacity, k);
    }
  }

  /** `insert`: grow if needed, then probe from `k`'s home. At `k`'s node, replace the value
      and hand back the old one; at an empty slot, store a new node and count it. */
  function Insert<K(==), V>(H: K -> nat, m: LinearHashMap<K, V>, k: K, v: V)
    : (r: (LinearHashMap<K, V>, Option<V>))
    requires Valid(H, m)
    ensures Valid(H, r.0)
    ensures r.1 == Get(H, m, k) && Get(H, r.0, k) == Some(v)
    ensures r.0.len == if r.1.Some? then m.len else m.len + 1
    ensures r.0.capacity == if m.len >= m.capacity / 2 then 2 * m.capacity else m.capacity
  {
    var m1 := Grow(H, m);
    GrowKeeps(H, m, k);
    var i := ProbeSlot(H, m1, k);
    var nd := Node(k, v);
    CountUpdate(m1.base, i, Some(nd));
    if m1.base[i].Some? then
      ValueReachable(H, m1.base, i, v);
      var m2 := m1.(base := m1.base[i := Some(nd)]);
      SetSlotGet(H, m1, m2, i, k, v);
      (m2, Some(m1.base[i].value.value))
    else
      FillPath(H, m1.base, i, nd);
      var m2 := LinearHashMap(m1.base[i := Some(nd)], m1.capacity, m1.len + 1);
      SetSlotGet(H, m1, m2, i, k, v);
      (m2, None)
  }

  /** `insert` leaves every other key's lookup alone. */
  lemma InsertOthers<K, V>(H: K -> nat, m: LinearHashMap<K, V>, k: K, v: V, k2: K)
    requires Valid(H, m) && k2 != k
    ensures Get(H, Insert(H, m, k, v).0, k2) == Get(H, m, k2)
  {
    var m1 := Grow(H, m);
    GrowKeeps(H, m, k2);
    var i := ProbeSlot(H, m1, k);
    SetSlotGet(H, m1, Insert(H, m, k, v).0, i, k, v);
  }

  // ---------------------------------------------------------------------------------
  // Removal.

  /** One pass of `remove`'s repair loop at slot `i`: swap slot `i` with the first empty
      slot from `i` on, then step to the next slot. */
  function RepairStep<K, V>(b: Slots<K, V>, i: nat): (r: (Slots<K, V>, nat))
    requires i < |b| && HasEmpty(b)
    ensures |r.0| == |b| && r.1 == Next(|b|, i) && HasEmpty(r.0)
  {
    var n := |b|;
    FindNoneEnds(b, i);
    var slot := Idx(n, i, FindNone(b, i, 0));
    var b2 := b[i := b[slot]][slot := b[i]];
    assert b2[i].None?;
    (b2, Next(n, i))
  }

  /** `steps` passes of the repair loop from slot `i`: the table once the guard
      (slot `i` occupied) fails, or Loops if it still holds after `steps` passes. */
  function Repair<K, V>(b: Slots<K, V>, i: nat, steps: nat): (r: Exit<Slots<K, V>>)
    requires i < |b| && HasEmpty(b)
    ensures r.Exits? ==> |r.value| == |b|
    decreases steps
  {
    if b[i].None? then Exits(b)
    else if steps == 0 then Loops
    else
      var st := RepairStep(b, i);
      Repair(st.0, st.1, steps - 1)
  }

  /** After a pass at an occupied slot, the next slot is occupied: either the node just
      moved there, or it was already occupied, since `find_none` passed it. */
  lemma RepairKeepsGoing<K, V>(b: Slots<K, V>, i: nat)
    requires i < |b| && HasEmpty(b) && b[i].Some?
    ensures var st := RepairStep(b, i); st.0[st.1].Some?
  {
    var n := |b|;
    FindNoneEnds(b, i);
    var d := FindNone(b, i, 0);
    var slot := Idx(n, i, d);
    assert d != 0;
    assert Next(n, i) == Idx(n, i, 1);
    if d != 1 {
      assert b[Idx(n, i, 1)].Some?;
    }
  }

  /** Once entered, the repair loop never exits: however many passes are allowed, the guard
      still holds after the last. */
  lemma {:induction false} RepairNeverExits<K, V>(b: Slots<K, V>, i: nat, steps: nat)
    requires i < |b| && HasEmpty(b) && b[i].Some?
    ensures Repair(b, i, steps) == Loops
    decreases steps
  {
    if steps > 0 {
      var st := RepairStep(b, i);
      RepairKeepsGoing(b, i);
      RepairNeverExits(st.0, st.1, steps - 1);
    }
  }

  /** The halving at the end of `remove`: when the count has just dropped to an eighth of
      the capacity (and is not zero), resize to half the capacity. */
  function Shrink<K(==), V>(H: K -> nat, m: LinearHashMap<K, V>): (r: LinearHashMap<K, V>)
    requires Valid(H, m)
    ensures Valid(H, r) && r.len == m.len
    ensures r.capacity == if m.len > 0 && m.len == m.capacity / 8 then m.capacity / 2 else m.capacity
  {
    if m.len > 0 && m.len == m.capacity / 8 then Resize(H, m, m.capacity / 2) else m
  }

  lemma ShrinkKeeps<K, V>(H: K -> nat, m: LinearHashMap<K, V>, k: K)
    requires Valid(H, m)
    ensures Get(H, Shrink(H, m), k) == Get(H, m, k)
  {
    if m.len > 0 && m.len == m.capacity / 8 {
      ResizeKeeps(H, m, m.capacity / 2, k);
    }
  }

  /** `remove` as written. An absent key leaves the map alone. Otherwise the slot is
      emptied; if the slot after it is occupied, the repair loop is entered and never exits
      (see `RemoveRepairs`); if not, the count drops and the table may shrink. */
  function Remove<K(==), V>(H: K -> nat, m: LinearHashMap<K, V>, k: K)
    : (r: Exit<(LinearHashMap<K, V>, Option<V>)>)
    requires Valid(H, m)
    ensures Get(H, m, k).None? ==> r == Exits((m, None))
    ensures r.Loops? <==>
      GetMut(H, m, k).Some? && m.base[Next(|m.base|, GetMut(H, m, k).value)].Some?
    ensures r.Exits? ==>
      && Valid(H, r.value.0) && r.value.1 == Get(H, m, k) && Get(H, r.value.0, k) == None
      && r.value.0.len == if r.value.1.Some? then m.len - 1 else m.len
    ensures r.Exits? ==>
      r.value.0.capacity ==
        if r.value.1.Some? && m.len - 1 > 0 && m.len - 1 == m.capacity / 8 then m.capacity / 2
        else m.capacity
  {
    var i := ProbeSlot(H, m, k);
    if m.base[i].None? then Exits((m, None))
    else
      var n := |m.base|;
      var b := m.base[i := None];
      CountUpdate(m.base, i, None);
      if b[Next(n, i)].Some? then Loops
      else
        ClearReachable(H, m.base, i);
        var m1 := LinearHashMap(b, m.capacity, m.len - 1);
        ClearSlotGet(H, m, m1, i, k);
        ShrinkKeeps(H, m1, k);
        Exits((Shrink(H, m1), Some(m.base[i].value.value)))
  }

  /** When `remove` finishes, every other key keeps its lookup. */
  lemma RemoveOthers<K, V>(H: K -> nat, m: LinearHashMap<K, V>, k: K, k2: K)
    requires Valid(H, m) && k2 != k && Remove(H, m, k).Exits?
    ensures Get(H, Remove(H, m, k).value.0, k2) == Get(H, m, k2)
  {
    var i := ProbeSlot(H, m, k);
    if m.base[i].Some? {
      var b := m.base[i := None];
      CountUpdate(m.base, i, None);
      ClearReachable(H, m.base, i);
      var m1 := LinearHashMap(b, m.capacity, m.len - 1);
      ClearSlotGet(H, m, m1, i, k);
      ShrinkKeeps(H, m1, k2);
    }
  }

  /** `Remove`'s outcome is the repair loop's: once `k`'s slot is emptied, the loop from the
      next slot runs for ever exactly when `Remove` says Loops, and otherwise exits at once. */
  lemma RemoveRepairs<K, V>(H: K -> nat, m: LinearHashMap<K, V>, k: K, steps: nat)
    requires Valid(H, m) && GetMut(H, m, k).Some?
    ensures var i := GetMut(H, m, k).value; var b := m.base[i := None];
      && b[i].None?
      && Repair(b, Next(|b|, i), steps) == if Remove(H, m, k).Loops? then Loops else Exits(b)
  {
    var i := GetMut(H, m, k).value;
    var b := m.base[i := None];
    assert HasEmpty(b) by {
      assert b[i].None?;
    }
    CountUpdate(m.base, i, None);
    if b[Next(|b|, i)].Some? {
      RepairNeverExits(b, Next(|b|, i), steps);
    }
  }

  /** Emptying slot `i` of a table with unique keys removes exactly the entry it held. */
  lemma ClearHolds<K, V>(base: Slots<K, V>, i: nat, k2: K, v: V)
    requires Unique(base) && i < |base| && base[i].Some?
    ensures Holds(base[i := None], k2, v) <==> k2 != base[i].value.key && Holds(base, k2, v)
  {
    var b := base[i := None];
    if Holds(base, k2, v) && k2 != base[i].value.key {
      var j :| 0 <= j < |base| && base[j] == Some(Node(k2, v));
      assert b[j] == base[j];
    }
    if Holds(b, k2, v) {
      var j :| 0 <= j < |b| && b[j] == Some(Node(k2, v));
      assert base[j] == b[j];
    }
  }

  /** `remove` with the repair loop replaced by a rebuild: empty `k`'s slot, then resize
      (to the same capacity, or half when the count drops to an eighth), which re-places
      every node of the cluster from its home slot. */
  function RemoveRehash<K(==), V>(H: K -> nat, m: LinearHashMap<K, V>, k: K)
    : (r: (LinearHashMap<K, V>, Option<V>))
    requires Valid(H, m)
    ensures Valid(H, r.0) && r.1 == Get(H, m, k)
    ensures r.0.len == if r.1.Some? then m.len - 1 else m.len
    ensures r.0.capacity ==
      if r.1.Some? && m.len - 1 > 0 && m.len - 1 == m.capacity / 8 then m.capacity / 2
      else m.capacity
  {
    var i := ProbeSlot(H, m, k);
    if m.base[i].None? then (m, None)
    else
      CountUpdate(m.base, i, None);
      var m1 := LinearHashMap(m.base[i := None], m.capacity, m.len - 1);
      var cap := if m1.len > 0 && m1.len == m.capacity / 8 then m.capacity / 2 else m.capacity;
      (Resize(H, m1, cap), Some(m.base[i].value.value))
  }

  /** After the corrected removal, `k` is gone and every other key keeps its lookup. */
  lemma RemoveRehashGet<K, V>(H: K -> nat, m: LinearHashMap<K, V>, k: K, k2: K)
    requires Valid(H, m)
    ensures Get(H, RemoveRehash(H, m, k).0, k2) == if k2 == k then None else Get(H, m, k2)
  {
    var i := ProbeSlot(H, m, k);
    if m.base[i].Some? {
      CountUpdate(m.base, i, None);
      var m1 := LinearHashMap(m.base[i := None], m.capacity, m.len - 1);
      var cap := if m1.len > 0 && m1.len == m.capacity / 8 then m.capacity / 2 else m.capacity;
      var r := Resize(H, m1, cap);
      var want := if k2 == k then None else Get(H, m, k2);
      var g := Get(H, r, k2);
      if g.Some? {
        GetHolds(H, r, k2, g.value);
        ResizeHolds(H, m1, cap, k2, g.value);
        ClearHolds(m.base, i, k2, g.value);
        GetHolds(H, m, k2, g.value);
      }
      if want.Some? {
        GetHolds(H, m, k2, want.value);
        ClearHolds(m.base, i, k2, want.value);
        ResizeHolds(H, m1, cap, k2, want.value);
        GetHolds(H, r, k2, want.value);
      }
    } else {
      if k2 == k {
        assert Get(H, m, k) == None;
      }
    }
  }

  // ---------------------------------------------------------------------------------
  // Construction.

  /** `new`: sixteen empty slots. */
  function New<K, V>(): LinearHashMap<K, V> {
    LinearHashMap(Empty(16), 16, 0)
  }

  /** What `new` builds has sixteen slots, all empty, capacity 16 and length 0. */
  lemma NewEmpty<K, V>(m: LinearHashMap<K, V>)
    requires m == New()
    ensures m.capacity == 16 && m.len == 0 && |m.base| == 16
    ensures forall j :: 0 <= j < |m.base| ==> m.base[j].None?
  {
    EmptySlots(m.base, 16);
  }

  /** `with_capacity`: `capacity` empty slots. */
  function WithCapacity<K, V>(capacity: nat): LinearHashMap<K, V> {
    LinearHashMap(Empty(capacity), capacity, 0)
  }

  /** What `with_capacity` builds has `capacity` slots, all empty, and length 0. */
  lemma WithCapacityEmpty<K, V>(m: LinearHashMap<K, V>, capacity: nat)
    requires m == WithCapacity(capacity)
    ensures m.capacity == capacity && m.len == 0 && |m.base| == capacity
    ensures forall j :: 0 <= j < |m.base| ==> m.base[j].None?
  {
    EmptySlots(m.base, capacity);
  }

  /** A table of empty slots is a valid map in which every lookup misses, for any hasher,
      as long as there is at least one slot. */
  lemma EmptyValid<K, V>(H: K -> nat, m: LinearHashMap<K, V>, k: K)
    requires |m.base| == m.capacity > 0 && m.len == 0
    requires forall j :: 0 <= j < |m.base| ==> m.base[j].None?
    ensures Valid(H, m) && Get(H, m, k) == None
  {
    NoNodes(m.base);
    assert Reachable(H, m.base) by {
      forall j | 0 <= j < |m.base| ensures Placed(H, m.base, j) {
      }
    }
  }

  // ---------------------------------------------------------------------------------
  // Two colliding keys.

  /** A hasher that sends every key to slot 0. */
  function Collide(k: int): nat {
    0
  }

  /** The map `new` builds, with integer keys and values: valid under `Collide`. */
  function Start(): (m: LinearHashMap<int, int>)
    ensures m == New() && Valid(Collide, m)
  {
    var m := New();
    NewEmpty(m);
    EmptyValid(Collide, m, 1);
    m
  }

  /** Insert 1 into a new map: it lands in slot 0. */
  lemma CollideFirst()
    ensures Insert(Collide, Start(), 1, 10).0.base == Empty(16)[0 := Some(Node(1, 10))]
  {
    var m := Start();
    EmptyValid(Collide, m, 1);
    assert ProbeSlot(Collide, m, 1) == 0 by {
      assert Probe(m.base, 1, 0, 0) == 0;
    }
  }

  /** Then insert 2: slot 0 holds 1, so it lands in slot 1. */
  lemma CollideSecond()
    ensures var m := Insert(Collide, Start(), 1, 10).0;
      Insert(Collide, m, 2, 20).0.base == Empty(16)[0 := Some(Node(1, 10))][1 := Some(Node(2, 20))]
  {
    CollideFirst();
    var m := Insert(Collide, Start(), 1, 10).0;
    assert ProbeSlot(Collide, m, 2) == 1 by {
      assert Probe(m.base, 2, 0, 1) == 1;
      assert Probe(m.base, 2, 0, 0) == 1;
    }
  }

  /** Removing 1 from that map enters the repair loop, which never exits: with every key
      hashing to one slot, `insert(1)`, `insert(2)`, `remove(1)` hangs. */
  lemma CollideRemoveHangs()
    ensures var m := Insert(Collide, Insert(Collide, Start(), 1, 10).0, 2, 20).0;
      Remove(Collide, m, 1).Loops?
  {
    CollideSecond();
    var m := Insert(Collide, Insert(Collide, Start(), 1, 10).0, 2, 20).0;
    assert ProbeSlot(Collide, m, 1) == 0 by {
      assert m.base[0] == Some(Node(1, 10));
    }
    assert m.base[1].Some?;
  }

  /** The corrected removal on the same map finishes: 1 is gone and 2 is still found. */
  lemma CollideRemoveRehash()
    ensures var m := Insert(Collide, Insert(Collide, Start(), 1, 10).0, 2, 20).0;
      var r := RemoveRehash(Collide, m, 1);
      && r.1 == Some(10) && Get(Collide, r.0, 1) == None && Get(Collide, r.0, 2) == Some(20)
  {
    var m0 := Start();
    EmptyValid(Collide, m0, 1);
    var m1 := Insert(Collide, m0, 1, 10).0;
    var m := Insert(Collide, m1, 2, 20).0;
    InsertOthers(Collide, m1, 2, 20, 1);
    RemoveRehashGet(Collide, m, 1, 1);
    RemoveRehashGet(Collide, m, 1, 2);
  }
}

=== FILE: linear_sieve.dfy ===
/**
  The linear sieve, number-theory/src/linear_sieve.rs. Every `i` from 2 to `to` is a prime
  when no earlier step marked it composite; then `i * p` is marked for the primes `p` found
  so far, in ascending order, while `i * p <= to`, stopping after the first `p` that
  divides `i`. That `p` is the smallest prime factor of `i`, so every composite is marked
  from its largest proper divisor.
*/
module LinearSieve {
  /** `n` is prime. */
  ghost predicate Prime(n: nat) {
    n >= 2 && forall d :: 2 <= d < n ==> n % d != 0
  }

  /** The primes below `n`, in ascending order: the reference the sieve is measured by. */
  ghost function PrimesBelow(n: nat): (r: seq<nat>)
    ensures forall t :: 0 <= t < |r| ==> Prime(r[t]) && r[t] < n
    decreases n
  {
    if n <= 2 then []
    else PrimesBelow(n - 1) + (if Prime(n - 1) then [n - 1] else [])
  }

  /** `PrimesBelow(n)` lists every prime below `n` and is strictly ascending. */
  lemma {:induction false} PrimesBelowExact(n: nat)
    ensures forall q: nat :: q in PrimesBelow(n) <==> Prime(q) && q < n
    ensures forall s, t :: 0 <= s < t < |PrimesBelow(n)| ==> PrimesBelow(n)[s] < PrimesBelow(n)[t]
    decreases n
  {
    if n > 2 {
      PrimesBelowExact(n - 1);
    }
  }

  /** The least divisor of `n` that is at least `d`, given none below `d` divides `n`. */
  ghost function LeastDivisorFrom(n: nat, d: nat): (r: nat)
    requires 2 <= d <= n && forall e :: 2 <= e < d ==> n % e != 0
    ensures d <= r <= n && n % r == 0
    decreases n - d
  {
    if n % d == 0 then d
    else
      ModUnique(n, n, 1, 0);
      assert forall e :: 2 <= e < d + 1 ==> n % e != 0 by {
        forall e | 2 <= e < d + 1 ensures n % e != 0 {
          if e < d {}
        }
      }
      LeastDivisorFrom(n, d + 1)
  }

  /** No divisor lies between 2 and the least one found from `d`. */
  lemma {:induction false} LeastDivisorMinimal(n: nat, d: nat)
    requires 2 <= d <= n && forall e :: 2 <= e < d ==> n % e != 0
    ensures forall e :: 2 <= e < LeastDivisorFrom(n, d) ==> n % e != 0
    decreases n - d
  {
    if n % d != 0 {
      LeastDivisorMinimal(n, d + 1);
    }
  }

  /** The smallest prime factor of `n >= 2`: its least divisor above 1. */
  ghost function Spf(n: nat): (r: nat)
    requires n >= 2
    ensures 2 <= r <= n && n % r == 0 && Prime(r)
    ensures forall e :: 2 <= e < r ==> n % e != 0
  {
    var r := LeastDivisorFrom(n, 2);
    LeastDivisorMinimal(n, 2);
    assert Prime(r) by {
      forall d | 2 <= d < r ensures r % d != 0 {
        if r % d == 0 {
          DividesTrans(d, r, n);
        }
      }
    }
    r
  }

  /** A positive multiple of `a` is at least `a`. */
  lemma MulAtLeast(a: nat, k: int)
    requires k >= 1
    ensures a * k >= a
  {
    assert a * k == a * (k - 1) + a;
    assert a * (k - 1) >= 0;
  }

  /** Quotient and remainder are unique: `a * q + r` with `0 <= r < a` leaves remainder
      `r`. */
  lemma ModUnique(z: int, a: nat, q: int, r: int)
    requires a > 0 && z == a * q + r && 0 <= r < a
    ensures z % a == r
  {
    var q2, r2 := z / a, z % a;
    assert z == a * q2 + r2 && 0 <= r2 < a;
    assert a * (q - q2) == r2 - r;
    if q > q2 {
      MulAtLeast(a, q - q2);
    } else if q < q2 {
      MulAtLeast(a, q2 - q);
    }
  }

  /** Divisibility is transitive. */
  lemma DividesTrans(a: nat, b: nat, c: nat)
    requires a > 0 && b > 0 && b % a == 0 && c % b == 0
    ensures c % a == 0
  {
    var x, y := b / a, c / b;
    assert b == a * x;
    assert c == b * y;
    assert c == a * (x * y);
    ModUnique(c, a, x * y, 0);
  }

  /** A divisor's smallest prime factor is a factor too, so it is not below the smallest
      prime factor of the multiple. */
  lemma SpfOfDivisor(m: nat, n: nat)
    requires m >= 2 && n >= 2 && n % m == 0
    ensures Spf(n) <= Spf(m)
  {
    DividesTrans(Spf(m), m, n);
  }

  /** A composite is its smallest prime factor times a cofactor of at least 2 whose own
      smallest prime factor is no smaller. */
  lemma Cofactor(c: nat)
    requires c >= 2 && !Prime(c)
    ensures c / Spf(c) >= 2 && c == Spf(c) * (c / Spf(c))
    ensures Spf(c) <= Spf(c / Spf(c))
  {
    var p := Spf(c);
    var d :| 2 <= d < c && c % d == 0;
    assert p <= d < c;
    var i := c / p;
    DivExact(c, p);
    CofactorBound(p, i, c);
    ModUnique(c, i, p, 0);
    SpfOfDivisor(i, c);
  }

  /** A divisor times the quotient gives back the number. */
  lemma DivExact(c: nat, p: nat)
    requires p > 0 && c % p == 0
    ensures c == p * (c / p)
  {
  }

  /** A factorisation with a proper factor leaves a cofactor of at least 2. */
  lemma CofactorBound(p: nat, i: nat, c: nat)
    requires c == p * i && 0 < p < c
    ensures i >= 2
  {
  }

  /** A product of two factors of at least 2 is not prime. */
  lemma ProductComposite(i: nat, p: nat)
    requires i >= 2 && p >= 2
    ensures p < i * p && !Prime(i * p)
  {
    ModUnique(i * p, p, i, 0);
    MulAtLeast(p, i);
    assert p < i * p;
  }

  /** The marks are sound: every marked number is a composite no greater than `to`. */
  ghost predicate Sound(composites: set<nat>, to: nat) {
    forall x :: x in composites ==> 2 <= x <= to && !Prime(x)
  }

  /** Marking one more composite up to `to` keeps the marks sound. */
  lemma SoundAdd(composites: set<nat>, to: nat, x: nat)
    requires Sound(composites, to) && 2 <= x <= to && !Prime(x)
    ensures Sound(composites + {x}, to)
  {
  }

  /** The marks are complete below `i`: every composite up to `to` whose cofactor (the
      composite over its smallest prime factor) is below `i` is marked. */
  ghost predicate Complete(composites: set<nat>, to: nat, i: nat) {
    forall c: nat :: 2 <= c <= to && !Prime(c) && c / Spf(c) < i ==> c in composites
  }

  /** With sound marks complete below `i`, `i` is unmarked exactly when it is prime. */
  lemma UnmarkedPrime(composites: set<nat>, to: nat, i: nat)
    requires 2 <= i <= to && Sound(composites, to) && Complete(composites, to, i)
    ensures i !in composites <==> Prime(i)
  {
    if !Prime(i) {
      Cofactor(i);
      MulAtLeast(i / Spf(i), Spf(i) - 1);
    }
  }

  /** In a strictly ascending list, a smaller value sits at a smaller position. */
  lemma AscendingIndex(primes: seq<nat>, s: nat, t: nat)
    requires forall a, b :: 0 <= a < b < |primes| ==> primes[a] < primes[b]
    requires s < |primes| && t < |primes| && primes[s] <= primes[t]
    ensures s <= t
  {
  }

  /** Multiplying by the same factor keeps the order. */
  lemma MulMono(i: nat, a: nat, b: nat)
    requires a <= b
    ensures i * a <= i * b
  {
    assert i * b == i * a + i * (b - a);
  }

  /** The products of `i` with the first `k` primes. */
  ghost function Products(i: nat, primes: seq<nat>, k: nat): (r: set<nat>)
    requires k <= |primes|
    decreases k
  {
    if k == 0 then {} else Products(i, primes, k - 1) + {i * primes[k - 1]}
  }

  /** The primes up to `i` hold the smallest prime factor of `i`; a prime before it in the
      list does not divide `i`, so while none has, the next one is at most that factor. */
  lemma NextAtMostSpf(i: nat, primes: seq<nat>, k: nat)
    requires i >= 2 && primes == PrimesBelow(i + 1) && k < |primes|
    requires forall s :: 0 <= s < k ==> i % primes[s] != 0
    ensures primes[k] <= Spf(i)
  {
    PrimesBelowExact(i + 1);
    assert Spf(i) in primes;
    var ts :| 0 <= ts < |primes| && primes[ts] == Spf(i);
    assert i % primes[ts] == 0;
  }

  /** Where the inner loop stops, every `i * q <= to` with a prime `q` no greater than the
      smallest prime factor of `i` is among the products marked. */
  lemma MarksComplete(i: nat, primes: seq<nat>, k: nat, stop: bool, to: nat)
    requires i >= 2 && primes == PrimesBelow(i + 1) && k <= |primes|
    requires stop ==> 0 < k && i % primes[k - 1] == 0
    requires !stop && k < |primes| ==> i * primes[k] > to
    ensures forall q: nat :: Prime(q) && q <= Spf(i) && i * q <= to ==> i * q in Products(i, primes, k)
  {
    forall q: nat | Prime(q) && q <= Spf(i) && i * q <= to ensures i * q in Products(i, primes, k) {
      MarkedOne(i, primes, k, stop, to, q);
    }
  }

  /** One prime `q` of those: its product with `i` is among the first `k`. */
  lemma MarkedOne(i: nat, primes: seq<nat>, k: nat, stop: bool, to: nat, q: nat)
    requires i >= 2 && primes == PrimesBelow(i + 1) && k <= |primes|
    requires stop ==> 0 < k && i % primes[k - 1] == 0
    requires !stop && k < |primes| ==> i * primes[k] > to
    requires Prime(q) && q <= Spf(i) && i * q <= to
    ensures i * q in Products(i, primes, k)
  {
    PrimesBelowExact(i + 1);
    assert q in primes;
    var tq :| 0 <= tq < |primes| && primes[tq] == q;
    if stop {
      assert Spf(i) <= primes[k - 1];
      AscendingIndex(primes, tq, k - 1);
    } else if k < |primes| {
      if q >= primes[k] {
        MulMono(i, primes[k], q);
      }
      AscendingIndex(primes, tq, k);
    }
    ProductsHas(i, primes, k, tq);
  }

  /** The products with the first `k` primes include the one with the prime at `s < k`. */
  lemma {:induction false} ProductsHas(i: nat, primes: seq<nat>, k: nat, s: nat)
    requires s < k <= |primes|
    ensures i * primes[s] in Products(i, primes, k)
    decreases k
  {
    if s < k - 1 {
      ProductsHas(i, primes, k - 1, s);
    }
  }

  /** The inner loop for `i`: mark `i * p` for the primes `p` found so far, in order, while
      `i * p <= to`, stopping after the first `p` that divides `i`. It marks exactly the
      products with the first `t` primes, all of which are at most the smallest prime factor
      of `i`, and every `i * q <= to` with a prime `q` no greater than that factor. */
  method MarkMultiples(i: nat, primes: seq<nat>, composites: set<nat>, to: nat)
    returns (marked: set<nat>, ghost t: nat)
    requires 2 <= i <= to && primes == PrimesBelow(i + 1)
    requires Sound(composites, to)
    ensures t <= |primes| && marked == composites + Products(i, primes, t)
    ensures forall s :: 0 <= s < t ==> primes[s] <= Spf(i)
    ensures Sound(marked, to)
    ensures forall q: nat :: Prime(q) && q <= Spf(i) && i * q <= to ==> i * q in marked
  {
    var k := 0;
    var stop := false;
    marked := composites;
    while !stop && k < |primes| && i * primes[k] <= to
      invariant k <= |primes| && marked == composites + Products(i, primes, k)
      invariant Sound(marked, to)
      invariant forall s :: 0 <= s < k && !(stop && s == k - 1) ==> i % primes[s] != 0
      invariant forall s :: 0 <= s < k ==> primes[s] <= Spf(i)
      invariant stop ==> 0 < k && i % primes[k - 1] == 0
    {
      var p := primes[k];
      NextAtMostSpf(i, primes, k);
      ProductComposite(i, p);
      SoundAdd(marked, to, i * p);
      assert Products(i, primes, k + 1) == Products(i, primes, k) + {i * p};
      marked := marked + {i * p};
      stop := i % p == 0;
      k := k + 1;
    }
    t := k;
    MarksComplete(i, primes, k, stop, to);
  }

  /** `linear_sieve`: the primes up to `to`, in ascending order. */
  method Sieve(to: nat) returns (primes: seq<nat>)
    ensures primes == PrimesBelow(to + 1)
    ensures forall q: nat :: q in primes <==> Prime(q) && q <= to
    ensures forall s, t :: 0 <= s < t < |primes| ==> primes[s] < primes[t]
  {
    primes := SieveLoop(to);
    PrimesBelowExact(to + 1);
  }

  /** The outer loop of `linear_sieve`, for every `i` from 2 to `to`. */
  method SieveLoop(to: nat) returns (primes: seq<nat>)
    ensures primes == PrimesBelow(to + 1)
  {
    var composites: set<nat> := {};
    primes := [];
    NothingBelowTwo(to);
    if to < 2 {
      assert PrimesBelow(to + 1) == [];
      return;
    }
    var i := 2;
    while i <= to
      invariant 2 <= i <= to + 1
      invariant primes == PrimesBelow(i)
      invariant Sound(composites, to) && Complete(composites, to, i)
    {
      primes, composites := SieveStep(i, primes, composites, to);
      i := i + 1;
    }
  }

  /** One pass of the outer loop: `i` is kept when unmarked, which is when it is prime, and
      its multiples are marked, which keeps the marks sound and completes them below
      `i + 1`. */
  method SieveStep(i: nat, primes: seq<nat>, composites: set<nat>, to: nat)
    returns (primes2: seq<nat>, composites2: set<nat>)
    requires 2 <= i <= to && primes == PrimesBelow(i)
    requires Sound(composites, to) && Complete(composites, to, i)
    ensures primes2 == PrimesBelow(i + 1)
    ensures Sound(composites2, to) && Complete(composites2, to, i + 1)
  {
    UnmarkedPrime(composites, to, i);
    primes2 := primes;
    if i !in composites {
      primes2 := primes + [i];
    }
    ghost var t;
    composites2, t := MarkMultiples(i, primes2, composites, to);
    NextComplete(composites, composites2, to, i);
  }

  /** Every composite has a cofactor of at least 2, so no mark is needed below 2. */
  lemma NothingBelowTwo(to: nat)
    ensures Complete({}, to, 2)
  {
    forall c: nat | 2 <= c <= to && !Prime(c) ensures c / Spf(c) >= 2 {
      Cofactor(c);
    }
  }

  /** After marking from `i`, the marks are complete below `i + 1`. */
  lemma NextComplete(composites: set<nat>, marked: set<nat>, to: nat, i: nat)
    requires i >= 2 && Complete(composites, to, i) && composites <= marked
    requires forall q: nat :: Prime(q) && q <= Spf(i) && i * q <= to ==> i * q in marked
    ensures Complete(marked, to, i + 1)
  {
    forall c: nat | 2 <= c <= to && !Prime(c) && c / Spf(c) == i ensures c in marked {
      Cofactor(c);
      assert i * Spf(c) == c;
    }
  }

  /** Up to 2 the only prime is 2, and below 2 there is none. */
  method SmallSieves() returns (two: seq<nat>, one: seq<nat>, zero: seq<nat>)
    ensures two == [2] && one == [] && zero == []
  {
    two := Sieve(2);
    one := Sieve(1);
    zero := Sieve(0);
    assert PrimesBelow(3) == PrimesBelow(2) + [2];
  }
}

=== FILE: linked_list.dfy ===
/**
  The doubly linked list of list/linked-list/src/lib.rs. A list is the chain of nodes its
  `head` and `tail` pointers delimit; here it is the sequence of the chain's elements, so
  `elems[0]` is the head's element, `elems[|elems| - 1]` the tail's, and the `len` field is
  `|elems|` — the consistency `LinkedList` keeps between the three fields by hand holds by
  construction. Positional walks follow the `next` and `prev` links of module `ListIter`.
*/
module LinkedList {
  import opened Wrappers
  import ListIter

  datatype List<T> = List(elems: seq<T>)

  /** `len`: the number of nodes in the chain. */
  function Len<T>(l: List<T>): (n: nat)
    ensures n == |l.elems|
  {
    |l.elems|
  }

  /** The element at position `p`, if the position is a node of the chain. */
  function At<T>(l: List<T>, p: Option<nat>): (r: Option<T>)
    requires p.Some? ==> p.value < Len(l)
  {
    if p.None? then None else Some(l.elems[p.value])
  }

  /** `usize::saturating_sub`. */
  function SaturatingSub(a: nat, b: nat): (r: nat)
    ensures r == if a >= b then a - b else 0
  {
    if a >= b then a - b else 0
  }

  /** `get`: past the end gives None; the first half is reached with `nth` from the front,
      the second with `rev().nth` from the back. */
  function Get<T>(l: List<T>, index: nat): (r: Option<T>)
    ensures r == if index < Len(l) then Some(l.elems[index]) else None
  {
    var n := Len(l);
    var chain := ListIter.Remaining(n, ListIter.Start(n));
    assert index < n ==> chain[index] == index && chain[n - 1 - (n - index - 1)] == index;
    if index >= n then None
    else if index < n / 2 then At(l, ListIter.Nth(n, ListIter.Start(n), index))
    else At(l, ListIter.NthBack(n, ListIter.Start(n), n - index - 1))
  }

  /** `get_mut`: the same walk, handing out the node (its position) instead of a copy. */
  function GetMut<T>(l: List<T>, index: nat): (r: Option<nat>)
    ensures r == if index < Len(l) then Some(index) else None
  {
    var n := Len(l);
    var chain := ListIter.Remaining(n, ListIter.Start(n));
    assert index < n ==> chain[index] == index && chain[n - 1 - (n - index - 1)] == index;
    if index >= n then None
    else if index < n / 2 then ListIter.Nth(n, ListIter.Start(n), index)
    else ListIter.NthBack(n, ListIter.Start(n), n - index - 1)
  }

  /** `len` is the first index `get` finds nothing at: every index below it holds an element. */
  lemma LenBoundsGet<T>(l: List<T>)
    ensures forall i: nat :: Get(l, i).Some? <==> i < Len(l)
  {
  }

  /** Two lists with the same elements at every index are the same list. */
  lemma GetExtensional<T>(a: List<T>, b: List<T>)
    requires forall i: nat :: Get(a, i) == Get(b, i)
    ensures a == b
  {
    assert Get(a, Len(a)) == Get(b, Len(a));
    assert Get(a, Len(b)) == Get(b, Len(b));
    forall i | 0 <= i < Len(a) ensures a.elems[i] == b.elems[i] {
      assert Get(a, i) == Get(b, i);
    }
  }

  /** `new`. */
  function New<T>(): List<T> {
    List([])
  }

  /** What `new` builds has no element at any index. */
  lemma NewEmpty<T>(l: List<T>)
    requires l == New()
    ensures IsEmpty(l)
    ensures forall i: nat :: Get(l, i) == None
  {
  }

  /** `is_empty`: no element at any index. */
  function IsEmpty<T>(l: List<T>): (b: bool)
    ensures b <==> forall i: nat :: Get(l, i) == None
  {
    assert Len(l) > 0 ==> Get(l, 0).Some?;
    Len(l) == 0
  }

  /** `clear`: drop every node. */
  function Clear<T>(l: List<T>): (r: List<T>)
    ensures IsEmpty(r) && r == New()
  {
    List([])
  }

  /** `push_back`: a new tail; every other index keeps its element. */
  function PushBack<T>(l: List<T>, x: T): (r: List<T>)
    ensures Len(r) == Len(l) + 1
    ensures forall i: nat :: Get(r, i) == if i == Len(l) then Some(x) else Get(l, i)
  {
    List(l.elems + [x])
  }

  /** `push_front`: a new head; every element moves up one index. */
  function PushFront<T>(l: List<T>, x: T): (r: List<T>)
    ensures Len(r) == Len(l) + 1
    ensures Get(r, 0) == Some(x)
    ensures forall i: nat :: i > 0 ==> Get(r, i) == Get(l, i - 1)
  {
    List([x] + l.elems)
  }

  /** `pop_back`: None on an empty list; otherwise the tail's element, and pushing it back
      restores the list. */
  function PopBack<T>(l: List<T>): (r: (List<T>, Option<T>))
    ensures Len(l) > 0 ==> r.1 == Get(l, Len(l) - 1)
    ensures r.1.None? <==> IsEmpty(l)
    ensures r.1.None? ==> r.0 == l
    ensures r.1.Some? ==> PushBack(r.0, r.1.value) == l
  {
    if Len(l) == 0 then (l, None)
    else
      var r := (List(l.elems[..Len(l) - 1]), Some(l.elems[Len(l) - 1]));
      assert r.0.elems + [r.1.value] == l.elems;
      r
  }

  /** `pop_front`: None on an empty list; otherwise the head's element, and pushing it back
      at the front restores the list. */
  function PopFront<T>(l: List<T>): (r: (List<T>, Option<T>))
    ensures r.1 == Get(l, 0)
    ensures r.1.None? ==> r.0 == l
    ensures r.1.Some? ==> PushFront(r.0, r.1.value) == l
  {
    if Len(l) == 0 then (l, None)
    else
      var r := (List(l.elems[1..]), Some(l.elems[0]));
      assert [r.1.value] + r.0.elems == l.elems;
      r
  }

  /** `from_iter`: push every element at the back, in order. */
  function FromIter<T>(s: seq<T>): (l: List<T>)
    ensures forall i: nat :: Get(l, i) == if i < |s| then Some(s[i]) else None
    ensures l.elems == s
  {
    if s == [] then New()
    else
      var l := PushBack(FromIter(s[..|s| - 1]), s[|s| - 1]);
      GetExtensional(l, List(s));
      l
  }

  /** Walk `steps` links from node `at`, forwards along `next` or backwards along `prev`;
      None once the walk leaves the chain. */
  function Walk(n: nat, at: Option<nat>, forward: bool, steps: nat): (r: Option<nat>)
    requires at.Some? ==> at.value < n
    ensures at.None? ==> r == None
    ensures at.Some? && forward ==>
      r == if at.value + steps < n then Some(at.value + steps) else None
    ensures at.Some? && !forward ==>
      r == if steps <= at.value then Some(at.value - steps) else None
    decreases steps
  {
    if steps == 0 || at.None? then at
    else
      var next := if forward then ListIter.NextOf(n, at.value) else ListIter.PrevOf(at.value);
      Walk(n, next, forward, steps - 1)
  }

  /** Insertion at `index` as the interface promises: panics past the end; otherwise the
      new element sits at `index` and the others keep their order around it. */
  function InsertAt<T>(l: List<T>, index: nat, x: T): (r: Outcome<List<T>>)
    ensures r.Done? <==> index <= Len(l)
    ensures r.Done? ==>
      && Len(r.value) == Len(l) + 1
      && r.value.elems[index] == x
      && r.value.elems[..index] == l.elems[..index]
      && r.value.elems[index + 1..] == l.elems[index..]
  {
    if index > Len(l) then Panic
    else Done(List(l.elems[..index] + [x] + l.elems[index..]))
  }

  /** `insert` as written: the assertion panics past the end; the front half walks `index`
      `next` links from the head and links the node before the one reached; the back half
      walks `len - index - 1` (saturating) `prev` links from the tail and links the node
      AFTER the one reached. The walk never leaves the chain, so the `unwrap` inside it
      never fires. Only the back half below `len` lands one place late. */
  function Insert<T>(l: List<T>, index: nat, x: T): (r: Outcome<List<T>>)
    ensures index > Len(l) ==> r == Panic
    ensures index <= Len(l) && (index == 0 || index < Len(l) / 2 || index == Len(l)) ==>
      r == InsertAt(l, index, x)
    ensures 0 < index < Len(l) && index >= Len(l) / 2 ==> r == InsertAt(l, index + 1, x)
  {
    var n := Len(l);
    if index > n then Panic
    else
      var forward := index == 0 || index < n / 2;
      var steps := if forward then index else SaturatingSub(n, index + 1);
      var start := if forward then ListIter.Start(n).front else ListIter.Start(n).back;
      var entry := Walk(n, start, forward, steps);
      if entry.None? then
        assert l.elems[..0] + [x] + l.elems[0..] == [x];
        Done(List([x]))
      else if forward then Done(LinkBefore(l, entry.value, x))
      else Done(LinkAfter(l, entry.value, x))
  }

  /** Link a new node in front of node `p`. */
  function LinkBefore<T>(l: List<T>, p: nat, x: T): (r: List<T>)
    requires p < Len(l)
    ensures Done(r) == InsertAt(l, p, x)
  {
    List(l.elems[..p] + [x] + l.elems[p..])
  }

  /** Link a new node behind node `p`. */
  function LinkAfter<T>(l: List<T>, p: nat, x: T): (r: List<T>)
    requires p < Len(l)
    ensures Done(r) == InsertAt(l, p + 1, x)
  {
    List(l.elems[..p + 1] + [x] + l.elems[p + 1..])
  }

  /** Removal at `index` as the interface promises, the partner of `get`: the element
      `get` returns, and None with the list unchanged past the end. */
  function RemoveAt<T>(l: List<T>, index: nat): (r: (List<T>, Option<T>))
    ensures r.1 == Get(l, index)
    ensures r.1.None? ==> r.0 == l
    ensures r.1.Some? ==> Len(r.0) == Len(l) - 1 && InsertAt(r.0, index, r.1.value) == Done(l)
  {
    if index >= Len(l) then (l, None)
    else
      var r := (List(l.elems[..index] + l.elems[index + 1..]), Some(l.elems[index]));
      assert r.0.elems[..index] + [r.1.value] + r.0.elems[index..] == l.elems;
      r
  }

  /** `remove` as written: the same split as `insert`, then a walk that stops at the
      `index`-th node or when the chain runs out. In range it removes the right node; past
      the end of a non-empty list the saturating count is 0 and it removes the tail. */
  function Remove<T>(l: List<T>, index: nat): (r: (List<T>, Option<T>))
    ensures index < Len(l) ==> r == RemoveAt(l, index)
    ensures index >= Len(l) ==> r == PopBack(l)
  {
    var n := Len(l);
    var forward := index == 0 || index < n / 2;
    var steps := if forward then index else SaturatingSub(n, index + 1);
    var start := if forward then ListIter.Start(n).front else ListIter.Start(n).back;
    var entry := Walk(n, start, forward, steps);
    assert entry == if n == 0 then None else Some(if index < n then index else n - 1);
    if entry.None? then (l, None) else Unlink(l, entry.value)
  }

  /** Unlink node `p`, joining its neighbours. */
  function Unlink<T>(l: List<T>, p: nat): (r: (List<T>, Option<T>))
    requires p < Len(l)
    ensures r == RemoveAt(l, p)
    ensures p == Len(l) - 1 ==> r == PopBack(l)
  {
    assert p == Len(l) - 1 ==> l.elems[..p] + l.elems[p + 1..] == l.elems[..Len(l) - 1];
    (List(l.elems[..p] + l.elems[p + 1..]), Some(l.elems[p]))
  }

  /** Inserting at `index` and removing at `index` give back the list and the element. */
  lemma InsertRemoveAt<T>(l: List<T>, index: nat, x: T)
    requires index <= Len(l)
    ensures RemoveAt(InsertAt(l, index, x).value, index) == (l, Some(x))
  {
    var s := InsertAt(l, index, x).value.elems;
    assert s[..index] + s[index + 1..] == l.elems;
  }

  /** The zip loop of `eq` from position `k` on: true when no pair of elements that both
      lists have differs. */
  function EqFrom<T(==)>(a: seq<T>, b: seq<T>, k: nat): (r: bool)
    ensures r <==> forall i :: k <= i < |a| && i < |b| ==> a[i] == b[i]
    decreases |a| - k
  {
    if k >= |a| || k >= |b| then true
    else if a[k] != b[k] then false
    else EqFrom(a, b, k + 1)
  }

  /** `eq` as written: compares only as many elements as the shorter list has. */
  function Eq<T(==)>(a: List<T>, b: List<T>): (r: bool)
    ensures r <==> forall i :: 0 <= i < Len(a) && i < Len(b) ==> a.elems[i] == b.elems[i]
  {
    EqFrom(a.elems, b.elems, 0)
  }

  /** Equality as intended: also the lengths must agree, so it holds exactly for equal
      lists. */
  function ListEq<T(==)>(a: List<T>, b: List<T>): (r: bool)
    ensures r <==> a == b
  {
    Len(a) == Len(b) && Eq(a, b)
  }

  /** `eq` reports a one-element list equal to a longer list that starts with it. */
  lemma EqIgnoresLength()
    ensures Eq(List([1]), List([1, 2]))
    ensures List([1]) != List([1, 2]) && !ListEq(List([1]), List([1, 2]))
  {
  }

  /** `insert(1, 13)` into [11, 45, 14] takes the back half and lands at index 2. */
  lemma InsertBackHalfShifts()
    ensures Insert(List([11, 45, 14]), 1, 13) == Done(List([11, 45, 13, 14]))
    ensures InsertAt(List([11, 45, 14]), 1, 13) == Done(List([11, 13, 45, 14]))
  {
    assert [11, 45, 14][..2] + [13] + [11, 45, 14][2..] == [11, 45, 13, 14];
    assert [11, 45, 14][..1] + [13] + [11, 45, 14][1..] == [11, 13, 45, 14];
  }

  /** Where `insert` puts an element depends on which half the index falls in: index 1 of a
      four-element list is reached from the front and lands at 1, index 1 of a three-element
      list from the back and lands at 2, and `insert(len - 1, x)` appends like `insert(len, x)`. */
  lemma InsertPlacementVaries()
    ensures Insert(List([1, 2, 3, 4]), 1, 9) == Done(List([1, 9, 2, 3, 4]))
    ensures Insert(List([1, 2, 3]), 1, 9) == Done(List([1, 2, 9, 3]))
    ensures Insert(List([1, 2, 3]), 2, 9) == Insert(List([1, 2, 3]), 3, 9) == Done(List([1, 2, 3, 9]))
  {
    assert [1, 2, 3, 4][..1] + [9] + [1, 2, 3, 4][1..] == [1, 9, 2, 3, 4];
    assert [1, 2, 3][..2] + [9] + [1, 2, 3][2..] == [1, 2, 9, 3];
    assert [1, 2, 3][..3] + [9] + [1, 2, 3][3..] == [1, 2, 3, 9];
  }

  /** `remove(3)` on [1, 2, 3] is past the end yet removes the tail. */
  lemma RemovePastEndTakesTail()
    ensures Remove(List([1, 2, 3]), 3) == (List([1, 2]), Some(3))
    ensures RemoveAt(List([1, 2, 3]), 3) == (List([1, 2, 3]), None)
  {
    assert [1, 2, 3][..2] == [1, 2];
  }

  /** The elements at positions `ps`. */
  function Elements<T>(l: List<T>, ps: seq<nat>): (r: seq<T>)
    requires ListIter.InChain(|l.elems|, ps)
    ensures |r| == |ps|
    ensures forall i :: 0 <= i < |ps| ==> r[i] == l.elems[ps[i]]
  {
    if ps == [] then [] else [l.elems[ps[0]]] + Elements(l, ps[1..])
  }

  /** `iter`, `iter_mut` and `into_iter`: whatever mix of `next` and `next_back` calls
      drives the cursor, the front calls read the list's first elements in order, the back
      calls its last ones from the end, and as many calls as elements read them all. */
  lemma IterCovers<T>(l: List<T>, calls: seq<bool>)
    requires |calls| >= Len(l)
    ensures var n := Len(l); var run := ListIter.Run(n, ListIter.Start(n), calls);
      Elements(l, run.1) + ListIter.Reverse(Elements(l, run.2)) == l.elems
  {
    var n := Len(l);
    var run := ListIter.Run(n, ListIter.Start(n), calls);
    ListIter.StartCovers(n, calls);
    ReadBothEnds(l, run.1, run.2);
  }

  /** Reading positions 0, 1, ... from the front and n - 1, n - 2, ... from the back, `n`
      positions in all, reads the whole list. */
  lemma ReadBothEnds<T>(l: List<T>, fs: seq<nat>, bs: seq<nat>)
    requires |fs| + |bs| == |l.elems|
    requires forall i :: 0 <= i < |fs| ==> fs[i] == i
    requires forall i :: 0 <= i < |bs| ==> bs[i] == |l.elems| - 1 - i
    ensures Elements(l, fs) + ListIter.Reverse(Elements(l, bs)) == l.elems
  {
    var front := Elements(l, fs);
    var rb := Elements(l, bs);
    forall i | 0 <= i < |front| ensures front[i] == l.elems[i] {
      assert front[i] == l.elems[fs[i]];
    }
    forall i | 0 <= i < |rb| ensures rb[i] == l.elems[|l.elems| - 1 - i] {
      assert rb[i] == l.elems[bs[i]];
    }
    JoinEnds(l.elems, front, rb);
  }

  /** A sequence is its first `|front|` elements followed by the rest read from the end. */
  lemma JoinEnds<T>(xs: seq<T>, front: seq<T>, rb: seq<T>)
    requires |front| + |rb| == |xs|
    requires forall i :: 0 <= i < |front| ==> front[i] == xs[i]
    requires forall i :: 0 <= i < |rb| ==> rb[i] == xs[|xs| - 1 - i]
    ensures front + ListIter.Reverse(rb) == xs
  {
    var back := ListIter.Reverse(rb);
    forall j | 0 <= j < |back| ensures back[j] == xs[|front| + j] {
      assert back[j] == rb[|rb| - 1 - j];
    }
  }

  // The scenarios of list/linked-list/src/tests.rs.

  lemma InsertScenario1()
    ensures Insert(List([11, 45, 14]), 1, 13) == Done(List([11, 45, 13, 14]))
  {
    InsertBackHalfShifts();
  }

  lemma InsertScenario2()
    ensures Insert(List([11, 45, 13, 14]), 0, 0) == Done(List([0, 11, 45, 13, 14]))
  {
    var s := [11, 45, 13, 14];
    assert s[..0] + [0] + s[0..] == [0, 11, 45, 13, 14];
  }

  lemma InsertScenario3()
    ensures Insert(List([0, 11, 45, 13, 14]), 5, 42) == Done(List([0, 11, 45, 13, 14, 42]))
  {
    var s := [0, 11, 45, 13, 14];
    assert s[..5] + [42] + s[5..] == [0, 11, 45, 13, 14, 42];
  }

  /** `test_insert`: inserting 13 at `len / 2`, 0 at the front and 42 at `len` into
      [11, 45, 14] gives [0, 11, 45, 13, 14, 42]. */
  lemma InsertScenario()
    ensures FromIter([11, 45, 14]) == List([11, 45, 14])
    ensures Insert(List([11, 45, 14]), 3 / 2, 13) == Done(List([11, 45, 13, 14]))
    ensures Insert(List([11, 45, 13, 14]), 0, 0) == Done(List([0, 11, 45, 13, 14]))
    ensures Insert(List([0, 11, 45, 13, 14]), 5, 42) == Done(FromIter([0, 11, 45, 13, 14, 42]))
  {
    InsertScenario1();
    InsertScenario2();
    InsertScenario3();
  }

  lemma RemoveScenario1()
    ensures Remove(List([19, 19, 81, 0]), 2) == (List([19, 19, 0]), Some(81))
  {
    var s := [19, 19, 81, 0];
    assert s[..2] + s[3..] == [19, 19, 0];
  }

  lemma RemoveScenario2()
    ensures Remove(List([19, 19, 0]), 0) == (List([19, 0]), Some(19))
  {
    var s := [19, 19, 0];
    assert s[..0] + s[1..] == [19, 0];
  }

  lemma RemoveScenario3()
    ensures Remove(List([19, 0]), 1) == (List([19]), Some(0))
  {
    var s := [19, 0];
    assert s[..1] + s[2..] == [19];
  }

  /** `test_remove`: removing at `len / 2`, at 0 and at `len - 1` from [19, 19, 81, 0]
      leaves [19, 19, 0], then [19, 0], then [19]. */
  lemma RemoveScenario()
    ensures FromIter([19, 19, 81, 0]) == List([19, 19, 81, 0])
    ensures Remove(List([19, 19, 81, 0]), 4 / 2).0 == FromIter([19, 19, 0])
    ensures Remove(List([19, 19, 0]), 0).0 == FromIter([19, 0])
    ensures Remove(List([19, 0]), 2 - 1).0 == FromIter([19])
  {
    RemoveScenario1();
    RemoveScenario2();
    RemoveScenario3();
  }

  lemma SingleInsertFront()
    ensures Insert(List([114514]), 0, 0) == Done(List([0, 114514]))
  {
    assert [114514][..0] + [0] + [114514][0..] == [0, 114514];
  }

  lemma SingleInsertBack()
    ensures Insert(List([114514]), 1, 0) == Done(List([114514, 0]))
  {
    assert [114514][..1] + [0] + [114514][1..] == [114514, 0];
  }

  lemma SinglePops()
    ensures PopFront(List([0, 114514])) == (List([114514]), Some(0))
    ensures PopBack(List([114514, 0])) == (List([114514]), Some(0))
  {
    assert [0, 114514][1..] == [114514];
    assert [114514, 0][..1] == [114514];
  }

  lemma SingleRemove()
    ensures Remove(List([114514]), 0) == (List([]), Some(114514))
  {
    assert [114514][..0] + [114514][1..] == [];
  }

  /** `test_single`: inserting at either end of a one-element list, popping the new
      element off again, and removing the last element. */
  lemma SingleScenario()
    ensures FromIter([114514]) == List([114514])
    ensures Insert(List([114514]), 0, 0) == Done(FromIter([0, 114514]))
    ensures PopFront(List([0, 114514])) == (List([114514]), Some(0))
    ensures Insert(List([114514]), 1, 0) == Done(FromIter([114514, 0]))
    ensures PopBack(List([114514, 0])) == (List([114514]), Some(0))
    ensures IsEmpty(Remove(List([114514]), 0).0)
  {
    SingleInsertFront();
    SingleInsertBack();
    SinglePops();
    SingleRemove();
  }
}

=== FILE: list_iter.dfy ===
/**
  The double-ended cursors of list/linked-list/src/iter.rs. `Iter`, `IterMut` and
  `IntoIter` share one state machine: a front and a back pointer into the chain of nodes,
  both cleared once they meet. Here a chain of `n` nodes is numbered 0 (head) to n - 1
  (tail), a pointer is an `Option<nat>` position, and the cursor yields positions: `Iter`
  reads the element there, `IterMut` hands out the slot, `IntoIter` moves the element out.
*/
module ListIter {
  import opened Wrappers

  datatype Cursor = Cursor(front: Option<nat>, back: Option<nat>)

  /** The `next` link of node `p`: None past the tail. */
  function NextOf(n: nat, p: nat): (r: Option<nat>)
    ensures r.Some? <==> p + 1 < n
    ensures r.Some? ==> r.value == p + 1
  {
    if p + 1 < n then Some(p + 1) else None
  }

  /** The `prev` link of node `p`: None before the head. */
  function PrevOf(p: nat): (r: Option<nat>)
    ensures r.Some? <==> p > 0
    ensures r.Some? ==> r.value == p - 1
  {
    if p == 0 then None else Some(p - 1)
  }

  /** Positions lo, lo + 1, ..., hi - 1. */
  function Range(lo: nat, hi: nat): (r: seq<nat>)
    requires lo <= hi
    ensures |r| == hi - lo
    ensures forall i :: 0 <= i < |r| ==> r[i] == lo + i
    decreases hi - lo
  {
    if lo == hi then [] else [lo] + Range(lo + 1, hi)
  }

  /** Every position in `ps` is a node of a chain of `n`. */
  ghost predicate InChain(n: nat, ps: seq<nat>) {
    forall i :: 0 <= i < |ps| ==> ps[i] < n
  }

  /** Either both cursors are cleared, or the front is at or before the back, inside the
      chain. */
  ghost predicate Valid(n: nat, c: Cursor) {
    || (c.front.None? && c.back.None?)
    || (c.front.Some? && c.back.Some? && c.front.value <= c.back.value < n)
  }

  /** The positions still to be yielded, front to back. */
  function Remaining(n: nat, c: Cursor): (r: seq<nat>)
    requires Valid(n, c)
    ensures forall i :: 0 <= i < |r| ==> r[i] < n
    ensures |r| <= n
  {
    if c.front.None? then [] else Range(c.front.value, c.back.value + 1)
  }

  /** `iter`: front at the head, back at the tail. */
  function Start(n: nat): (c: Cursor)
    ensures Valid(n, c) && Remaining(n, c) == Range(0, n)
  {
    if n == 0 then Cursor(None, None) else Cursor(Some(0), Some(n - 1))
  }

  /** `next`: when the cursors meet, clear both and yield the node (None if there was
      none); otherwise yield the front node and follow its `next` link. */
  function Next(n: nat, c: Cursor): (res: (Cursor, Option<nat>))
    requires Valid(n, c)
    ensures Valid(n, res.0)
    ensures Remaining(n, c) == [] ==> res.1 == None && Remaining(n, res.0) == []
    ensures Remaining(n, c) != [] ==>
      res.1 == Some(Remaining(n, c)[0]) && Remaining(n, res.0) == Remaining(n, c)[1..]
  {
    if c.front == c.back then
      (Cursor(None, None), c.front)
    else
      var f := c.front.value;
      (c.(front := NextOf(n, f)), Some(f))
  }

  /** `next_back`: the mirror image, following `prev` links from the back. */
  function NextBack(n: nat, c: Cursor): (res: (Cursor, Option<nat>))
    requires Valid(n, c)
    ensures Valid(n, res.0)
    ensures Remaining(n, c) == [] ==> res.1 == None && Remaining(n, res.0) == []
    ensures Remaining(n, c) != [] ==>
      && res.1 == Some(Remaining(n, c)[|Remaining(n, c)| - 1])
      && Remaining(n, res.0) == Remaining(n, c)[..|Remaining(n, c)| - 1]
  {
    if c.back == c.front then
      (Cursor(None, None), c.back)
    else
      var b := c.back.value;
      (c.(back := PrevOf(b)), Some(b))
  }

  /** Drive the cursor with `next` (true) and `next_back` (false) calls in the order of
      `calls`; collect what the front calls and the back calls yield. */
  function Run(n: nat, c: Cursor, calls: seq<bool>): (res: (Cursor, seq<nat>, seq<nat>))
    requires Valid(n, c)
    ensures Valid(n, res.0)
    ensures InChain(n, res.1) && InChain(n, res.2)
    decreases |calls|
  {
    if calls == [] then
      (c, [], [])
    else
      var step := if calls[0] then Next(n, c) else NextBack(n, c);
      var rest := Run(n, step.0, calls[1..]);
      if step.1.None? then rest
      else if calls[0] then (rest.0, [step.1.value] + rest.1, rest.2)
      else (rest.0, rest.1, [step.1.value] + rest.2)
  }

  /** Any interleaving of `next` and `next_back` calls yields every remaining position
      exactly once: the front calls a prefix in order, the back calls the matching suffix
      from the end, and once there are as many calls as positions nothing is left. */
  lemma {:induction false} Interleaving(n: nat, c: Cursor, calls: seq<bool>)
    requires Valid(n, c)
    ensures Remaining(n, c) ==
      Run(n, c, calls).1 + Remaining(n, Run(n, c, calls).0) + Reverse(Run(n, c, calls).2)
    ensures |calls| >= |Remaining(n, c)| ==> Remaining(n, Run(n, c, calls).0) == []
    decreases |calls|
  {
    if calls != [] {
      var step := if calls[0] then Next(n, c) else NextBack(n, c);
      Interleaving(n, step.0, calls[1..]);
      if calls[0] {
        FrontStep(n, c, calls);
      } else {
        BackStep(n, c, calls);
      }
    }
  }

  /** From a fresh cursor over `n` nodes, `n` or more calls yield the positions 0, 1, ...
      from the front and n - 1, n - 2, ... from the back, `n` positions in all. */
  lemma StartCovers(n: nat, calls: seq<bool>)
    requires |calls| >= n
    ensures var run := Run(n, Start(n), calls);
      && |run.1| + |run.2| == n
      && (forall i :: 0 <= i < |run.1| ==> run.1[i] == i)
      && (forall i :: 0 <= i < |run.2| ==> run.2[i] == n - 1 - i)
  {
    var run := Run(n, Start(n), calls);
    Interleaving(n, Start(n), calls);
    assert Range(0, n) == run.1 + Reverse(run.2);
    RangeSplit(n, run.1, run.2);
  }

  /** Splitting 0, 1, ..., n - 1 into a front and a reversed back: the front counts up
      from 0 and the back counts down from n - 1. */
  lemma RangeSplit(n: nat, front: seq<nat>, back: seq<nat>)
    requires Range(0, n) == front + Reverse(back)
    ensures |front| + |back| == n
    ensures forall i :: 0 <= i < |front| ==> front[i] == i
    ensures forall i :: 0 <= i < |back| ==> back[i] == n - 1 - i
  {
    var whole, rb := Range(0, n), Reverse(back);
    CountsUp(whole, front, rb);
    CountsDown(back, rb, |front|);
  }

  /** A run of consecutive positions from 0, split in two: both halves count up, the
      second from where the first stops. */
  lemma CountsUp(whole: seq<nat>, front: seq<nat>, rest: seq<nat>)
    requires whole == front + rest
    requires forall i :: 0 <= i < |whole| ==> whole[i] == i
    ensures forall i :: 0 <= i < |front| ==> front[i] == i
    ensures forall j :: 0 <= j < |rest| ==> rest[j] == |front| + j
  {
    forall i | 0 <= i < |front| ensures front[i] == i {
      assert whole[i] == front[i];
    }
    forall j | 0 <= j < |rest| ensures rest[j] == |front| + j {
      assert whole[|front| + j] == rest[j];
    }
  }

  /** When the reverse of `back` counts up from `base`, `back` counts down to `base`. */
  lemma CountsDown(back: seq<nat>, rb: seq<nat>, base: nat)
    requires |rb| == |back| && forall j :: 0 <= j < |back| ==> rb[j] == back[|back| - 1 - j]
    requires forall j :: 0 <= j < |rb| ==> rb[j] == base + j
    ensures forall i :: 0 <= i < |back| ==> back[i] == base + |back| - 1 - i
  {
    forall i | 0 <= i < |back| ensures back[i] == base + |back| - 1 - i {
      var j := |back| - 1 - i;
      assert rb[j] == back[i];
    }
  }

  /** One `next` call in front of a run. */
  lemma FrontStep(n: nat, c: Cursor, calls: seq<bool>)
    requires Valid(n, c) && calls != [] && calls[0]
    requires var c1 := Next(n, c).0; var rest := Run(n, c1, calls[1..]);
      Remaining(n, c1) == rest.1 + Remaining(n, rest.0) + Reverse(rest.2)
    ensures Remaining(n, c) ==
      Run(n, c, calls).1 + Remaining(n, Run(n, c, calls).0) + Reverse(Run(n, c, calls).2)
  {
    var r := Remaining(n, c);
    var step := Next(n, c);
    var rest := Run(n, step.0, calls[1..]);
    if r != [] {
      var first := r[0];
      assert step.1 == Some(first);
      assert Run(n, c, calls) == (rest.0, [first] + rest.1, rest.2);
      FrontRegroup(r, rest.1, Remaining(n, rest.0), Reverse(rest.2));
    } else {
      assert Run(n, c, calls) == rest;
    }
  }

  /** One `next_back` call in front of a run. */
  lemma BackStep(n: nat, c: Cursor, calls: seq<bool>)
    requires Valid(n, c) && calls != [] && !calls[0]
    requires var c1 := NextBack(n, c).0; var rest := Run(n, c1, calls[1..]);
      Remaining(n, c1) == rest.1 + Remaining(n, rest.0) + Reverse(rest.2)
    ensures Remaining(n, c) ==
      Run(n, c, calls).1 + Remaining(n, Run(n, c, calls).0) + Reverse(Run(n, c, calls).2)
  {
    var r := Remaining(n, c);
    var step := NextBack(n, c);
    var rest := Run(n, step.0, calls[1..]);
    if r != [] {
      var last := r[|r| - 1];
      assert step.1 == Some(last);
      assert Run(n, c, calls) == (rest.0, rest.1, [last] + rest.2);
      BackRegroup(r, rest.1, Remaining(n, rest.0), rest.2);
    } else {
      assert Run(n, c, calls) == rest;
    }
  }

  /** Taking the first element off the front of three pieces. */
  lemma FrontRegroup<X>(r: seq<X>, a: seq<X>, b: seq<X>, c: seq<X>)
    requires r != [] && r[1..] == a + b + c
    ensures r == ([r[0]] + a) + b + c
  {
    ConsFirst(r);
  }

  /** Taking the last element off the back of three pieces, the third reversed. */
  lemma BackRegroup<X>(r: seq<X>, a: seq<X>, b: seq<X>, c: seq<X>)
    requires r != [] && r[..|r| - 1] == a + b + Reverse(c)
    ensures r == a + b + Reverse([r[|r| - 1]] + c)
  {
    var last := r[|r| - 1];
    ReverseCons(last, c);
    calc {
      r;
      { SnocLast(r); }
      (a + b + Reverse(c)) + [last];
      (a + b) + (Reverse(c) + [last]);
    }
  }

  /** A non-empty sequence is its first element followed by the rest. */
  lemma ConsFirst<X>(s: seq<X>)
    requires s != []
    ensures s == [s[0]] + s[1..]
  {
  }

  /** Dropping the last element keeps the positions counted from the back, one closer. */
  lemma DropLastFromBack<X>(s: seq<X>, k: nat)
    requires 0 < k < |s|
    ensures s[..|s| - 1][|s| - 2 - (k - 1)] == s[|s| - 1 - k]
  {
  }

  /** A non-empty sequence is its front followed by its last element. */
  lemma SnocLast<X>(s: seq<X>)
    requires s != []
    ensures s == s[..|s| - 1] + [s[|s| - 1]]
  {
  }

  /** Reversing a sequence with an element in front puts that element last. */
  lemma ReverseCons<X>(x: X, s: seq<X>)
    ensures Reverse([x] + s) == Reverse(s) + [x]
  {
    var a, b := Reverse([x] + s), Reverse(s) + [x];
    assert |a| == |b|;
    forall i | 0 <= i < |a| ensures a[i] == b[i] {
      if i < |s| {
        assert a[i] == ([x] + s)[|s| - i];
      }
    }
  }

  function Reverse<X>(s: seq<X>): (r: seq<X>)
    ensures |r| == |s|
    ensures forall i :: 0 <= i < |s| ==> r[i] == s[|s| - 1 - i]
  {
    if s == [] then [] else Reverse(s[1..]) + [s[0]]
  }

  /** `nth` on the cursor: `k` calls to `next` that give up at the first None, then one
      more. It yields the k-th remaining position. */
  function Nth(n: nat, c: Cursor, k: nat): (r: Option<nat>)
    requires Valid(n, c)
    ensures r == if k < |Remaining(n, c)| then Some(Remaining(n, c)[k]) else None
    decreases k
  {
    var (c1, y) := Next(n, c);
    if k == 0 || y.None? then y else Nth(n, c1, k - 1)
  }

  /** `rev().nth`: the same with `next_back`, counting from the back. */
  function NthBack(n: nat, c: Cursor, k: nat): (r: Option<nat>)
    requires Valid(n, c)
    ensures var rem := Remaining(n, c);
      r == if k < |rem| then Some(rem[|rem| - 1 - k]) else None
    decreases k
  {
    var step := NextBack(n, c);
    if k == 0 || step.1.None? then step.1
    else
      var rem := Remaining(n, c);
      assert Remaining(n, step.0) == rem[..|rem| - 1];
      if k < |rem| then DropLastFromBack(rem, k); NthBack(n, step.0, k - 1)
      else NthBack(n, step.0, k - 1)
  }
}

=== FILE: merge_sort.dfy ===
/**
  Merge sort, sort/src/merge.rs. `merge` sorts both halves in place, then fills the
  buffer by taking from the right half when the left one is used up or its next element is
  larger, and otherwise from the left, and copies the buffer back. Elements are ordered by
  a key, so the model can state that equal keys keep their order.
*/
module MergeSort {
  import opened Sorting

  /** Ordered by key. */
  ghost predicate SortedBy<T>(key: T -> int, a: seq<T>) {
    forall i, j :: 0 <= i < j < |a| ==> key(a[i]) <= key(a[j])
  }

  /** The elements whose key is `k`, in their order. */
  function Filter<T>(key: T -> int, a: seq<T>, k: int): (r: seq<T>)
    ensures |r| <= |a|
    ensures forall i :: 0 <= i < |r| ==> key(r[i]) == k
    decreases |a|
  {
    if a == [] then []
    else Filter(key, a[..|a| - 1], k) + (if key(a[|a| - 1]) == k then [a[|a| - 1]] else [])
  }

  /** Filtering an extended sequence extends the filtered one. */
  lemma FilterSnoc<T>(key: T -> int, a: seq<T>, x: T, k: int)
    ensures Filter(key, a + [x], k) == Filter(key, a, k) + (if key(x) == k then [x] else [])
  {
    assert (a + [x])[..|a|] == a;
  }

  /** Filtering distributes over concatenation. */
  lemma {:induction false} FilterConcat<T>(key: T -> int, a: seq<T>, b: seq<T>, k: int)
    ensures Filter(key, a + b, k) == Filter(key, a, k) + Filter(key, b, k)
    decreases |b|
  {
    if b == [] {
      assert a + b == a;
    } else {
      var init := b[..|b| - 1];
      var x := b[|b| - 1];
      assert b == init + [x];
      assert a + b == (a + init) + [x];
      FilterConcat(key, a, init, k);
      FilterSnoc(key, a + init, x, k);
      FilterSnoc(key, init, x, k);
    }
  }

  /** No element of `a` has key `k` if every key in `a` is below `k`. */
  lemma {:induction false} FilterNone<T>(key: T -> int, a: seq<T>, k: int)
    requires forall i :: 0 <= i < |a| ==> key(a[i]) < k
    ensures Filter(key, a, k) == []
    decreases |a|
  {
    if a != [] {
      FilterNone(key, a[..|a| - 1], k);
    }
  }

  /** The order part of the merging loop's state after `i` elements of the left half and
      `j` of the right have been taken: the buffer is sorted and has the taken elements, no
      element still waiting is below its last one, and every taken right element has a
      smaller key than the next left one. */
  ghost predicate MergeOrder<T>(key: T -> int, l: seq<T>, rr: seq<T>, out: seq<T>, i: nat, j: nat) {
    && i <= |l| && j <= |rr| && |out| == i + j
    && SortedBy(key, out)
    && multiset(out) == multiset(l[..i]) + multiset(rr[..j])
    && (out != [] && i < |l| ==> key(out[|out| - 1]) <= key(l[i]))
    && (out != [] && j < |rr| ==> key(out[|out| - 1]) <= key(rr[j]))
    && (i < |l| ==> forall t :: 0 <= t < j ==> key(rr[t]) < key(l[i]))
  }

  /** The stability part: for every key the buffer holds the taken left elements with that
      key before the taken right ones. */
  ghost predicate MergeKeys<T>(key: T -> int, l: seq<T>, rr: seq<T>, out: seq<T>, i: nat, j: nat)
    requires i <= |l| && j <= |rr|
  {
    forall k :: Filter(key, out, k) == Filter(key, l[..i], k) + Filter(key, rr[..j], k)
  }

  /** The state of the merging loop. */
  ghost predicate Merging<T>(key: T -> int, l: seq<T>, rr: seq<T>, out: seq<T>, i: nat, j: nat) {
    MergeOrder(key, l, rr, out, i, j) && MergeKeys(key, l, rr, out, i, j)
  }

  /** Appending an element no smaller than the last keeps a sequence sorted. */
  lemma SortedSnoc<T>(key: T -> int, out: seq<T>, x: T)
    requires SortedBy(key, out) && (out != [] ==> key(out[|out| - 1]) <= key(x))
    ensures SortedBy(key, out + [x])
  {
    var o := out + [x];
    forall i, j | 0 <= i < j < |o| ensures key(o[i]) <= key(o[j]) {
      if j == |out| {
        assert key(o[i]) <= key(out[|out| - 1]);
      }
    }
  }

  /** Taking the next left element keeps the order part of the state. */
  lemma TakeLeftOrder<T>(key: T -> int, l: seq<T>, rr: seq<T>, out: seq<T>, i: nat, j: nat)
    requires SortedBy(key, l) && MergeOrder(key, l, rr, out, i, j) && i < |l|
    requires j < |rr| ==> key(l[i]) <= key(rr[j])
    ensures MergeOrder(key, l, rr, out + [l[i]], i + 1, j)
  {
    assert l[..i + 1] == l[..i] + [l[i]];
    SortedSnoc(key, out, l[i]);
    if i + 1 < |l| {
      assert key(l[i]) <= key(l[i + 1]);
    }
  }

  /** Taking the next left element keeps the stability part of the state. */
  lemma TakeLeftKeys<T>(key: T -> int, l: seq<T>, rr: seq<T>, out: seq<T>, i: nat, j: nat)
    requires i < |l| && j <= |rr| && MergeKeys(key, l, rr, out, i, j)
    requires forall t :: 0 <= t < j ==> key(rr[t]) < key(l[i])
    ensures MergeKeys(key, l, rr, out + [l[i]], i + 1, j)
  {
    var x := l[i];
    assert l[..i + 1] == l[..i] + [x];
    var taken := rr[..j];
    assert forall t :: 0 <= t < |taken| ==> key(taken[t]) < key(x);
    forall k ensures Filter(key, out + [x], k) == Filter(key, l[..i + 1], k) + Filter(key, rr[..j], k) {
      FilterSnoc(key, out, x, k);
      FilterSnoc(key, l[..i], x, k);
      if key(x) == k {
        FilterNone(key, taken, k);
      }
    }
  }

  /** Taking the next right element keeps the order part of the state. */
  lemma TakeRightOrder<T>(key: T -> int, l: seq<T>, rr: seq<T>, out: seq<T>, i: nat, j: nat)
    requires SortedBy(key, rr) && MergeOrder(key, l, rr, out, i, j) && j < |rr|
    requires i < |l| ==> key(l[i]) > key(rr[j])
    ensures MergeOrder(key, l, rr, out + [rr[j]], i, j + 1)
  {
    assert rr[..j + 1] == rr[..j] + [rr[j]];
    SortedSnoc(key, out, rr[j]);
    if j + 1 < |rr| {
      assert key(rr[j]) <= key(rr[j + 1]);
    }
  }

  /** Taking the next right element keeps the stability part of the state. */
  lemma TakeRightKeys<T>(key: T -> int, l: seq<T>, rr: seq<T>, out: seq<T>, i: nat, j: nat)
    requires i <= |l| && j < |rr| && MergeKeys(key, l, rr, out, i, j)
    ensures MergeKeys(key, l, rr, out + [rr[j]], i, j + 1)
  {
    var x := rr[j];
    assert rr[..j + 1] == rr[..j] + [x];
    forall k ensures Filter(key, out + [x], k) == Filter(key, l[..i], k) + Filter(key, rr[..j + 1], k) {
      FilterSnoc(key, out, x, k);
      FilterSnoc(key, rr[..j], x, k);
    }
  }

  /** The loop that fills the buffer from two sorted halves: the result is sorted, has the
      contents of both, and for every key lists the left half's elements with that key
      before the right half's. */
  method MergeHalves<T(==)>(key: T -> int, l: seq<T>, rr: seq<T>) returns (out: seq<T>)
    requires SortedBy(key, l) && SortedBy(key, rr)
    ensures SortedBy(key, out) && multiset(out) == multiset(l) + multiset(rr)
    ensures forall k :: Filter(key, out, k) == Filter(key, l, k) + Filter(key, rr, k)
  {
    out := [];
    var i, j := 0, 0;
    while i + j < |l| + |rr|
      invariant Merging(key, l, rr, out, i, j)
      decreases |l| + |rr| - i - j
    {
      if i >= |l| || (j < |rr| && key(l[i]) > key(rr[j])) {
        TakeRightOrder(key, l, rr, out, i, j);
        TakeRightKeys(key, l, rr, out, i, j);
        out := out + [rr[j]];
        j := j + 1;
      } else {
        TakeLeftOrder(key, l, rr, out, i, j);
        TakeLeftKeys(key, l, rr, out, i, j);
        out := out + [l[i]];
        i := i + 1;
      }
    }
    assert l[..i] == l && rr[..j] == rr;
  }

  /** `merge`: slices shorter than 2 are left alone; otherwise both halves are sorted and
      merged. The result is sorted, has the input's contents, and is stable: for every key,
      the elements with that key are in their input order. */
  method Merge<T(==)>(key: T -> int, a: seq<T>) returns (r: seq<T>)
    ensures SortedBy(key, r) && multiset(r) == multiset(a)
    ensures forall k :: Filter(key, r, k) == Filter(key, a, k)
    ensures |a| < 2 ==> r == a
    decreases |a|
  {
    if |a| < 2 {
      return a;
    }
    var mid := |a| / 2;
    var l := Merge(key, a[..mid]);
    var rr := Merge(key, a[mid..]);
    r := MergeHalves(key, l, rr);
    assert a == a[..mid] + a[mid..];
    forall k ensures Filter(key, r, k) == Filter(key, a, k) {
      FilterConcat(key, a[..mid], a[mid..], k);
    }
  }

  /** `msort` on integers, which are their own key: the result is the input sorted. */
  method MSort(a: seq<int>) returns (r: seq<int>)
    ensures Sorted(r) && multiset(r) == multiset(a)
  {
    r := Merge(x => x, a);
  }
}

=== FILE: monotonic.dfy ===
/**
  The monotonicity check, number-theory/src/monotonic.rs: two flags record whether no
  adjacent pair has gone down and whether none has gone up; the check stops as soon as both
  are false. The loop bound `arr.len() - 1` underflows on an empty slice, which the routine
  documents as not allowed.
*/
module Monotonic {
  import opened Wrappers

  /** No element is below the one before it. */
  predicate NonDecreasing(a: seq<int>) {
    forall i, j :: 0 <= i < j < |a| ==> a[i] <= a[j]
  }

  /** No element is above the one before it. */
  predicate NonIncreasing(a: seq<int>) {
    forall i, j :: 0 <= i < j < |a| ==> a[i] >= a[j]
  }

  /** Adjacent pairs in order make the whole prefix before `n` non-decreasing, and likewise
      non-increasing. */
  lemma {:induction false} Adjacent(a: seq<int>, n: nat)
    requires n <= |a|
    ensures (forall i :: 0 < i < n ==> a[i - 1] <= a[i]) ==> forall i, j :: 0 <= i < j < n ==> a[i] <= a[j]
    ensures (forall i :: 0 < i < n ==> a[i - 1] >= a[i]) ==> forall i, j :: 0 <= i < j < n ==> a[i] >= a[j]
    decreases n
  {
    if n > 1 {
      Adjacent(a, n - 1);
      if forall i :: 0 < i < n ==> a[i - 1] <= a[i] {
        forall i | 0 <= i < n - 1 ensures a[i] <= a[n - 1] {
          assert a[i] <= a[n - 2];
        }
      }
      if forall i :: 0 < i < n ==> a[i - 1] >= a[i] {
        forall i | 0 <= i < n - 1 ensures a[i] >= a[n - 1] {
          assert a[i] >= a[n - 2];
        }
      }
    }
  }

  /** `is_monotonic`: it panics on an empty slice and otherwise answers whether the slice is
      non-decreasing or non-increasing. */
  method IsMonotonic(a: seq<int>) returns (r: Outcome<bool>)
    ensures r.Panic? <==> a == []
    ensures r.Done? ==> (r.value <==> NonDecreasing(a) || NonIncreasing(a))
  {
    if |a| == 0 {
      // `arr.len() - 1` underflows.
      return Panic;
    }
    var up, down := true, true;
    var i := 0;
    while i < |a| - 1
      invariant i < |a|
      invariant up <==> forall k :: 0 < k <= i ==> a[k - 1] <= a[k]
      invariant down <==> forall k :: 0 < k <= i ==> a[k - 1] >= a[k]
    {
      if a[i] > a[i + 1] {
        up := false;
      } else if a[i] < a[i + 1] {
        down := false;
      }
      if !(up || down) {
        assert !NonDecreasing(a) by { assert a[i] > a[i + 1] || !forall k :: 0 < k <= i ==> a[k - 1] <= a[k]; }
        return Done(false);
      }
      i := i + 1;
    }
    Adjacent(a, |a|);
    return Done(up || down);
  }

  /** [1, 1, 4, 5, 1, 4] is not monotonic. */
  method SampleNotMonotonic() returns (r: Outcome<bool>)
    ensures r == Done(false)
  {
    r := IsMonotonic([1, 1, 4, 5, 1, 4]);
    assert !NonDecreasing([1, 1, 4, 5, 1, 4]) by { assert [1, 1, 4, 5, 1, 4][3] > [1, 1, 4, 5, 1, 4][4]; }
    assert !NonIncreasing([1, 1, 4, 5, 1, 4]) by { assert [1, 1, 4, 5, 1, 4][1] < [1, 1, 4, 5, 1, 4][2]; }
  }
}

=== FILE: permutation.dfy ===
/**
  The lexicographic successor, combinatorics/src/permutation.rs. `next_permutation` finds
  the rightmost ascent `k` (`seq[k] < seq[k + 1]`), swaps `seq[k]` with the rightmost later
  element above it, and reverses everything after `k`; with no ascent (or fewer than two
  elements) it answers false and leaves the slice alone.
*/
module Permutation {
  import opened Sorting

  /** Some element is below the next one. */
  ghost predicate HasAscent(a: seq<int>) {
    exists i :: 0 <= i < |a| - 1 && a[i] < a[i + 1]
  }

  /** No element from `k` on is below the next one. */
  ghost predicate DescendingFrom(a: seq<int>, k: int) {
    forall i :: k <= i < |a| - 1 && 0 <= i ==> a[i] >= a[i + 1]
  }

  /** `a` comes before `b` in lexicographic order. */
  ghost predicate LexLess(a: seq<int>, b: seq<int>) {
    exists k :: 0 <= k < |a| && k < |b| && a[..k] == b[..k] && a[k] < b[k]
  }

  /** `(0..len - 1).rfind(|&i| seq[i] < seq[i + 1])`: the rightmost ascent, if any. */
  method RightmostAscent(a: seq<int>) returns (found: bool, k: nat)
    requires |a| >= 2
    ensures found <==> HasAscent(a)
    ensures found ==> k < |a| - 1 && a[k] < a[k + 1] && DescendingFrom(a, k + 1)
  {
    k := |a| - 1;
    while k > 0
      invariant k <= |a| - 1 && DescendingFrom(a, k)
    {
      k := k - 1;
      if a[k] < a[k + 1] {
        return true, k;
      }
    }
    found := false;
    assert !HasAscent(a) by {
      forall i | 0 <= i < |a| - 1 ensures a[i] >= a[i + 1] { }
    }
  }

  /** `(k + 1..len).rfind(|&i| seq[i] > seq[k])`: after an ascent at `k` this always finds
      a position, the rightmost one after `k` whose element is above `a[k]`. */
  method Supremum(a: seq<int>, k: nat) returns (j: nat)
    requires k < |a| - 1 && a[k] < a[k + 1]
    ensures k < j < |a| && a[k] < a[j]
    ensures forall i :: j < i < |a| ==> a[i] <= a[k]
  {
    j := |a| - 1;
    while a[j] <= a[k]
      invariant k < j < |a|
      invariant forall i :: j < i < |a| ==> a[i] <= a[k]
      decreases j
    {
      j := j - 1;
    }
  }

  /** The reversal loop over `lo..hi`: pairs of `rest.next()` and `rest.next_back()` are
      swapped until fewer than two positions remain. The positions from `lo` on end up in
      reverse order. */
  method ReverseFrom(a: seq<int>, lo: nat) returns (r: seq<int>)
    requires lo <= |a|
    ensures |r| == |a| && multiset(r) == multiset(a) && r[..lo] == a[..lo]
    ensures forall i :: lo <= i < |a| ==> r[i] == a[|a| - 1 - (i - lo)]
  {
    r := a;
    var h, t := lo, |a|;
    while h + 1 < t
      invariant lo <= h && t <= |a| && h - lo == |a| - t && h <= t
      invariant |r| == |a| && multiset(r) == multiset(a) && r[..lo] == a[..lo]
      invariant forall i :: h <= i < t ==> r[i] == a[i]
      invariant forall i :: lo <= i < h || t <= i < |a| ==> r[i] == a[|a| - 1 - (i - lo)]
    {
      r := Swap(r, h, t - 1);
      h, t := h + 1, t - 1;
    }
  }

  /** What the successor looks like: before `k` it agrees with `a`; at `k` it holds the
      least element after `k` that is above `a[k]`; after `k` it is sorted. */
  ghost predicate Successor(a: seq<int>, r: seq<int>, k: nat) {
    && k < |a| - 1 && |r| == |a| && r[..k] == a[..k]
    && a[k] < r[k] && r[k] in multiset(a[k + 1..])
    && (forall i :: k < i < |a| && a[k] < a[i] ==> r[k] <= a[i])
    && Sorted(r[k + 1..])
  }

  /** The successor is lexicographically greater. */
  lemma SuccessorGreater(a: seq<int>, r: seq<int>, k: nat)
    requires Successor(a, r, k)
    ensures LexLess(a, r)
  {
  }

  /** Swapping `a[k]` with the rightmost later element above it keeps the part after `k`
      non-increasing. */
  lemma SwappedSuffix(a: seq<int>, k: nat, j: nat)
    requires k < j < |a| && a[k] < a[j] && DescendingFrom(a, k + 1)
    requires forall i :: j < i < |a| ==> a[i] <= a[k]
    ensures DescendingFrom(Swap(a, k, j), k + 1)
  {
    var b := Swap(a, k, j);
    forall i | k + 1 <= i < |a| - 1 ensures b[i] >= b[i + 1] {
      if i + 1 == j {
        assert b[i] == a[i] >= a[j];
      } else if i == j {
        assert b[i + 1] == a[i + 1] <= a[k];
      } else {
        assert b[i] == a[i] && b[i + 1] == a[i + 1];
      }
    }
  }

  /** A non-increasing run read backwards is sorted. */
  lemma ReversedSorted(b: seq<int>, r: seq<int>, lo: nat)
    requires lo <= |b| == |r| && DescendingFrom(b, lo)
    requires forall i :: lo <= i < |b| ==> r[i] == b[|b| - 1 - (i - lo)]
    ensures Sorted(r[lo..])
  {
    forall i | lo <= i < |b| - 1 ensures r[i] <= r[i + 1] {
      assert r[i + 1] == b[|b| - 1 - (i + 1 - lo)];
    }
    var t := r[lo..];
    assert Strided(t, 1, |t|);
    StridedSorted(t, |t|);
  }

  /** Swapping at the rightmost ascent and then reversing the rest gives the successor. */
  lemma SuccessorShape(a: seq<int>, b: seq<int>, r: seq<int>, k: nat, j: nat)
    requires k < j < |a| && a[k] < a[j] && DescendingFrom(a, k + 1)
    requires forall i :: j < i < |a| ==> a[i] <= a[k]
    requires b == Swap(a, k, j) && DescendingFrom(b, k + 1)
    requires |r| == |b| && r[..k + 1] == b[..k + 1]
    requires forall i :: k + 1 <= i < |b| ==> r[i] == b[|b| - 1 - (i - (k + 1))]
    ensures Successor(a, r, k)
  {
    assert r[k] == b[k] == a[j];
    assert r[..k] == a[..k] by {
      assert forall i :: 0 <= i < k ==> r[i] == r[..k + 1][i] == b[i] == a[i];
    }
    assert a[k + 1..][j - (k + 1)] == a[j];
    forall i | k < i < |a| && a[k] < a[i] ensures a[j] <= a[i] {
      if i < j {
        DescendingPair(a, k + 1, i, j);
      }
    }
    ReversedSorted(b, r, k + 1);
  }

  /** In a run that does not increase, an earlier element is at least a later one. */
  lemma {:induction false} DescendingPair(a: seq<int>, lo: nat, i: nat, j: nat)
    requires DescendingFrom(a, lo) && lo <= i <= j < |a|
    ensures a[j] <= a[i]
    decreases j - i
  {
    if i < j {
      DescendingPair(a, lo, i + 1, j);
    }
  }

  /** The swap with the rightmost larger element and the reversal after it, which build the
      successor. */
  method SwapReverse(a: seq<int>, k: nat, j: nat) returns (r: seq<int>)
    requires k < j < |a| && a[k] < a[j] && DescendingFrom(a, k + 1)
    requires forall i :: j < i < |a| ==> a[i] <= a[k]
    ensures multiset(r) == multiset(a) && Successor(a, r, k)
  {
    var b := Swap(a, k, j);
    r := ReverseFrom(b, k + 1);
    SwappedSuffix(a, k, j);
    SuccessorShape(a, b, r, k, j);
  }

  /** `next_permutation`: false, with the slice unchanged, exactly when there is no ascent;
      otherwise the result has the same elements and is the successor at the rightmost
      ascent, which is lexicographically greater. */
  method NextPermutation(a: seq<int>) returns (found: bool, r: seq<int>, ghost k: nat)
    ensures found <==> HasAscent(a)
    ensures !found ==> r == a
    ensures found ==> multiset(r) == multiset(a) && Successor(a, r, k) && LexLess(a, r)
    ensures found ==> a[k] < a[k + 1] && DescendingFrom(a, k + 1)
  {
    if |a| < 2 {
      return false, a, 0;
    }
    var ascent, m := RightmostAscent(a);
    if !ascent {
      return false, a, 0;
    }
    var j := Supremum(a, m);
    r := SwapReverse(a, m, j);
    SuccessorGreater(a, r, m);
    found, k := true, m;
  }

  /** The first step from [1, 2, 3] gives [1, 3, 2]. */
  method FirstStep() returns (found: bool, r: seq<int>)
    ensures found && r == [1, 3, 2]
  {
    var a := [1, 2, 3];
    assert a[1] < a[2];
    ghost var k;
    found, r, k := NextPermutation(a);
    assert k == 1;
    assert r[2..] == [r[2]];
    assert r[..1] == [1] && r[1] == 3;
    assert r == [1, 3, r[2]];
    assert multiset(r) == multiset{1, 3, r[2]};
  }
}

=== FILE: prim.dfy ===
/**
  The eager variant of Prim's algorithm, graph/weighted-graph/src/mst/prim/ with the entry
  point `prim_mst` of graph/weighted-graph/src/lib.rs. Every unmarked node reached so far
  keeps its lightest known edge towards the marked nodes (its stretch) and a min-heap
  holds an `End` (weight, node) each time that stretch is set or lowered. A popped end is
  marked and visited, whether or not it was marked already; the result is the stretches
  in node order.
*/
module Prim {
  import opened Wrappers
  import opened WeiGraph
  import opened Spanning
  import opened Sets

  // ---------------------------------------------------------------------------------
  // End (mst/prim/end.rs).

  /** A heap entry: the node `id` is reachable by an edge of `weight`. */
  datatype End = End(weight: int, id: nat)

  /** `PartialEq for End`: the weights are equal. */
  predicate EndEq(x: End, y: End) {
    x.weight == y.weight
  }

  /** `Ord for End`: the weight order reversed, so the max-heap pops a lightest end. */
  function EndCmp(x: End, y: End): (r: Ordering)
    ensures r == Greater <==> x.weight < y.weight
    ensures r == Less <==> x.weight > y.weight
  {
    Reverse(Compare(x.weight, y.weight))
  }

  /** `PartialOrd for End`: always defined. */
  function EndPartialCmp(x: End, y: End): (r: Option<Ordering>)
    ensures r.Some?
  {
    Some(EndCmp(x, y))
  }

  /** The order agrees with equality, is antisymmetric, and `partial_cmp` agrees with
      `cmp`; ends of one weight compare equal whatever their nodes. */
  lemma EndOrdConsistent(x: End, y: End)
    ensures EndEq(x, y) <==> EndCmp(x, y) == Equal
    ensures EndCmp(x, y) == Reverse(EndCmp(y, x))
    ensures EndPartialCmp(x, y) == Some(EndCmp(x, y))
    ensures x.weight == y.weight ==> EndEq(x, y)
  {
  }

  /** `End::forge`: the starting entry for the root, of weight 0. */
  function Forge(id: nat): End {
    End(0, id)
  }

  /** `BinaryHeap::pop`: some greatest end, which is a lightest one. */
  method PopGreatest(pq: multiset<End>) returns (en: End)
    requires pq != multiset{}
    ensures en in pq && forall f :: f in pq ==> EndCmp(f, en) != Greater
    ensures forall f :: f in pq ==> en.weight <= f.weight
  {
    var elems := set f | f in pq;
    var x :| x in pq;
    assert x in elems;
    LightestExists(elems, (f: End) => f.weight);
    en :| en in elems && forall f :: f in elems ==> en.weight <= f.weight;
  }

  // ---------------------------------------------------------------------------------
  // The algorithm (mst/prim/mod.rs).

  /** `PrimMST`: the marked nodes, the stretch of every node reached, and the heap. */
  datatype PrimState = PrimState(marked: set<nat>, stretchs: map<nat, WeiEdge>, pq: multiset<End>)

  /** The end of an edge at `id` that is not `id`: what `other` computes for such an edge. */
  function FarEnd(e: WeiEdge, id: nat): (r: nat)
    ensures Incident(e, id) ==> Other(e, id) == Done(r)
  {
    if e.edge.0 == id then e.edge.1 else e.edge.0
  }

  /** One step of `visit(start)` for an edge `e` at `start`: nothing when its far end is
      marked; otherwise `e` becomes the far end's stretch, and its end is pushed, when the
      end had none or a strictly heavier one. */
  function Relax(s: PrimState, start: nat, e: WeiEdge): (r: PrimState)
    requires Incident(e, start)
    ensures r.marked == s.marked
    ensures var w := FarEnd(e, start);
      && (w in s.marked || (w in s.stretchs && s.stretchs[w].weight <= e.weight) ==> r == s)
      && (w !in s.marked && (w !in s.stretchs || s.stretchs[w].weight > e.weight) ==>
            && r.stretchs == s.stretchs[w := e]
            && r.pq == s.pq + multiset{End(e.weight, w)})
  {
    var end := Other(e, start).value;
    if end in s.marked then s
    else if end in s.stretchs then
      if s.stretchs[end].weight > e.weight then
        s.(stretchs := s.stretchs[end := e], pq := s.pq + multiset{End(e.weight, end)})
      else s
    else s.(stretchs := s.stretchs[end := e], pq := s.pq + multiset{End(e.weight, end)})
  }

  /** Edge `f` at `x` is accounted for: its far end is marked, or has a stretch no heavier
      than `f`. */
  predicate RelaxedEdge(s: PrimState, x: nat, f: WeiEdge) {
    FarEnd(f, x) !in s.marked ==> FarEnd(f, x) in s.stretchs && s.stretchs[FarEnd(f, x)].weight <= f.weight
  }

  /** Every edge node `x` holds is accounted for. */
  ghost predicate RelaxedAt<V, K>(key: WeiEdge -> K, g: WeiGraph<V, K>, s: PrimState, x: nat) {
    forall f :: Stored(key, g, x, f) ==> RelaxedEdge(s, x, f)
  }

  /** `rank` numbers the marked nodes in the order they were marked, from the root at 0. */
  ghost predicate MarkOrder(s: PrimState, root: nat, rank: map<nat, nat>) {
    && root in s.marked && rank.Keys == s.marked && rank[root] == 0
    && forall x :: x in rank ==> rank[x] < |s.marked|
  }

  /** The nodes are graph nodes; the root has no stretch and every other marked node has
      one. */
  ghost predicate Base<V, K(!new)>(key: WeiEdge -> K, g: WeiGraph<V, K>, root: nat, s: PrimState,
                                   rank: map<nat, nat>)
  {
    && WellFormed(key, g) && MarkOrder(s, root, rank)
    && s.marked <= g.adj.Keys && s.stretchs.Keys <= g.adj.Keys
    && root !in s.stretchs && s.marked - {root} <= s.stretchs.Keys
  }

  /** The stretch of `v` is an edge at `v` held by its far end, which is marked, and marked
      before `v` when `v` is. */
  ghost predicate Parented<V, K>(key: WeiEdge -> K, g: WeiGraph<V, K>, s: PrimState, rank: map<nat, nat>) {
    forall v :: v in s.stretchs ==>
      && Incident(s.stretchs[v], v)
      && FarEnd(s.stretchs[v], v) in rank
      && Stored(key, g, FarEnd(s.stretchs[v], v), s.stretchs[v])
      && (v in rank ==> rank[FarEnd(s.stretchs[v], v)] < rank[v])
  }

  /** Every unmarked node with a stretch has an end of the stretch's weight in the heap. */
  ghost predicate Pending(s: PrimState) {
    forall v :: v in s.stretchs && v !in s.marked ==> End(s.stretchs[v].weight, v) in s.pq
  }

  /** Every end in the heap is for a marked node, or for a node whose stretch is no heavier. */
  ghost predicate Stale(s: PrimState) {
    forall en :: en in s.pq ==> en.id in s.marked || (en.id in s.stretchs && s.stretchs[en.id].weight <= en.weight)
  }

  /** The cut property: when `v` was marked its stretch was no heavier than any edge from a
      node marked earlier to a node not marked yet. */
  ghost predicate Cut<V, K>(key: WeiEdge -> K, g: WeiGraph<V, K>, s: PrimState, rank: map<nat, nat>) {
    forall v, x, f ::
      && v in s.stretchs && v in rank && x in rank && rank[x] < rank[v] && Stored(key, g, x, f)
      && (FarEnd(f, x) !in rank || rank[v] <= rank[FarEnd(f, x)])
      ==> s.stretchs[v].weight <= f.weight
  }

  /** Everything but the edges of node `start`. */
  ghost predicate Visiting<V, K(!new)>(key: WeiEdge -> K, g: WeiGraph<V, K>, root: nat, s: PrimState,
                                       rank: map<nat, nat>, start: nat)
  {
    && Base(key, g, root, s, rank) && Parented(key, g, s, rank) && Pending(s) && Stale(s)
    && Cut(key, g, s, rank) && start in s.marked
    && forall x :: x in s.marked && x != start ==> RelaxedAt(key, g, s, x)
  }

  /** The loop state. */
  ghost predicate Inv<V, K(!new)>(key: WeiEdge -> K, g: WeiGraph<V, K>, root: nat, s: PrimState,
                                  rank: map<nat, nat>)
  {
    Visiting(key, g, root, s, rank, root) && RelaxedAt(key, g, s, root)
  }

  /** The far end of an edge at `x` is an end of it, whose own far end is `x`. */
  lemma FarEndBack(e: WeiEdge, x: nat)
    requires Incident(e, x)
    ensures Incident(e, FarEnd(e, x)) && FarEnd(e, FarEnd(e, x)) == x
  {
  }

  /** `s` with the stretch of `w` set to `e` and its end pushed. */
  function Lower(s: PrimState, w: nat, e: WeiEdge): (r: PrimState)
    ensures r.marked == s.marked && w in r.stretchs && r.stretchs[w] == e
    ensures forall v :: v in s.stretchs && v != w ==> v in r.stretchs && r.stretchs[v] == s.stretchs[v]
    ensures r.pq == s.pq + multiset{End(e.weight, w)}
  {
    s.(stretchs := s.stretchs[w := e], pq := s.pq + multiset{End(e.weight, w)})
  }

  /** Lowering the stretch of an unmarked node to an edge held by a marked node keeps the
      tree shape. */
  lemma LowerParented<V, K(!new)>(key: WeiEdge -> K, g: WeiGraph<V, K>, s: PrimState,
                                  rank: map<nat, nat>, start: nat, e: WeiEdge)
    requires Parented(key, g, s, rank) && rank.Keys == s.marked && start in s.marked
    requires Stored(key, g, start, e) && Incident(e, start) && FarEnd(e, start) !in s.marked
    ensures Parented(key, g, Lower(s, FarEnd(e, start), e), rank)
  {
    FarEndBack(e, start);
  }

  /** Lowering keeps a pushed end for every unmarked node with a stretch. */
  lemma LowerPending(s: PrimState, w: nat, e: WeiEdge)
    requires Pending(s)
    ensures Pending(Lower(s, w, e))
  {
    var r := Lower(s, w, e);
    forall v | v in r.stretchs && v !in r.marked ensures End(r.stretchs[v].weight, v) in r.pq {
      if v != w {
        assert End(s.stretchs[v].weight, v) in s.pq;
      }
    }
  }

  /** Lowering to a lighter edge keeps every pushed end no lighter than its stretch. */
  lemma LowerStale(s: PrimState, w: nat, e: WeiEdge)
    requires Stale(s) && (w in s.stretchs ==> e.weight < s.stretchs[w].weight)
    ensures Stale(Lower(s, w, e))
  {
    var r := Lower(s, w, e);
    forall en | en in r.pq ensures en.id in r.marked || (en.id in r.stretchs && r.stretchs[en.id].weight <= en.weight) {
      if en != End(e.weight, w) {
        assert en in s.pq;
      }
    }
  }

  /** Lowering an unmarked node's stretch leaves the stretches of marked nodes alone. */
  lemma LowerCut<V, K>(key: WeiEdge -> K, g: WeiGraph<V, K>, s: PrimState, rank: map<nat, nat>, w: nat, e: WeiEdge)
    requires Cut(key, g, s, rank) && w !in rank
    ensures Cut(key, g, Lower(s, w, e), rank)
  {
  }

  /** Lowering to a lighter edge keeps every edge accounted for. */
  lemma LowerRelaxed(s: PrimState, w: nat, e: WeiEdge, x: nat, f: WeiEdge)
    requires RelaxedEdge(s, x, f) && (w in s.stretchs ==> e.weight < s.stretchs[w].weight)
    ensures RelaxedEdge(Lower(s, w, e), x, f)
  {
  }

  /** One relaxation by a marked node keeps everything but the edges of that node, and
      accounts for `e` without losing any edge already accounted for. */
  lemma RelaxKeeps<V, K(!new)>(key: WeiEdge -> K, g: WeiGraph<V, K>, root: nat, s: PrimState,
                               rank: map<nat, nat>, start: nat, e: WeiEdge)
    requires Visiting(key, g, root, s, rank, start) && Stored(key, g, start, e)
    ensures Visiting(key, g, root, Relax(s, start, e), rank, start)
    ensures RelaxedEdge(Relax(s, start, e), start, e)
    ensures forall x, f :: RelaxedEdge(s, x, f) ==> RelaxedEdge(Relax(s, start, e), x, f)
  {
    var r := Relax(s, start, e);
    var w := FarEnd(e, start);
    if r != s {
      assert Incident(e, start);
      assert r == Lower(s, w, e);
      assert w in g.adj;
      LowerParented(key, g, s, rank, start, e);
      LowerPending(s, w, e);
      LowerStale(s, w, e);
      LowerCut(key, g, s, rank, w, e);
      forall x, f | RelaxedEdge(s, x, f) ensures RelaxedEdge(r, x, f) {
        LowerRelaxed(s, w, e, x, f);
      }
      forall x | x in r.marked && x != start ensures RelaxedAt(key, g, r, x) {
        assert RelaxedAt(key, g, s, x);
      }
    }
  }

  /** `visit(start)`: relax every edge `start` holds, in an unspecified order. Afterwards all
      of them are accounted for; when they all were, nothing changes. */
  method Visit<V, K(!new)>(ghost key: WeiEdge -> K, g: WeiGraph<V, K>, ghost root: nat, s: PrimState,
                           ghost rank: map<nat, nat>, start: nat)
    returns (s2: PrimState)
    requires Visiting(key, g, root, s, rank, start)
    ensures s2.marked == s.marked
    ensures Inv(key, g, root, s2, rank)
    ensures RelaxedAt(key, g, s, start) ==> s2 == s
  {
    var held := g.adj[start].adjEdges;
    var todo := held.Keys;
    s2 := s;
    while todo != {}
      invariant todo <= held.Keys
      invariant Visiting(key, g, root, s2, rank, start) && s2.marked == s.marked
      invariant forall k :: k in held && k !in todo ==> RelaxedEdge(s2, start, held[k])
      invariant RelaxedAt(key, g, s, start) ==> s2 == s
      decreases |todo|
    {
      s2, todo := VisitStep(key, g, root, s2, rank, start, held, todo);
    }
    assert RelaxedAt(key, g, s2, start) by {
      forall f | Stored(key, g, start, f) ensures RelaxedEdge(s2, start, f) {
        assert f == held[key(f)];
      }
    }
    assert Inv(key, g, root, s2, rank);
  }

  /** One pass of `visit`'s loop: relax the edge under one key still to do. The visiting
      state is kept, the edges done stay accounted for, and a state in which every edge at
      `start` was already accounted for does not change. */
  method VisitStep<V, K(!new)>(ghost key: WeiEdge -> K, g: WeiGraph<V, K>, ghost root: nat, s: PrimState,
                               ghost rank: map<nat, nat>, start: nat, held: map<K, WeiEdge>, todo: set<K>)
    returns (s2: PrimState, todo2: set<K>)
    requires Visiting(key, g, root, s, rank, start)
    requires start in g.adj && held == g.adj[start].adjEdges && todo != {} && todo <= held.Keys
    requires forall k :: k in held && k !in todo ==> RelaxedEdge(s, start, held[k])
    ensures todo2 <= todo && |todo2| < |todo|
    ensures Visiting(key, g, root, s2, rank, start) && s2.marked == s.marked
    ensures forall k :: k in held && k !in todo2 ==> RelaxedEdge(s2, start, held[k])
    ensures RelaxedAt(key, g, s, start) ==> s2 == s
  {
    var k :| k in todo;
    var e := held[k];
    assert Stored(key, g, start, e);
    RelaxKeeps(key, g, root, s, rank, start, e);
    s2 := Relax(s, start, e);
    todo2 := todo - {k};
    RemoveOne(todo, k);
  }

  /** In the loop state every marked node's edges are accounted for. */
  lemma InvRelaxed<V, K(!new)>(key: WeiEdge -> K, g: WeiGraph<V, K>, root: nat, s: PrimState,
                               rank: map<nat, nat>, x: nat)
    requires Inv(key, g, root, s, rank) && x in s.marked
    ensures RelaxedAt(key, g, s, x)
  {
  }

  /** `s` with the end `en` popped and its node marked. */
  function Mark(s: PrimState, en: End): PrimState {
    PrimState(s.marked + {en.id}, s.stretchs, s.pq - multiset{en})
  }

  /** Popping and marking keeps a pushed end for every node still unmarked. */
  lemma MarkPending(s: PrimState, en: End)
    requires Pending(s)
    ensures Pending(Mark(s, en))
  {
    var r := Mark(s, en);
    forall w | w in r.stretchs && w !in r.marked ensures End(r.stretchs[w].weight, w) in r.pq {
      assert End(s.stretchs[w].weight, w) in s.pq;
    }
  }

  /** Popping and marking keeps every remaining end stale or accounted for. */
  lemma MarkStale(s: PrimState, en: End)
    requires Stale(s)
    ensures Stale(Mark(s, en))
  {
    var r := Mark(s, en);
    forall h | h in r.pq ensures h.id in r.marked || (h.id in r.stretchs && r.stretchs[h.id].weight <= h.weight) {
      assert h in s.pq;
    }
  }

  /** Marking keeps every edge accounted for. */
  lemma MarkRelaxed<V, K>(key: WeiEdge -> K, g: WeiGraph<V, K>, s: PrimState, en: End, x: nat)
    requires RelaxedAt(key, g, s, x)
    ensures RelaxedAt(key, g, Mark(s, en), x)
  {
    forall f | Stored(key, g, x, f) ensures RelaxedEdge(Mark(s, en), x, f) {
      assert RelaxedEdge(s, x, f);
    }
  }

  /** Marking a node with a stretch last keeps the tree shape. */
  lemma MarkParented<V, K>(key: WeiEdge -> K, g: WeiGraph<V, K>, s: PrimState, rank: map<nat, nat>, en: End)
    requires Parented(key, g, s, rank) && rank.Keys == s.marked && en.id !in s.marked
    requires forall x :: x in rank ==> rank[x] < |s.marked|
    ensures Parented(key, g, Mark(s, en), rank[en.id := |s.marked|])
  {
  }

  /** The step of the cut property for the node being marked: a lightest end bounds every
      edge from a marked node to an unmarked one. */
  lemma CutFresh<V, K(!new)>(key: WeiEdge -> K, g: WeiGraph<V, K>, s: PrimState, en: End, x: nat, f: WeiEdge)
    requires Pending(s) && x in s.marked && RelaxedAt(key, g, s, x) && Stored(key, g, x, f)
    requires FarEnd(f, x) !in s.marked
    requires forall h :: h in s.pq ==> en.weight <= h.weight
    ensures en.weight <= f.weight
  {
    var w := FarEnd(f, x);
    assert RelaxedEdge(s, x, f);
    assert End(s.stretchs[w].weight, w) in s.pq;
  }

  /** Marking a node whose stretch weighs a lightest end keeps the cut property. */
  lemma MarkCut<V, K(!new)>(key: WeiEdge -> K, g: WeiGraph<V, K>, root: nat, s: PrimState,
                            rank: map<nat, nat>, en: End)
    requires Inv(key, g, root, s, rank) && en.id in s.stretchs && en.id !in s.marked
    requires s.stretchs[en.id].weight == en.weight && forall h :: h in s.pq ==> en.weight <= h.weight
    ensures Cut(key, g, Mark(s, en), rank[en.id := |s.marked|])
  {
    var v := en.id;
    var s1 := Mark(s, en);
    var rank1 := rank[v := |s.marked|];
    forall u, x, f |
      && u in s1.stretchs && u in rank1 && x in rank1 && rank1[x] < rank1[u] && Stored(key, g, x, f)
      && (FarEnd(f, x) !in rank1 || rank1[u] <= rank1[FarEnd(f, x)])
      ensures s1.stretchs[u].weight <= f.weight
    {
      if u == v {
        InvRelaxed(key, g, root, s, rank, x);
        CutFresh(key, g, s, en, x, f);
      }
    }
  }

  /** Marking a node with a stretch, ranked last, keeps the nodes and the order. */
  lemma MarkBase<V, K(!new)>(key: WeiEdge -> K, g: WeiGraph<V, K>, root: nat, s: PrimState,
                             rank: map<nat, nat>, en: End)
    requires Base(key, g, root, s, rank) && en.id in s.stretchs && en.id !in s.marked
    ensures Base(key, g, root, Mark(s, en), rank[en.id := |s.marked|])
  {
    var s1 := Mark(s, en);
    var rank1 := rank[en.id := |s.marked|];
    assert |s1.marked| == |s.marked| + 1;
    assert MarkOrder(s1, root, rank1);
  }

  /** Popping a lightest end of an unmarked node `v` and marking `v`: its stretch weighs what
      the end does, and the state holds but for the edges of `v`. */
  lemma MarkFresh<V, K(!new)>(key: WeiEdge -> K, g: WeiGraph<V, K>, root: nat, s: PrimState,
                              rank: map<nat, nat>, en: End)
    requires Inv(key, g, root, s, rank) && en in s.pq && en.id !in s.marked
    requires forall f :: f in s.pq ==> en.weight <= f.weight
    ensures en.id in g.adj
    ensures Visiting(key, g, root, Mark(s, en), rank[en.id := |s.marked|], en.id)
  {
    var v := en.id;
    var s1 := Mark(s, en);
    assert s.stretchs[v].weight == en.weight by {
      assert End(s.stretchs[v].weight, v) in s.pq;
    }
    MarkBase(key, g, root, s, rank, en);
    MarkPending(s, en);
    MarkStale(s, en);
    MarkParented(key, g, s, rank, en);
    MarkCut(key, g, root, s, rank, en);
    forall x | x in s1.marked && x != v ensures RelaxedAt(key, g, s1, x) {
      InvRelaxed(key, g, root, s, rank, x);
      MarkRelaxed(key, g, s, en, x);
    }
  }

  /** Popping an end of a marked node changes nothing else, and that node's edges are all
      accounted for. */
  lemma MarkAgain<V, K(!new)>(key: WeiEdge -> K, g: WeiGraph<V, K>, root: nat, s: PrimState,
                              rank: map<nat, nat>, en: End)
    requires Inv(key, g, root, s, rank) && en in s.pq && en.id in s.marked
    ensures Visiting(key, g, root, Mark(s, en), rank, en.id) && RelaxedAt(key, g, Mark(s, en), en.id)
  {
    var s1 := Mark(s, en);
    assert s1.marked == s.marked;
    MarkPending(s, en);
    MarkStale(s, en);
    forall x | x in s1.marked ensures RelaxedAt(key, g, s1, x) {
      InvRelaxed(key, g, root, s, rank, x);
      MarkRelaxed(key, g, s, en, x);
    }
  }

  /** One pass of the loop of `span`: pop a lightest end, mark its node and visit it. A
      node marked already is visited to no effect, and the heap shrinks; otherwise one more
      node is marked, last in the order. */
  method Step<V, K(!new)>(ghost key: WeiEdge -> K, g: WeiGraph<V, K>, ghost root: nat, p: PrimState,
                          ghost rank: map<nat, nat>)
    returns (p2: PrimState, ghost rank2: map<nat, nat>)
    requires Inv(key, g, root, p, rank) && p.pq != multiset{}
    ensures Inv(key, g, root, p2, rank2)
    ensures (p2.marked == p.marked && |p2.pq| < |p.pq|) || p.marked < p2.marked <= g.adj.Keys
  {
    var en := PopGreatest(p.pq);
    var id := en.id;
    rank2 := rank;
    ghost var unmarked := id !in p.marked;
    if unmarked {
      MarkFresh(key, g, root, p, rank, en);
      rank2 := rank[id := |p.marked|];
    } else {
      MarkAgain(key, g, root, p, rank, en);
    }
    p2 := Mark(p, en);
    p2 := Visit(key, g, root, p2, rank2, id);
  }

  /** What `span` leaves: the marked nodes, in marking order, are graph nodes; every one
      but the root has a stretch, an edge at it held by a node marked earlier, so the
      stretches form a tree rooted at `root`; each stretch was no heavier than any edge from
      the nodes marked before its node to the others (the cut property); and no edge held
      by a marked node leads out of the marked nodes. */
  ghost predicate Grown<V, K>(key: WeiEdge -> K, g: WeiGraph<V, K>, root: nat, s: PrimState, rank: map<nat, nat>) {
    && MarkOrder(s, root, rank) && s.marked <= g.adj.Keys
    && s.stretchs.Keys == s.marked - {root}
    && Parented(key, g, s, rank) && Cut(key, g, s, rank) && Closed(key, g, s)
  }

  /** No edge held by a marked node leads out of the marked nodes. */
  ghost predicate Closed<V, K>(key: WeiEdge -> K, g: WeiGraph<V, K>, s: PrimState) {
    forall x, f :: x in s.marked && Stored(key, g, x, f) ==> FarEnd(f, x) in s.marked
  }

  /** With the heap empty every node with a stretch is marked, and every edge a marked
      node holds leads to a marked node. */
  lemma Finished<V, K(!new)>(key: WeiEdge -> K, g: WeiGraph<V, K>, root: nat, s: PrimState,
                             rank: map<nat, nat>)
    requires Inv(key, g, root, s, rank) && s.pq == multiset{}
    ensures s.stretchs.Keys == s.marked - {root}
    ensures Grown(key, g, root, s, rank)
  {
    FinishedKeys(s, root);
    FinishedClosed(key, g, root, s, rank);
    assert Visiting(key, g, root, s, rank, root);
  }

  /** With the heap empty, nothing waits to be marked: the nodes with a stretch are the
      marked ones other than the root. */
  lemma FinishedKeys(s: PrimState, root: nat)
    requires Pending(s) && s.pq == multiset{}
    requires root !in s.stretchs && s.marked - {root} <= s.stretchs.Keys
    ensures s.stretchs.Keys == s.marked - {root}
  {
    assert forall v :: v in s.stretchs ==> v in s.marked || End(s.stretchs[v].weight, v) in s.pq;
  }

  /** With every node with a stretch marked, no edge held by a marked node leads to an
      unmarked one. */
  lemma FinishedClosed<V, K(!new)>(key: WeiEdge -> K, g: WeiGraph<V, K>, root: nat, s: PrimState,
                                   rank: map<nat, nat>)
    requires Inv(key, g, root, s, rank) && s.stretchs.Keys == s.marked - {root}
    ensures Closed(key, g, s)
  {
    forall x, f | x in s.marked && Stored(key, g, x, f) ensures FarEnd(f, x) in s.marked {
      InvRelaxed(key, g, root, s, rank, x);
      assert RelaxedEdge(s, x, f);
    }
  }

  /** The values of `m` at the keys `ks`, in order. */
  function ValuesAt(m: map<nat, WeiEdge>, ks: seq<nat>): (r: seq<WeiEdge>)
    requires forall i :: 0 <= i < |ks| ==> ks[i] in m
    ensures |r| == |ks| && forall i :: 0 <= i < |r| ==> r[i] == m[ks[i]]
  {
    if ks == [] then [] else [m[ks[0]]] + ValuesAt(m, ks[1..])
  }

  /** `BTreeMap::into_values`: the values of a map in increasing key order, one per key. */
  function Values(m: map<nat, WeiEdge>): (r: seq<WeiEdge>)
    ensures |r| == |m|
    ensures forall v :: v in m ==> m[v] in r
    ensures forall i :: 0 <= i < |r| ==> r[i] in m.Values
  {
    var ks := Sorted(m.Keys);
    assert |ks| == |m| by { assert |m.Keys| == |m|; }
    ValuesOfKeys(m, ks);
    ValuesAt(m, ks)
  }

  /** Listing the values at every key of `m`, each key once, lists each value of `m` and
      nothing else. */
  lemma ValuesOfKeys(m: map<nat, WeiEdge>, ks: seq<nat>)
    requires |ks| == |m| && forall x :: x in ks <==> x in m
    ensures forall i :: 0 <= i < |ks| ==> ks[i] in m
    ensures |ValuesAt(m, ks)| == |m|
    ensures forall v :: v in m ==> m[v] in ValuesAt(m, ks)
    ensures forall i :: 0 <= i < |ks| ==> ValuesAt(m, ks)[i] in m.Values
  {
    KeysIn(m, ks);
    ValuesCover(m, ks);
    ValuesFrom(m, ks);
  }

  /** The sorted keys of `m` are keys of `m`. */
  lemma KeysIn(m: map<nat, WeiEdge>, ks: seq<nat>)
    requires forall x :: x in ks <==> x in m
    ensures forall i :: 0 <= i < |ks| ==> ks[i] in m
  {
    forall i | 0 <= i < |ks| ensures ks[i] in m {
      assert ks[i] in ks;
    }
  }

  /** Listing the values at every key lists every value. */
  lemma ValuesCover(m: map<nat, WeiEdge>, ks: seq<nat>)
    requires forall x :: x in ks <==> x in m
    requires forall i :: 0 <= i < |ks| ==> ks[i] in m
    ensures forall v :: v in m ==> m[v] in ValuesAt(m, ks)
  {
    var r := ValuesAt(m, ks);
    forall v | v in m ensures m[v] in r {
      assert v in ks;
      var i :| 0 <= i < |ks| && ks[i] == v;
      assert r[i] == m[v];
    }
  }

  /** Every listed value is a value of `m`. */
  lemma ValuesFrom(m: map<nat, WeiEdge>, ks: seq<nat>)
    requires forall i :: 0 <= i < |ks| ==> ks[i] in m
    ensures forall i :: 0 <= i < |ks| ==> ValuesAt(m, ks)[i] in m.Values
  {
    var r := ValuesAt(m, ks);
    forall i | 0 <= i < |r| ensures r[i] in m.Values {
      assert ks[i] in m && r[i] == m[ks[i]];
    }
  }

  /** `span`: push the forged root end, then pop, mark and visit until the heap is empty,
      and return the stretches. The first pass of the loop, which can only pop the root's
      end, is written out before it.

      The result has one edge per marked node but the root, the stretch of that node: an edge
      at it held by a node marked earlier, so the edges form a tree rooted at `root`; each was
      the lightest edge leaving the nodes marked before it (the cut property); and no edge
      held by a marked node leads out of the marked nodes. */
  method Span<V, K(!new)>(ghost key: WeiEdge -> K, g: WeiGraph<V, K>, root: nat)
    returns (res: seq<WeiEdge>, ghost s: PrimState, ghost rank: map<nat, nat>)
    requires WellFormed(key, g) && root in g.adj
    ensures Grown(key, g, root, s, rank)
    ensures res == Values(s.stretchs) && |res| == |s.marked| - 1
    ensures exists s', rank' :: Grown(key, g, root, s', rank') && res == Values(s'.stretchs)
  {
    var p := PrimState({}, map[], multiset{Forge(root)});
    var first := PopGreatest(p.pq);
    assert first == Forge(root);
    p := PrimState(p.marked + {first.id}, p.stretchs, p.pq - multiset{first});
    rank := map[root := 0];
    p := Visit(key, g, root, p, rank, root);
    while p.pq != multiset{}
      invariant Inv(key, g, root, p, rank)
      decreases g.adj.Keys - p.marked, |p.pq|
    {
      p, rank := Step(key, g, root, p, rank);
    }
    Finished(key, g, root, p, rank);
    res := Values(p.stretchs);
    s := p;
  }

  /** `prim_mst`: the error carries a root that is not a node; otherwise the stretches of a
      finished span from it, one fewer than the nodes it marked. */
  method PrimMst<V, K(!new)>(ghost key: WeiEdge -> K, g: WeiGraph<V, K>, root: nat) returns (r: Spanned)
    requires WellFormed(key, g)
    ensures r.Err? <==> root !in g.adj
    ensures r.Err? ==> r.id == root
    ensures r.Ok? ==> |r.edges| < NodeCount(g)
    ensures r.Ok? ==> exists s, rank ::
      Grown(key, g, root, s, rank) && r.edges == Values(s.stretchs) && |r.edges| == |s.marked| - 1
  {
    if root !in g.adj {
      return Err(root);
    }
    var res, s, rank := Span(key, g, root);
    SubsetCard(s.marked, g.adj.Keys);
    r := Ok(res);
  }

  /** In a graph on nodes 0, 1 and 2 where nodes 0 and 1 hold (0, 1) and every edge is held
      under key 1, a finished span from node 0 marks exactly nodes 0 and 1. */
  lemma ShortSpan(g: WeiGraph<(), int>, s: PrimState, rank: map<nat, nat>)
    requires g.adj.Keys == {0, 1, 2} && Grown(ByWeight, g, 0, s, rank)
    requires Stored(ByWeight, g, 0, WeiEdge(1, (0, 1))) && Stored(ByWeight, g, 1, WeiEdge(1, (0, 1)))
    requires forall id :: id in g.adj ==> g.adj[id].adjEdges.Keys <= {1}
    ensures s.marked == {0, 1}
  {
    assert 1 in s.marked by {
      assert FarEnd(WeiEdge(1, (0, 1)), 0) in s.marked;
    }
    NoStretchToTwo(g, s, rank);
  }

  /** In that graph every stretch hangs from node 2 or is the edge (0, 1), so node 2, which
      would need a stretch from a node ranked before it, gets none. */
  lemma NoStretchToTwo(g: WeiGraph<(), int>, s: PrimState, rank: map<nat, nat>)
    requires g.adj.Keys == {0, 1, 2} && Parented(ByWeight, g, s, rank) && s.stretchs.Keys <= rank.Keys
    requires Stored(ByWeight, g, 0, WeiEdge(1, (0, 1))) && Stored(ByWeight, g, 1, WeiEdge(1, (0, 1)))
    requires forall id :: id in g.adj ==> g.adj[id].adjEdges.Keys <= {1}
    ensures 2 !in s.stretchs
  {
    forall v | v in s.stretchs ensures FarEnd(s.stretchs[v], v) == 2 || s.stretchs[v] == WeiEdge(1, (0, 1)) {
      assert Stored(ByWeight, g, FarEnd(s.stretchs[v], v), s.stretchs[v]);
    }
  }

  /** In a graph on nodes 0, 1 and 2 where node 0 holds (0, 1) and node 1 holds (1, 2), a
      finished span from node 0 marks every node. */
  lemma FullSpan<K>(key: WeiEdge -> K, g: WeiGraph<(), K>, s: PrimState)
    requires g.adj.Keys == {0, 1, 2} && 0 in s.marked && s.marked <= g.adj.Keys && Closed(key, g, s)
    requires Stored(key, g, 0, WeiEdge(1, (0, 1))) && Stored(key, g, 1, WeiEdge(1, (1, 2)))
    ensures s.marked == {0, 1, 2}
  {
    assert FarEnd(WeiEdge(1, (0, 1)), 0) in s.marked;
    assert FarEnd(WeiEdge(1, (1, 2)), 1) in s.marked;
  }

  /** As written: from node 0 of the graph with edges (0, 1) and (1, 2) of equal weight,
      Prim's span stops after one edge, though node 2 holds (1, 2). */
  method PrimStopsShort() returns (res: seq<WeiEdge>)
    ensures Stored(ByWeight, TwoEqual(ByWeight), 2, WeiEdge(1, (1, 2)))
    ensures NodeCount(TwoEqual(ByWeight)) == 3 && |res| == 1
  {
    var g := TwoEqual(ByWeight);
    ghost var s, rank;
    res, s, rank := Span(ByWeight, g, 0);
    TwoEqualHeld();
    TwoEqualNodes(ByWeight);
    ShortSpan(g, s, rank);
  }

  /** Corrected: with edges equal only when weight and ends agree, the span from node 0
      reaches all three nodes. */
  method PrimReachesAll() returns (res: seq<WeiEdge>)
    ensures NodeCount(TwoEqual(Whole)) == 3 && |res| == 2
  {
    var g := TwoEqual(Whole);
    ghost var s, rank;
    res, s, rank := Span(Whole, g, 0);
    TwoEqualKept();
    TwoEqualNodes(Whole);
    FullSpan(Whole, g, s);
  }
}

=== FILE: quick_sort.dfy ===
/**
  Three-way quicksort, sort/src/quick.rs. `quick` takes the first element as the sample
  and partitions the slice into the elements below it, those equal to it and those above
  it, then sorts the first and last parts. `qsort` shuffles the slice first; the shuffle is
  random, so here it is any rearrangement passed in.
*/
module QuickSort {
  import opened Sorting

  /** The partition state: `[0, lt)` is below the sample, `[lt, idx)` equals it and
      `(gt, len)` is above it; `[idx, gt]` is still to be compared. */
  ghost predicate Parted(a: seq<int>, x: int, lt: nat, idx: nat, gt: int) {
    && lt < idx <= gt + 1 <= |a|
    && (forall k :: 0 <= k < lt ==> a[k] < x)
    && (forall k :: lt <= k < idx ==> a[k] == x)
    && (forall k :: gt < k < |a| ==> x < a[k])
  }

  /** One comparison of the partition loop: an element below the sample swaps with the
      first equal one, an element above it swaps with the last uncompared one, and an equal
      element stays. Fewer elements remain to compare. */
  method PartStep(a: seq<int>, x: int, lt: nat, idx: nat, gt: int)
    returns (r: seq<int>, lt2: nat, idx2: nat, gt2: int)
    requires Parted(a, x, lt, idx, gt) && idx <= gt
    ensures |r| == |a| && multiset(r) == multiset(a) && Parted(r, x, lt2, idx2, gt2)
    ensures gt2 - idx2 < gt - idx
  {
    if a[idx] < x {
      r, lt2, idx2, gt2 := Swap(a, lt, idx), lt + 1, idx + 1, gt;
    } else if a[idx] > x {
      r, lt2, idx2, gt2 := Swap(a, idx, gt), lt, idx, gt - 1;
    } else {
      r, lt2, idx2, gt2 := a, lt, idx + 1, gt;
    }
  }

  /** The partition loop: it ends with `idx == gt + 1`, so the slice is split into the three
      parts, with the sample in the middle one. */
  method Partition(a: seq<int>) returns (r: seq<int>, lt: nat, gt: nat)
    requires |a| > 1
    ensures |r| == |a| && multiset(r) == multiset(a)
    ensures Parted(r, a[0], lt, gt + 1, gt)
  {
    r := a;
    var x := a[0];
    lt := 0;
    var idx: nat := 1;
    var g: int := |a| - 1;
    while idx <= g
      invariant |r| == |a| && multiset(r) == multiset(a) && Parted(r, x, lt, idx, g)
      decreases g - idx
    {
      r, lt, idx, g := PartStep(r, x, lt, idx, g);
    }
    gt := g;
  }

  /** Sorted parts below, at and above a value make a sorted whole. */
  lemma SortedParts(l: seq<int>, m: seq<int>, h: seq<int>, x: int)
    requires Sorted(l) && Sorted(h) && AtMost(l, x) && AtLeast(h, x)
    requires forall k :: 0 <= k < |m| ==> m[k] == x
    ensures Sorted(l + m + h)
  {
    var s := l + m + h;
    forall i, j | 0 <= i < j < |s| ensures s[i] <= s[j] {
      if i < |l| && j >= |l| {
        assert s[i] <= x;
      } else if i < |l| + |m| && j >= |l| + |m| {
        assert x <= s[j];
      }
    }
  }

  /** `quick`: slices of at most one element are left alone; otherwise both outer parts,
      each strictly shorter, are sorted around the middle one. The result is the input
      sorted. */
  method Quick(a: seq<int>) returns (r: seq<int>)
    ensures Sorted(r) && multiset(r) == multiset(a)
    ensures |a| <= 1 ==> r == a
    decreases |a|
  {
    if |a| <= 1 {
      return a;
    }
    var p, lt, gt := Partition(a);
    var x := a[0];
    var low, mid, high := p[..lt], p[lt..gt + 1], p[gt + 1..];
    assert p == low + mid + high;
    var sl := Quick(low);
    var sh := Quick(high);
    assert AtMost(low, x) && AtLeast(high, x);
    SameBounds(sl, low, x);
    SameBounds(sh, high, x);
    SortedParts(sl, mid, sh, x);
    r := sl + mid + sh;
  }

  /** `qsort`: the input after the shuffle, sorted. The result is the input sorted whatever
      the shuffle did. */
  method QSort(a: seq<int>, shuffled: seq<int>) returns (r: seq<int>)
    requires multiset(shuffled) == multiset(a)
    ensures Sorted(r) && multiset(r) == multiset(a)
  {
    r := Quick(shuffled);
  }
}

=== FILE: rb_map.dfy ===
/**
  The `RBTreeMap` façade of tree/red-black-tree/src/lib.rs: an optional root node and a
  length counter. Insertion blackens the root afterwards; so does removal, when a root is
  left.
*/
module RbMap {
  import opened Wrappers
  import opened Bst
  import opened RbNode

  datatype RbTreeMap<V> = RbTreeMap(root: RbTree<V>, len: nat)

  /** What every operation keeps, removal as written included: an ordered tree holding no
      more nodes than the counter says. */
  ghost predicate Sound<V>(m: RbTreeMap<V>) {
    Ordered(m.root) && Size(m.root) <= m.len
  }

  /** The full invariant: an ordered left-leaning red-black tree with a black root whose
      node count is the counter. */
  ghost predicate Valid<V>(m: RbTreeMap<V>) {
    Ordered(m.root) && Llrb(m.root) && !IsRed(m.root) && m.len == Size(m.root)
  }

  /** The finite map the structure stands for. */
  ghost function Contents<V>(m: RbTreeMap<V>): map<int, V> {
    Entries(m.root)
  }

  function New<V>(): RbTreeMap<V> {
    RbTreeMap(Nil, 0)
  }

  /** What `new` builds is a valid map with no entries and length 0. */
  lemma NewEmpty<V>(m: RbTreeMap<V>)
    requires m == New()
    ensures Valid(m) && Sound(m) && Contents(m) == map[] && m.len == 0
  {
  }

  function Len<V>(m: RbTreeMap<V>): (n: nat)
    ensures Valid(m) ==> n == |Contents(m)|
    ensures Sound(m) ==> |Contents(m)| <= n
  {
    OrderedSizeWhen(m.root);
    m.len
  }

  function IsEmpty<V>(m: RbTreeMap<V>): (b: bool)
    ensures b <==> m.len == 0
    ensures Valid(m) ==> (b <==> Contents(m) == map[])
  {
    OrderedSizeWhen(m.root);
    m.len == 0
  }

  /** `insert`: the counter is bumped first and taken back when a value was only replaced;
      a new root is a black node, an existing one is blackened after the insertion. */
  function Insert<V>(m: RbTreeMap<V>, k: int, v: V): (res: (RbTreeMap<V>, Option<V>))
    ensures Valid(m) ==> Valid(res.0)
    ensures Sound(m) ==> Sound(res.0)
    ensures Ordered(m.root) ==> Contents(res.0) == Contents(m)[k := v]
    ensures Ordered(m.root) ==> res.1 == (if k in Contents(m) then Some(Contents(m)[k]) else None)
    ensures res.0.len == if res.1.Some? then m.len else m.len + 1
    ensures !IsRed(res.0.root)
  {
    var len := m.len + 1;
    if m.root.Nil? then
      MapInsertedLeaf(k, v, Black);
      (RbTreeMap(Node(k, v, Black, Nil, Nil), len), None)
    else
      var (r, replaced) := RbNode.Insert(m.root, k, v);
      var root := Blacken(r);
      SameInorder(r, root);
      InsertSize(m.root, root, k, v, replaced);
      (RbTreeMap(root, if replaced.Some? then len - 1 else len), replaced)
  }

  lemma InsertSize<V>(t: RbTree<V>, u: RbTree<V>, k: int, v: V, replaced: Option<V>)
    requires MapInserted(t, k, v, u, replaced)
    ensures Ordered(t) ==> Size(u) == if replaced.Some? then Size(t) else Size(t) + 1
  {
    if Ordered(t) {
      OrderedSize(t);
      OrderedSize(u);
    }
  }

  /** `remove` as written: None on an empty map; otherwise `remove_node` runs, a remaining
      root is blackened, and the counter drops when a pair came back. The counter can end
      up above the number of stored entries: see `AbsentKeyBreaksCount`. */
  function Remove<V>(m: RbTreeMap<V>, k: int): (res: (RbTreeMap<V>, Option<V>))
    requires Sound(m)
    ensures Sound(res.0)
    ensures SubMap(Contents(res.0), Contents(m) - {k})
    ensures res.1 == if k in Contents(m) then Some(Contents(m)[k]) else None
    ensures res.0.len == if k in Contents(m) then m.len - 1 else m.len
    ensures !IsRed(res.0.root)
  {
    if m.root.Nil? then
      (m, None)
    else
      var (r, removed) := RemoveNode(m.root, k);
      var root := if r.Nil? then Nil else Blacken(r);
      SameInorder(r, root);
      ShrunkSize(m.root, k, r, removed);
      if removed.Some? then
        (RbTreeMap(root, m.len - 1), Some(removed.value.1))
      else
        (RbTreeMap(root, m.len), None)
  }

  /** `remove` with the membership test the descent relies on: an absent key leaves the
      map untouched, so a valid map stays valid; a present key is removed and the map stays
      sound. */
  function RemoveChecked<V>(m: RbTreeMap<V>, k: int): (res: (RbTreeMap<V>, Option<V>))
    requires Sound(m)
    ensures Sound(res.0)
    ensures SubMap(Contents(res.0), Contents(m) - {k})
    ensures res.1 == if k in Contents(m) then Some(Contents(m)[k]) else None
    ensures res.0.len == if k in Contents(m) then m.len - 1 else m.len
    ensures k !in Contents(m) ==> res.0 == m
  {
    EntriesKeys(m.root);
    if GetNode(m.root, k).None? then (m, None) else Remove(m, k)
  }

  /** `get`: the value stored under `k`, if any. */
  function Get<V>(m: RbTreeMap<V>, k: int): (r: Option<V>)
    ensures Ordered(m.root) ==> r == if k in Contents(m) then Some(Contents(m)[k]) else None
  {
    EntriesKeys(m.root);
    match GetNode(m.root, k)
    case None => None
    case Some(n) => Some(n.value)
  }

  /** A valid map is at most twice as deep as the binary logarithm of its size, plus one. */
  lemma ValidDepth<V>(m: RbTreeMap<V>)
    requires Valid(m)
    ensures Pow2(Depth(m.root) / 2) <= m.len + 1
  {
    LlrbDepth(m.root);
    BlackHeightSize(m.root);
    Pow2Mono(Depth(m.root) / 2, BlackHeight(m.root));
  }

  lemma {:induction false} Pow2Mono(a: nat, b: nat)
    requires a <= b
    ensures Pow2(a) <= Pow2(b)
  {
    if a < b {
      Pow2Mono(a, b - 1);
    }
  }

  /** The map built by the tests' `sample`: 0 Mary, 2 John, 4 Peter, 6 Randal. */
  function Sample(): (m: RbTreeMap<string>)
    ensures Valid(m) && Contents(m) == SampleContents()
  {
    var m0 := New();
    NewEmpty(m0);
    var m1 := Insert(m0, 0, "Mary").0;
    var m2 := Insert(m1, 2, "John").0;
    var m3 := Insert(m2, 4, "Peter").0;
    Insert(m3, 6, "Randal").0
  }

  function SampleContents(): map<int, string> {
    map[0 := "Mary", 2 := "John", 4 := "Peter", 6 := "Randal"]
  }

  /** The `insert_elt` test: a new key gives None, an existing one its old value. */
  lemma InsertScenario(m: RbTreeMap<string>)
    requires Valid(m) && Contents(m) == SampleContents()
    ensures Insert(m, 3, "Fox").1 == None
    ensures Insert(m, 0, "Milly").1 == Some("Mary")
  {
    assert 3 !in Contents(m);
    assert 0 in Contents(m) && Contents(m)[0] == "Mary";
  }

  /** The `get` test. */
  lemma GetScenario(m: RbTreeMap<string>)
    requires Valid(m) && Contents(m) == SampleContents()
    ensures Get(m, 2) == Some("John") && Get(m, 8) == None
  {
  }

  /** The tree the four insertions of `sample` build: 2 at a black root over a black 0 and
      a black 6 that leans red to 4. */
  lemma SampleShape()
    ensures Sample() == RbTreeMap(SampleRoot(), 4)
  {
    var a := Node(0, "Mary", Black, Nil, Nil);
    var b := Node(2, "John", Black, Node(0, "Mary", Red, Nil, Nil), Nil);
    var c := Node(2, "John", Black, a, Node(4, "Peter", Black, Nil, Nil));
    assert Insert(New(), 0, "Mary").0 == RbTreeMap(a, 1);
    SampleJohn();
    SamplePeter();
    SampleRandal();
  }

  lemma SampleJohn()
    ensures Insert(RbTreeMap(Node(0, "Mary", Black, Nil, Nil), 1), 2, "John").0
      == RbTreeMap(Node(2, "John", Black, Node(0, "Mary", Red, Nil, Nil), Nil), 2)
  {
    InsertStep(RbTreeMap(Node(0, "Mary", Black, Nil, Nil), 1), 2, "John",
      Node(2, "John", Black, Node(0, "Mary", Red, Nil, Nil), Nil));
  }

  lemma SamplePeter()
    ensures Insert(RbTreeMap(Node(2, "John", Black, Node(0, "Mary", Red, Nil, Nil), Nil), 2), 4, "Peter").0
      == RbTreeMap(Node(2, "John", Black, Node(0, "Mary", Black, Nil, Nil), Node(4, "Peter", Black, Nil, Nil)), 3)
  {
    InsertStep(RbTreeMap(Node(2, "John", Black, Node(0, "Mary", Red, Nil, Nil), Nil), 2), 4, "Peter",
      Node(2, "John", Black, Node(0, "Mary", Black, Nil, Nil), Node(4, "Peter", Black, Nil, Nil)));
  }

  lemma SampleRandal()
    ensures Insert(RbTreeMap(Node(2, "John", Black, Node(0, "Mary", Black, Nil, Nil), Node(4, "Peter", Black, Nil, Nil)), 3), 6, "Randal").0
      == RbTreeMap(SampleRoot(), 4)
  {
    InsertStep(RbTreeMap(Node(2, "John", Black, Node(0, "Mary", Black, Nil, Nil), Node(4, "Peter", Black, Nil, Nil)), 3), 6, "Randal",
      SampleRoot());
  }

  function SampleRoot(): RbTree<string> {
    Node(2, "John", Black, Node(0, "Mary", Black, Nil, Nil),
      Node(6, "Randal", Black, Node(4, "Peter", Red, Nil, Nil), Nil))
  }

  /** One insertion of a new key into a non-empty map, given the tree the node-level insert
      and the blackening produce. */
  lemma InsertStep<V>(m: RbTreeMap<V>, k: int, v: V, r: RbTree<V>)
    requires m.root.Node? && Blacken(RbNode.Insert(m.root, k, v).0) == r
    requires RbNode.Insert(m.root, k, v).1 == None
    ensures Insert(m, k, v).0 == RbTreeMap(r, m.len + 1)
  {
  }

  /** One removal from a non-empty map, given what the node-level removal produces. */
  lemma RemoveStep<V>(m: RbTreeMap<V>, k: int, r: RbTree<V>, p: (int, V))
    requires Sound(m) && m.root.Node? && RemoveNode(m.root, k) == (r, Some(p))
    ensures Remove(m, k) == (RbTreeMap(if r.Nil? then Nil else Blacken(r), m.len - 1), Some(p.1))
  {
  }

  /** The trees left by the `remove` test: after removing 2; after removing 2 and 0; after
      removing 2, 0 and 4. */
  function SampleLess2(): RbTree<string> {
    Node(4, "Peter", Black, Node(0, "Mary", Black, Nil, Nil), Node(6, "Randal", Black, Nil, Nil))
  }

  function SampleLess20(): RbTree<string> {
    Node(6, "Randal", Black, Node(4, "Peter", Red, Nil, Nil), Nil)
  }

  function SampleLess204(): RbTree<string> {
    Node(6, "Randal", Black, Nil, Nil)
  }

  /** The `remove` test: the four keys come back in the order removed, then 7 is absent and
      the map is empty. */
  lemma RemoveScenario()
    ensures Remove(Sample(), 2) == (RbTreeMap(SampleLess2(), 3), Some("John"))
    ensures Remove(RbTreeMap(SampleLess2(), 3), 0) == (RbTreeMap(SampleLess20(), 2), Some("Mary"))
    ensures Remove(RbTreeMap(SampleLess20(), 2), 4) == (RbTreeMap(SampleLess204(), 1), Some("Peter"))
    ensures Remove(RbTreeMap(SampleLess204(), 1), 6) == (RbTreeMap(Nil, 0), Some("Randal"))
    ensures Remove<string>(RbTreeMap(Nil, 0), 7).1 == None && IsEmpty<string>(RbTreeMap(Nil, 0))
  {
    RemoveJohn();
    RemoveMary();
    RemovePeter();
    RemoveRandal();
  }

  lemma RemoveJohn()
    ensures Remove(Sample(), 2) == (RbTreeMap(SampleLess2(), 3), Some("John"))
  {
    SampleShape();
    RemoveSample2();
    RemoveStep(Sample(), 2, SampleLess2(), (2, "John"));
  }

  lemma RemoveMary()
    ensures Remove(RbTreeMap(SampleLess2(), 3), 0) == (RbTreeMap(SampleLess20(), 2), Some("Mary"))
  {
    var r := Node(6, "Randal", Red, Node(4, "Peter", Red, Nil, Nil), Nil);
    RemoveSample0();
    RemoveStep(RbTreeMap(SampleLess2(), 3), 0, r, (0, "Mary"));
  }

  lemma RemovePeter()
    ensures Remove(RbTreeMap(SampleLess20(), 2), 4) == (RbTreeMap(SampleLess204(), 1), Some("Peter"))
  {
    RemoveSample4();
    RemoveStep(RbTreeMap(SampleLess20(), 2), 4, SampleLess204(), (4, "Peter"));
  }

  lemma RemoveRandal()
    ensures Remove(RbTreeMap(SampleLess204(), 1), 6) == (RbTreeMap(Nil, 0), Some("Randal"))
  {
    RemoveSample6();
    RemoveStep(RbTreeMap(SampleLess204(), 1), 6, Nil, (6, "Randal"));
  }

  lemma RemoveSample2()
    ensures RemoveNode(SampleRoot(), 2) == (SampleLess2(), Some((2, "John")))
  {
  }

  lemma RemoveSample0()
    ensures RemoveNode(SampleLess2(), 0) == (Node(6, "Randal", Red, Node(4, "Peter", Red, Nil, Nil), Nil), Some((0, "Mary")))
  {
  }

  lemma RemoveSample4()
    ensures RemoveNode(SampleLess20(), 4) == (SampleLess204(), Some((4, "Peter")))
  {
  }

  lemma RemoveSample6()
    ensures RemoveNode(SampleLess204(), 6) == (Nil, Some((6, "Randal")))
  {
  }

  /** Removing an absent key that is smaller than every stored one recolours the path and
      breaks the black balance; the next removal then cuts off a stored key along with the
      removed one, leaving the counter at one over an empty tree. */
  lemma AbsentKeyBreaksCount()
    ensures Insert(Insert(New(), 1, 10).0, 2, 20).0 == RbTreeMap(TwoKeys(), 2)
    ensures Valid(RbTreeMap(TwoKeys(), 2))
    ensures Remove(RbTreeMap(TwoKeys(), 2), 0) == (RbTreeMap(TwoKeysRecoloured(), 2), None)
    ensures !Valid(RbTreeMap(TwoKeysRecoloured(), 2))
    ensures Remove(RbTreeMap(TwoKeysRecoloured(), 2), 2) == (RbTreeMap(Nil, 1), Some(20))
    ensures Contents<int>(RbTreeMap(Nil, 1)) == map[] && Get<int>(RbTreeMap(Nil, 1), 1) == None
  {
    TwoKeysBuilt();
    TwoKeysValid();
    RecolourTwoKeysMap();
    RecolouredInvalid();
    SpliceTwoKeysMap();
  }

  lemma TwoKeysValid()
    ensures Valid(RbTreeMap(TwoKeys(), 2))
  {
  }

  lemma RecolouredInvalid()
    ensures !Valid(RbTreeMap(TwoKeysRecoloured(), 2))
  {
    assert !BlackBalanced(TwoKeysRecoloured());
  }

  lemma RecolourTwoKeysMap()
    ensures Remove(RbTreeMap(TwoKeys(), 2), 0) == (RbTreeMap(TwoKeysRecoloured(), 2), None)
  {
    RecolourTwoKeys();
  }

  lemma SpliceTwoKeysMap()
    ensures Remove(RbTreeMap(TwoKeysRecoloured(), 2), 2) == (RbTreeMap(Nil, 1), Some(20))
  {
    SpliceTwoKeys();
    RemoveStep(RbTreeMap(TwoKeysRecoloured(), 2), 2, Nil, (2, 20));
  }

  /** 2 at a black root leaning red to 1, and the same tree with 1 turned black. */
  function TwoKeys(): RbTree<int> {
    Node(2, 20, Black, Node(1, 10, Red, Nil, Nil), Nil)
  }

  function TwoKeysRecoloured(): RbTree<int> {
    Node(2, 20, Black, Node(1, 10, Black, Nil, Nil), Nil)
  }

  lemma TwoKeysBuilt()
    ensures Insert(Insert(New(), 1, 10).0, 2, 20).0 == RbTreeMap(TwoKeys(), 2)
  {
    var one := Node(1, 10, Black, Nil, Nil);
    assert Insert(New(), 1, 10).0 == RbTreeMap(one, 1);
    InsertStep(RbTreeMap(one, 1), 2, 20, TwoKeys());
  }

  lemma RecolourTwoKeys()
    ensures RemoveNode(TwoKeys(), 0) == (TwoKeysRecoloured(), None)
  {
  }

  lemma SpliceTwoKeys()
    ensures RemoveNode(TwoKeysRecoloured(), 2) == (Nil, Some((2, 20)))
  {
  }

  /** The same calls through `RemoveChecked` keep key 1 and the count right. */
  lemma CheckedKeepsCount()
    ensures RemoveChecked(RbTreeMap(TwoKeys(), 2), 0) == (RbTreeMap(TwoKeys(), 2), None)
    ensures RemoveChecked(RbTreeMap(TwoKeys(), 2), 2) == (RbTreeMap(Node(1, 10, Black, Nil, Nil), 1), Some(20))
    ensures Valid(RbTreeMap(Node(1, 10, Black, Nil, Nil), 1))
  {
    CheckedSkipsAbsent();
    CheckedRemovesTop();
  }

  lemma CheckedSkipsAbsent()
    ensures RemoveChecked(RbTreeMap(TwoKeys(), 2), 0) == (RbTreeMap(TwoKeys(), 2), None)
  {
    TwoKeysValid();
  }

  lemma CheckedRemovesTop()
    ensures RemoveChecked(RbTreeMap(TwoKeys(), 2), 2) == (RbTreeMap(Node(1, 10, Black, Nil, Nil), 1), Some(20))
  {
    TwoKeysValid();
    TwoKeysTopRemoved();
    RemoveStep(RbTreeMap(TwoKeys(), 2), 2, Node(1, 10, Black, Nil, Nil), (2, 20));
  }

  lemma TwoKeysTopRemoved()
    ensures RemoveNode(TwoKeys(), 2) == (Node(1, 10, Black, Nil, Nil), Some((2, 20)))
  {
  }
}

=== FILE: rb_node.dfy ===
/**
  The nodes of the left-leaning red-black tree of tree/red-black-tree/src/node/mod.rs, as
  immutable trees whose per-node metadata is the colour of the link from the parent. The
  tree is the 2-3 variant: a red link only ever leans left, and two red links never meet.
*/
module RbNode {
  import opened Wrappers
  import opened Bst

  datatype Color = Red | Black

  type RbTree<V> = Tree<Color, V>

  /** `Node::is_red`: an absent link counts as black. */
  predicate IsRed<V>(t: RbTree<V>) {
    t.Node? && t.meta == Red
  }

  /** `red_double_left`: the left link and the one below it to the left are both red. */
  predicate RedDoubleLeft<V>(t: RbTree<V>)
    requires t.Node?
  {
    IsRed(t.left) && IsRed(t.left.left)
  }

  /** `red_left_of_right`: the right child exists and leans red to the left. */
  predicate RedLeftOfRight<V>(t: RbTree<V>)
    requires t.Node?
  {
    t.right.Node? && IsRed(t.right.left)
  }

  /** `red_left_of_left`: the left child exists and leans red to the left. */
  predicate RedLeftOfLeft<V>(t: RbTree<V>)
    requires t.Node?
  {
    t.left.Node? && IsRed(t.left.left)
  }

  /** `Color::rev`. */
  function Rev(c: Color): (r: Color)
    ensures r != c
  {
    if c == Red then Black else Red
  }

  /** Reverse the colour of a node, if there is one. */
  function RevRoot<V>(t: RbTree<V>): (r: RbTree<V>)
    ensures Inorder(r) == Inorder(t) && r.Nil? == t.Nil?
    ensures t.Node? ==> r.meta != t.meta && r.left == t.left && r.right == t.right
  {
    if t.Nil? then Nil else t.(meta := Rev(t.meta))
  }

  /** `rot_left`: the right child rises and takes the node's colour; the node, now its left
      child, becomes red. */
  function RotLeft<V>(t: RbTree<V>): (r: RbTree<V>)
    requires t.Node? && t.right.Node?
    ensures r.Node? && Inorder(r) == Inorder(t)
    ensures r.meta == t.meta && r.left.Node? && r.left.key == t.key && r.left.meta == Red
    ensures Ordered(t) ==> t.key < r.key
  {
    var x := t.right;
    assert Ordered(t) ==> x.key in Keys(x);
    Node(x.key, x.value, t.meta, Node(t.key, t.value, Red, t.left, x.left), x.right)
  }

  /** `rot_right`: the mirror image of `rot_left`. */
  function RotRight<V>(t: RbTree<V>): (r: RbTree<V>)
    requires t.Node? && t.left.Node?
    ensures r.Node? && r.right.Node? && Inorder(r) == Inorder(t)
    ensures r.meta == t.meta && r.right.key == t.key && r.right.meta == Red
    ensures Ordered(t) ==> r.key < t.key
  {
    var x := t.left;
    assert Ordered(t) ==> x.key in Keys(x);
    Node(x.key, x.value, t.meta, x.left, Node(t.key, t.value, Red, x.right, t.right))
  }

  /** `flip_color`: reverse the colours of the node and of each child it has. */
  function FlipColor<V>(t: RbTree<V>): (r: RbTree<V>)
    requires t.Node?
    ensures r.Node? && r.key == t.key && Inorder(r) == Inorder(t)
    ensures r.left.Nil? == t.left.Nil? && r.right.Nil? == t.right.Nil?
    ensures r.meta == Rev(t.meta)
    ensures t.left.Node? ==> r.left.meta == Rev(t.left.meta)
    ensures t.right.Node? ==> r.right.meta == Rev(t.right.meta)
  {
    Node(t.key, t.value, Rev(t.meta), RevRoot(t.left), RevRoot(t.right))
  }

  /** Flipping the colours twice restores the node. */
  lemma FlipColorTwice<V>(t: RbTree<V>)
    requires t.Node?
    ensures FlipColor(FlipColor(t)) == t
  {
  }

  /** `restruct_left`: borrow from the parent and the right sibling so that the left child
      is no longer a lone black node. */
  function RestructLeft<V>(t: RbTree<V>): (r: RbTree<V>)
    requires t.Node?
    ensures r.Node? && Inorder(r) == Inorder(t)
    ensures t.left.Node? ==> r.left.Node?
    ensures Ordered(t) ==> t.key <= r.key
  {
    var s := FlipColor(t);
    if RedLeftOfRight(s) then
      var u := RotRight(s.right);
      assert u.key == t.right.left.key;
      assert Ordered(t) ==> t.right.left.key in Keys(t.right);
      FlipColor(RotLeft(s.(right := u)))
    else
      s
  }

  /** `restruct_right`: the mirror image for the right child. */
  function RestructRight<V>(t: RbTree<V>): (r: RbTree<V>)
    requires t.Node?
    ensures r.Node? && Inorder(r) == Inorder(t)
    ensures t.right.Node? ==> r.right.Node?
    ensures r.key == t.key || r.right.Node?
    ensures Ordered(t) ==> r.key <= t.key
  {
    var s := FlipColor(t);
    if RedLeftOfLeft(s) then
      var u := RotRight(s);
      assert u.key == t.left.key;
      assert Ordered(t) ==> t.left.key in Keys(t.left);
      FlipColor(u)
    else
      s
  }

  /** `rebalance`: lean a lone red right link left, split a double red left link by a right
      rotation, and push up a node whose two links are red. */
  function Rebalance<V>(t: RbTree<V>): (r: RbTree<V>)
    requires t.Node?
    ensures r.Node? && Inorder(r) == Inorder(t)
  {
    var a := if IsRed(t.right) && !IsRed(t.left) then RotLeft(t) else t;
    var b := if RedDoubleLeft(a) then RotRight(a) else a;
    if IsRed(b.left) && IsRed(b.right) then FlipColor(b) else b
  }

  /** `blacken`. */
  function Blacken<V>(t: RbTree<V>): (r: RbTree<V>)
    requires t.Node?
    ensures r.Node? && !IsRed(r) && Inorder(r) == Inorder(t)
  {
    t.(meta := Black)
  }

  /** Number of black links on the leftmost path; a node counts when its own link is black. */
  function BlackHeight<V>(t: RbTree<V>): nat {
    match t
    case Nil => 0
    case Node(_, _, c, l, _) => BlackHeight(l) + (if c == Black then 1 else 0)
  }

  /** Every path from a node down to a missing child crosses the same number of black links. */
  ghost predicate BlackBalanced<V>(t: RbTree<V>) {
    match t
    case Nil => true
    case Node(_, _, _, l, r) =>
      BlackBalanced(l) && BlackBalanced(r) && BlackHeight(l) == BlackHeight(r)
  }

  /** No right link is red and no red link has a red link below it to the left. */
  ghost predicate LeftLean<V>(t: RbTree<V>) {
    match t
    case Nil => true
    case Node(_, _, c, l, r) =>
      !IsRed(r) && (c == Red ==> !IsRed(l)) && LeftLean(l) && LeftLean(r)
  }

  /** `LeftLean` below the root, whose own red link may still rest on a red left link: the
      temporary state an insertion under a red link hands back to its black parent. */
  ghost predicate NearlyLeftLean<V>(t: RbTree<V>) {
    t.Node? ==> !IsRed(t.right) && LeftLean(t.left) && LeftLean(t.right)
  }

  /** The colour invariant of a left-leaning red-black tree. */
  ghost predicate Llrb<V>(t: RbTree<V>) {
    BlackBalanced(t) && LeftLean(t)
  }

  /** Nodes on the longest path down from `t`. */
  function Depth<V>(t: RbTree<V>): nat {
    match t
    case Nil => 0
    case Node(_, _, _, l, r) => 1 + (if Depth(l) < Depth(r) then Depth(r) else Depth(l))
  }

  function Pow2(n: nat): (p: nat)
    ensures p >= 1
  {
    if n == 0 then 1 else 2 * Pow2(n - 1)
  }

  /** A left-leaning tree is at most twice as deep as its black height, plus the root's own
      red link. */
  lemma {:induction false} LlrbDepth<V>(t: RbTree<V>)
    requires Llrb(t)
    ensures Depth(t) <= 2 * BlackHeight(t) + (if IsRed(t) then 1 else 0)
  {
    if t.Node? {
      LlrbDepth(t.left);
      LlrbDepth(t.right);
    }
  }

  /** A black-balanced tree holds at least 2^h - 1 nodes, h its black height; with
      `LlrbDepth` the depth is logarithmic in the size. */
  lemma {:induction false} BlackHeightSize<V>(t: RbTree<V>)
    requires BlackBalanced(t)
    ensures Size(t) + 1 >= Pow2(BlackHeight(t))
  {
    if t.Node? {
      BlackHeightSize(t.left);
      BlackHeightSize(t.right);
    }
  }

  /** On a node with no red right link and no double red left link `rebalance` changes
      nothing. */
  lemma RebalanceIdle<V>(t: RbTree<V>)
    requires t.Node? && !IsRed(t.right) && !RedDoubleLeft(t)
    ensures Rebalance(t) == t
  {
  }

  /** A left-leaning left child rules out a double red left link. */
  lemma LeftLeanNoDouble<V>(t: RbTree<V>)
    requires t.Node? && LeftLean(t.left)
    ensures !RedDoubleLeft(t)
  {
  }

  /** What inserting (k, v) into `t` must produce: the map update, the black height kept,
      and the colour invariant restored except, under a red link, at the root. */
  ghost predicate InsertedInto<V>(t: RbTree<V>, k: int, v: V, r: RbTree<V>, replaced: Option<V>) {
    && r.Node?
    && MapInserted(t, k, v, r, replaced)
    && (Llrb(t) ==> BlackBalanced(r) && BlackHeight(r) == BlackHeight(t) && NearlyLeftLean(r))
    && (Llrb(t) && !IsRed(t) ==> LeftLean(r))
  }

  /** `insert` on a node, with the `side_insert!` case of a missing child as the insertion
      into Nil: a new red leaf. Every node on the path is rebalanced, a matched one too. */
  function Insert<V>(t: RbTree<V>, k: int, v: V): (res: (RbTree<V>, Option<V>))
    ensures InsertedInto(t, k, v, res.0, res.1)
  {
    match t
    case Nil =>
      MapInsertedLeaf(k, v, Red);
      (Node(k, v, Red, Nil, Nil), None)
    case Node(key, prev, _, l, r) =>
      if key == k then
        InsertHere(t, v);
        (Rebalance(t.(value := v)), Some(prev))
      else if key < k then
        var (c, replaced) := Insert(r, k, v);
        InsertRightStep(t, k, v, c, replaced);
        (Rebalance(t.(right := c)), replaced)
      else
        var (c, replaced) := Insert(l, k, v);
        InsertLeftStep(t, k, v, c, replaced);
        (Rebalance(t.(left := c)), replaced)
  }

  lemma InsertHere<V>(t: RbTree<V>, v: V)
    requires t.Node?
    ensures InsertedInto(t, t.key, v, Rebalance(t.(value := v)), Some(t.value))
  {
    var s := t.(value := v);
    InsertHereMap(t, v);
    MapInsertedInorder(t, t.key, v, s, Rebalance(s), Some(t.value));
    if Llrb(t) {
      LeftLeanNoDouble(s);
      RebalanceIdle(s);
    }
  }

  lemma InsertRightStep<V>(t: RbTree<V>, k: int, v: V, c: RbTree<V>, replaced: Option<V>)
    requires t.Node? && t.key < k
    requires InsertedInto(t.right, k, v, c, replaced)
    ensures InsertedInto(t, k, v, Rebalance(t.(right := c)), replaced)
  {
    var s := t.(right := c);
    InsertRightMap(t, k, v, c, replaced);
    MapInsertedInorder(t, k, v, s, Rebalance(s), replaced);
    if Llrb(t) {
      GrowRight(t, c);
    }
  }

  lemma InsertLeftStep<V>(t: RbTree<V>, k: int, v: V, c: RbTree<V>, replaced: Option<V>)
    requires t.Node? && k < t.key
    requires InsertedInto(t.left, k, v, c, replaced)
    ensures InsertedInto(t, k, v, Rebalance(t.(left := c)), replaced)
  {
    var s := t.(left := c);
    InsertLeftMap(t, k, v, c, replaced);
    MapInsertedInorder(t, k, v, s, Rebalance(s), replaced);
    if Llrb(t) {
      GrowLeft(t, c);
    }
  }

  /** The right child, black before, came back left-leaning with the same black height. */
  lemma GrowRight<V>(t: RbTree<V>, c: RbTree<V>)
    requires t.Node? && Llrb(t) && c.Node?
    requires BlackBalanced(c) && BlackHeight(c) == BlackHeight(t.right) && LeftLean(c)
    ensures var r := Rebalance(t.(right := c));
      && BlackBalanced(r) && BlackHeight(r) == BlackHeight(t) && NearlyLeftLean(r)
      && (!IsRed(t) ==> LeftLean(r))
  {
    var s := t.(right := c);
    if !IsRed(c) {
      LeftLeanNoDouble(s);
      RebalanceIdle(s);
    } else if !IsRed(t.left) {
      GrowRightLean(t, c);
    } else {
      GrowRightSplit(t, c);
    }
  }

  /** A red right child under a node without a red left link is rotated to the left. */
  lemma GrowRightLean<V>(t: RbTree<V>, c: RbTree<V>)
    requires t.Node? && Llrb(t) && c.Node? && IsRed(c) && !IsRed(t.left)
    requires BlackBalanced(c) && BlackHeight(c) == BlackHeight(t.right) && LeftLean(c)
    ensures var r := Rebalance(t.(right := c));
      && BlackBalanced(r) && BlackHeight(r) == BlackHeight(t) && NearlyLeftLean(r)
      && (!IsRed(t) ==> LeftLean(r))
  {
    var s := t.(right := c);
    var a := RotLeft(s);
    assert a.left == Node(t.key, t.value, Red, t.left, c.left);
    assert !RedDoubleLeft(a) && !IsRed(a.right);
    assert Rebalance(s) == a;
  }

  /** A red right child beside a red left one: the colours flip and the node goes up red. */
  lemma GrowRightSplit<V>(t: RbTree<V>, c: RbTree<V>)
    requires t.Node? && Llrb(t) && c.Node? && IsRed(c) && IsRed(t.left)
    requires BlackBalanced(c) && BlackHeight(c) == BlackHeight(t.right) && LeftLean(c)
    ensures var r := Rebalance(t.(right := c));
      && BlackBalanced(r) && BlackHeight(r) == BlackHeight(t) && NearlyLeftLean(r)
      && (!IsRed(t) ==> LeftLean(r))
  {
    var s := t.(right := c);
    LeftLeanNoDouble(s);
    RebalanceFlip(s);
    BlackenRed(t.left);
    BlackenRed(c);
  }

  /** Two red links and no double red left link: `rebalance` only flips the colours. */
  lemma RebalanceFlip<V>(t: RbTree<V>)
    requires t.Node? && IsRed(t.left) && IsRed(t.right) && !RedDoubleLeft(t)
    ensures Rebalance(t) == Node(t.key, t.value, Rev(t.meta), t.left.(meta := Black), t.right.(meta := Black))
  {
  }

  /** Turning a red link black adds one to the black height and keeps both invariants. */
  lemma BlackenRed<V>(t: RbTree<V>)
    requires IsRed(t) && Llrb(t)
    ensures var b := t.(meta := Black);
      Llrb(b) && BlackHeight(b) == BlackHeight(t) + 1
  {
  }

  /** The left child came back with the same black height, left-leaning if it was black and
      at worst nearly so if it was red. */
  lemma GrowLeft<V>(t: RbTree<V>, c: RbTree<V>)
    requires t.Node? && Llrb(t) && c.Node?
    requires BlackBalanced(c) && BlackHeight(c) == BlackHeight(t.left) && NearlyLeftLean(c)
    requires !IsRed(t.left) ==> LeftLean(c)
    ensures var r := Rebalance(t.(left := c));
      && BlackBalanced(r) && BlackHeight(r) == BlackHeight(t) && NearlyLeftLean(r)
      && (!IsRed(t) ==> LeftLean(r))
  {
    var s := t.(left := c);
    if !RedDoubleLeft(s) {
      RebalanceIdle(s);
    } else {
      assert Rebalance(s) == FlipColor(RotRight(s));
    }
  }

  /** `pop_min_node`: unhook the leftmost node, putting its right child in its place; on the
      way down a lone black left child is first given a red link by `restruct_left`, and
      every node is rebalanced on the way back up. Returns the rest and the popped pair. */
  function PopMin<V>(t: RbTree<V>): (res: (RbTree<V>, (int, V)))
    requires t.Node?
    ensures Inorder(t) == [res.1] + Inorder(res.0)
    decreases Size(t)
  {
    if t.left.Nil? then
      (t.right, (t.key, t.value))
    else
      var s := if !(IsRed(t.left) || IsRed(t.left.left)) then RestructLeft(t) else t;
      SameInorder(t, s);
      var (rest, m) := PopMin(s.left);
      var u := s.(left := rest);
      assert Inorder(s) == [m] + Inorder(u);
      (Rebalance(u), m)
  }

  /** The leftmost pair of `t` replaced by (k, v), the shape and colours kept. Returns the
      new subtree and the replaced pair. */
  function ReplaceMin<V>(t: RbTree<V>, k: int, v: V): (res: (RbTree<V>, (int, V)))
    requires t.Node?
    ensures res.0.Node?
    ensures |Inorder(t)| > 0 && Inorder(t)[0] == res.1
    ensures Inorder(res.0) == [(k, v)] + Inorder(t)[1..]
  {
    if t.left.Nil? then
      (t.(key := k, value := v), (t.key, t.value))
    else
      var (l, m) := ReplaceMin(t.left, k, v);
      assert Inorder(t) == Inorder(t.left) + [(t.key, t.value)] + Inorder(t.right);
      assert Inorder(t)[1..] == Inorder(t.left)[1..] + [(t.key, t.value)] + Inorder(t.right);
      (t.(left := l), m)
  }

  /** `swap_successor`: exchange the node's pair with that of the leftmost node of its right
      subtree, which then holds the pair to delete at its leftmost position. */
  function SwapSuccessor<V>(t: RbTree<V>): (r: RbTree<V>)
    requires t.Node? && t.right.Node?
    ensures r.Node? && r.right.Node? && r.left == t.left
    ensures Inorder(r.right) == [(t.key, t.value)] + Inorder(t.right)[1..]
    ensures Inorder(r.left) + [(r.key, r.value)] + Inorder(r.right)[1..] == Inorder(t.left) + Inorder(t.right)
  {
    var (right, m) := ReplaceMin(t.right, t.key, t.value);
    assert Inorder(t.right) == [m] + Inorder(t.right)[1..];
    t.(key := m.0, value := m.1, right := right)
  }

  /** `remove_node`. Left of the node's key: make sure the left child is not a lone black
      node, then remove from it. Otherwise: lean a red left link right; on a match without
      a right child cut the node off, left subtree and all; else make sure the right child
      is not a lone black node, and on a match swap in the successor and pop it from the
      right subtree, on a miss remove from the right subtree. Every node left on the path
      is rebalanced. The result is only claimed to be an ordered part of the map without
      `k`: `RbMap.AbsentKeyBreaksCount` shows a case where more than `k` goes. */
  function RemoveNode<V>(t: RbTree<V>, k: int): (res: (RbTree<V>, Option<(int, V)>))
    ensures MapShrunk(t, k, res.0, res.1)
    decreases Size(t)
  {
    match t
    case Nil => (Nil, None)
    case Node(key, _, _, l, _) =>
      if k < key then
        var s := if !(IsRed(l) || RedLeftOfLeft(t)) then RestructLeft(t) else t;
        SameInorder(t, s);
        var (c, removed) := RemoveNode(s.left, k);
        RemoveLeftStep(t, s, k, c, removed);
        (Rebalance(s.(left := c)), removed)
      else
        var a := if IsRed(l) then RotRight(t) else t;
        SameInorder(t, a);
        if a.key == k && a.right.Nil? then
          ShrinkSplice(a);
          MapShrunkFrom(t, a, k, Nil, Some((a.key, a.value)));
          (Nil, Some((a.key, a.value)))
        else
          var s := if !(IsRed(a.right) || RedLeftOfRight(a)) then RestructRight(a) else a;
          SameInorder(t, s);
          if s.key == k then
            var u := SwapSuccessor(s);
            var (c, m) := PopMin(u.right);
            RemoveHereStep(t, s, u, c, m);
            (Rebalance(u.(right := c)), Some(m))
          else
            var (c, removed) := RemoveNode(s.right, k);
            RemoveRightStep(t, s, k, c, removed);
            (Rebalance(s.(right := c)), removed)
  }

  /** Removal from `s` counts as removal from any tree with the same in-order sequence. */
  lemma MapShrunkFrom<V>(t: RbTree<V>, s: RbTree<V>, k: int, r: RbTree<V>, removed: Option<(int, V)>)
    requires Inorder(t) == Inorder(s) && MapShrunk(s, k, r, removed)
    ensures MapShrunk(t, k, r, removed)
  {
    SameInorder(t, s);
  }

  lemma RemoveLeftStep<V>(t: RbTree<V>, s: RbTree<V>, k: int, c: RbTree<V>, removed: Option<(int, V)>)
    requires t.Node? && s.Node? && Inorder(t) == Inorder(s)
    requires Ordered(t) ==> k < t.key <= s.key
    requires MapShrunk(s.left, k, c, removed)
    ensures MapShrunk(t, k, Rebalance(s.(left := c)), removed)
  {
    SameInorder(t, s);
    if Ordered(t) {
      ShrinkLeftMap(s, k, c, removed);
      MapShrunkInorder(s, k, s.(left := c), Rebalance(s.(left := c)), removed);
    }
  }

  lemma RemoveRightStep<V>(t: RbTree<V>, s: RbTree<V>, k: int, c: RbTree<V>, removed: Option<(int, V)>)
    requires t.Node? && s.Node? && Inorder(t) == Inorder(s)
    requires Ordered(t) ==> s.key < k
    requires MapShrunk(s.right, k, c, removed)
    ensures MapShrunk(t, k, Rebalance(s.(right := c)), removed)
  {
    SameInorder(t, s);
    if Ordered(t) {
      ShrinkRightMap(s, k, c, removed);
      MapShrunkInorder(s, k, s.(right := c), Rebalance(s.(right := c)), removed);
    }
  }

  /** A match with a right child: the successor's pair moves up and the popped pair is the
      matched one, so exactly `s.key` goes. */
  lemma RemoveHereStep<V>(t: RbTree<V>, s: RbTree<V>, u: RbTree<V>, c: RbTree<V>, m: (int, V))
    requires s.Node? && s.right.Node? && Inorder(t) == Inorder(s) && u == SwapSuccessor(s)
    requires Inorder(u.right) == [m] + Inorder(c)
    ensures MapShrunk(t, s.key, Rebalance(u.(right := c)), Some(m))
  {
    var w := u.(right := c);
    assert m == (s.key, s.value);
    assert Inorder(c) == Inorder(u.right)[1..];
    assert Inorder(w) == Inorder(s.left) + Inorder(s.right);
    if Ordered(s) {
      UnlinkRoot(s, w);
      EntriesKeys(s);
    }
    MapRemovedShrunk(s, s.key, w, Some(m));
    MapShrunkInorder(s, s.key, w, Rebalance(w), Some(m));
    MapShrunkFrom(t, s, s.key, Rebalance(w), Some(m));
  }
}

=== FILE: selection.dfy ===
/**
  Selection sort, sort/src/selection.rs: for each `left`, the first minimum of the
  elements from `left` on is swapped into place.
*/
module Selection {
  import opened Sorting

  /** `(left..len).min_by_key(|&i| &arr[i])`: the index of the first least element from
      `left` on. */
  method MinFrom(a: seq<int>, left: nat) returns (m: nat)
    requires left < |a|
    ensures left <= m < |a|
    ensures forall k :: left <= k < |a| ==> a[m] <= a[k]
    ensures forall k :: left <= k < m ==> a[m] < a[k]
  {
    m := left;
    var i := left + 1;
    while i < |a|
      invariant left <= m < i <= |a|
      invariant forall k :: left <= k < i ==> a[m] <= a[k]
      invariant forall k :: left <= k < m ==> a[m] < a[k]
    {
      if a[i] < a[m] {
        m := i;
      }
      i := i + 1;
    }
  }

  /** Before `m` the elements are sorted and none exceeds an element from `m` on. */
  ghost predicate Chosen(a: seq<int>, m: int) {
    && (forall i, j :: 0 <= i < j < m && j < |a| ==> a[i] <= a[j])
    && (forall i, j :: 0 <= i < m <= j < |a| ==> a[i] <= a[j])
  }

  /** `selection`: the result is the input sorted. */
  method SelectionSort(a: seq<int>) returns (r: seq<int>)
    ensures Sorted(r) && multiset(r) == multiset(a)
  {
    r := a;
    var left := 0;
    while left < |r|
      invariant left <= |r| == |a| && multiset(r) == multiset(a)
      invariant Chosen(r, left)
    {
      var m := MinFrom(r, left);
      r := Swap(r, left, m);
      left := left + 1;
    }
  }
}

=== FILE: sets.dfy ===
/** Facts about finite sets shared by the graph searches. */
module Sets {
  /** A subset is no larger than its superset. */
  lemma {:induction false} SubsetCard<T>(a: set<T>, b: set<T>)
    requires a <= b
    ensures |a| <= |b|
    decreases |a|
  {
    if a != {} {
      var x :| x in a;
      SubsetCard(a - {x}, b - {x});
    }
  }

  /** Taking a member out of a set leaves one element fewer. */
  lemma RemoveOne<T>(s: set<T>, x: T)
    requires x in s
    ensures |s - {x}| == |s| - 1
  {
  }

  /** A non-empty finite set has an element of least measure `w`. */
  lemma {:induction false} LightestExists<T>(s: set<T>, w: T -> int)
    requires s != {}
    ensures exists e :: e in s && forall f :: f in s ==> w(e) <= w(f)
    decreases |s|
  {
    var x :| x in s;
    if s != {x} {
      LightestExists(s - {x}, w);
      var m :| m in s - {x} && forall f :: f in s - {x} ==> w(m) <= w(f);
      if w(x) < w(m) {
        assert forall f :: f in s ==> w(x) <= w(f);
      } else {
        assert forall f :: f in s ==> w(m) <= w(f);
      }
    }
  }
}

=== FILE: shell.dfy ===
/**
  Shell sort, sort/src/shell.rs: gap-`h` insertion passes for the gaps 1, 4, 13, 40, ...
  from the largest one the growth loop reaches down to 1; the pass with gap 1 leaves the
  array sorted.
*/
module Shell {
  import opened Sorting

  /** The gap sequence 1, 4, 13, 40, ...: each gap is three times the previous one plus one. */
  ghost predicate Gap(h: nat)
    decreases h
  {
    h == 1 || (h > 1 && h % 3 == 1 && Gap(h / 3))
  }

  /** The growth loop: the first gap that is not below `len / 3`, or 1. */
  method FirstGap(len: nat) returns (h: nat)
    ensures Gap(h) && len / 3 <= h
    ensures h == 1 || h / 3 < len / 3
  {
    h := 1;
    while h < len / 3
      invariant Gap(h) && (h == 1 || h / 3 < len / 3)
    {
      h := 3 * h + 1;
    }
  }

  /** While the element from `right` moves down its gap-`h` chain it sits at `l`: every pair
      `h` apart up to `right` is in order except the one ending at `l`, and the elements
      either side of `l` on the chain are in order. */
  ghost predicate Moving(a: seq<int>, h: nat, right: nat, l: nat) {
    && 0 < h <= l <= right < |a|
    && (forall i :: h <= i <= right && i != l ==> a[i - h] <= a[i])
    && (l >= h && l + h <= right ==> a[l - h] <= a[l + h])
  }

  /** Swapping the element at `l` with the larger one `h` before it moves the out-of-order
      pair one step down the chain, or off its start. */
  lemma MoveDown(a: seq<int>, h: nat, right: nat, l: nat)
    requires Moving(a, h, right, l) && a[l - h] > a[l]
    ensures l - h >= h ==> Moving(Swap(a, l, l - h), h, right, l - h)
    ensures l - h < h ==> Strided(Swap(a, l, l - h), h, right + 1)
  {
    var b := Swap(a, l, l - h);
    forall i | h <= i <= right && i != l - h ensures b[i - h] <= b[i] {
      if i == l + h {
        assert b[i - h] == a[l - h] && b[i] == a[i];
      } else if i != l {
        assert b[i - h] == a[i - h] && b[i] == a[i];
      }
    }
    if l - h >= h {
      assert b[l - 2 * h] == a[l - 2 * h] && a[l - 2 * h] <= a[l - h];
    }
  }

  /** Once the element at `l` is no smaller than the one `h` before it, every pair `h`
      apart up to `right` is in order. */
  lemma MovingSettled(a: seq<int>, h: nat, right: nat, l: nat)
    requires Moving(a, h, right, l) && a[l - h] <= a[l]
    ensures Strided(a, h, right + 1)
  {
  }

  /** The inner loop for `right`: swap its element down the chain while the one `h` before
      it is larger. Afterwards every pair `h` apart up to `right` is in order. */
  method Insert(a: seq<int>, h: nat, right: nat) returns (r: seq<int>)
    requires 0 < h <= right < |a| && Strided(a, h, right)
    ensures |r| == |a| && multiset(r) == multiset(a) && Strided(r, h, right + 1)
  {
    r := a;
    var l := right;
    while l >= h
      invariant multiset(r) == multiset(a) && |r| == |a|
      invariant l < h ==> Strided(r, h, right + 1)
      invariant l >= h ==> Moving(r, h, right, l)
      decreases l
    {
      if r[l - h] > r[l] {
        MoveDown(r, h, right, l);
        r := Swap(r, l, l - h);
        l := l - h;
      } else {
        MovingSettled(r, h, right, l);
        break;
      }
    }
  }

  /** One pass with gap `h`: afterwards every `h`-strided subsequence is sorted. */
  method Pass(a: seq<int>, h: nat) returns (r: seq<int>)
    requires 0 < h
    ensures |r| == |a| && multiset(r) == multiset(a) && Strided(r, h, |r|)
  {
    r := a;
    var right := h;
    while right < |r|
      invariant |r| == |a| && multiset(r) == multiset(a)
      invariant Strided(r, h, right)
    {
      r := Insert(r, h, right);
      right := right + 1;
    }
  }

  /** `shell`: the result is the input sorted. */
  method ShellSort(a: seq<int>) returns (r: seq<int>)
    ensures Sorted(r) && multiset(r) == multiset(a)
  {
    r := a;
    var h := FirstGap(|a|);
    while h >= 1
      invariant |r| == |a| && multiset(r) == multiset(a)
      invariant h >= 1 ==> Gap(h)
      invariant h == 0 ==> Strided(r, 1, |r|)
    {
      r := Pass(r, h);
      h := h / 3;
    }
    StridedSorted(r, |r|);
  }
}

=== FILE: sorting.dfy ===
/**
  What the sorting routines of sort/src/ share: the order their results are in, the
  `slice::swap` every one of them is built from, and the fact that a sorted rearrangement
  is unique, so all of them compute the same function. Elements are integers; the
  routines only ever compare them.
*/
module Sorting {
  /** Every element is at most every later one. */
  predicate Sorted(a: seq<int>) {
    forall i, j :: 0 <= i < j < |a| ==> a[i] <= a[j]
  }

  /** `slice::swap`: exchange the elements at `i` and `j`; the contents stay the same. */
  function Swap(a: seq<int>, i: nat, j: nat): (r: seq<int>)
    requires i < |a| && j < |a|
    ensures |r| == |a| && r[i] == a[j] && r[j] == a[i]
    ensures forall k :: 0 <= k < |a| && k != i && k != j ==> r[k] == a[k]
    ensures multiset(r) == multiset(a)
  {
    a[i := a[j]][j := a[i]]
  }

  /** From `m` on the elements are sorted and none is below an element before `m`: the
      largest elements have reached their final places. */
  ghost predicate Settled(a: seq<int>, m: int) {
    && (forall i, j :: m <= i < j < |a| && 0 <= i ==> a[i] <= a[j])
    && (forall i, j :: 0 <= i < m <= j < |a| ==> a[i] <= a[j])
  }

  /** No element exceeds `x`. */
  ghost predicate AtMost(a: seq<int>, x: int) {
    forall i :: 0 <= i < |a| ==> a[i] <= x
  }

  /** No element is below `x`. */
  ghost predicate AtLeast(a: seq<int>, x: int) {
    forall i :: 0 <= i < |a| ==> x <= a[i]
  }

  /** Bounds on the elements depend only on the contents. */
  lemma SameBounds(s: seq<int>, t: seq<int>, x: int)
    requires multiset(s) == multiset(t)
    ensures AtMost(s, x) <==> AtMost(t, x)
    ensures AtLeast(s, x) <==> AtLeast(t, x)
  {
    forall i | 0 <= i < |t| ensures t[i] in multiset(s) {
      assert t[i] in multiset(t);
    }
    forall i | 0 <= i < |s| ensures s[i] in multiset(t) {
      assert s[i] in multiset(s);
    }
  }

  /** Sequences with the same contents and the same tail from `k` have the same contents
      before `k`. */
  lemma SamePrefix(s: seq<int>, t: seq<int>, k: nat)
    requires |s| == |t| && k <= |s| && multiset(s) == multiset(t) && s[k..] == t[k..]
    ensures multiset(s[..k]) == multiset(t[..k])
  {
    assert s == s[..k] + s[k..] && t == t[..k] + t[k..];
    assert multiset(s) == multiset(s[..k]) + multiset(s[k..]);
    assert multiset(t) == multiset(t[..k]) + multiset(t[k..]);
    forall x ensures multiset(s[..k])[x] == multiset(t[..k])[x] {
      assert multiset(s)[x] == multiset(s[..k])[x] + multiset(s[k..])[x];
    }
  }

  /** Before `n`, every element is at most the one `h` places after it. */
  ghost predicate Strided(a: seq<int>, h: nat, n: int) {
    forall i :: h <= i < n && i < |a| ==> a[i - h] <= a[i]
  }

  /** Pairs in order next to each other before `n` are in order everywhere before `n`. */
  lemma {:induction false} StridedSorted(a: seq<int>, n: nat)
    requires n <= |a| && Strided(a, 1, n)
    ensures forall i, j :: 0 <= i < j < n ==> a[i] <= a[j]
    decreases n
  {
    if n > 1 {
      StridedSorted(a, n - 1);
      forall i | 0 <= i < n - 1 ensures a[i] <= a[n - 1] {
        assert a[i] <= a[n - 2];
      }
    }
  }

  /** A sorted sequence starts with its least element. */
  lemma SortedHead(a: seq<int>)
    requires Sorted(a) && a != []
    ensures forall x :: x in multiset(a) ==> a[0] <= x
  {
    forall x | x in multiset(a) ensures a[0] <= x {
      var i :| 0 <= i < |a| && a[i] == x;
    }
  }

  /** The contents of a non-empty sequence are its head and the contents of its tail. */
  lemma HeadTail(a: seq<int>)
    requires a != []
    ensures multiset(a[1..]) == multiset(a) - multiset{a[0]}
  {
    assert a == [a[0]] + a[1..];
  }

  /** Two sorted sequences with the same contents start alike. */
  lemma SameHead(a: seq<int>, b: seq<int>)
    requires Sorted(a) && Sorted(b) && multiset(a) == multiset(b) && a != []
    ensures b != [] && a[0] == b[0]
  {
    assert a[0] in multiset(b);
    assert b[0] in multiset(a);
    SortedHead(a);
    SortedHead(b);
  }

  /** Two sorted sequences with the same contents are equal: sorting has one answer. */
  lemma {:induction false} SortedUnique(a: seq<int>, b: seq<int>)
    requires Sorted(a) && Sorted(b) && multiset(a) == multiset(b)
    ensures a == b
    decreases |a|
  {
    if a == [] {
      assert |b| == |multiset(b)|;
    } else {
      SameHead(a, b);
      HeadTail(a);
      HeadTail(b);
      var (ta, tb) := (a[1..], b[1..]);
      assert Sorted(ta) && Sorted(tb);
      SortedUnique(ta, tb);
      assert a == [a[0]] + ta && b == [b[0]] + tb;
    }
  }
}

=== FILE: spanning.dfy ===
/**
  What the three minimum-spanning-tree routines of graph/weighted-graph/src/mst/ return: a
  sequence of edges in the order they were taken. `Linked` is the connectivity such a
  sequence induces, `Forest` says no taken edge closes a cycle, and `Light` keeps the edges
  no heavier than a bound (for the cycle property of a minimum tree).
*/
module Spanning {
  import opened WeiGraph

  /** The result of the two Prim routines: the tree edges, or the root when it is not a
      node. */
  datatype Spanned = Ok(edges: seq<WeiEdge>) | Err(id: nat)

  /** The edges of `es` join `x` and `y`: adding an edge merges the classes of its ends. */
  ghost predicate Linked(es: seq<WeiEdge>, x: nat, y: nat)
    decreases |es|
  {
    if es == [] then x == y
    else
      var init := es[..|es| - 1];
      var (a, b) := es[|es| - 1].edge;
      || Linked(init, x, y)
      || (Linked(init, x, a) && Linked(init, y, b))
      || (Linked(init, x, b) && Linked(init, y, a))
  }

  /** No edge joins two nodes that the edges before it already link: the edges form a
      forest. */
  ghost predicate Forest(es: seq<WeiEdge>) {
    forall i :: 0 <= i < |es| ==> !Linked(es[..i], es[i].edge.0, es[i].edge.1)
  }

  /** The edges of `es` of weight at most `w`, in order. */
  function Light(es: seq<WeiEdge>, w: int): (r: seq<WeiEdge>)
    ensures |r| <= |es|
    decreases |es|
  {
    if es == [] then []
    else
      var last := es[|es| - 1];
      Light(es[..|es| - 1], w) + (if last.weight <= w then [last] else [])
  }

  /** The ends of `f` are linked by edges of `es` no heavier than `f`. */
  ghost predicate LinkedBelow(es: seq<WeiEdge>, f: WeiEdge) {
    Linked(Light(es, f.weight), f.edge.0, f.edge.1)
  }

  /** Appending an edge keeps every link. */
  lemma LinkedGrow(es: seq<WeiEdge>, e: WeiEdge, x: nat, y: nat)
    requires Linked(es, x, y)
    ensures Linked(es + [e], x, y)
  {
    assert (es + [e])[..|es|] == es;
  }

  /** When every edge weighs at most `w`, none is filtered out. */
  lemma {:induction false} LightAll(es: seq<WeiEdge>, w: int)
    requires forall i :: 0 <= i < |es| ==> es[i].weight <= w
    ensures Light(es, w) == es
    decreases |es|
  {
    if es != [] {
      LightAll(es[..|es| - 1], w);
      assert es == es[..|es| - 1] + [es[|es| - 1]];
    }
  }

  /** Links through the light edges are links through all of them. */
  lemma {:induction false} LinkedLight(es: seq<WeiEdge>, w: int, x: nat, y: nat)
    requires Linked(Light(es, w), x, y)
    ensures Linked(es, x, y)
    decreases |es|
  {
    if es != [] {
      var init := es[..|es| - 1];
      var last := es[|es| - 1];
      var (a, b) := last.edge;
      var l := Light(init, w);
      if last.weight <= w {
        assert Light(es, w) == l + [last];
        assert (l + [last])[..|l|] == l;
        if Linked(l, x, y) {
          LinkedLight(init, w, x, y);
        } else if Linked(l, x, a) && Linked(l, y, b) {
          LinkedLight(init, w, x, a);
          LinkedLight(init, w, y, b);
        } else {
          LinkedLight(init, w, x, b);
          LinkedLight(init, w, y, a);
        }
      } else {
        assert Light(es, w) == l;
        LinkedLight(init, w, x, y);
      }
    }
  }

  /** A node no edge touches is linked to itself only. */
  lemma {:induction false} LinkedUntouched(es: seq<WeiEdge>, x: nat, y: nat)
    requires forall i :: 0 <= i < |es| ==> !Incident(es[i], y)
    ensures Linked(es, x, y) || Linked(es, y, x) ==> x == y
    decreases |es|
  {
    if es != [] {
      var init := es[..|es| - 1];
      var (a, b) := es[|es| - 1].edge;
      assert y != a && y != b;
      LinkedUntouched(init, x, y);
      LinkedUntouched(init, a, y);
      LinkedUntouched(init, b, y);
    }
  }

  /** Every node is linked to itself. */
  lemma {:induction false} LinkedSelf(es: seq<WeiEdge>, x: nat)
    ensures Linked(es, x, x)
    decreases |es|
  {
    if es != [] {
      LinkedSelf(es[..|es| - 1], x);
    }
  }

  /** Appending an edge keeps every link through the light edges. */
  lemma LightGrow(es: seq<WeiEdge>, e: WeiEdge, w: int, x: nat, y: nat)
    requires Linked(Light(es, w), x, y)
    ensures Linked(Light(es + [e], w), x, y)
  {
    assert (es + [e])[..|es|] == es;
    if e.weight <= w {
      assert Light(es + [e], w) == Light(es, w) + [e];
      LinkedGrow(Light(es, w), e, x, y);
    } else {
      assert Light(es + [e], w) == Light(es, w);
    }
  }

  /** Appending an edge whose ends were not linked keeps a forest. */
  lemma ForestGrow(mst: seq<WeiEdge>, e: WeiEdge)
    requires Forest(mst) && !Linked(mst, e.edge.0, e.edge.1)
    ensures Forest(mst + [e])
  {
    forall i | 0 <= i < |mst| + 1 ensures !Linked((mst + [e])[..i], (mst + [e])[i].edge.0, (mst + [e])[i].edge.1) {
      if i < |mst| {
        assert (mst + [e])[..i] == mst[..i];
      } else {
        assert (mst + [e])[..i] == mst;
      }
    }
  }

  /** The last edge appended links its own ends. */
  lemma LinkLast(mst: seq<WeiEdge>, e: WeiEdge)
    ensures Linked(mst + [e], e.edge.0, e.edge.1)
  {
    LinkedSelf(mst, e.edge.0);
    LinkedSelf(mst, e.edge.1);
    assert (mst + [e])[..|mst|] == mst;
  }
}

=== FILE: union_find.dfy ===
/**
  The weighted quick-union of graph/union-find/src/lib.rs: a parent link for every id that
  has been hung under another, and a weight for every registered id (the size of its tree
  while it is a root). Ids are `nat`s.
*/
module UnionFind {
  import opened Wrappers

  datatype UnionFind = UnionFind(parent: map<nat, nat>, weight: map<nat, nat>)

  /** The rank of `x` in `rank`, 0 for ids it does not mention. */
  function RankOf(rank: map<nat, nat>, x: nat): nat {
    if x in rank then rank[x] else 0
  }

  /** `rank` strictly decreases along every parent link, so the links have no cycle. */
  ghost predicate Ranked(parent: map<nat, nat>, rank: map<nat, nat>) {
    forall c :: c in parent ==> c in rank && RankOf(rank, parent[c]) < rank[c]
  }

  /** The parent links are acyclic and stay among registered ids, whose weights are
      positive. */
  ghost predicate Valid(uf: UnionFind) {
    && (forall c :: c in uf.parent ==> c in uf.weight && uf.parent[c] in uf.weight)
    && (forall x :: x in uf.weight ==> uf.weight[x] >= 1)
    && exists rank :: Ranked(uf.parent, rank)
  }

  /** A ranking of a valid structure's links, used to measure `find`. */
  ghost function Rank(uf: UnionFind): (rank: map<nat, nat>)
    requires Valid(uf)
    ensures Ranked(uf.parent, rank)
  {
    var rank :| Ranked(uf.parent, rank);
    rank
  }

  /** `from_iter`: every id registered with weight 1 and no parent. */
  function FromIter(ids: seq<nat>): (uf: UnionFind)
    ensures Valid(uf)
    ensures forall x :: x in uf.weight <==> x in ids
    ensures forall x :: x in ids ==> uf.weight[x] == 1 && Find(uf, x) == x
  {
    var uf := UnionFind(map[], map x | x in ids :: 1);
    assert Ranked(uf.parent, map[]);
    uf
  }

  /** `find`: follow parent links until an id without one. */
  function Find(uf: UnionFind, x: nat): (r: nat)
    requires Valid(uf)
    ensures r !in uf.parent
    ensures x !in uf.parent ==> r == x
    ensures x in uf.weight ==> r in uf.weight
    decreases RankOf(Rank(uf), x)
  {
    if x in uf.parent then Find(uf, uf.parent[x]) else x
  }

  /** `connected`: the two ids have the same root. */
  function Connected(uf: UnionFind, a: nat, b: nat): (r: bool)
    requires Valid(uf)
    ensures r <==> Find(uf, a) == Find(uf, b)
  {
    Find(uf, a) == Find(uf, b)
  }

  /** Hang root `child` under root `root`, whose weight grows by `child`'s. */
  function Hang(uf: UnionFind, child: nat, root: nat): (r: UnionFind)
    requires Valid(uf) && child in uf.weight && root in uf.weight
    requires child !in uf.parent && root !in uf.parent && child != root
    ensures Valid(r)
  {
    HangValid(uf, child, root);
    UnionFind(uf.parent[child := root], uf.weight[root := uf.weight[root] + uf.weight[child]])
  }

  /** `union`: nothing when the roots agree; otherwise the lighter root goes under the
      heavier, `root2` under `root1` on a tie. Panics when a root that must be weighed is not
      registered. */
  function Union(uf: UnionFind, a: nat, b: nat): (r: Outcome<UnionFind>)
    requires Valid(uf)
    ensures r.Done? ==> Valid(r.value)
    ensures r.Panic? <==>
      Find(uf, a) != Find(uf, b) && (Find(uf, a) !in uf.weight || Find(uf, b) !in uf.weight)
    ensures Find(uf, a) == Find(uf, b) ==> r == Done(uf)
    ensures r.Done? && Find(uf, a) != Find(uf, b) ==>
      var (r1, r2) := (Find(uf, a), Find(uf, b));
      var (w1, w2) := (uf.weight[r1], uf.weight[r2]);
      && (w1 >= w2 ==> r.value.parent == uf.parent[r2 := r1] && r.value.weight == uf.weight[r1 := w1 + w2])
      && (w1 < w2 ==> r.value.parent == uf.parent[r1 := r2] && r.value.weight == uf.weight[r2 := w1 + w2])
  {
    var root1 := Find(uf, a);
    var root2 := Find(uf, b);
    if root1 == root2 then Done(uf)
    else if root1 !in uf.weight || root2 !in uf.weight then Panic
    else if uf.weight[root1] >= uf.weight[root2] then Done(Hang(uf, root2, root1))
    else Done(Hang(uf, root1, root2))
  }

  /** An id and its parent have the same root. */
  lemma FindParent(uf: UnionFind, c: nat)
    requires Valid(uf) && c in uf.parent
    ensures Find(uf, c) == Find(uf, uf.parent[c])
  {
  }

  /** The ranking after hanging `child` under `root`: every id of `child`'s tree moves up by
      `root`'s rank plus one. */
  ghost function HangRank(uf: UnionFind, child: nat, root: nat): map<nat, nat>
    requires Valid(uf)
  {
    var rank := Rank(uf);
    map x | x in rank.Keys + {child} ::
      RankOf(rank, x) + (if Find(uf, x) == child then RankOf(rank, root) + 1 else 0)
  }

  /** Hanging keeps the structure valid. */
  lemma HangValid(uf: UnionFind, child: nat, root: nat)
    requires Valid(uf) && child in uf.weight && root in uf.weight
    requires child !in uf.parent && root !in uf.parent && child != root
    ensures Valid(UnionFind(uf.parent[child := root], uf.weight[root := uf.weight[root] + uf.weight[child]]))
  {
    var h := UnionFind(uf.parent[child := root], uf.weight[root := uf.weight[root] + uf.weight[child]]);
    var rank := Rank(uf);
    var rank2 := HangRank(uf, child, root);
    forall c | c in h.parent ensures c in rank2 && RankOf(rank2, h.parent[c]) < rank2[c] {
      if c != child {
        FindParent(uf, c);
      }
    }
    assert Ranked(h.parent, rank2);
  }

  /** After hanging, the ids of `child`'s tree have root `root`; every other id keeps its
      root. */
  lemma {:induction false} FindAfterHang(uf: UnionFind, child: nat, root: nat, x: nat)
    requires Valid(uf) && child in uf.weight && root in uf.weight
    requires child !in uf.parent && root !in uf.parent && child != root
    ensures Find(Hang(uf, child, root), x) == if Find(uf, x) == child then root else Find(uf, x)
    decreases RankOf(Rank(uf), x)
  {
    var h := Hang(uf, child, root);
    if x in uf.parent {
      FindAfterHang(uf, child, root, uf.parent[x]);
    } else if x == child {
      assert Find(h, child) == Find(h, root);
    }
  }

  /** After `union(a, b)`, two ids are connected exactly when they were, or one was connected
      to `a` and the other to `b`: the two classes merge and nothing else changes. In
      particular `a` and `b` are connected. */
  lemma UnionClasses(uf: UnionFind, a: nat, b: nat, x: nat, y: nat)
    requires Valid(uf) && Union(uf, a, b).Done?
    ensures var r := Union(uf, a, b).value;
      Connected(r, x, y) <==>
        || Connected(uf, x, y)
        || (Connected(uf, x, a) && Connected(uf, y, b))
        || (Connected(uf, x, b) && Connected(uf, y, a))
    ensures Connected(Union(uf, a, b).value, a, b)
  {
    var root1 := Find(uf, a);
    var root2 := Find(uf, b);
    if root1 != root2 {
      var (child, root) := if uf.weight[root1] >= uf.weight[root2] then (root2, root1) else (root1, root2);
      FindAfterHang(uf, child, root, x);
      FindAfterHang(uf, child, root, y);
      FindAfterHang(uf, child, root, a);
      FindAfterHang(uf, child, root, b);
    }
  }

  /** The registered ids without a parent: one per class. */
  ghost function Roots(uf: UnionFind): set<nat> {
    set x | x in uf.weight && x !in uf.parent
  }

  /** At first every id is a root of its own. */
  lemma FromIterRoots(ids: seq<nat>)
    ensures Roots(FromIter(ids)) == set x | x in ids
  {
  }

  /** Every registered id's root is one of the roots. */
  lemma FindRoot(uf: UnionFind, x: nat)
    requires Valid(uf) && x in uf.weight
    ensures Find(uf, x) in Roots(uf)
  {
  }

  /** A `union` that merges two classes removes exactly one root. */
  lemma UnionRoots(uf: UnionFind, a: nat, b: nat)
    requires Valid(uf) && Union(uf, a, b).Done? && Find(uf, a) != Find(uf, b)
    ensures |Roots(Union(uf, a, b).value)| == |Roots(uf)| - 1
  {
    var r := Union(uf, a, b).value;
    var root1 := Find(uf, a);
    var root2 := Find(uf, b);
    var child := if uf.weight[root1] >= uf.weight[root2] then root2 else root1;
    assert r.parent == uf.parent[child := (if child == root2 then root1 else root2)];
    assert r.weight.Keys == uf.weight.Keys;
    assert Roots(r) == Roots(uf) - {child};
  }

  /** With a single root every two registered ids are connected. */
  lemma SingleRoot(uf: UnionFind, x: nat, y: nat)
    requires Valid(uf) && |Roots(uf)| == 1 && x in uf.weight && y in uf.weight
    ensures Connected(uf, x, y)
  {
    FindRoot(uf, x);
    FindRoot(uf, y);
    var rx := Find(uf, x);
    assert |Roots(uf) - {rx}| == 0;
    assert Find(uf, y) !in Roots(uf) - {rx};
  }
}

=== FILE: weighted_graph.dfy ===
/**
  The undirected weighted graph of graph/weighted-graph/src/lib.rs: an ordered map from id
  to a node holding an element and a hash set of the edges at that node. The hash set
  compares edges through `key`: the repository hashes and compares a `WeiEdge` by weight
  alone (`ByWeight`), so a node keeps at most one edge of each weight; `Whole` compares
  edges by weight and both ends. A set of edges is a map from key to the edge stored under
  it.
*/
module WeiGraph {
  import opened Wrappers

  /** An edge between two ids with an `i32` weight. */
  datatype WeiEdge = WeiEdge(weight: int, edge: (nat, nat))

  datatype Ordering = Less | Equal | Greater

  /** `Ord::cmp` on integers. */
  function Compare(a: int, b: int): (r: Ordering)
    ensures r == Less <==> a < b
    ensures r == Equal <==> a == b
    ensures r == Greater <==> a > b
  {
    if a < b then Less else if a == b then Equal else Greater
  }

  /** `Ordering::reverse`. */
  function Reverse(o: Ordering): (r: Ordering)
    ensures r == Less <==> o == Greater
    ensures r == Equal <==> o == Equal
    ensures r == Greater <==> o == Less
  {
    match o
    case Less => Greater
    case Equal => Equal
    case Greater => Less
  }

  /** `PartialEq for WeiEdge`: the weights are equal. */
  predicate Eq(x: WeiEdge, y: WeiEdge) {
    x.weight == y.weight
  }

  /** `Ord for WeiEdge`: compare the weights. */
  function Cmp(x: WeiEdge, y: WeiEdge): (r: Ordering)
    ensures r == Less <==> x.weight < y.weight
    ensures r == Greater <==> x.weight > y.weight
  {
    Compare(x.weight, y.weight)
  }

  /** `PartialOrd for WeiEdge`: always defined. */
  function PartialCmp(x: WeiEdge, y: WeiEdge): (r: Option<Ordering>)
    ensures r.Some?
  {
    Some(Cmp(x, y))
  }

  /** The order is consistent with equality and antisymmetric, and `partial_cmp` agrees with
      `cmp`. */
  lemma OrdConsistent(x: WeiEdge, y: WeiEdge)
    ensures Eq(x, y) <==> Cmp(x, y) == Equal
    ensures Cmp(x, y) == Reverse(Cmp(y, x))
    ensures PartialCmp(x, y) == Some(Cmp(x, y))
  {
  }

  /** Equality ignores the ends: two different edges of one weight are equal. */
  lemma EqIgnoresEnds()
    ensures Eq(WeiEdge(1, (0, 1)), WeiEdge(1, (1, 2)))
    ensures WeiEdge(1, (0, 1)) != WeiEdge(1, (1, 2))
  {
  }

  /** The identity of an edge in the repository's hash sets: its weight. */
  function ByWeight(e: WeiEdge): int {
    e.weight
  }

  /** The identity of an edge when the ends count too. */
  function Whole(e: WeiEdge): WeiEdge {
    e
  }

  /** Different edges have different identities. */
  ghost predicate Injective<K>(key: WeiEdge -> K) {
    forall x, y :: key(x) == key(y) ==> x == y
  }

  /** `other`: the end that is not `id`, as `edge.0 + edge.1 - id`, which underflows when `id`
      exceeds the sum. */
  function Other(e: WeiEdge, id: nat): (r: Outcome<nat>)
    ensures r.Panic? <==> id > e.edge.0 + e.edge.1
    ensures id == e.edge.0 ==> r == Done(e.edge.1)
    ensures id == e.edge.1 ==> r == Done(e.edge.0)
  {
    if id > e.edge.0 + e.edge.1 then Panic else Done(e.edge.0 + e.edge.1 - id)
  }

  datatype Node<V, K> = Node(element: V, adjEdges: map<K, WeiEdge>)

  datatype WeiGraph<V, K> = WeiGraph(adj: map<nat, Node<V, K>>)

  /** `e` has `id` as one of its ends. */
  predicate Incident(e: WeiEdge, id: nat) {
    e.edge.0 == id || e.edge.1 == id
  }

  /** Every edge is stored under its own key, at one of its ends, and both its ends are
      nodes. */
  ghost predicate WellFormed<V, K(!new)>(key: WeiEdge -> K, g: WeiGraph<V, K>) {
    forall id, k :: id in g.adj && k in g.adj[id].adjEdges ==>
      && key(g.adj[id].adjEdges[k]) == k
      && Incident(g.adj[id].adjEdges[k], id)
      && g.adj[id].adjEdges[k].edge.0 in g.adj
      && g.adj[id].adjEdges[k].edge.1 in g.adj
  }

  /** The set of edges at `id`, empty for an id that is not a node. */
  function Held<V, K>(g: WeiGraph<V, K>, id: nat): map<K, WeiEdge> {
    if id in g.adj then g.adj[id].adjEdges else map[]
  }

  /** Node `id` holds edge `e`. */
  ghost predicate Stored<V, K>(key: WeiEdge -> K, g: WeiGraph<V, K>, id: nat, e: WeiEdge) {
    id in g.adj && key(e) in g.adj[id].adjEdges && g.adj[id].adjEdges[key(e)] == e
  }

  /** `HashSet::insert`: add `e` unless an equal edge is there already, which stays. */
  function Insert<K(!new)>(key: WeiEdge -> K, m: map<K, WeiEdge>, e: WeiEdge): (r: map<K, WeiEdge>)
    ensures r.Keys == m.Keys + {key(e)}
    ensures key(e) in m ==> r == m
    ensures key(e) !in m ==> r[key(e)] == e && forall k :: k in m ==> r[k] == m[k]
  {
    if key(e) in m then m else m[key(e) := e]
  }

  /** After `insert` the set holds `x` under its key exactly when it did before, or `x` is
      the inserted edge and no equal edge was there. */
  lemma InsertHolds<K(!new)>(key: WeiEdge -> K, m: map<K, WeiEdge>, e: WeiEdge, x: WeiEdge)
    ensures var r := Insert(key, m, e);
      (key(x) in r && r[key(x)] == x) <==>
        (key(x) in m && m[key(x)] == x) || (x == e && key(e) !in m)
  {
  }

  function New<V, K(!new)>(key: WeiEdge -> K): WeiGraph<V, K> {
    WeiGraph(map[])
  }

  /** What `new` builds is a well-formed graph without nodes. */
  lemma NewEmpty<V, K(!new)>(key: WeiEdge -> K, g: WeiGraph<V, K>)
    requires g == New(key)
    ensures WellFormed(key, g) && NodeCount(g) == 0
  {
  }

  /** `node_count`. */
  function NodeCount<V, K>(g: WeiGraph<V, K>): (n: nat)
    ensures n == |g.adj.Keys|
  {
    |g.adj|
  }

  /** `add_node`: replace the element of an existing node, or add a node without edges. */
  function AddNode<V, K(!new)>(key: WeiEdge -> K, g: WeiGraph<V, K>, id: nat, elt: V): (r: WeiGraph<V, K>)
    requires WellFormed(key, g)
    ensures WellFormed(key, r)
    ensures r.adj.Keys == g.adj.Keys + {id}
    ensures r.adj[id].element == elt && r.adj[id].adjEdges == Held(g, id)
    ensures forall x :: x in g.adj && x != id ==> r.adj[x] == g.adj[x]
  {
    var n := if id in g.adj then g.adj[id].(element := elt) else Node(elt, map[]);
    var r := WeiGraph(g.adj[id := n]);
    assert WellFormed(key, r) by {
      forall x, k | x in r.adj && k in r.adj[x].adjEdges
        ensures key(r.adj[x].adjEdges[k]) == k && Incident(r.adj[x].adjEdges[k], x)
        ensures r.adj[x].adjEdges[k].edge.0 in r.adj && r.adj[x].adjEdges[k].edge.1 in r.adj
      {
        assert x in g.adj && r.adj[x].adjEdges == g.adj[x].adjEdges;
      }
    }
    r
  }

  /** Inserting an edge incident to `id` whose ends are nodes into `id`'s set keeps the graph
      well formed. */
  lemma LinkWellFormed<V, K(!new)>(key: WeiEdge -> K, g: WeiGraph<V, K>, id: nat, e: WeiEdge)
    requires WellFormed(key, g) && id in g.adj && Incident(e, id)
    requires e.edge.0 in g.adj && e.edge.1 in g.adj
    ensures var n := g.adj[id];
      WellFormed(key, WeiGraph(g.adj[id := n.(adjEdges := Insert(key, n.adjEdges, e))]))
  {
  }

  /** `add_edge`: register both ends (the end's element last), then insert the edge into the
      sets of both ends. */
  function AddEdge<V, K(!new)>(key: WeiEdge -> K, g: WeiGraph<V, K>, weight: int, a: nat, b: nat, start: V, end: V)
    : (r: WeiGraph<V, K>)
    requires WellFormed(key, g)
    ensures WellFormed(key, r)
    ensures r.adj.Keys == g.adj.Keys + {a, b}
    ensures r.adj[b].element == end && (a != b ==> r.adj[a].element == start)
    ensures forall x :: x in g.adj && x != a && x != b ==> r.adj[x] == g.adj[x]
    ensures r.adj[a].adjEdges == Insert(key, Held(g, a), WeiEdge(weight, (a, b)))
    ensures r.adj[b].adjEdges == Insert(key, Held(g, b), WeiEdge(weight, (a, b)))
  {
    var e := WeiEdge(weight, (a, b));
    var g1 := AddNode(key, g, a, start);
    var g2 := AddNode(key, g1, b, end);
    Link(key, Link(key, g2, a, e), b, e)
  }

  /** Insert `e`, incident to `id`, into `id`'s set, both ends of `e` being nodes; nothing
      else changes. */
  function Link<V, K(!new)>(key: WeiEdge -> K, g: WeiGraph<V, K>, id: nat, e: WeiEdge): (r: WeiGraph<V, K>)
    requires WellFormed(key, g) && id in g.adj && Incident(e, id)
    requires e.edge.0 in g.adj && e.edge.1 in g.adj
    ensures WellFormed(key, r) && r.adj.Keys == g.adj.Keys
    ensures r.adj[id].element == g.adj[id].element
    ensures r.adj[id].adjEdges == Insert(key, g.adj[id].adjEdges, e)
    ensures forall x :: x in g.adj && x != id ==> r.adj[x] == g.adj[x]
  {
    var n := g.adj[id];
    LinkWellFormed(key, g, id, e);
    WeiGraph(g.adj[id := n.(adjEdges := Insert(key, n.adjEdges, e))])
  }

  /** After `add_edge` a node holds an edge exactly when it held it before, or it is an end
      of the new edge and held no edge equal to it. */
  lemma AddEdgeStored<V, K(!new)>(key: WeiEdge -> K, g: WeiGraph<V, K>, weight: int, a: nat, b: nat,
                                  start: V, end: V, id: nat, x: WeiEdge)
    requires WellFormed(key, g)
    ensures var e := WeiEdge(weight, (a, b));
      Stored(key, AddEdge(key, g, weight, a, b, start, end), id, x) <==>
        || Stored(key, g, id, x)
        || ((id == a || id == b) && x == e && key(e) !in Held(g, id))
  {
    StoredAfter(key, g, AddEdge(key, g, weight, a, b, start, end), a, b, WeiEdge(weight, (a, b)), id, x);
  }

  /** The stored edges of a graph that inserts `e` at `a` and `b` and leaves the other nodes
      alone. */
  lemma StoredAfter<V, K(!new)>(key: WeiEdge -> K, g: WeiGraph<V, K>, r: WeiGraph<V, K>, a: nat, b: nat,
                                e: WeiEdge, id: nat, x: WeiEdge)
    requires r.adj.Keys == g.adj.Keys + {a, b}
    requires forall y :: y in g.adj && y != a && y != b ==> r.adj[y] == g.adj[y]
    requires r.adj[a].adjEdges == Insert(key, Held(g, a), e)
    requires r.adj[b].adjEdges == Insert(key, Held(g, b), e)
    ensures Stored(key, r, id, x) <==>
      Stored(key, g, id, x) || ((id == a || id == b) && x == e && key(e) !in Held(g, id))
  {
    if id == a || id == b {
      InsertHolds(key, Held(g, id), e, x);
    } else if id in g.adj {
      assert r.adj[id] == g.adj[id];
    }
  }

  /** When every node holds only keys of `ks` and the new edge's key is one of them, so it
      stays after `add_edge`. */
  lemma AddEdgeKeys<V, K(!new)>(key: WeiEdge -> K, g: WeiGraph<V, K>, weight: int, a: nat, b: nat,
                                start: V, end: V, ks: set<K>)
    requires WellFormed(key, g) && key(WeiEdge(weight, (a, b))) in ks
    requires forall id :: id in g.adj ==> g.adj[id].adjEdges.Keys <= ks
    ensures var r := AddEdge(key, g, weight, a, b, start, end);
      forall id :: id in r.adj ==> r.adj[id].adjEdges.Keys <= ks
  {
    KeysWithin(key, g, AddEdge(key, g, weight, a, b, start, end), a, b, WeiEdge(weight, (a, b)), ks);
  }

  /** A graph that inserts `e` at `a` and `b` and leaves the other nodes alone holds only
      keys of `ks` when the old one did and `e`'s key is one of them. */
  lemma KeysWithin<V, K(!new)>(key: WeiEdge -> K, g: WeiGraph<V, K>, r: WeiGraph<V, K>, a: nat, b: nat,
                               e: WeiEdge, ks: set<K>)
    requires r.adj.Keys == g.adj.Keys + {a, b}
    requires forall y :: y in g.adj && y != a && y != b ==> r.adj[y] == g.adj[y]
    requires r.adj[a].adjEdges == Insert(key, Held(g, a), e)
    requires r.adj[b].adjEdges == Insert(key, Held(g, b), e)
    requires key(e) in ks && forall id :: id in g.adj ==> g.adj[id].adjEdges.Keys <= ks
    ensures forall id :: id in r.adj ==> r.adj[id].adjEdges.Keys <= ks
  {
    forall id | id in r.adj ensures r.adj[id].adjEdges.Keys <= ks {
      if id != a && id != b {
        assert r.adj[id] == g.adj[id];
      }
    }
  }

  /** When different edges never compare equal, both ends hold every added edge. */
  lemma AddEdgeKeeps<V, K(!new)>(key: WeiEdge -> K, g: WeiGraph<V, K>, weight: int, a: nat, b: nat,
                                 start: V, end: V)
    requires WellFormed(key, g) && Injective(key)
    ensures var r := AddEdge(key, g, weight, a, b, start, end);
      Stored(key, r, a, WeiEdge(weight, (a, b))) && Stored(key, r, b, WeiEdge(weight, (a, b)))
  {
    var e := WeiEdge(weight, (a, b));
    if key(e) in Held(g, a) {
      assert key(Held(g, a)[key(e)]) == key(e);
    }
    if key(e) in Held(g, b) {
      assert key(Held(g, b)[key(e)]) == key(e);
    }
  }

  /** The graph with edges (0, 1) and then (1, 2), both of weight 1. */
  function TwoEqual<K(!new)>(key: WeiEdge -> K): (g: WeiGraph<(), K>)
    ensures WellFormed(key, g) && g.adj.Keys == {0, 1, 2}
  {
    NewEmpty<(), K>(key, New(key));
    AddEdge(key, AddEdge(key, New(key), 1, 0, 1, (), ()), 1, 1, 2, (), ())
  }

  /** The graph with two edges has three nodes, whatever the edge equality. */
  lemma TwoEqualNodes<K(!new)>(key: WeiEdge -> K)
    ensures NodeCount(TwoEqual(key)) == 3
  {
    var g := TwoEqual(key);
    assert g.adj.Keys == {0, 1, 2};
    ThreeNodes();
  }

  /** Three distinct ids make a set of three. */
  lemma ThreeNodes()
    ensures var s: set<nat> := {0, 1, 2}; |s| == 3
  {
  }

  /** With the repository's weight-only equality, a second edge of the same weight at a node
      is dropped there: in the graph with two edges of weight 1, node 1 holds only the
      first. */
  lemma EqualWeightDropped()
    ensures var g := TwoEqual(ByWeight);
      && Stored(ByWeight, g, 1, WeiEdge(1, (0, 1)))
      && !Stored(ByWeight, g, 1, WeiEdge(1, (1, 2)))
  {
  }

  /** Under weight-only equality, in the graph with two edges of weight 1 nodes 0 and 1 hold
      (0, 1), node 2 holds (1, 2), and every edge is held under key 1. */
  lemma TwoEqualHeld()
    ensures var g := TwoEqual(ByWeight);
      && Stored(ByWeight, g, 0, WeiEdge(1, (0, 1)))
      && Stored(ByWeight, g, 1, WeiEdge(1, (0, 1)))
      && Stored(ByWeight, g, 2, WeiEdge(1, (1, 2)))
      && forall id :: id in g.adj ==> g.adj[id].adjEdges.Keys <= {1}
  {
    NewEmpty<(), int>(ByWeight, New(ByWeight));
    var g0 := New(ByWeight);
    var g1 := AddEdge(ByWeight, g0, 1, 0, 1, (), ());
    AddEdgeKeys(ByWeight, g0, 1, 0, 1, (), (), {1});
    AddEdgeKeys(ByWeight, g1, 1, 1, 2, (), (), {1});
    AddEdgeStored(ByWeight, g0, 1, 0, 1, (), (), 0, WeiEdge(1, (0, 1)));
    AddEdgeStored(ByWeight, g1, 1, 1, 2, (), (), 0, WeiEdge(1, (0, 1)));
    AddEdgeStored(ByWeight, g1, 1, 1, 2, (), (), 2, WeiEdge(1, (1, 2)));
    EqualWeightDropped();
  }

  /** With whole-edge equality both edges are kept: node 0 holds (0, 1) and node 1 holds
      (1, 2). */
  lemma TwoEqualKept()
    ensures var g := TwoEqual(Whole);
      Stored(Whole, g, 0, WeiEdge(1, (0, 1))) && Stored(Whole, g, 1, WeiEdge(1, (1, 2)))
  {
    NewEmpty<(), WeiEdge>(Whole, New(Whole));
    var g0 := New(Whole);
    var g1 := AddEdge(Whole, g0, 1, 0, 1, (), ());
    AddEdgeKeeps(Whole, g1, 1, 1, 2, (), ());
    AddEdgeKeeps(Whole, g0, 1, 0, 1, (), ());
    AddEdgeStored(Whole, g1, 1, 1, 2, (), (), 0, WeiEdge(1, (0, 1)));
  }

  // ---------------------------------------------------------------------------------
  // Ids and edges.

  predicate Increasing(xs: seq<nat>) {
    forall i, j :: 0 <= i < j < |xs| ==> xs[i] < xs[j]
  }

  /** The least element of a non-empty set. */
  function Least(s: set<nat>): (m: nat)
    requires s != {}
    ensures m in s && forall y :: y in s ==> m <= y
  {
    var x :| x in s;
    LeastExists(s, x);
    var m :| m in s && forall y :: y in s ==> m <= y;
    m
  }

  /** A set holding `x` has a least element, found by descending from `x`. */
  lemma {:induction false} LeastExists(s: set<nat>, x: nat)
    requires x in s
    ensures exists m :: m in s && forall y :: y in s ==> m <= y
    decreases x
  {
    if y :| y in s && y < x {
      LeastExists(s, y);
    } else {
      assert forall y :: y in s ==> x <= y;
    }
  }

  /** The elements of `s` in increasing order. */
  function Sorted(s: set<nat>): (r: seq<nat>)
    ensures Increasing(r) && |r| == |s|
    ensures forall x :: x in r <==> x in s
    decreases |s|
  {
    if s == {} then []
    else
      var m := Least(s);
      var rest := Sorted(s - {m});
      assert forall i :: 0 <= i < |rest| ==> m < rest[i] by {
        forall i | 0 <= i < |rest| ensures m < rest[i] {
          assert rest[i] in s - {m};
        }
      }
      [m] + rest
  }

  /** `ids`: the node ids in increasing order. */
  function Ids<V, K>(g: WeiGraph<V, K>): (r: seq<nat>)
    ensures Increasing(r) && |r| == NodeCount(g)
    ensures forall x :: x in r <==> x in g.adj
  {
    Sorted(g.adj.Keys)
  }

  /** The edges of the nodes `ids` gathered into one set, the first node's edge winning
      among equal ones. */
  function Gather<V, K(!new)>(g: WeiGraph<V, K>, ids: seq<nat>): (r: map<K, WeiEdge>)
  {
    if ids == [] then map[] else Gather(g, ids[1..]) + Held(g, ids[0])
  }

  /** The gathered set holds every edge of the listed nodes and nothing else; each
      key's edge comes from the first listed node holding that key. */
  lemma {:induction false} GatherHolds<V, K(!new)>(key: WeiEdge -> K, g: WeiGraph<V, K>, ids: seq<nat>, k: K)
    requires WellFormed(key, g)
    ensures k in Gather(g, ids) <==> exists i :: 0 <= i < |ids| && k in Held(g, ids[i])
    ensures k in Gather(g, ids) ==>
      exists i :: && 0 <= i < |ids| && k in Held(g, ids[i])
                  && Gather(g, ids)[k] == Held(g, ids[i])[k]
                  && forall j :: 0 <= j < i ==> k !in Held(g, ids[j])
  {
    if ids != [] {
      GatherHolds(key, g, ids[1..], k);
      if k in Held(g, ids[0]) {
        assert Gather(g, ids)[k] == Held(g, ids[0])[k];
      } else if k in Gather(g, ids[1..]) {
        var i :| && 0 <= i < |ids[1..]| && k in Held(g, ids[1..][i])
                 && Gather(g, ids[1..])[k] == Held(g, ids[1..][i])[k]
                 && forall j :: 0 <= j < i ==> k !in Held(g, ids[1..][j]);
        assert ids[i + 1] == ids[1..][i];
        forall j | 0 <= j < i + 1 ensures k !in Held(g, ids[j]) {
          if j > 0 {
            assert ids[j] == ids[1..][j - 1];
          }
        }
      } else {
        forall i | 0 <= i < |ids| ensures k !in Held(g, ids[i]) {
          if i > 0 {
            assert ids[i] == ids[1..][i - 1];
          }
        }
      }
    }
  }

  /** `edges`: the edges of all nodes, gathered into one hash set in increasing id order, so
      among equal edges the one held by the least id is kept. */
  function Edges<V, K(!new)>(g: WeiGraph<V, K>): (r: map<K, WeiEdge>)
  {
    Gather(g, Ids(g))
  }

  /** The set `edges` builds has a key exactly when some node holds an edge under it. */
  lemma EdgesKeys<V, K(!new)>(key: WeiEdge -> K, g: WeiGraph<V, K>, k: K)
    requires WellFormed(key, g)
    ensures k in Edges(g) <==> exists id :: id in g.adj && k in g.adj[id].adjEdges
  {
    var ids := Ids(g);
    GatherHolds(key, g, ids, k);
    if k !in Edges(g) {
      forall id | id in g.adj ensures k !in g.adj[id].adjEdges {
        var p :| 0 <= p < |ids| && ids[p] == id;
      }
    }
  }

  /** Under each key `edges` keeps the edge of the least node holding one. */
  lemma EdgesFirst<V, K(!new)>(key: WeiEdge -> K, g: WeiGraph<V, K>, k: K, id: nat)
    requires WellFormed(key, g) && id in g.adj && k in g.adj[id].adjEdges
    requires forall j :: j in g.adj && j < id ==> k !in g.adj[j].adjEdges
    ensures k in Edges(g) && Edges(g)[k] == g.adj[id].adjEdges[k]
    ensures Stored(key, g, id, Edges(g)[k])
  {
    GatherFirst(key, g, Ids(g), k, id);
  }

  /** Gathering the nodes of an increasing list of all ids keeps, under `k`, the edge of
      the least node holding it. */
  lemma GatherFirst<V, K(!new)>(key: WeiEdge -> K, g: WeiGraph<V, K>, ids: seq<nat>, k: K, id: nat)
    requires WellFormed(key, g) && Increasing(ids) && forall x :: x in ids <==> x in g.adj
    requires id in g.adj && k in g.adj[id].adjEdges
    requires forall j :: j in g.adj && j < id ==> k !in g.adj[j].adjEdges
    ensures k in Gather(g, ids) && Gather(g, ids)[k] == g.adj[id].adjEdges[k]
  {
    GatherHolds(key, g, ids, k);
    assert id in ids;
    var p :| 0 <= p < |ids| && ids[p] == id;
    var i :| && 0 <= i < |ids| && k in Held(g, ids[i])
             && Gather(g, ids)[k] == Held(g, ids[i])[k]
             && forall j :: 0 <= j < i ==> k !in Held(g, ids[j]);
    assert k in Held(g, ids[p]);
    assert ids[i] in ids;
    assert i <= p;
    assert i == p;
  }

  /** Every key `edges` keeps comes from a node holding it. */
  lemma EdgesHeld<V, K(!new)>(key: WeiEdge -> K, g: WeiGraph<V, K>, k: K)
    requires WellFormed(key, g) && k in Edges(g)
    ensures exists id :: id in g.adj && k in g.adj[id].adjEdges && Edges(g)[k] == g.adj[id].adjEdges[k]
  {
    var ids := Ids(g);
    GatherHolds(key, g, ids, k);
    var i :| && 0 <= i < |ids| && k in Held(g, ids[i])
             && Gather(g, ids)[k] == Held(g, ids[i])[k]
             && forall j :: 0 <= j < i ==> k !in Held(g, ids[j]);
    assert ids[i] in g.adj;
  }

  /** The edges `edges` yields, as a set. */
  function EdgeSet<V, K(!new)>(g: WeiGraph<V, K>): set<WeiEdge> {
    var m := Edges(g);
    set k | k in m :: m[k]
  }

  /** Each yielded edge is held by one of its ends, both of which are nodes. */
  lemma EdgeSetStored<V, K(!new)>(key: WeiEdge -> K, g: WeiGraph<V, K>, e: WeiEdge)
    requires WellFormed(key, g) && e in EdgeSet(g)
    ensures exists id :: Stored(key, g, id, e) && Incident(e, id)
    ensures e.edge.0 in g.adj && e.edge.1 in g.adj
  {
    var k :| k in Edges(g) && Edges(g)[k] == e;
    EdgesHeld(key, g, k);
    var id :| id in g.adj && k in g.adj[id].adjEdges && Edges(g)[k] == g.adj[id].adjEdges[k];
    assert Stored(key, g, id, e);
  }

  /** When different edges never compare equal, every held edge is yielded. */
  lemma EdgeSetComplete<V, K(!new)>(key: WeiEdge -> K, g: WeiGraph<V, K>, id: nat, e: WeiEdge)
    requires WellFormed(key, g) && Injective(key) && Stored(key, g, id, e)
    ensures e in EdgeSet(g)
  {
    EdgesKeys(key, g, key(e));
    EdgesHeld(key, g, key(e));
  }

  /** A yielded edge sits in `edges` under its own key. */
  lemma EdgeSetKey<V, K(!new)>(key: WeiEdge -> K, g: WeiGraph<V, K>, e: WeiEdge)
    requires WellFormed(key, g) && e in EdgeSet(g)
    ensures key(e) in Edges(g) && Edges(g)[key(e)] == e
  {
    var k :| k in Edges(g) && Edges(g)[k] == e;
    EdgesHeld(key, g, k);
    var id :| id in g.adj && k in g.adj[id].adjEdges && Edges(g)[k] == g.adj[id].adjEdges[k];
    assert key(g.adj[id].adjEdges[k]) == k;
  }
}

=== FILE: wrappers.dfy ===
/** The optional value every lookup and removal in the repository returns. */
module Wrappers {

  datatype Option<+T> = None | Some(value: T)

  /** The outcome of an operation that can panic on some inputs (an out-of-range index,
      an `unwrap` of an absent value, an unsigned underflow). */
  datatype Outcome<+T> = Panic | Done(value: T)
}
